=== FILE: README.md ===
# Growth automation core, modelled in Dafny

This project is a Dafny model of the in-memory logic of a social-media growth toolkit.
The toolkit has these parts:

- follow automation: target filtering and scoring, a sliding one-hour rate check, and action execution with per-campaign counters;
- engagement automation: target filtering, message and template choice, template statistics, campaign runs and best-hour analysis;
- a gamification ledger ("growth engine"): communities, user profiles, badges, XP, a leaderboard, content templates and collaboration suggestions;
- the background job handlers of the growth-engine scheduler, with their per-(job, day) metrics files;
- the "ultimate follow builder", which composes follow and engagement campaigns into a strategy, keeps per-platform account health, and reports statistics and advice;
- the content manager's text rewriting;
- the AI content generator's deterministic scores;
- the StockTwits scraper's `clean_text`.

Every operation is a pure function over immutable datatypes, or a method with loop invariants where the source loops.
A Python dict whose insertion order matters is a sequence, or a `Common.Table` (an insertion order plus a map).
Rates and scores are exact `real`s.
Anything the source takes from outside is a parameter of the model:

- the wall clock (`now`, in integer seconds of local wall-clock time, as naive `datetime.now()` values are);
- `random` choices;
- the platform executor's outcome;
- the ids derived from `int(time.time())`;
- the discovered candidate accounts.

Exceptions are `Result` errors.
An exception raised after a partial update is a step result that carries both the state reached and the error.

Modules and files:

| module | file | models |
|---|---|---|
| `Common` | common.dfy | `Option`/`Result`, Python slicing, substring search, ASCII case mapping, `Table`, counting and sums |
| `Sorting` | sorting.dfy | `list.sort(key=..., reverse=True)`, characterised as sorted plus per-key order preserved (stability) |
| `FollowAutomation` | follow.dfy | src/core/follow_automation.py |
| `EngagementAutomation` | engagement.dfy | engagement_automation.py |
| `GrowthEngine` | growth.dfy | src/growth_engine/growth_engine.py |
| `GrowthScheduler` | scheduler.dfy | src/growth_engine/growth_engine_scheduler.py; the top-level growth_engine_scheduler.py is a byte-identical copy |
| `GrowthBuilder` | builder.dfy | src/core/ultimate_follow_builder.py |
| `ContentManager` | content.dfy | content_manager.py |
| `ContentGenerator` | content_generator.dfy | src/ai/content_generator.py |
| `TextCleaning` | text_clean.dfy | `clean_text` in stocktwits_scraper.py |

## Model

| member | source | states |
|---|---|---|
| Common.Ratio | src/core/follow_automation.py:510 | `part / max(total, 1)`: the ratio times `max(total, 1)` gives back `part`; it is non-negative, and at most 1 when the part is at most the total |
| Common.SliceTo | src/core/follow_automation.py:485 | Python's `xs[:n]`: a prefix of `xs` with `min(n, len)` elements for `n >= 0`, and with `len + n` (at least 0) elements for negative `n` |
| Sorting.SortDesc | src/core/follow_automation.py:331 | `sort(key=..., reverse=True)`: the result is non-increasing by key, a permutation of the input, and for every key value it lists the input's elements with that key in input order (stability) |
| Sorting.SortDescIsStable | src/growth_engine/growth_engine.py:321 | the sort result is a stable descending sort of its input; ties keep input order, since the leaderboard has no secondary key |
| FollowAutomation.ParsePlatform | src/core/follow_automation.py:24-29 | `PlatformType(value)`: when a platform is returned, its value is the given string; `None` where Python raises |
| FollowAutomation.ParsePlatformValue | src/core/follow_automation.py:24-29 | round trip: every platform's value parses back to that platform |
| FollowAutomation.CreateCampaign | src/core/follow_automation.py:149-170 | the campaign stored under the id carries exactly the given name, platform, targeting type, criteria, follow and unfollow limits and engagement window, is active, has zero follow, unfollow and engagement counters, and records the clock reading as its creation time; the key set gains only the id, and the other campaigns, the action log and the stored targets are unchanged |
| FollowAutomation.DefaultCriteria | src/core/follow_automation.py:336-360 | with no criteria given, an account passes iff it is public, has 1000 to 100000 followers, an engagement rate of at least 0.01, and fewer than 8 whole days since its last activity |
| FollowAutomation.EngagementScore | src/core/follow_automation.py:362-379 | for a non-negative rate the score lies between `80·rate` (only the 0.8 large-account factor) and `132·rate` (1.2·1.1 bonuses); hence it is non-negative, and 0 at rate 0 |
| FollowAutomation.ScoreMonotone | src/core/follow_automation.py:362-379 | raising an account's engagement rate never lowers its score |
| FollowAutomation.PassingScoredMembers | src/core/follow_automation.py:323-329 | the filtered list holds exactly the scored forms of the candidates that pass `_should_target_account` |
| FollowAutomation.FilterAndScore | src/core/follow_automation.py:319-334 | the result is sorted non-increasing by engagement score and is a permutation of the passing, scored candidates |
| FollowAutomation.FilterAndScoreSpec | src/core/follow_automation.py:319-334 | an account is in the result iff it is the scored form of a passing candidate, and accounts of equal score keep their input order |
| FollowAutomation.UnlimitedBuckets | src/core/follow_automation.py:108-135 | a (platform, action type) pair has no hourly budget, so the rate check always passes, iff the platform is LinkedIn or YouTube, or the action is a story view outside Instagram |
| FollowAutomation.WindowBelowRecent | src/core/follow_automation.py:445-451 | when no logged action is stamped after `now`, every trailing hour ending at or after `now` holds no more actions than the rate check counts at `now` |
| FollowAutomation.AppendKeepsQuota | src/core/follow_automation.py:390-391 | appending an action that passed the rate check, stamped no earlier than any logged action, keeps every trailing one-hour window of every (platform, type) bucket within its budget |
| FollowAutomation.Execute | src/core/follow_automation.py:381-434 | an unknown campaign raises "not found"; for a known campaign it raises "rate limit exceeded" iff the rate check refuses. Otherwise exactly one action is appended, whatever the outcome, with the given id, the campaign's platform and `now`. Its error message is "" on success, "Action failed" on a reported failure, or the raised text. Only the campaign's counter for the action type moves, and only on success; the key set, the other campaigns and the stored targets are unchanged |
| FollowAutomation.ExecuteKeepsQuota | src/core/follow_automation.py:381-453 | executing at a time no earlier than every logged action keeps the hourly quota respected in every window |
| FollowAutomation.ExecuteKeepsCounters | src/core/follow_automation.py:420-426 | if every campaign's follow, unfollow and engagement counters equal its number of successful logged actions of those types, executing keeps that true |
| FollowAutomation.CreateKeepsCounters | src/core/follow_automation.py:149-170 | creating a campaign under an id that no logged action mentions keeps the counters consistent with the log |
| FollowAutomation.Batch | src/core/follow_automation.py:485 | the attempted targets are a prefix of the sorted, scored candidates, at most `daily_follow_limit` of them when that limit is non-negative |
| FollowAutomation.StoredKeys | src/core/follow_automation.py:495 | storing a sequence of accounts under their usernames adds exactly those usernames |
| FollowAutomation.StoredKeeps | src/core/follow_automation.py:495 | an entry whose username no stored account carries keeps its value |
| FollowAutomation.StoredLast | src/core/follow_automation.py:495 | a username maps to the last account stored under it |
| FollowAutomation.RunCampaign | src/core/follow_automation.py:469-513 | an unknown campaign raises. Otherwise one follow per attempted target is logged, in score order, after the untouched earlier log; each carries its attempt's id, clock reading and outcome, with `success` true iff the executor reported success. The reported successes are exactly the attempts the executor reported as succeeded. The campaign's follow counter rises by them and nothing else in it changes; the key set and the other campaigns are unchanged. The stored targets are the old ones with the attempted prefix of the batch stored in order. The run stops early only when the rate check refuses, and an empty batch changes nothing. The report's `success_rate` is `successful / max(executed, 1)`. A run started with the quota respected, a log stamped no later than the first attempt, and a non-decreasing clock ends with the quota respected. Consistent counters stay consistent |
| FollowAutomation.GetCampaignStats | src/core/follow_automation.py:527-546 | `{}` iff the campaign is unknown; otherwise the id, name, platform, targeting type, active flag, all three counters and the creation time are the campaign's, and the success rate lies in [0, 1] |
| FollowAutomation.CampaignStatsRate | src/core/follow_automation.py:533-544 | the reported success rate times `max(#actions, 1)` equals the number of the campaign's logged actions that succeeded (`Common.Scales`) |
| EngagementAutomation.InitialWellFormed | engagement_automation.py:97-157 | the seven default templates have distinct ids and success rates in [0, 1] |
| EngagementAutomation.CreateCampaign | engagement_automation.py:197-216 | the new campaign sits under its id with the given name, platform, types, criteria and daily limit, active, with both counters 0 and the clock reading as its creation time; other campaigns, templates, the log and the timing table are unchanged |
| EngagementAutomation.CreateKeepsInvariants | engagement_automation.py:197-216 | creating a campaign keeps every campaign's two counters equal and every template's success rate in [0, 1] |
| EngagementAutomation.FindTemplate | engagement_automation.py:89 | a dict lookup by template id: the first position holding the id, or `None` iff no template has it |
| EngagementAutomation.PutTemplate | engagement_automation.py:230 | dict assignment: an existing id is replaced in place, a new id is appended at the end, every other template is kept, and distinct ids stay distinct |
| EngagementAutomation.CreateTemplate | engagement_automation.py:218-233 | the stored template has the given type, platform, message and emoji, use count 0, success rate 0 and is active; rates stay in [0, 1]; campaigns and the log are unchanged |
| EngagementAutomation.DefaultCriteria | engagement_automation.py:280-301 | with no criteria, a target is kept iff it has 1000 to 100000 followers, a rate of at least 0.01 and a post at most 48 hours (172800 s) old |
| EngagementAutomation.Kept | engagement_automation.py:270-273 | every kept target is a candidate that passes, and every passing candidate is kept |
| EngagementAutomation.FilterTargets | engagement_automation.py:265-278 | the result is sorted non-increasing by engagement score, a permutation of the kept targets, and equal scores keep their input order |
| EngagementAutomation.FilterTargetsMembers | engagement_automation.py:265-278 | a target is in the result iff it is a candidate that passes the filter |
| EngagementAutomation.DefaultMessageEmpty | engagement_automation.py:364-376 | the default message is empty exactly for LIKE, STORY_VIEW, RETWEET and SHARE |
| EngagementAutomation.UsedTemplate | engagement_automation.py:313-318 | `template_id and template_id in self.templates`: no template for `None`, for `""` or for an unknown id, and otherwise the template with that id |
| EngagementAutomation.UpdatedRate | engagement_automation.py:347-351 | the new success rate `(r·(n−1)+1)/n` stays in [0, 1], never falls, is positive, is 1 after the first use, and stays 1 once it is 1 |
| EngagementAutomation.Used | engagement_automation.py:348 | a used template has its use count raised by one and nothing else changed apart from the success rate |
| EngagementAutomation.ScorePositive | engagement_automation.py:457 | with a non-negative success rate a template's selection score is positive, so it beats the initial best score 0 |
| EngagementAutomation.SelectTemplate | engagement_automation.py:440-464 | `None` iff no matching template scores above 0, which with rates in [0, 1] means iff no active template of that type and platform exists; otherwise the id of the first matching template of maximal score |
| EngagementAutomation.Execute | engagement_automation.py:303-362 | an unknown campaign raises and records nothing. Otherwise exactly one action is appended with the template's message or the type's default. Both campaign counters rise by one iff the executor reports success. On success, the referenced template's use count rises by one and its rate becomes the running average `(r·(n−1)+1)/n`; the template table is exactly the table after that one use. The key set, every other campaign, every other template and the best-hours table are unchanged |
| EngagementAutomation.AfterUse | engagement_automation.py:341-351 | the table keeps its length; on success the referenced template, if it exists, has one more use and the running-average rate, and every other template is unchanged |
| EngagementAutomation.ExecuteKeepsInvariants | engagement_automation.py:341-351 | execution keeps each campaign's two counters equal and every template rate in [0, 1]; rates never fall, and a template used for the first time from rate 0 ends at rate 1 |
| EngagementAutomation.OverallRateIsZeroOrOne | engagement_automation.py:486 | when the two counters agree, `successful / max(total, 1)` is 0 for an unused campaign and 1 otherwise |
| EngagementAutomation.Batch | engagement_automation.py:409 | the engaged targets are a prefix of the filtered targets with `min(limit, #filtered)` elements for a non-negative limit |
| EngagementAutomation.RunCampaign | engagement_automation.py:393-438 | an unknown campaign raises; a campaign with no engagement types raises iff there is a target (`random.choice([])`). Otherwise every target of the batch is engaged once, in order, with the drawn type, after the untouched earlier log. Each logged engagement carries its draw's id, clock reading and outcome and the message of the template chosen at that step (or the type's default). The successes are exactly the draws the executor reported as succeeded. The template table is the one the run's successive template uses leave. Both of the campaign's counters rise by the successes and nothing else in it changes. The key set, the other campaigns and the best-hours table are unchanged, and an empty batch changes nothing. The report's rate is `successful / max(executed, 1)`. Equal counters and rates in [0, 1] are preserved |
| EngagementAutomation.EngageAll | engagement_automation.py:409-426 | the loop over the batch leaves the state the campaign's run promises: one logged engagement per target as drawn, the successes counted, and the template table the successive uses leave; equal counters and rates in [0, 1] are kept |
| EngagementAutomation.TemplatesAfterShape | engagement_automation.py:341-351 | across a run, templates change only in use count and success rate, use counts never fall, rates stay in [0, 1], and the total use count rises by at most the number of successes |
| EngagementAutomation.HourOf | engagement_automation.py:521 | the hour of a naive local timestamp, given as local wall-clock seconds, lies in 0..23 |
| EngagementAutomation.GoodHourInIntegers | engagement_automation.py:529-534 | an hour is good iff it has at least 5 actions and `10·successes > 7·actions`, i.e. success ratio above 0.7 |
| EngagementAutomation.GoodHoursFrom | engagement_automation.py:529-538 | the good hours from `h` to 23, strictly increasing, each good, and none missing |
| EngagementAutomation.OptimizeTiming | engagement_automation.py:511-550 | the no-data message iff the platform has no logged action. Otherwise `best_hours` is strictly increasing and holds exactly the good hours. The hourly rates cover exactly the hours with at least 5 actions, and each rate times the hour's action count is the hour's success count. The best hours are stored iff the platform has a timing entry, and nothing else changes |
| EngagementAutomation.HourlyRates | engagement_automation.py:520-548 | the rate table covers exactly the hours 0–23 with at least 5 actions on the platform, and each rate times the hour's action count is its success count |
| EngagementAutomation.GetStats | engagement_automation.py:466-494 | `{}` iff the campaign is unknown; it raises iff the campaign is known and any action is logged (actions have no `campaign_id`); otherwise the id, name, platform, active flag, both counters and the creation time are the campaign's, and the rate is 0 or 1 |
| GrowthEngine.BadgeXp | src/growth_engine/growth_engine.py:236-244 | the badge XP table (5/50/25/30/20) gives every badge between 5 and 50 XP |
| GrowthEngine.Initial | src/growth_engine/growth_engine.py:87-179 | a fresh engine's ledger is well formed, with two communities, three templates and no users |
| GrowthEngine.InitialCommunities | src/growth_engine/growth_engine.py:99-140 | the two default communities form a well-formed dict, each filed under its own id |
| GrowthEngine.InitialTemplates | src/growth_engine/growth_engine.py:142-179 | the three default templates form a well-formed dict, each filed under its own id |
| GrowthEngine.CreateMicroCommunity | src/growth_engine/growth_engine.py:181-196 | returns the generated id; the new community is filed under that id with the given name, type, description and templates, no members and an engagement score of 0; other communities and the rest of the ledger are unchanged; a well-formed ledger stays well formed |
| GrowthEngine.CreateUserProfile | src/growth_engine/growth_engine.py:217-222 | the returned profile has the given id and username, level 1, 0 XP, no badges or communities and zero counters; it is filed under the user id, replacing any earlier one; every other profile and the rest of the ledger are unchanged |
| GrowthEngine.JoinCommunity | src/growth_engine/growth_engine.py:198-215 | returns False, changing nothing, iff the community is unknown or the user is already a member. Otherwise it appends the user to the members once. A user with a profile also gains exactly 10 XP and the community id. Nothing else changes |
| GrowthEngine.AwardBadge | src/growth_engine/growth_engine.py:224-246 | returns False, changing nothing, iff the user has no profile or already holds the badge; otherwise the badge is appended once and its XP added, and nothing else changes |
| GrowthEngine.Awarded | src/growth_engine/growth_engine.py:232-244 | an awarded profile has the badge appended and exactly the badge's XP added, and is otherwise the same |
| GrowthEngine.AwardBadgeIdempotent | src/growth_engine/growth_engine.py:224-246 | awarding the same badge twice returns False the second time and leaves the ledger as after the first |
| GrowthEngine.JoinCommunityIdempotent | src/growth_engine/growth_engine.py:198-215 | joining the same community twice returns False the second time and leaves the ledger as after the first |
| GrowthEngine.CreateCollaboration | src/growth_engine/growth_engine.py:248-264 | exactly one collaboration is added under a fresh id, with status "pending"; other collaborations, the profiles and the rest of the ledger are unchanged |
| GrowthEngine.GenerateContent | src/growth_engine/growth_engine.py:282-303 | `{}`, changing nothing, iff the template id is unknown. Otherwise only that template's usage count rises by one. The content holds the template data overridden by the custom keys. The template's data itself is unchanged |
| GrowthEngine.EntryOf | src/growth_engine/growth_engine.py:309-317 | a leaderboard entry carries the user's id and the score `xp + 2·weekly_engagement + 10·collaboration_count` |
| GrowthEngine.UpdateLeaderboard | src/growth_engine/growth_engine.py:305-325 | the board is sorted non-increasing by score, holds `min(10, #users)` entries, each one a profile's entry, and is stored under the platform key with nothing else changed |
| GrowthEngine.LeaderboardTop | src/growth_engine/growth_engine.py:320-323 | no user left off the board outscores anyone on it |
| GrowthEngine.LeaderboardTies | src/growth_engine/growth_engine.py:321 | for every score, the board's entries with that score are a prefix of the users' entries with that score, in insertion order |
| GrowthEngine.LeaderboardEntriesKnown | src/growth_engine/growth_engine.py:308-317 | on a well-formed ledger every board entry belongs to an existing profile and carries that profile's score |
| GrowthEngine.Active | src/growth_engine/growth_engine.py:359 | the active users are exactly the profiles with positive weekly engagement |
| GrowthEngine.CollabSuggestions | src/growth_engine/growth_engine.py:354-375 | every suggestion's score, the number of shared communities, is at least 1 |
| GrowthEngine.SuggestionsComplete | src/growth_engine/growth_engine.py:361-373 | every pair of active users at positions `i < j` who are distinct and share a community gets a suggestion with the shared-set size as score |
| GrowthEngine.SuggestionsSound | src/growth_engine/growth_engine.py:361-373 | every suggestion comes from such a pair `i < j` of distinct active users sharing a community |
| GrowthEngine.Metrics | src/growth_engine/growth_engine.py:377-386 | the counts are the sizes of the users, communities, collaborations and templates dicts, and the average XP is non-negative |
| GrowthEngine.MetricsAverage | src/growth_engine/growth_engine.py:383 | the average XP times `max(#users, 1)` is the total XP |
| GrowthEngine.AverageXpBounded | src/growth_engine/growth_engine.py:383 | when every profile's XP is at most `b`, so is the average |
| GrowthEngine.ApplyPreserves | src/growth_engine/growth_engine.py:198-325 | each ledger operation keeps the ledger well formed; unless it recreates an existing profile it lowers nobody's XP; only joins, awards and profile creation touch profiles |
| GrowthEngine.XpNeverDrops | src/growth_engine/growth_engine.py:198-246 | over any sequence of operations that recreates no existing profile, every user's XP only grows and the ledger stays well formed |
| GrowthScheduler.SaveMetrics | src/growth_engine/growth_engine_scheduler.py:312-332 | a file that does not parse is left untouched (the load raises first); a serialisable record is appended after the file's earlier records; a record holding a `datetime` leaves the file truncated; no other file changes |
| GrowthScheduler.SaveMetricsAppends | src/growth_engine/growth_engine_scheduler.py:321-332 | a successful save keeps every earlier record in place and puts the new one last |
| GrowthScheduler.ResetWeekly | src/growth_engine/growth_engine_scheduler.py:91-92 | every profile keeps all its fields except weekly engagement, which becomes 0; the profile set and its order are unchanged |
| GrowthScheduler.LeaderboardJob | src/growth_engine/growth_engine_scheduler.py:76-105 | the "all" board is refreshed and saved, every weekly engagement ends at 0, and communities, templates, collaborations and the metrics history are unchanged |
| GrowthScheduler.LeaderboardJobUsers | src/growth_engine/growth_engine_scheduler.py:82-92 | every profile except the board's first keeps its badges and XP and only has its weekly engagement reset; the first also receives WEEKLY_TOP, with its XP, unless it already holds it |
| GrowthScheduler.LeaderboardJobKeeps | src/growth_engine/growth_engine_scheduler.py:82-92 | the job lowers nobody's XP and keeps a well-formed ledger well formed |
| GrowthScheduler.LeaderboardJobAwardsTop | src/growth_engine/growth_engine_scheduler.py:85-87 | on a well-formed ledger the user heading a non-empty board holds WEEKLY_TOP afterwards |
| GrowthScheduler.Strong | src/growth_engine/growth_engine_scheduler.py:119-123 | exactly the suggestions scoring at least 2 are kept |
| GrowthScheduler.RankSuggestions | src/growth_engine/growth_engine_scheduler.py:119-131 | the ranking holds `min(10, #strong)` strong suggestions, best first, and is a sub-multiset of the strong suggestions, so nothing is repeated beyond its input |
| GrowthScheduler.RankSuggestionsBeatsRest | src/growth_engine/growth_engine_scheduler.py:126-131 | a strong suggestion left out of the top ten scores no higher than any that made it |
| GrowthScheduler.RankSuggestionsTies | src/growth_engine/growth_engine_scheduler.py:126-131 | among suggestions of equal score, the ranking keeps a prefix of them in their input order, as a stable sort does |
| GrowthScheduler.CollabJob | src/growth_engine/growth_engine_scheduler.py:111-139 | the ranked suggestions and the total generated are saved; the ledger and history are only read |
| GrowthScheduler.Window | src/growth_engine/growth_engine_scheduler.py:153-157 | the history keeps the newest `min(n + 1, 24)` snapshots, in order, ending with the new one |
| GrowthScheduler.MetricsJob | src/growth_engine/growth_engine_scheduler.py:145-162 | the history ends with the current metrics and never exceeds 24 entries; the ledger and the per-(job, day) metrics files are unchanged |
| GrowthScheduler.Popular | src/growth_engine/growth_engine_scheduler.py:174-178 | at most five templates, ordered by non-increasing usage count, forming a sub-multiset of the existing templates |
| GrowthScheduler.PopularBeatsRest | src/growth_engine/growth_engine_scheduler.py:174-178 | a template left out of the popular five is used no more often than any that made it |
| GrowthScheduler.PopularTies | src/growth_engine/growth_engine_scheduler.py:174-178 | among equally used templates, the popular five keep a prefix of them in insertion order, as a stable sort does |
| GrowthScheduler.GenerateAll | src/growth_engine/growth_engine_scheduler.py:181-194 | every existing template's usage count rises by the number of times its id was asked for; nothing else in the ledger changes |
| GrowthScheduler.GenerateAllContent | src/growth_engine/growth_engine_scheduler.py:182-193 | when every id is known, one piece of content per id, and every piece carries the custom scheduling values |
| GrowthScheduler.ContentJob | src/growth_engine/growth_engine_scheduler.py:168-206 | the template usage counts are raised and the content record is handed to the save; the metrics history is unchanged |
| GrowthScheduler.PopularKnown | src/growth_engine/growth_engine_scheduler.py:174-178 | on a well-formed ledger every popular template is filed under its id, and there is one whenever templates exist |
| GrowthScheduler.ScheduledUnserializable | src/growth_engine/growth_engine_scheduler.py:186-202 | a record whose content carries the scheduled `datetime` cannot be serialised |
| GrowthScheduler.ContentJobNeverSaves | src/growth_engine/growth_engine_scheduler.py:168-206 | on a well-formed ledger with templates, the day's content-scheduling file always ends up corrupt |
| GrowthScheduler.ActiveMembers | src/growth_engine/growth_engine_scheduler.py:222-226 | the active member count never exceeds the member count |
| GrowthScheduler.Analyse | src/growth_engine/growth_engine_scheduler.py:221-237 | a community's row has its id and size, the active-member count, a rate in [0, 1], and a growth score equal to the active-member count |
| GrowthScheduler.AnalyseRate | src/growth_engine/growth_engine_scheduler.py:228 | the rate times `max(total, 1)` is the active-member count |
| GrowthScheduler.CommunityAnalysis | src/growth_engine/growth_engine_scheduler.py:217-242 | one row per community, a permutation of the per-community rows sorted by non-increasing growth score; rows with equal scores keep their insertion order, which decides the top row among equals |
| GrowthScheduler.CommunityAnalysisTop | src/growth_engine/growth_engine_scheduler.py:242-248 | the row reported as top-growing has at least as many active members as any community |
| GrowthScheduler.AnalysisJob | src/growth_engine/growth_engine_scheduler.py:212-255 | the sorted rows and their first row (or none) are saved; the ledger is only read |
| GrowthScheduler.AwardIf | src/growth_engine/growth_engine_scheduler.py:270-277 | the badge is held afterwards iff it was held before or was due; no other badge changes |
| GrowthScheduler.SweepProfile | src/growth_engine/growth_engine_scheduler.py:268-297 | FIRST_COMMENT, CONTENT_CREATOR and COLLAB_MASTER are held afterwards iff held before or their condition holds; no other badge or field changes except a non-decreasing XP; at most three awards |
| GrowthScheduler.SweepProfileExact | src/growth_engine/growth_engine_scheduler.py:268-297 | the badges gained are exactly the owed ones, in FIRST_COMMENT, CONTENT_CREATOR, COLLAB_MASTER order; XP rises by exactly their badge XP; one (user id, badge, reason) award is recorded per badge gained |
| GrowthScheduler.SweepProfileIdempotent | src/growth_engine/growth_engine_scheduler.py:268-297 | sweeping an already swept profile awards nothing and changes nothing |
| GrowthScheduler.SweptUsers | src/growth_engine/growth_engine_scheduler.py:268-297 | every profile is replaced by its swept version; the profile set and order are unchanged |
| GrowthScheduler.BadgeJob | src/growth_engine/growth_engine_scheduler.py:261-310 | every profile is swept and the awards are saved with their count; nobody's XP drops and a well-formed ledger stays well formed |
| GrowthScheduler.BadgeJobIdempotent | src/growth_engine/growth_engine_scheduler.py:261-310 | running the badge sweep again right after one awards nothing and leaves every profile as it is |
| GrowthScheduler.RunManualJob | src/growth_engine/growth_engine_scheduler.py:350-378 | success is reported iff the job name is one of the six known names, and then that job has run; an unknown name reports `Unknown job type: <name>` and changes nothing |
| GrowthScheduler.JobsWriteOwnFile | src/growth_engine/growth_engine_scheduler.py:312-317 | each job other than the metrics job writes only the file for its own type and day; every other file is unchanged |
| GrowthBuilder.SettingsOf | src/core/ultimate_follow_builder.py:77-116 | every mode has a row, so the moderate fallback never applies; in every row the delays are ordered, unfollow < follow < engagement limits, and the safety threshold lies in (0, 1) |
| GrowthBuilder.ModesOrdered | src/core/ultimate_follow_builder.py:77-114 | a more cautious mode has strictly lower daily limits, a longer engagement window, longer human delays and a higher safety threshold |
| GrowthBuilder.ApplyMode | src/core/ultimate_follow_builder.py:75-123 | the four limits are overwritten by the mode's row whatever was configured; `safety_settings` gains the row's seven keys and keeps every other key |
| GrowthBuilder.ApplyModeIdempotent | src/core/ultimate_follow_builder.py:75-123 | applying the mode table again changes nothing |
| GrowthBuilder.InitHealth | src/core/ultimate_follow_builder.py:125-135 | there is exactly one entry per configured platform, each a fresh one with score 100 |
| GrowthBuilder.Penalised | src/core/ultimate_follow_builder.py:302-315 | "High daily action count" is added exactly when the daily actions exceed 80% of the follow limit, then "Rate limit exceeded" exactly when there were rate-limit hits; the two floored deductions of 5 and 10 equal one deduction of their sum floored at 0; the daily action count is reset and nothing else changes |
| GrowthBuilder.UpdateAccountHealth | src/core/ultimate_follow_builder.py:300-317 | the set and order of platforms are unchanged and a platform that is not configured is untouched |
| GrowthBuilder.HealthPenalties | src/core/ultimate_follow_builder.py:300-317 | every platform ends penalised once per time it is listed in the configuration, and an unlisted one not at all |
| GrowthBuilder.HealthPenaltyOnce | src/core/ultimate_follow_builder.py:302-315 | a platform listed once loses 5 points when its daily actions exceed 80% of the follow limit and 10 more when it hit a rate limit, floored at 0. It gains the matching warnings in that order, and its daily actions are reset; nothing else in the entry changes |
| GrowthBuilder.HealthDailyReset | src/core/ultimate_follow_builder.py:315 | every configured platform ends with zero daily actions |
| GrowthBuilder.HealthScoresNeverRise | src/core/ultimate_follow_builder.py:306-312 | a score in [0, 100] never rises and never drops below 0 |
| GrowthBuilder.FreshHealthUnchanged | src/core/ultimate_follow_builder.py:300-317 | with a non-negative follow limit, fresh entries come out unchanged, since nothing raises the daily actions or the rate-limit hits |
| GrowthBuilder.MeanScore | src/core/ultimate_follow_builder.py:331-332 | the mean times the number of scores is their sum, 100 when there are none, and a mean of scores in [0, 100] lies in [0, 100] |
| GrowthBuilder.UpdateStats | src/core/ultimate_follow_builder.py:319-332 | only the three rates change; the engagement rate lies in [0, 1], the growth rate is non-negative and the health score is the mean over the health table |
| GrowthBuilder.UpdateStatsEngagementRate | src/core/ultimate_follow_builder.py:324-325 | the engagement rate times `max(follows + engagements, 1)` is the engagement count |
| GrowthBuilder.UpdateStatsGrowthRate | src/core/ultimate_follow_builder.py:328 | the growth rate times `max(follows, 1)` is the followers gained |
| GrowthBuilder.WithAutomata | src/core/ultimate_follow_builder.py:62-73 | a new builder has the mode applied to its config, a fresh health entry for exactly the configured platforms, fresh statistics and no strategies |
| GrowthBuilder.NewBuilderWf | src/core/ultimate_follow_builder.py:62-73 | a new builder satisfies the builder invariant |
| GrowthBuilder.CampaignIdsInjective | src/core/ultimate_follow_builder.py:144-177 | within one clock second, two platforms get the same follow (or engagement) campaign id only if they are the same platform |
| GrowthBuilder.CreateFollowCampaigns | src/core/ultimate_follow_builder.py:142-160 | at most one id per platform, and only the campaign table of the follow automation changes |
| GrowthBuilder.FollowReach | src/core/ultimate_follow_builder.py:143-146 | the loop gets through exactly the leading names that parse as a platform |
| GrowthBuilder.FollowCreationShape | src/core/ultimate_follow_builder.py:143-160 | one campaign id per platform, in order, until the first name that is not a platform, which is reported |
| GrowthBuilder.FollowCreationContent | src/core/ultimate_follow_builder.py:144-159 | each created id holds a NICHE campaign for its platform with the configured limits |
| GrowthBuilder.FollowCreationFrame | src/core/ultimate_follow_builder.py:142-160 | no campaign other than the created ones is added or changed |
| GrowthBuilder.CreateEngagementCampaigns | src/core/ultimate_follow_builder.py:163-177 | one engagement campaign per platform, in order, each under its id with LIKE, COMMENT and STORY_VIEW; other campaigns, the actions, templates and best hours are unchanged |
| GrowthBuilder.CreateGrowthStrategy | src/core/ultimate_follow_builder.py:137-211 | it raises iff some configured platform is not a `PlatformType` (the follow campaigns made before it stay); on success the id is `strategy-<niche>-<now>` and only that strategy is added; config, statistics and health never change and the builder invariant is kept |
| GrowthBuilder.CreatedStrategyFollows | src/core/ultimate_follow_builder.py:139-208 | a stored strategy is active, for the niche, and lists one NICHE follow campaign per platform with the configured follow limit |
| GrowthBuilder.CreatedStrategyEngagement | src/core/ultimate_follow_builder.py:163-208 | a stored strategy lists one LIKE/COMMENT/STORY_VIEW engagement campaign per platform and a new community without members, with engagement score 0, holding the one niche growth template whose four steps are the source's, the third kept literally as `Optimize content for {niche}` |
| GrowthBuilder.UnknownPlatformKeepsEarlierCampaigns | src/core/ultimate_follow_builder.py:143-146 | a platform outside `PlatformType` makes the call raise, storing no strategy, while the follow campaigns of the earlier platforms remain |
| GrowthBuilder.Scaled | src/core/ultimate_follow_builder.py:281 | `int(t * rate)` for a rate in [0, 1] is at most `t` |
| GrowthBuilder.GrowthMetricsOf | src/core/ultimate_follow_builder.py:269-298 | the totals are the sums of the counts, the estimated gain lies between 0 and the follows, and the growth rate lies in [0, 1] |
| GrowthBuilder.GrowthMetricsEngagementRate | src/core/ultimate_follow_builder.py:289-297 | the engagement rate times `max(follows, 1)` is the engagement total, and the efficiency is that rate times the follow-back rate |
| GrowthBuilder.GrowthMetricsGrowthRate | src/core/ultimate_follow_builder.py:296 | the growth rate times `max(follows, 1)` is the estimated gain |
| GrowthBuilder.RunFollowCampaigns | src/core/ultimate_follow_builder.py:231-242 | one result per follow campaign, in order. A run fails iff its campaign is unknown, carrying "not found" and changing nothing; otherwise the campaign's follow counter rises by its reported successes, which are exactly the attempts the executor reported as succeeded. The log grows by one follow per executed action, after the untouched earlier log, each carrying its draw's id, time and outcome. Each run leaves exactly the effect of the campaign's own run on the state the previous one left. Consistent counters stay consistent |
| GrowthBuilder.RunEngagementCampaigns | src/core/ultimate_follow_builder.py:244-255 | one result per engagement campaign, in order. A run fails iff its campaign is unknown, or has no engagement types and a non-empty batch, with the matching error and no change. Otherwise both of the campaign's counters rise by its successes, which are exactly the draws reported as succeeded. The best-hours table is kept, and the template table is the one the run's template uses leave. The log grows by one engagement per batch target, after the untouched earlier log, each carrying its draw's id, time and outcome and the chosen template's message. Each run is the campaign's own run on the state the previous one left. Equal counters and rates in [0, 1] are preserved |
| GrowthBuilder.ExecuteGrowthStrategy | src/core/ultimate_follow_builder.py:213-267 | it raises iff the strategy is unknown. Otherwise every follow campaign and then every engagement campaign of the strategy runs, as the two rows above state, and the results and automata are those runs' results and final states. The totals rise by exactly the reported successes, which are the executor's reported successes, the followers gained are kept, and the growth metrics are all zero, since the strategy holds no results. The account health is the updated table. Config, strategies and ledger are unchanged and the invariant is kept |
| GrowthBuilder.FollowRate | src/core/ultimate_follow_builder.py:395-397 | the success rate of a follow campaign lies in [0, 1] and is 0 for an unknown campaign |
| GrowthBuilder.EngagementRate | src/core/ultimate_follow_builder.py:407-409 | reading an engagement campaign's statistics raises exactly when the campaign exists and any engagement has been recorded; an unknown campaign reads as 0 |
| GrowthBuilder.FlagFollow | src/core/ultimate_follow_builder.py:394-403 | exactly the strategy's follow campaigns below a 0.7 success rate are flagged |
| GrowthBuilder.FlagEngagement | src/core/ultimate_follow_builder.py:406-415 | it raises iff reading some campaign's statistics raises; otherwise exactly the campaigns below a 0.8 overall success rate are flagged |
| GrowthBuilder.WeakPlatforms | src/core/ultimate_follow_builder.py:418-419 | exactly the platforms whose health score is below 80 |
| GrowthBuilder.Recommendations | src/core/ultimate_follow_builder.py:417-432 | a platform is recommended for attention iff it is in the health table with a score below 80, and a switch to conservative mode is recommended iff the overall health score is below 70 |
| GrowthBuilder.OptimizeStrategy | src/core/ultimate_follow_builder.py:380-435 | it raises for an unknown strategy, and for a known one iff any engagement was recorded and the strategy has an engagement campaign; the report flags only follow campaigns below 0.7, recommends exactly the platforms below 80, and suggests the conservative mode iff the health score is below 70 |
| ContentManager.ReplaceAbsent | content_manager.py:147 | `str.replace` leaves text without the pattern unchanged |
| ContentManager.ReplaceFirst | content_manager.py:147 | `str.replace` replaces the leftmost occurrence and carries on right after it, so the text before it is kept |
| ContentManager.SubstituteAbsent | content_manager.py:145-147 | variables whose `{name}` placeholders do not occur leave the base text unchanged |
| ContentManager.GenerateFromTemplate | content_manager.py:136-166 | it raises iff the template is unknown; otherwise the text starts with the substituted base text, followed by a blank line when there are hashtags, and equals it iff there are neither hashtags nor mentions; the post is a text post carrying the template's hashtags, mentions and origin, unscheduled |
| ContentManager.GeneratedTagsPresent | content_manager.py:150-154 | every hashtag of the template appears in the text as `#tag` and every mention as `@mention` |
| ContentManager.BlockContents | content_manager.py:150-154 | a hashtag or mention paragraph starts with a blank line and shows every item behind its marker |
| ContentManager.TruncateForTwitter | content_manager.py:328-331 | the text never exceeds 280 characters; a longer text keeps its first 277 characters followed by "..." and a shorter one is unchanged |
| ContentManager.TruncateIdempotent | content_manager.py:328-331 | truncating a truncated text changes nothing |
| ContentManager.MakeProfessional | content_manager.py:348-357 | every character outside `[\w\s@#]` is dropped and the others are kept in order; exactly `\n\n#professional #networking #business` is appended iff no `#word` is left; the result always holds a `#word` and only kept characters |
| ContentManager.MakeProfessionalIdempotent | content_manager.py:348-357 | rewriting professional text again changes nothing |
| ContentManager.QuestionMentionsThoughts | content_manager.py:362-363 | the appended question itself mentions "thoughts" |
| ContentManager.MakeCommunityFocused | content_manager.py:359-365 | the text is kept as a prefix; exactly `\n\nWhat are your thoughts on this?` is appended iff the lower-cased text mentions none of community, discussion, thoughts; the result always mentions one of them |
| ContentManager.CommunityFocusIdempotent | content_manager.py:359-365 | making text community-focused twice is the same as once |
| ContentManager.AppendInstagramTags | content_manager.py:333-336 | the text is kept as a prefix, is unchanged iff there are no hashtags, and otherwise shows each of the first thirty as `#tag` |
| ContentManager.OptimizeForPlatform | content_manager.py:315-346 | only the text of the copy changes: truncated for Twitter, tagged for Instagram, made professional for LinkedIn, community-focused for Reddit, and the post is unchanged for every other platform |
| ContentManager.OptimizedText | content_manager.py:328-344 | per platform: at most 280 characters for Twitter (unchanged iff it already fits), the original as prefix for Instagram and Reddit, a `#word` for LinkedIn, a community mention for Reddit |
| ContentManager.IsIdeaSuitable | content_manager.py:433-442 | an idea is unsuitable iff Twitter is chosen and it exceeds 280 characters, or Instagram is chosen and it exceeds 2200 |
| ContentManager.SuitabilityMonotone | content_manager.py:433-442 | dropping platforms never makes an idea unsuitable, and an idea that fits a tweet suits every platform list |
| ContentManager.GetContentAnalytics | content_manager.py:444-470 | the totals are the number of campaigns and of templates; each status, category and platform count is the number of campaigns with that status, templates in that category, and template listings of that platform; a status is counted iff some campaign has it |
| Common.Tally | content_manager.py:455-457 | a key is in the tally iff it occurs in the list, and its count is its number of occurrences |
| ContentManager.StatusCountsTotal | content_manager.py:454-457 | the status counts add up to the number of campaigns, the total `GetContentAnalytics` reports |
| ContentManager.CategoryCountsTotal | content_manager.py:459-462 | the category counts add up to the number of templates, the total `GetContentAnalytics` reports |
| ContentManager.PlatformCountsTotal | content_manager.py:464-468 | the platform counts add up to the number of platform listings over all templates |
| ContentManager.IntervalBounds | content_manager.py:280-282 | for a campaign with posts that does not end before it starts, the interval is non-negative and the posts' intervals add up to the duration |
| ContentManager.SlotTimesOrdered | content_manager.py:284-287 | post times never go back while the campaign does not end before it starts |
| ContentManager.SlotWithin | content_manager.py:284-287 | every post goes out between the campaign's start and end, and strictly before the end when the campaign has positive length |
| ContentManager.TimedPosts | content_manager.py:284-287 | each post is the campaign's post stamped with its slot time, nothing else changed |
| ContentManager.ScheduleCampaign | content_manager.py:271-313 | it raises iff the campaign is unknown; otherwise only that campaign changes: its status becomes SCHEDULED and each post gets its slot time; the report lists each post's index, time and the automation system's answer in order |
| ContentManager.ScheduledTimesOrdered | content_manager.py:284-296 | the reported times of a scheduled campaign are ordered and lie within its start and end |
| ContentGenerator.ToneWeight | src/ai/content_generator.py:369-377 | every tone has a weight, between 0.5 and 0.8, so the 0.5 default never applies |
| ContentGenerator.NonAsciiCount | src/ai/content_generator.py:355 | the count of characters above 127 never exceeds the length |
| ContentGenerator.LengthBonus | src/ai/content_generator.py:343-346 | the bonus is 0 below 50 characters, 0.1 from 50 to 150 and 0.05 above, each iff its range holds |
| ContentGenerator.HashtagBonus | src/ai/content_generator.py:349-352 | the bonus is 0 below 3 tags, 0.15 from 3 to 7 and 0.1 above, each iff its range holds |
| ContentGenerator.EngagementScoreOf | src/ai/content_generator.py:340-379 | the score lies in [0.55, 1.0] and is either the cap or the uncapped sum |
| ContentGenerator.EngagementScore | src/ai/content_generator.py:338-379 | the engagement score of any content lies in [0.55, 1.0] |
| ContentGenerator.EngagementMonotone | src/ai/content_generator.py:359-377 | a question, a call to action or a tone with a higher weight never lowers the score |
| ContentGenerator.EngagementCap | src/ai/content_generator.py:379 | the score is capped at 1 iff the uncapped sum reaches 1, and a question, a call to action and 3 to 7 tags together reach it |
| ContentGenerator.ViralPotentialOf | src/ai/content_generator.py:383-412 | the potential lies in [0.5, 1.0] and is either the cap or the uncapped sum |
| ContentGenerator.ViralPotential | src/ai/content_generator.py:381-412 | the viral potential of any content lies in [0.5, 1.0] |
| ContentGenerator.ViralBaseline | src/ai/content_generator.py:396-401 | content hitting no keyword scores 0.5, 0.6 for the educational tone and 0.65 for the inspirational and motivational tones |
| ContentGenerator.Picked | src/ai/content_generator.py:319 | the sample is the pool's entries at the drawn positions, one per draw |
| ContentGenerator.GenerateHashtags | src/ai/content_generator.py:309-336 | no tags when hashtags are off, and never more than ten |
| ContentGenerator.HashtagLayout | src/ai/content_generator.py:315-336 | with hashtags on, the list is the sample of at most seven tags, then `#niche`, `#nichelife`, `#nichegoals`, then only platform tags |
| ContentGenerator.NicheTagsAlwaysPresent | src/ai/content_generator.py:318-336 | with hashtags on, the three niche tags are always among the ten returned, and every tag comes from the niche's pool, the niche tags or the platform's tags |
| ContentGenerator.GenerateContent | src/ai/content_generator.py:232-256 | the id is `content-<niche>-<now>`, the content, niche and platform are the request's; the tags are those `_generate_hashtags` draws (at most ten, none when off); the engagement score is that of the text with those tags and the viral potential that of the text, both within their ranges |
| ContentGenerator.GeneratedTags | src/ai/content_generator.py:232-256 | with hashtags on, the generated content carries the niche's three tags, and every tag comes from the niche's pool, the niche tags or the platform's tags |
| ContentGenerator.BestIndex | src/ai/content_generator.py:443 | `max` by engagement score picks an item no other item beats and that every earlier item scores strictly below |
| ContentGenerator.OptimizeContent | src/ai/content_generator.py:422-444 | content meeting the target comes back unchanged; otherwise the result is one of the variations and no variation scores higher |
| ContentGenerator.ContentAnalytics | src/ai/content_generator.py:446-479 | nothing iff there is no content; otherwise the total is the number of pieces |
| ContentGenerator.AnalyticsTop | src/ai/content_generator.py:465 | the top item is one of the pieces and no piece scores higher |
| ContentGenerator.DistributionsTotal | src/ai/content_generator.py:454-462 | the platform counts and the niche counts each add up to the number of pieces |
| ContentGenerator.AverageEngagementInRange | src/ai/content_generator.py:451 | the mean engagement of heuristic scores lies between 0.55 and the top score |
| ContentGenerator.AverageViralInRange | src/ai/content_generator.py:452 | the mean viral potential of heuristic scores lies in [0.5, 1] |
| TextCleaning.NonSpaceRun | stocktwits_scraper.py:155 | `\S+` takes the longest run of non-whitespace characters: all of them, up to the first whitespace or the end |
| TextCleaning.UrlRemoved | stocktwits_scraper.py:155 | "http" followed by a non-empty run of non-whitespace is removed through the end of that run |
| TextCleaning.BareHttpKept | stocktwits_scraper.py:155 | a bare "http" before whitespace or at the end is not a match and is kept |
| TextCleaning.Squash | stocktwits_scraper.py:157 | squashing empties only the empty text, and the result starts with a space iff the text starts with whitespace |
| TextCleaning.SquashSingleSpaced | stocktwits_scraper.py:157 | after squashing, the only whitespace left is single spaces |
| TextCleaning.KeptCleanable | stocktwits_scraper.py:156 | the character filter leaves only ASCII letters, digits and whitespace |
| TextCleaning.StripShape | stocktwits_scraper.py:158 | stripping single-spaced text of letters, digits and spaces leaves no space at either end |
| TextCleaning.CleanTextShape | stocktwits_scraper.py:153-158 | the cleaned text holds only ASCII letters, digits and single spaces, and neither starts nor ends with a space |
| TextCleaning.UrlFreeAlnumsSubsequence | stocktwits_scraper.py:155 | the letters and digits left after URL removal are a subsequence of the input |
| TextCleaning.AlnumsOfKept | stocktwits_scraper.py:156 | the character filter keeps every ASCII letter and digit |
| TextCleaning.AlnumsOfSquash | stocktwits_scraper.py:157 | squashing whitespace keeps every letter and digit |
| TextCleaning.CleanTextKeepsAlnums | stocktwits_scraper.py:153-158 | cleaning keeps exactly the letters and digits that URL removal left, in order, so they are a subsequence of the input |
| TextCleaning.CleanTextEmpty | stocktwits_scraper.py:153-158 | input with no ASCII letter or digit outside its URLs cleans to the empty string |

## Source behaviour the model makes explicit

These are consequences of the code as written. The model keeps them as they are, and the contracts above state them:

- `optimize_strategy` raises whenever any engagement has been recorded and the strategy lists an engagement campaign. `get_engagement_stats` reads a `campaign_id` field that engagement actions do not have (`GrowthBuilder.OptimizeStrategy`).
- `_calculate_growth_metrics` sums `follow_results` and `engagement_results` of the stored strategy, keys that are never written, so the growth metrics are always zero (`GrowthBuilder.ExecuteGrowthStrategy`).
- Nothing in the builder raises `daily_actions` or `rate_limit_hits`, so the account-health update never changes a fresh entry (`GrowthBuilder.FreshHealthUnchanged`).
- An engagement campaign's `total_engagements` only grows on success, so its overall success rate is 0 or 1 (`EngagementAutomation.OverallRateIsZeroOrOne`).
- Engagement has no rate check: the per-platform engagement limits are never read.
- The daily content-scheduling job raises inside `json.dump` because its content carries a `datetime`. The template usage counts are already raised at that point, and the day's file is left truncated (`GrowthScheduler.ContentJobNeverSaves`).
- Campaign and strategy ids are built from whole seconds of the clock. Two campaigns for the same platform created in the same second get the same id, and the second overwrites the first. Within one second, only different platforms are told apart (`GrowthBuilder.CampaignIdsInjective`).
- `targets[:limit]` with a negative limit drops elements from the end, following Python slicing (`Common.SliceTo`).
- `clean_text` is not idempotent. "ht:tpabc" cleans to "httpabc", which a second cleaning removes as a URL.

## Left out

- File I/O: template, campaign and metrics files are in-memory maps. A scheduler metrics file is either a list of records or corrupt; the content manager's template and campaign files are not modelled.
- The `schedule` library loop, job registration and `asyncio` task creation (growth_engine_scheduler.py:32-70). Handlers are called directly, as `run_manual_job` does. There is no concurrency in the modelled code.
- `asyncio.sleep` delays (`_human_delay`, `_engagement_delay`) have no observable effect on state and are omitted.
- Randomness and the clock are parameters: simulated discovery and platform success, the follow-back rate, random template, tone and hashtag picks, and `time.time()`/`datetime.now()` readings.
- Account discovery (`find_target_accounts`, `_find_*`, `find_engagement_targets`): the candidates are inputs to a campaign run.
- `_schedule_unfollow_actions`: it only logs.
- Reporting helpers outside the core: `get_all_campaign_stats`, `get_template_stats`, `get_scheduler_status`, `get_api_hooks`, `export_data_for_external_network`, `get_builder_dashboard`, `_get_campaign_summary`, `run_ultimate_builder`, `generate_content_ideas`, `generate_batch_content`, and the content manager's `create_template`, `create_campaign`, `add_post_to_campaign`, `export_campaign` and `import_campaign`.
- `GrowthEngine` `create_content_template`: only the default templates and usage counting are modelled.
- The `engagement_by_type` breakdown of `get_engagement_stats`: that call raises as soon as any action exists, so the breakdown is never returned with content.
- Python's Unicode `\w`, `\s` and `str.lower()` are modelled on ASCII only. Engagement emoji are modelled as the intended code points.
- Floating-point rounding: rates and scores are exact reals, so equalities such as `rate * n == successes` hold exactly.
- `GrowthBuilder.NewBuilder`: its contract sits on `GrowthBuilder.WithAutomata`, which takes the three initial automata as arguments.
- `GrowthBuilder.CreateGrowthStrategy`: all campaigns of one call share one clock reading, while the source reads `time.time()` once per campaign.
- `FollowAutomation.FilterAndScore`, `FollowAutomation.EngagementScore` and `EngagementAutomation.FilterTargets`: one clock reading `now` serves a whole filter or run, while the source calls `datetime.now()` afresh for each target's activity check and score (src/core/follow_automation.py:355, 371) and post-age check (engagement_automation.py:297).
- `GrowthEngine.CreateMicroCommunity`: the community's `created_at` is not modelled; no operation reads it. The built-in communities' `created_at` is left out for the same reason.
- `GrowthBuilder.OptimizeStrategy`: its contract states the follow flags in one direction only; the exact follow and engagement flag sets are stated by `GrowthBuilder.FlagFollow` and `GrowthBuilder.FlagEngagement`.
- `GrowthScheduler.ActiveMembers`: its own contract only bounds the count. Its recursive body, one member at a time, is the reference definition of an active member count, and `GrowthScheduler.Analyse` equates each community's reported count with it.
- `GrowthScheduler.MetricsJob`: `_log_engagement_metrics` also appends a JSON line to `./data/engagement_metrics.json` (src/growth_engine/growth_engine.py:389-393); that append-only log is file I/O outside the modelled per-(job, day) metrics files, and the model drops it.
- `ContentManager.ScheduleCampaign`: posts are modelled as values, with no aliasing. The source stamps `post.scheduled_time` on shared `PostContent` objects, so a post added twice to one campaign ends with the last of its slots in both entries, and a post shared with another campaign is re-stamped there too; the model gives every entry its own slot.

=== FILE: builder.dfy ===
/**
 * The growth-strategy orchestrator (`UltimateFollowBuilder`): a mode table that fixes the
 * daily limits, per-platform account health with floored penalties, the composition of a
 * strategy out of follow campaigns, engagement campaigns and a community, the execution of
 * a strategy, the builder statistics, and the advisory optimisation report.
 *
 * The builder owns one follow automation, one engagement automation and one gamification
 * ledger; here they are the states of the modules that model them. The clock, the random
 * follow-back rate, the community id suffix and everything a campaign run discovers or
 * draws are parameters.
 */
module GrowthBuilder {
  import opened Common
  import F = FollowAutomation
  import E = EngagementAutomation
  import G = GrowthEngine

  // ---------------------------------------------------------------------------------------
  // Modes

  datatype Mode = Aggressive | Moderate | Conservative | Safe

  /** One row of the mode table. */
  datatype ModeSettings = ModeSettings(
    dailyFollowLimit: int,
    dailyUnfollowLimit: int,
    dailyEngagementLimit: int,
    engagementWindowDays: int,
    humanDelayMin: int,
    humanDelayMax: int,
    safetyThreshold: real)

  /** The mode table; every mode has a row, so the fallback to the moderate row never
      applies. */
  function SettingsOf(m: Mode): (s: ModeSettings)
    ensures 0 < s.humanDelayMin < s.humanDelayMax
    ensures 0 < s.dailyUnfollowLimit < s.dailyFollowLimit < s.dailyEngagementLimit
    ensures 0 < s.engagementWindowDays && 0.0 < s.safetyThreshold < 1.0
  {
    match m
    case Aggressive => ModeSettings(100, 80, 200, 2, 20, 60, 0.7)
    case Moderate => ModeSettings(50, 40, 100, 3, 30, 90, 0.8)
    case Conservative => ModeSettings(25, 20, 50, 5, 45, 120, 0.9)
    case Safe => ModeSettings(10, 8, 25, 7, 60, 180, 0.95)
  }

  /** How cautious a mode is: Aggressive 0 up to Safe 3. */
  function Caution(m: Mode): nat
  {
    match m
    case Aggressive => 0
    case Moderate => 1
    case Conservative => 2
    case Safe => 3
  }

  /** `a` allows strictly more than `b`: higher daily limits, a shorter engagement window,
      shorter human delays and a lower safety threshold. */
  predicate Looser(a: ModeSettings, b: ModeSettings)
  {
    && a.dailyFollowLimit > b.dailyFollowLimit
    && a.dailyUnfollowLimit > b.dailyUnfollowLimit
    && a.dailyEngagementLimit > b.dailyEngagementLimit
    && a.engagementWindowDays < b.engagementWindowDays
    && a.humanDelayMin < b.humanDelayMin
    && a.humanDelayMax < b.humanDelayMax
    && a.safetyThreshold < b.safetyThreshold
  }

  /** Every limit of the table strictly decreases from Aggressive to Safe. */
  lemma ModesOrdered(a: Mode, b: Mode)
    requires Caution(a) < Caution(b)
    ensures Looser(SettingsOf(a), SettingsOf(b))
  {
  }

  /** A value of `safety_settings`, whose entries are numbers of either kind. */
  datatype Setting = IntSetting(n: int) | RealSetting(x: real)

  /** The mode row as the dictionary merged into `safety_settings`. */
  function SettingsMap(s: ModeSettings): map<string, Setting>
  {
    map[
      "daily_follow_limit" := IntSetting(s.dailyFollowLimit),
      "daily_unfollow_limit" := IntSetting(s.dailyUnfollowLimit),
      "daily_engagement_limit" := IntSetting(s.dailyEngagementLimit),
      "engagement_window_days" := IntSetting(s.engagementWindowDays),
      "human_delay_min" := IntSetting(s.humanDelayMin),
      "human_delay_max" := IntSetting(s.humanDelayMax),
      "safety_threshold" := RealSetting(s.safetyThreshold)]
  }

  const ModeKeys: set<string> :=
    {"daily_follow_limit", "daily_unfollow_limit", "daily_engagement_limit", "engagement_window_days",
     "human_delay_min", "human_delay_max", "safety_threshold"}

  /** `BuilderConfig`, without the two feature flags that nothing reads. */
  datatype Config = Config(
    mode: Mode,
    platforms: seq<string>,
    dailyFollowLimit: int,
    dailyUnfollowLimit: int,
    dailyEngagementLimit: int,
    engagementWindowDays: int,
    safety: map<string, Setting>)

  /** `_initialize_mode_settings`: the mode's row overwrites the four limits whatever the
      caller configured, and is merged into the safety settings, replacing equal keys. */
  function ApplyMode(c: Config): (r: Config)
    ensures r.mode == c.mode && r.platforms == c.platforms
    ensures r.dailyFollowLimit == SettingsOf(c.mode).dailyFollowLimit
    ensures r.dailyUnfollowLimit == SettingsOf(c.mode).dailyUnfollowLimit
    ensures r.dailyEngagementLimit == SettingsOf(c.mode).dailyEngagementLimit
    ensures r.engagementWindowDays == SettingsOf(c.mode).engagementWindowDays
    ensures r.safety.Keys == c.safety.Keys + ModeKeys
    ensures forall k :: k in c.safety && k !in ModeKeys ==> r.safety[k] == c.safety[k]
    ensures "safety_threshold" in r.safety && r.safety["safety_threshold"] == RealSetting(SettingsOf(c.mode).safetyThreshold)
    ensures "human_delay_min" in r.safety && r.safety["human_delay_min"] == IntSetting(SettingsOf(c.mode).humanDelayMin)
  {
    var s := SettingsOf(c.mode);
    c.(dailyFollowLimit := s.dailyFollowLimit,
       dailyUnfollowLimit := s.dailyUnfollowLimit,
       dailyEngagementLimit := s.dailyEngagementLimit,
       engagementWindowDays := s.engagementWindowDays,
       safety := c.safety + SettingsMap(s))
  }

  /** Applying the mode table a second time changes nothing. */
  lemma ApplyModeIdempotent(c: Config)
    ensures ApplyMode(ApplyMode(c)) == ApplyMode(c)
  {
    var once := ApplyMode(c);
    assert once.safety + SettingsMap(SettingsOf(c.mode)) == once.safety;
  }

  // ---------------------------------------------------------------------------------------
  // Account health

  /** One platform's entry of `account_health`; `lastAction` is never set. */
  datatype Health = Health(
    score: real,
    lastAction: Option<int>,
    dailyActions: int,
    warnings: seq<string>,
    suspensions: int,
    rateLimitHits: int)

  const FreshHealth := Health(100.0, None, 0, [], 0, 0)

  const HighActivityWarning := "High daily action count"
  const RateLimitWarning := "Rate limit exceeded"

  /** `_initialize_account_health`: a fresh entry per configured platform, in
      configuration order. */
  function InitHealth(platforms: seq<string>): (t: Table<Health>)
    ensures t.Valid()
    ensures forall p :: p in t.entries <==> p in platforms
    ensures forall p :: p in t.entries ==> t.entries[p] == FreshHealth
    decreases |platforms|
  {
    if platforms == [] then Table([], map[])
    else InitHealth(platforms[..|platforms| - 1]).Put(platforms[|platforms| - 1], FreshHealth)
  }

  /** More daily actions than 80% of the daily follow limit. */
  predicate HighActivity(h: Health, followLimit: int)
  {
    h.dailyActions as real > followLimit as real * 0.8
  }

  /** The total deduction one health update makes before flooring. */
  function Penalty(h: Health, followLimit: int): real
  {
    (if HighActivity(h, followLimit) then 5.0 else 0.0) + (if h.rateLimitHits > 0 then 10.0 else 0.0)
  }

  function RealMax(a: real, b: real): real
  {
    if a >= b then a else b
  }

  /** One platform's step of `_update_account_health`: minus 5 with a warning for high
      activity, minus 10 with a warning for rate-limit hits, each floored at 0, then the
      daily action count is reset. Two floored deductions equal one floored deduction of
      their sum, and a score in [0, 100] never rises and stays in range. */
  function Penalised(h: Health, followLimit: int): (r: Health)
    ensures r == h.(score := r.score, dailyActions := 0, warnings := r.warnings)
    ensures r.warnings == h.warnings + (if HighActivity(h, followLimit) then [HighActivityWarning] else [])
                                     + (if h.rateLimitHits > 0 then [RateLimitWarning] else [])
    ensures 0.0 <= h.score ==> r.score == RealMax(h.score - Penalty(h, followLimit), 0.0)
    ensures 0.0 <= h.score <= 100.0 ==> 0.0 <= r.score <= h.score
  {
    var high := HighActivity(h, followLimit);
    var s1 := if high then RealMax(h.score - 5.0, 0.0) else h.score;
    var w1 := if high then h.warnings + [HighActivityWarning] else h.warnings;
    var s2 := if h.rateLimitHits > 0 then RealMax(s1 - 10.0, 0.0) else s1;
    var w2 := if h.rateLimitHits > 0 then w1 + [RateLimitWarning] else w1;
    h.(score := s2, dailyActions := 0, warnings := w2)
  }

  /** Every entry's score lies in [0, 100]. */
  ghost predicate ScoresInRange(t: Table<Health>)
  {
    forall p :: p in t.entries ==> 0.0 <= t.entries[p].score <= 100.0
  }

  /** `_update_account_health`: every configured platform, in order, takes one penalty step
      (a platform listed twice takes two). Each configured platform must have an entry, as
      the source indexes the dictionary directly. */
  function UpdateAccountHealth(t: Table<Health>, platforms: seq<string>, followLimit: int): (r: Table<Health>)
    requires forall i :: 0 <= i < |platforms| ==> platforms[i] in t.entries
    ensures r.order == t.order && r.entries.Keys == t.entries.Keys
    ensures forall p :: p in t.entries && p !in platforms ==> r.entries[p] == t.entries[p]
    ensures t.Valid() ==> r.Valid()
    decreases |platforms|
  {
    if platforms == [] then t
    else
      var prev := UpdateAccountHealth(t, platforms[..|platforms| - 1], followLimit);
      var p := platforms[|platforms| - 1];
      Table(prev.order, prev.entries[p := Penalised(prev.entries[p], followLimit)])
  }

  /** An entry after `m` penalty steps. */
  function PenalisedTimes(h: Health, m: nat, followLimit: int): Health
  {
    if m == 0 then h else Penalised(PenalisedTimes(h, m - 1, followLimit), followLimit)
  }

  /** Every entry takes one penalty step per listing of its platform, and an entry whose
      platform is not configured is left alone. */
  lemma {:induction false} HealthPenalties(t: Table<Health>, platforms: seq<string>, followLimit: int)
    requires forall i :: 0 <= i < |platforms| ==> platforms[i] in t.entries
    ensures var r := UpdateAccountHealth(t, platforms, followLimit);
            forall p :: p in t.entries ==>
              r.entries[p] == PenalisedTimes(t.entries[p], multiset(platforms)[p], followLimit)
    decreases |platforms|
  {
    if platforms != [] {
      var init := platforms[..|platforms| - 1];
      var last := platforms[|platforms| - 1];
      assert platforms == init + [last];
      assert multiset(platforms) == multiset(init) + multiset{last};
      HealthPenalties(t, init, followLimit);
      var prev := UpdateAccountHealth(t, init, followLimit);
      var r := UpdateAccountHealth(t, platforms, followLimit);
      assert r.entries == prev.entries[last := Penalised(prev.entries[last], followLimit)];
      forall p | p in t.entries
        ensures r.entries[p] == PenalisedTimes(t.entries[p], multiset(platforms)[p], followLimit)
      {
        if p == last {
          assert multiset(platforms)[p] == multiset(init)[p] + 1;
        } else {
          assert multiset(platforms)[p] == multiset(init)[p];
        }
      }
    }
  }

  /** A platform configured once loses 5 points with a high-activity warning when its
      daily actions exceed 80% of the daily follow limit, then 10 points with a rate-limit
      warning when it hit a rate limit, never going below 0, and has its daily actions
      reset; nothing else in its entry changes. */
  lemma HealthPenaltyOnce(t: Table<Health>, platforms: seq<string>, followLimit: int, p: string)
    requires forall i :: 0 <= i < |platforms| ==> platforms[i] in t.entries
    requires p in t.entries && multiset(platforms)[p] == 1 && 0.0 <= t.entries[p].score
    ensures var h := t.entries[p];
            var r := UpdateAccountHealth(t, platforms, followLimit).entries[p];
            && r == h.(score := r.score, dailyActions := 0, warnings := r.warnings)
            && r.score == RealMax(h.score - Penalty(h, followLimit), 0.0)
            && r.warnings == h.warnings + (if HighActivity(h, followLimit) then [HighActivityWarning] else [])
                                        + (if h.rateLimitHits > 0 then [RateLimitWarning] else [])
  {
    HealthPenalties(t, platforms, followLimit);
    assert PenalisedTimes(t.entries[p], 1, followLimit) == Penalised(t.entries[p], followLimit);
  }

  /** Every configured platform comes out with its daily action count reset. */
  lemma {:induction false} HealthDailyReset(t: Table<Health>, platforms: seq<string>, followLimit: int)
    requires forall i :: 0 <= i < |platforms| ==> platforms[i] in t.entries
    ensures var r := UpdateAccountHealth(t, platforms, followLimit);
            forall p :: p in platforms ==> r.entries[p].dailyActions == 0
    decreases |platforms|
  {
    if platforms != [] {
      var init := platforms[..|platforms| - 1];
      HealthDailyReset(t, init, followLimit);
      assert forall p :: p in platforms ==> p in init || p == platforms[|platforms| - 1];
    }
  }

  /** A score in [0, 100] never rises and stays in range. */
  lemma {:induction false} HealthScoresNeverRise(t: Table<Health>, platforms: seq<string>, followLimit: int)
    requires forall i :: 0 <= i < |platforms| ==> platforms[i] in t.entries
    ensures var r := UpdateAccountHealth(t, platforms, followLimit);
            forall p :: p in t.entries && 0.0 <= t.entries[p].score <= 100.0 ==>
              0.0 <= r.entries[p].score <= t.entries[p].score
    decreases |platforms|
  {
    if platforms != [] {
      HealthScoresNeverRise(t, platforms[..|platforms| - 1], followLimit);
    }
  }

  /** Nothing in the builder raises `daily_actions` or `rate_limit_hits`, so with a
      non-negative follow limit a table of fresh entries comes out of the update unchanged. */
  lemma {:induction false} FreshHealthUnchanged(t: Table<Health>, platforms: seq<string>, followLimit: int)
    requires forall i :: 0 <= i < |platforms| ==> platforms[i] in t.entries
    requires forall p :: p in t.entries ==> t.entries[p] == FreshHealth
    requires followLimit >= 0
    ensures UpdateAccountHealth(t, platforms, followLimit) == t
    decreases |platforms|
  {
    if platforms != [] {
      var init := platforms[..|platforms| - 1];
      FreshHealthUnchanged(t, init, followLimit);
      var p := platforms[|platforms| - 1];
      assert Penalised(FreshHealth, followLimit) == FreshHealth;
      assert t.entries[p := FreshHealth] == t.entries;
    }
  }

  // ---------------------------------------------------------------------------------------
  // Builder statistics

  datatype BuilderStats = BuilderStats(
    totalFollows: nat,
    totalUnfollows: nat,
    totalEngagements: nat,
    totalFollowersGained: nat,
    engagementRate: real,
    growthRate: real,
    accountHealthScore: real)

  const FreshStats := BuilderStats(0, 0, 0, 0, 0.0, 0.0, 100.0)

  /** The `health_score` of each entry, in order. */
  function Scores(hs: seq<Health>): (r: seq<real>)
    ensures |r| == |hs|
    ensures forall i :: 0 <= i < |hs| ==> r[i] == hs[i].score
  {
    if hs == [] then [] else [hs[0].score] + Scores(hs[1..])
  }

  lemma MeanBounds(sum: real, n: real, hi: real)
    requires n >= 1.0 && 0.0 <= sum <= n * hi
    ensures 0.0 <= sum / n <= hi
  {
    QuotientBounds(sum, n);
  }

  /** The arithmetic mean of the scores, or 100 when there are none; a mean of scores in
      [0, 100] lies in [0, 100]. */
  function MeanScore(scores: seq<real>): (r: real)
    ensures scores == [] ==> r == 100.0
    ensures scores != [] ==> r * (|scores| as real) == SumReals(scores)
    ensures (forall i :: 0 <= i < |scores| ==> 0.0 <= scores[i] <= 100.0) ==> 0.0 <= r <= 100.0
  {
    if scores == [] then 100.0
    else
      var n := |scores| as real;
      var r := SumReals(scores) / n;
      if forall i :: 0 <= i < |scores| ==> 0.0 <= scores[i] <= 100.0 then
        SumRealsBounds(scores, 0.0, 100.0);
        MeanBounds(SumReals(scores), n, 100.0);
        r
      else r
  }

  /** `_update_builder_stats`: the engagement share of all actions, followers gained per
      follow, and the mean platform health (100 without platforms); counters unchanged. */
  function UpdateStats(s: BuilderStats, t: Table<Health>): (r: BuilderStats)
    ensures r == s.(engagementRate := r.engagementRate, growthRate := r.growthRate,
                    accountHealthScore := r.accountHealthScore)
    ensures 0.0 <= r.engagementRate <= 1.0 && r.growthRate >= 0.0
    ensures r.accountHealthScore == MeanScore(Scores(t.Values()))
    ensures t.Valid() && ScoresInRange(t) ==> 0.0 <= r.accountHealthScore <= 100.0
  {
    var scores := Scores(t.Values());
    var mean := MeanScore(scores);
    s.(engagementRate := Ratio(s.totalEngagements, s.totalFollows + s.totalEngagements),
       growthRate := Ratio(s.totalFollowersGained, s.totalFollows),
       accountHealthScore := mean)
  }

  /** The engagement rate is the engagement share of all actions (of one, without actions). */
  lemma UpdateStatsEngagementRate(s: BuilderStats, t: Table<Health>)
    ensures UpdateStats(s, t).engagementRate * (Max(s.totalFollows + s.totalEngagements, 1) as real)
            == s.totalEngagements as real
  {
  }

  /** The growth rate is the followers gained per follow (per one, without follows). */
  lemma UpdateStatsGrowthRate(s: BuilderStats, t: Table<Health>)
    ensures UpdateStats(s, t).growthRate * (Max(s.totalFollows, 1) as real) == s.totalFollowersGained as real
  {
  }

  // ---------------------------------------------------------------------------------------
  // The builder

  /** The keys of `target_audience` that reach a campaign. */
  datatype Audience = Audience(
    minFollowers: Option<int>,
    maxFollowers: Option<int>,
    minEngagementRate: Option<real>)

  /** A stored strategy; `createdAt` is the clock reading in seconds. */
  datatype Strategy = Strategy(
    id: string,
    niche: string,
    audience: Audience,
    followCampaigns: seq<string>,
    engagementCampaigns: seq<string>,
    communityId: string,
    createdAt: int,
    status: string)

  datatype Builder = Builder(
    config: Config,
    follow: F.FollowState,
    engagement: E.EngagementState,
    ledger: G.Ledger,
    stats: BuilderStats,
    strategies: map<string, Strategy>,
    health: Table<Health>)

  /** What the builder keeps true: every configured platform has a health entry, every
      score lies in [0, 100], and so does the average. */
  ghost predicate Wf(b: Builder)
  {
    && b.health.Valid()
    && (forall p :: p in b.config.platforms ==> p in b.health.entries)
    && ScoresInRange(b.health)
    && 0.0 <= b.stats.accountHealthScore <= 100.0
  }

  /** `UltimateFollowBuilder(config)`: the builder around a new follow automation, a new
      engagement automation and a new ledger. */
  function NewBuilder(config: Config): Builder
  {
    WithAutomata(config, F.Initial(), E.Initial(), G.Initial())
  }

  /** The constructor's work around given automata: the mode table applied to the
      configuration, a fresh health entry per configured platform, fresh statistics and no
      strategies. */
  function WithAutomata(config: Config, fs: F.FollowState, es: E.EngagementState, l: G.Ledger): (b: Builder)
    ensures b.config == ApplyMode(config)
    ensures forall p :: p in b.health.entries <==> p in config.platforms
    ensures forall p :: p in b.health.entries ==> b.health.entries[p] == FreshHealth
    ensures b.stats == FreshStats && b.strategies == map[]
    ensures b.follow == fs && b.engagement == es && b.ledger == l
    ensures b.health.Valid()
  {
    Builder(ApplyMode(config), fs, es, l, FreshStats, map[], InitHealth(config.platforms))
  }

  /** A new builder keeps the builder invariant. */
  lemma NewBuilderWf(config: Config, fs: F.FollowState, es: E.EngagementState, l: G.Ledger)
    ensures Wf(WithAutomata(config, fs, es, l))
  {
    var b := WithAutomata(config, fs, es, l);
    assert forall p :: p in b.config.platforms ==> p in config.platforms;
  }

  // ---------------------------------------------------------------------------------------
  // Strategy creation

  function OrDefault<T>(o: Option<T>, d: T): T
  {
    if o.Some? then o.value else d
  }

  function FollowCriteria(a: Audience): F.Criteria
  {
    F.Criteria(Some(OrDefault(a.minFollowers, 1000)), Some(OrDefault(a.maxFollowers, 100000)),
               Some(OrDefault(a.minEngagementRate, 0.02)), None)
  }

  function EngagementCriteria(a: Audience): E.Criteria
  {
    E.Criteria(Some(OrDefault(a.minFollowers, 1000)), Some(OrDefault(a.maxFollowers, 100000)),
               Some(OrDefault(a.minEngagementRate, 0.02)), Some(24.0))
  }

  /** The id `create_follow_campaign` gives a campaign created at `now`. */
  function FollowCampaignId(platform: string, now: int): string
  {
    "campaign-" + platform + ("-" + Decimal(now))
  }

  /** The id `create_engagement_campaign` gives a campaign created at `now`. */
  function EngagementCampaignId(platform: string, now: int): string
  {
    "engagement-" + platform + ("-" + Decimal(now))
  }

  lemma InfixCancel(prefix: string, a: string, b: string, suffix: string)
    requires prefix + a + suffix == prefix + b + suffix
    ensures a == b
  {
    var s := prefix + a + suffix;
    assert |a| == |b|;
    assert a == s[|prefix|..|prefix| + |a|];
    assert b == (prefix + b + suffix)[|prefix|..|prefix| + |b|];
  }

  /** Within one clock second, campaigns for different platforms get different ids. */
  lemma CampaignIdsInjective(a: string, b: string, now: int)
    ensures FollowCampaignId(a, now) == FollowCampaignId(b, now) ==> a == b
    ensures EngagementCampaignId(a, now) == EngagementCampaignId(b, now) ==> a == b
  {
    if FollowCampaignId(a, now) == FollowCampaignId(b, now) {
      InfixCancel("campaign-", a, b, "-" + Decimal(now));
    }
    if EngagementCampaignId(a, now) == EngagementCampaignId(b, now) {
      InfixCancel("engagement-", a, b, "-" + Decimal(now));
    }
  }

  /** The follow campaign a strategy creates for a known platform. */
  function NicheFollowCampaign(platformName: string, p: F.Platform, niche: string, a: Audience,
                               c: Config, now: int): F.FollowCampaign
  {
    F.FollowCampaign(FollowCampaignId(platformName, now),
                     Title(niche) + " Follow Campaign - " + Title(platformName), p, F.Niche,
                     FollowCriteria(a), c.dailyFollowLimit, c.dailyUnfollowLimit,
                     c.engagementWindowDays, true, 0, 0, 0, now)
  }

  const StrategyTypes: seq<E.EngagementType> := [E.Like, E.Comment, E.StoryView]

  /** The engagement campaign a strategy creates for a platform. */
  function NicheEngagementCampaign(platformName: string, niche: string, a: Audience, c: Config,
                                   now: int): E.EngagementCampaign
  {
    E.EngagementCampaign(EngagementCampaignId(platformName, now),
                         Title(niche) + " Engagement Campaign - " + Title(platformName),
                         platformName, StrategyTypes, EngagementCriteria(a), c.dailyEngagementLimit,
                         true, 0, 0, now)
  }

  /** The follow state after the follow-campaign loop, the ids created, and the first
      platform name `PlatformType` rejected, if any. */
  datatype FollowCreation = FollowCreation(state: F.FollowState, ids: seq<string>, failed: Option<string>)

  /** The follow-campaign loop of `create_growth_strategy`: one NICHE campaign per platform,
      in order, until a name that is not a platform raises; the campaigns made before it
      stay. */
  function CreateFollowCampaigns(fs: F.FollowState, platforms: seq<string>, niche: string, a: Audience,
                                 c: Config, now: int): (r: FollowCreation)
    ensures |r.ids| <= |platforms|
    ensures r.state.actions == fs.actions && r.state.targetAccounts == fs.targetAccounts
    decreases |platforms|
  {
    if platforms == [] then FollowCreation(fs, [], None)
    else
      var prev := CreateFollowCampaigns(fs, platforms[..|platforms| - 1], niche, a, c, now);
      if prev.failed.Some? then prev
      else
        var name := platforms[|platforms| - 1];
        match F.ParsePlatform(name)
        case None => FollowCreation(prev.state, prev.ids, Some(name))
        case Some(p) =>
          var id := FollowCampaignId(name, now);
          FollowCreation(F.CreateCampaign(prev.state, id, Title(niche) + " Follow Campaign - " + Title(name), p,
                                          F.Niche, FollowCriteria(a), c.dailyFollowLimit,
                                          c.dailyUnfollowLimit, c.engagementWindowDays, now),
                         prev.ids + [id], None)
  }

  /** How many platform names, from the front, the follow-campaign loop gets through: all of
      them, or up to the first that does not parse. */
  function FollowReach(ps: seq<string>): (k: nat)
    ensures k <= |ps|
    ensures forall i :: 0 <= i < k ==> F.ParsePlatform(ps[i]).Some?
    ensures k < |ps| ==> F.ParsePlatform(ps[k]).None?
  {
    if ps == [] then 0
    else
      var init := ps[..|ps| - 1];
      var k := FollowReach(init);
      assert forall i :: 0 <= i < |init| ==> init[i] == ps[i];
      if k == |init| && F.ParsePlatform(ps[|ps| - 1]).Some? then |ps| else k
  }

  /** The follow-campaign ids for `ps`, in order. */
  function FollowIdsFor(ps: seq<string>, now: int): (r: seq<string>)
    ensures |r| == |ps|
    ensures forall i :: 0 <= i < |ps| ==> r[i] == FollowCampaignId(ps[i], now)
  {
    if ps == [] then [] else FollowIdsFor(ps[..|ps| - 1], now) + [FollowCampaignId(ps[|ps| - 1], now)]
  }

  /** `m` with the niche follow campaign of each platform of `ps` written in turn (names that
      do not parse are passed over). */
  function NicheFollowCampaigns(m: map<string, F.FollowCampaign>, ps: seq<string>, niche: string, a: Audience,
                                c: Config, now: int): map<string, F.FollowCampaign>
  {
    if ps == [] then m
    else
      var prev := NicheFollowCampaigns(m, ps[..|ps| - 1], niche, a, c, now);
      var name := ps[|ps| - 1];
      match F.ParsePlatform(name)
      case None => prev
      case Some(p) => prev[FollowCampaignId(name, now) := NicheFollowCampaign(name, p, niche, a, c, now)]
  }

  /** The follow-campaign loop, stated by equations: it gets through `FollowReach` names,
      reports the one it stops at, and leaves the ids and campaigns of the names it got
      through. */
  lemma {:induction false} FollowCreationEquations(fs: F.FollowState, platforms: seq<string>, niche: string,
                                                   a: Audience, c: Config, now: int)
    ensures var r := CreateFollowCampaigns(fs, platforms, niche, a, c, now);
      && |r.ids| == FollowReach(platforms)
      && (r.failed.None? <==> |r.ids| == |platforms|)
      && (r.failed.Some? ==> r.failed == Some(platforms[|r.ids|]))
      && r.ids == FollowIdsFor(platforms[..|r.ids|], now)
      && r.state == fs.(campaigns := NicheFollowCampaigns(fs.campaigns, platforms[..|r.ids|], niche, a, c, now))
    decreases |platforms|
  {
    if platforms == [] {
      assert platforms[..0] == [];
    } else {
      var init := platforms[..|platforms| - 1];
      FollowCreationEquations(fs, init, niche, a, c, now);
      var prev := CreateFollowCampaigns(fs, init, niche, a, c, now);
      var name := platforms[|platforms| - 1];
      if prev.failed.Some? {
        assert platforms[..|prev.ids|] == init[..|prev.ids|];
        assert platforms[|prev.ids|] == init[|prev.ids|];
      } else if F.ParsePlatform(name).None? {
        assert platforms[..|prev.ids|] == init[..|prev.ids|] == init;
      } else {
        assert init[..|prev.ids|] == init && platforms[..|platforms|] == platforms;
      }
    }
  }

  /** The campaign written for each parsed platform of `ps` is there, under its id. */
  lemma {:induction false} NicheFollowCampaignsContent(m: map<string, F.FollowCampaign>, ps: seq<string>, niche: string,
                                                       a: Audience, c: Config, now: int)
    ensures var w := NicheFollowCampaigns(m, ps, niche, a, c, now);
      forall i :: 0 <= i < |ps| && F.ParsePlatform(ps[i]).Some? ==>
        FollowCampaignId(ps[i], now) in w
        && w[FollowCampaignId(ps[i], now)] == NicheFollowCampaign(ps[i], F.ParsePlatform(ps[i]).value, niche, a, c, now)
  {
    if ps != [] {
      var init := ps[..|ps| - 1];
      var last := ps[|ps| - 1];
      NicheFollowCampaignsContent(m, init, niche, a, c, now);
      var prev := NicheFollowCampaigns(m, init, niche, a, c, now);
      var w := NicheFollowCampaigns(m, ps, niche, a, c, now);
      forall i | 0 <= i < |ps| && F.ParsePlatform(ps[i]).Some?
        ensures FollowCampaignId(ps[i], now) in w
        ensures w[FollowCampaignId(ps[i], now)] == NicheFollowCampaign(ps[i], F.ParsePlatform(ps[i]).value, niche, a, c, now)
      {
        if i < |ps| - 1 {
          assert ps[i] == init[i];
          var k := FollowCampaignId(ps[i], now);
          assert k in prev && prev[k] == NicheFollowCampaign(ps[i], F.ParsePlatform(ps[i]).value, niche, a, c, now);
          if F.ParsePlatform(last).Some? {
            CampaignIdsInjective(ps[i], last, now);
          }
        }
      }
    }
  }

  /** Only the ids of `ps` are written. */
  lemma {:induction false} NicheFollowCampaignsFrame(m: map<string, F.FollowCampaign>, ps: seq<string>, niche: string,
                                                     a: Audience, c: Config, now: int)
    ensures var w := NicheFollowCampaigns(m, ps, niche, a, c, now);
      && (forall k :: k in w ==> k in m || k in FollowIdsFor(ps, now))
      && (forall k :: k in m && k !in FollowIdsFor(ps, now) ==> k in w && w[k] == m[k])
  {
    if ps != [] {
      var init := ps[..|ps| - 1];
      NicheFollowCampaignsFrame(m, init, niche, a, c, now);
      assert FollowIdsFor(ps, now) == FollowIdsFor(init, now) + [FollowCampaignId(ps[|ps| - 1], now)];
    }
  }

  /** The follow-campaign loop creates one campaign per platform, in order, stopping at the
      first name that is not a platform, which it reports. */
  lemma FollowCreationShape(fs: F.FollowState, platforms: seq<string>, niche: string,
                            a: Audience, c: Config, now: int)
    ensures var r := CreateFollowCampaigns(fs, platforms, niche, a, c, now);
      && (r.failed.None? ==> |r.ids| == |platforms|)
      && (r.failed.Some? ==>
            |r.ids| < |platforms| && r.failed.value == platforms[|r.ids|] && F.ParsePlatform(r.failed.value).None?)
      && (forall i :: 0 <= i < |r.ids| ==> F.ParsePlatform(platforms[i]).Some?)
      && (forall i :: 0 <= i < |r.ids| ==> r.ids[i] == FollowCampaignId(platforms[i], now))
  {
    FollowCreationEquations(fs, platforms, niche, a, c, now);
  }

  /** The campaigns the follow-campaign loop leaves behind: each created id holds the
      campaign made for its platform (a repeated platform rewrites the same campaign). */
  lemma FollowCreationContent(fs: F.FollowState, platforms: seq<string>, niche: string,
                              a: Audience, c: Config, now: int)
    ensures var r := CreateFollowCampaigns(fs, platforms, niche, a, c, now);
      && (forall i :: 0 <= i < |r.ids| ==> (F.ParsePlatform(platforms[i]).Some? && r.ids[i] in r.state.campaigns &&
            r.state.campaigns[r.ids[i]] == NicheFollowCampaign(platforms[i], F.ParsePlatform(platforms[i]).value, niche, a, c, now)))
  {
    var r := CreateFollowCampaigns(fs, platforms, niche, a, c, now);
    FollowCreationEquations(fs, platforms, niche, a, c, now);
    var done := platforms[..|r.ids|];
    NicheFollowCampaignsContent(fs.campaigns, done, niche, a, c, now);
    assert forall i :: 0 <= i < |r.ids| ==> done[i] == platforms[i];
  }

  /** The follow-campaign loop touches no campaign but the ones it creates. */
  lemma FollowCreationFrame(fs: F.FollowState, platforms: seq<string>, niche: string,
                            a: Audience, c: Config, now: int)
    ensures var r := CreateFollowCampaigns(fs, platforms, niche, a, c, now);
      && (forall k :: k in r.state.campaigns ==> k in fs.campaigns || k in r.ids)
      && (forall k :: k in fs.campaigns && k !in r.ids ==> k in r.state.campaigns && r.state.campaigns[k] == fs.campaigns[k])
  {
    var r := CreateFollowCampaigns(fs, platforms, niche, a, c, now);
    FollowCreationEquations(fs, platforms, niche, a, c, now);
    NicheFollowCampaignsFrame(fs.campaigns, platforms[..|r.ids|], niche, a, c, now);
  }

  datatype EngagementCreation = EngagementCreation(state: E.EngagementState, ids: seq<string>)

  /** The engagement-campaign loop of `create_growth_strategy`: one LIKE/COMMENT/STORY_VIEW
      campaign per platform name; any name is accepted. */
  function CreateEngagementCampaigns(es: E.EngagementState, platforms: seq<string>, niche: string, a: Audience,
                                     c: Config, now: int): (r: EngagementCreation)
    ensures |r.ids| == |platforms|
    ensures forall i :: 0 <= i < |r.ids| ==> r.ids[i] == EngagementCampaignId(platforms[i], now)
    ensures forall i :: 0 <= i < |r.ids| ==> r.ids[i] in r.state.campaigns
    ensures forall i :: 0 <= i < |r.ids| ==> r.state.campaigns[r.ids[i]] == NicheEngagementCampaign(platforms[i], niche, a, c, now)
    ensures forall k :: k in r.state.campaigns ==> k in es.campaigns || k in r.ids
    ensures forall k :: k in es.campaigns && k !in r.ids ==> k in r.state.campaigns && r.state.campaigns[k] == es.campaigns[k]
    ensures r.state.actions == es.actions && r.state.templates == es.templates && r.state.bestHours == es.bestHours
    decreases |platforms|
  {
    if platforms == [] then EngagementCreation(es, [])
    else
      var prev := CreateEngagementCampaigns(es, platforms[..|platforms| - 1], niche, a, c, now);
      var name := platforms[|platforms| - 1];
      var id := EngagementCampaignId(name, now);
      var next := E.CreateCampaign(prev.state, id, Title(niche) + " Engagement Campaign - " + Title(name), name,
                                   StrategyTypes, EngagementCriteria(a), c.dailyEngagementLimit, now);
      EngagementCreationStep(prev, platforms, niche, a, c, now, next);
      EngagementCreation(next, prev.ids + [id])
  }

  lemma EngagementCreationStep(prev: EngagementCreation, platforms: seq<string>, niche: string, a: Audience,
                               c: Config, now: int, next: E.EngagementState)
    requires |platforms| > 0 && |prev.ids| == |platforms| - 1
    requires forall i :: 0 <= i < |prev.ids| ==> prev.ids[i] == EngagementCampaignId(platforms[i], now)
    requires forall i :: 0 <= i < |prev.ids| ==> (prev.ids[i] in prev.state.campaigns &&
      prev.state.campaigns[prev.ids[i]] == NicheEngagementCampaign(platforms[i], niche, a, c, now))
    requires next == prev.state.(campaigns := prev.state.campaigns[EngagementCampaignId(platforms[|platforms| - 1], now) :=
      NicheEngagementCampaign(platforms[|platforms| - 1], niche, a, c, now)])
    ensures var ids := prev.ids + [EngagementCampaignId(platforms[|platforms| - 1], now)];
      forall i :: 0 <= i < |ids| ==> (ids[i] in next.campaigns &&
        next.campaigns[ids[i]] == NicheEngagementCampaign(platforms[i], niche, a, c, now))
  {
    var last := platforms[|platforms| - 1];
    forall i | 0 <= i < |prev.ids|
      ensures next.campaigns[prev.ids[i]] == NicheEngagementCampaign(platforms[i], niche, a, c, now)
    {
      CampaignIdsInjective(platforms[i], last, now);
    }
  }

  /** The builder after an operation, with what the operation returned or raised. */
  datatype Step = Step(builder: Builder, result: Result<string>)

  /** The template a strategy's community starts with. Its third step is a plain string, not
      a formatted one, so it keeps the braces of `{niche}`. */
  function NicheTemplate(niche: string): (t: map<string, G.Value>)
    ensures t.Keys == {"name", "steps"} && t["name"] == G.Str(Title(niche) + " Growth Template")
    ensures t["steps"] == G.List([G.Str("Identify " + niche + " target audience"), G.Str("Analyze competitor strategies"),
                                  G.Str("Optimize content for {niche}"), G.Str("Track growth metrics")])
  {
    G.StepsTemplate(Title(niche) + " Growth Template",
                    ["Identify " + niche + " target audience", "Analyze competitor strategies",
                     "Optimize content for {niche}", "Track growth metrics"])
  }

  /** `create_growth_strategy` at clock `now`, with `suffix` standing for the random hex of
      the community id. An unknown platform name raises after the follow campaigns of the
      platforms before it were created; otherwise the strategy gets one follow and one
      engagement campaign per platform and a new niche-finder community. */
  function CreateGrowthStrategy(b: Builder, niche: string, a: Audience, now: int, suffix: string): (r: Step)
    ensures r.builder.config == b.config && r.builder.stats == b.stats && r.builder.health == b.health
    ensures r.result.Err? <==> exists i :: 0 <= i < |b.config.platforms| && F.ParsePlatform(b.config.platforms[i]).None?
    ensures r.result.Err? ==> r.builder == b.(follow := r.builder.follow)
    ensures r.result.Ok? ==>
      && r.result.value == "strategy-" + niche + "-" + Decimal(now)
      && r.result.value in r.builder.strategies
      && r.builder.strategies == b.strategies[r.result.value := r.builder.strategies[r.result.value]]
    ensures Wf(b) ==> Wf(r.builder)
  {
    var fc := CreateFollowCampaigns(b.follow, b.config.platforms, niche, a, b.config, now);
    FollowCreationShape(b.follow, b.config.platforms, niche, a, b.config, now);
    if fc.failed.Some? then
      Step(b.(follow := fc.state), Err(UnknownPlatform(fc.failed.value)))
    else
      var ec := CreateEngagementCampaigns(b.engagement, b.config.platforms, niche, a, b.config, now);
      var community := G.CreateMicroCommunity(b.ledger, "niche_finder-" + suffix, Title(niche) + " Growth Community",
                                              G.NicheFinder, "Automated growth community for " + niche + " niche",
                                              [NicheTemplate(niche)]);
      var id := "strategy-" + niche + "-" + Decimal(now);
      var st := Strategy(id, niche, a, fc.ids, ec.ids, community.value, now, "active");
      Step(b.(follow := fc.state, engagement := ec.state, ledger := community.ledger,
              strategies := b.strategies[id := st]), Ok(id))
  }

  /** What a successful `create_growth_strategy` stores: one follow campaign per configured
      platform, created with the NICHE targeting and the configured limits, reachable from
      the stored active strategy. */
  lemma CreatedStrategyFollows(b: Builder, niche: string, a: Audience, now: int, suffix: string)
    requires CreateGrowthStrategy(b, niche, a, now, suffix).result.Ok?
    ensures var r := CreateGrowthStrategy(b, niche, a, now, suffix);
      var ps := b.config.platforms;
      && r.result.value in r.builder.strategies
      && var st := r.builder.strategies[r.result.value];
      && st.status == "active" && st.niche == niche && st.createdAt == now
      && |st.followCampaigns| == |ps|
      && (forall i :: 0 <= i < |ps| ==>
            && F.ParsePlatform(ps[i]).Some?
            && st.followCampaigns[i] in r.builder.follow.campaigns
            && r.builder.follow.campaigns[st.followCampaigns[i]].platform == F.ParsePlatform(ps[i]).value
            && r.builder.follow.campaigns[st.followCampaigns[i]].targetingType == F.Niche
            && r.builder.follow.campaigns[st.followCampaigns[i]].dailyFollowLimit == b.config.dailyFollowLimit)
  {
    var fc := CreateFollowCampaigns(b.follow, b.config.platforms, niche, a, b.config, now);
    FollowCreationContent(b.follow, b.config.platforms, niche, a, b.config, now);
    FollowCreationShape(b.follow, b.config.platforms, niche, a, b.config, now);
  }

  /** ... and one LIKE/COMMENT/STORY_VIEW engagement campaign per platform and a new empty
      community. */
  lemma CreatedStrategyEngagement(b: Builder, niche: string, a: Audience, now: int, suffix: string)
    requires CreateGrowthStrategy(b, niche, a, now, suffix).result.Ok?
    ensures var r := CreateGrowthStrategy(b, niche, a, now, suffix);
      var ps := b.config.platforms;
      && r.result.value in r.builder.strategies
      && var st := r.builder.strategies[r.result.value];
      && |st.engagementCampaigns| == |ps|
      && (forall i :: 0 <= i < |ps| ==>
            && st.engagementCampaigns[i] in r.builder.engagement.campaigns
            && r.builder.engagement.campaigns[st.engagementCampaigns[i]].platform == ps[i]
            && r.builder.engagement.campaigns[st.engagementCampaigns[i]].types == [E.Like, E.Comment, E.StoryView])
      && st.communityId in r.builder.ledger.communities.entries
      && r.builder.ledger.communities.entries[st.communityId].members == []
      && r.builder.ledger.communities.entries[st.communityId].templates == [NicheTemplate(niche)]
      && r.builder.ledger.communities.entries[st.communityId].engagementScore == 0.0
  {
  }

  /** A strategy naming a platform outside `PlatformType` is never stored, but the follow
      campaigns of the platforms before it are. */
  lemma UnknownPlatformKeepsEarlierCampaigns(b: Builder, niche: string, a: Audience, now: int, suffix: string, k: nat)
    requires k < |b.config.platforms| && F.ParsePlatform(b.config.platforms[k]).None?
    requires forall j :: 0 <= j < k ==> F.ParsePlatform(b.config.platforms[j]).Some?
    ensures var r := CreateGrowthStrategy(b, niche, a, now, suffix);
      && r.result == Err(UnknownPlatform(b.config.platforms[k]))
      && r.builder.strategies == b.strategies
      && forall j :: 0 <= j < k ==> FollowCampaignId(b.config.platforms[j], now) in r.builder.follow.campaigns
  {
    var fc := CreateFollowCampaigns(b.follow, b.config.platforms, niche, a, b.config, now);
    FollowCreationContent(b.follow, b.config.platforms, niche, a, b.config, now);
    FollowCreationShape(b.follow, b.config.platforms, niche, a, b.config, now);
    assert fc.failed.Some?;
    assert |fc.ids| == k;
    forall j | 0 <= j < k
      ensures FollowCampaignId(b.config.platforms[j], now) in fc.state.campaigns
    {
      assert fc.ids[j] in fc.state.campaigns;
    }
  }

  // ---------------------------------------------------------------------------------------
  // Strategy execution

  /** What one follow campaign's run discovers and draws. */
  datatype FollowInput = FollowInput(candidates: seq<F.TargetAccount>, now: int, draws: nat -> F.Draw)

  /** What one engagement campaign's run discovers and draws. */
  datatype EngagementInput = EngagementInput(candidates: seq<E.Target>, now: int, draws: nat -> E.Draw)

  /** An entry of `follow_results`: the run's report, or `{"error": ...}`. */
  datatype FollowResult = FollowRan(report: F.RunReport) | FollowFailed(error: Error)

  /** An entry of `engagement_results`. */
  datatype EngagementResult = EngagementRan(report: E.RunReport) | EngagementFailed(error: Error)

  /** The successful follows the reports of `rs` count. */
  function FollowSuccesses(rs: seq<FollowResult>): nat
  {
    if rs == [] then 0
    else FollowSuccesses(rs[..|rs| - 1]) + (if rs[|rs| - 1].FollowRan? then rs[|rs| - 1].report.successfulActions else 0)
  }

  /** The successful engagements the reports of `rs` count. */
  function EngagementSuccesses(rs: seq<EngagementResult>): nat
  {
    if rs == [] then 0
    else EngagementSuccesses(rs[..|rs| - 1]) + (if rs[|rs| - 1].EngagementRan? then rs[|rs| - 1].report.successful else 0)
  }

  datatype GrowthMetrics = GrowthMetrics(
    totalFollows: int,
    estimatedFollowersGained: int,
    totalEngagements: int,
    engagementRate: real,
    growthRate: real,
    strategyEfficiency: real)

  /** Python's `int(t * rate)` for a rate in [0, 1]: the truncated product, at most `t`. */
  function Scaled(t: nat, rate: real): (g: nat)
    requires 0.0 <= rate <= 1.0
    ensures g <= t
  {
    assert 0.0 <= (t as real) * rate <= t as real;
    ((t as real) * rate).Floor
  }

  /** `_calculate_growth_metrics` over the successful-follow counts and successful-engagement
      counts of a strategy's recorded results, with `followBackRate` the random draw from
      [0.1, 0.3]. The estimated gain is the truncated product, never more than the follows. */
  function GrowthMetricsOf(followCounts: seq<nat>, engagementCounts: seq<nat>, followBackRate: real): (g: GrowthMetrics)
    requires 0.1 <= followBackRate <= 0.3
    ensures g.totalFollows == SumInts(followCounts) && g.totalEngagements == SumInts(engagementCounts)
    ensures 0 <= g.estimatedFollowersGained <= g.totalFollows
    ensures 0.0 <= g.growthRate <= 1.0
  {
    NatSum(followCounts);
    NatSum(engagementCounts);
    var follows: nat := SumInts(followCounts);
    var engagements: nat := SumInts(engagementCounts);
    var gained := Scaled(follows, followBackRate);
    var rate := Ratio(engagements, follows);
    GrowthMetrics(follows, gained, engagements, rate, Ratio(gained, follows), rate * followBackRate)
  }

  /** The rates of the growth metrics: engagements per follow, and efficiency as the
      engagement rate scaled by the follow-back rate... */
  lemma GrowthMetricsEngagementRate(followCounts: seq<nat>, engagementCounts: seq<nat>, followBackRate: real)
    requires 0.1 <= followBackRate <= 0.3
    ensures var g := GrowthMetricsOf(followCounts, engagementCounts, followBackRate);
      && g.engagementRate * (Max(g.totalFollows, 1) as real) == g.totalEngagements as real
      && g.strategyEfficiency == g.engagementRate * followBackRate
  {
    NatSum(followCounts);
    NatSum(engagementCounts);
  }

  /** ... and the estimated gain per follow. */
  lemma GrowthMetricsGrowthRate(followCounts: seq<nat>, engagementCounts: seq<nat>, followBackRate: real)
    requires 0.1 <= followBackRate <= 0.3
    ensures var g := GrowthMetricsOf(followCounts, engagementCounts, followBackRate);
      g.growthRate * (Max(g.totalFollows, 1) as real) == g.estimatedFollowersGained as real
  {
    NatSum(followCounts);
    var g := GrowthMetricsOf(followCounts, engagementCounts, followBackRate);
    assert g.growthRate == Ratio(g.estimatedFollowersGained, g.totalFollows);
  }

  lemma {:induction false} NatSum(xs: seq<nat>)
    ensures SumInts(xs) >= 0
  {
    if xs != [] {
      NatSum(xs[1..]);
    }
  }

  /** The follows the first `i` reports of `rs` say were attempted. */
  function FollowAttempts(rs: seq<FollowResult>, i: nat): nat
    requires i <= |rs|
  {
    if i == 0 then 0
    else FollowAttempts(rs, i - 1) + (if rs[i - 1].FollowRan? then rs[i - 1].report.actionsExecuted else 0)
  }

  /** Appending a result leaves the counts over the earlier reports alone. */
  lemma {:induction false} FollowAttemptsAppend(rs: seq<FollowResult>, x: FollowResult, i: nat)
    requires i <= |rs|
    ensures FollowAttempts(rs + [x], i) == FollowAttempts(rs, i)
  {
    if i > 0 {
      assert (rs + [x])[i - 1] == rs[i - 1];
      FollowAttemptsAppend(rs, x, i - 1);
    }
  }

  /** The successful follows the reports of `rs` credit to campaign `k`, run `i` being a run
      of `ids[i]`. */
  function FollowCredit(rs: seq<FollowResult>, ids: seq<string>, k: string): nat
    requires |rs| <= |ids|
  {
    if rs == [] then 0
    else FollowCredit(rs[..|rs| - 1], ids, k)
         + (if rs[|rs| - 1].FollowRan? && ids[|rs| - 1] == k then rs[|rs| - 1].report.successfulActions else 0)
  }

  /** Report `rep` of a run of campaign `id` (set up as in `s`) over `input` matches the
      follows logged in `log` from position `base`: one per attempt, in batch order, each with
      the id, clock reading and outcome of that attempt's draw; the successes are the draws the
      executor reported as succeeded; and a run that stopped short of its batch was refused by
      the rate check. */
  ghost predicate FollowRunLogged(s: F.FollowState, log: seq<F.FollowAction>, base: nat, id: string,
                                  input: FollowInput, rep: F.RunReport)
  {
    id in s.campaigns &&
    var c := s.campaigns[id];
    var batch := F.Batch(c, input.candidates, input.now);
    && rep.campaignId == id && rep.campaignName == c.name
    && rep.targetsFound == |F.FilterAndScore(input.candidates, c.criteria, input.now)|
    && rep.actionsExecuted <= |batch| && rep.successfulActions == F.DrawSuccesses(input.draws, rep.actionsExecuted)
    && rep.successRate == Ratio(rep.successfulActions, rep.actionsExecuted)
    && base + rep.actionsExecuted <= |log|
    && (forall j :: 0 <= j < rep.actionsExecuted ==> F.FollowOf(log[base + j], id, c.platform, batch[j], input.draws(j)))
    && (rep.actionsExecuted < |batch| ==>
          !F.RateAllows(log[..base + rep.actionsExecuted], c.platform, F.Follow, input.draws(rep.actionsExecuted).time))
  }

  /** After the first `|rs|` runs of `ids`, every campaign of `s` is in `st`, credited exactly
      the successes of its runs. */
  ghost predicate FollowCredited(s: F.FollowState, st: F.FollowState, ids: seq<string>, rs: seq<FollowResult>)
    requires |rs| <= |ids|
  {
    && st.campaigns.Keys == s.campaigns.Keys
    && (forall k :: k in s.campaigns ==>
          st.campaigns[k] == s.campaigns[k].(totalFollows := s.campaigns[k].totalFollows + FollowCredit(rs, ids, k)))
  }

  /** The log only grew, by the attempts the reports of `rs` count. */
  ghost predicate FollowLogGrew(s: F.FollowState, st: F.FollowState, rs: seq<FollowResult>)
  {
    s.actions <= st.actions && |st.actions| == |s.actions| + FollowAttempts(rs, |rs|)
  }

  /** Of the first `|rs|` runs of `ids`, one failed exactly when its campaign was unknown, and
      then with that error. */
  ghost predicate FollowFailures(s: F.FollowState, ids: seq<string>, rs: seq<FollowResult>)
    requires |rs| <= |ids|
  {
    && (forall i :: 0 <= i < |rs| ==> (rs[i].FollowFailed? <==> ids[i] !in s.campaigns))
    && (forall i :: 0 <= i < |rs| && rs[i].FollowFailed? ==> rs[i].error == CampaignNotFound(ids[i]))
  }

  /** `trace` lists the states the first `|rs|` runs of `ids` went through from `s` to `st`:
      run `i`, over `inputs(i)`, took `trace[i]` to `trace[i + 1]` and reported `rs[i]`. */
  ghost predicate FollowTrace(s: F.FollowState, st: F.FollowState, ids: seq<string>, inputs: nat -> FollowInput,
                              rs: seq<FollowResult>, trace: seq<F.FollowState>)
  {
    && |rs| <= |ids| && |trace| == |rs| + 1 && trace[0] == s && trace[|rs|] == st
    && (forall i {:trigger inputs(i)} :: 0 <= i < |rs| ==>
          FollowRunDelta(trace[i], trace[i + 1], ids[i], inputs(i), rs[i]))
  }

  /** The first `|rs|` follow campaigns of `ids` ran in order from `s`, run `i` over
      `inputs(i)`, through the states `trace`, and left `st` and the results `rs`. */
  ghost predicate FollowRunsSoFar(s: F.FollowState, st: F.FollowState, ids: seq<string>, inputs: nat -> FollowInput,
                                  rs: seq<FollowResult>, trace: seq<F.FollowState>)
  {
    && FollowTrace(s, st, ids, inputs, rs, trace)
    && FollowCredited(s, st, ids, rs)
    && FollowLogGrew(s, st, rs)
    && FollowFailures(s, ids, rs)
  }

  /** Running the follow campaigns `ids` in order from `s`, run `i` over `inputs(i)`, left
      `st` and the results `rs`: a run failed exactly when its campaign was unknown; each run
      that did not fail logged one follow per reported attempt, in batch order, after the log
      it started from; the log only grew, by the reported attempts; and every campaign was
      credited exactly its runs' successes. */
  ghost predicate FollowRuns(s: F.FollowState, st: F.FollowState, ids: seq<string>, inputs: nat -> FollowInput,
                             rs: seq<FollowResult>)
  {
    && |rs| == |ids|
    && FollowCredited(s, st, ids, rs)
    && FollowLogGrew(s, st, rs)
    && FollowFailures(s, ids, rs)
    && exists trace :: FollowTrace(s, st, ids, inputs, rs, trace)
  }

  /** What one run of campaign `id` over `input` from `st` did, leaving `st'` and `res`. */
  ghost predicate FollowRunDelta(st: F.FollowState, st': F.FollowState, id: string, input: FollowInput, res: FollowResult)
  {
    && FollowRunEffect(st, st', id, res)
    && (res.FollowRan? ==> FollowRunLogged(st, st'.actions, |st.actions|, id, input, res.report))
  }

  /** The failure, counters and log length one run left. */
  ghost predicate FollowRunEffect(st: F.FollowState, st': F.FollowState, id: string, res: FollowResult)
  {
    if res.FollowFailed? then id !in st.campaigns && res.error == CampaignNotFound(id) && st' == st
    else
      && id in st.campaigns && st'.campaigns.Keys == st.campaigns.Keys
      && (forall k :: k in st.campaigns && k != id ==> st'.campaigns[k] == st.campaigns[k])
      && st'.campaigns[id] == st.campaigns[id].(totalFollows := st.campaigns[id].totalFollows + res.report.successfulActions)
      && st.actions <= st'.actions && |st'.actions| == |st.actions| + res.report.actionsExecuted
  }

  /** What `F.RunCampaign` promises, read as one run's delta. */
  lemma FollowRunFacts(st: F.FollowState, id: string, input: FollowInput, run: Result<F.RunOutcome>)
    requires id !in st.campaigns <==> run.Err?
    requires run.Err? ==> run.error == CampaignNotFound(id)
    requires run.Ok? ==>
      var c := st.campaigns[id];
      var batch := F.Batch(c, input.candidates, input.now);
      var rep := run.value.report;
      && rep.campaignId == id && rep.campaignName == c.name
      && rep.targetsFound == |F.FilterAndScore(input.candidates, c.criteria, input.now)|
      && rep.successRate == Ratio(rep.successfulActions, rep.actionsExecuted)
      && F.RunProgress(st, c, id, batch, input.draws, run.value.state, rep.actionsExecuted, rep.successfulActions)
      && (rep.actionsExecuted < |batch| ==>
            !F.RateAllows(run.value.state.actions, c.platform, F.Follow, input.draws(rep.actionsExecuted).time))
    ensures FollowRunDelta(st, if run.Ok? then run.value.state else st, id, input,
                           if run.Ok? then FollowRan(run.value.report) else FollowFailed(run.error))
  {
    if run.Ok? {
      var st' := run.value.state;
      assert |st'.actions| == |st.actions| + run.value.report.actionsExecuted;
      assert st'.actions[..|st'.actions|] == st'.actions;
    }
  }

  /** One more result adds its successes to its own campaign's credit only. */
  lemma FollowCreditAppend(rs: seq<FollowResult>, ids: seq<string>, x: FollowResult, k: string)
    requires |rs| < |ids|
    ensures FollowCredit(rs + [x], ids, k)
            == FollowCredit(rs, ids, k) + (if x.FollowRan? && ids[|rs|] == k then x.report.successfulActions else 0)
  {
    assert (rs + [x])[..|rs|] == rs;
  }

  lemma FollowCreditedStep(s: F.FollowState, st: F.FollowState, st': F.FollowState, ids: seq<string>,
                           rs: seq<FollowResult>, res: FollowResult)
    requires |rs| < |ids| && FollowCredited(s, st, ids, rs)
    requires FollowRunEffect(st, st', ids[|rs|], res)
    ensures FollowCredited(s, st', ids, rs + [res])
  {
    var id := ids[|rs|];
    forall k | k in s.campaigns
      ensures st'.campaigns[k] == s.campaigns[k].(totalFollows := s.campaigns[k].totalFollows + FollowCredit(rs + [res], ids, k))
    {
      FollowCreditAppend(rs, ids, res, k);
      if res.FollowRan? && k == id {
        assert st'.campaigns[k] == st.campaigns[k].(totalFollows := st.campaigns[k].totalFollows + res.report.successfulActions);
      } else {
        assert st'.campaigns[k] == st.campaigns[k];
      }
    }
  }

  lemma FollowLogStep(s: F.FollowState, st: F.FollowState, st': F.FollowState, id: string,
                      rs: seq<FollowResult>, res: FollowResult)
    requires FollowLogGrew(s, st, rs) && FollowRunEffect(st, st', id, res)
    ensures FollowLogGrew(s, st', rs + [res])
  {
    FollowAttemptsAppend(rs, res, |rs|);
  }

  lemma FollowFailuresStep(s: F.FollowState, st: F.FollowState, st': F.FollowState, ids: seq<string>,
                           rs: seq<FollowResult>, res: FollowResult)
    requires |rs| < |ids| && FollowFailures(s, ids, rs) && st.campaigns.Keys == s.campaigns.Keys
    requires FollowRunEffect(st, st', ids[|rs|], res)
    ensures FollowFailures(s, ids, rs + [res])
  {
    var rs' := rs + [res];
    forall i | 0 <= i < |rs'|
      ensures (rs'[i].FollowFailed? <==> ids[i] !in s.campaigns)
              && (rs'[i].FollowFailed? ==> rs'[i].error == CampaignNotFound(ids[i]))
    {
      if i < |rs| {
        assert rs'[i] == rs[i];
      }
    }
  }

  lemma FollowTraceStep(s: F.FollowState, st: F.FollowState, st': F.FollowState, ids: seq<string>,
                        inputs: nat -> FollowInput, rs: seq<FollowResult>, res: FollowResult, trace: seq<F.FollowState>)
    requires |rs| < |ids| && FollowTrace(s, st, ids, inputs, rs, trace)
    requires FollowRunDelta(st, st', ids[|rs|], inputs(|rs|), res)
    ensures FollowTrace(s, st', ids, inputs, rs + [res], trace + [st'])
  {
    var rs', trace' := rs + [res], trace + [st'];
    forall i | 0 <= i < |rs'|
      ensures FollowRunDelta(trace'[i], trace'[i + 1], ids[i], inputs(i), rs'[i])
    {
      if i < |rs| {
        assert trace'[i] == trace[i] && trace'[i + 1] == trace[i + 1] && rs'[i] == rs[i];
      } else {
        assert trace'[i] == st && trace'[i + 1] == st' && rs'[i] == res;
      }
    }
  }

  /** One more run of `ids[|rs|]` keeps `FollowRunsSoFar`. */
  lemma FollowRunsStep(s: F.FollowState, st: F.FollowState, st': F.FollowState, ids: seq<string>,
                       inputs: nat -> FollowInput, rs: seq<FollowResult>, res: FollowResult, trace: seq<F.FollowState>)
    requires |rs| < |ids| && FollowRunsSoFar(s, st, ids, inputs, rs, trace)
    requires FollowRunDelta(st, st', ids[|rs|], inputs(|rs|), res)
    ensures FollowRunsSoFar(s, st', ids, inputs, rs + [res], trace + [st'])
  {
    FollowTraceStep(s, st, st', ids, inputs, rs, res, trace);
    FollowCreditedStep(s, st, st', ids, rs, res);
    FollowLogStep(s, st, st', ids[|rs|], rs, res);
    FollowFailuresStep(s, st, st', ids, rs, res);
  }

  /** The follow loop of `execute_growth_strategy`. */
  method RunFollowCampaigns(s: F.FollowState, ids: seq<string>, inputs: nat -> FollowInput)
    returns (st: F.FollowState, rs: seq<FollowResult>)
    ensures FollowRuns(s, st, ids, inputs, rs)
    ensures F.CountersConsistent(s) ==> F.CountersConsistent(st)
  {
    st := s;
    rs := [];
    ghost var trace := [s];
    for i := 0 to |ids|
      invariant |rs| == i && FollowRunsSoFar(s, st, ids, inputs, rs, trace)
      invariant F.CountersConsistent(s) ==> F.CountersConsistent(st)
    {
      var input := inputs(i);
      var run := F.RunCampaign(st, ids[i], input.candidates, input.now, input.draws);
      var res := if run.Ok? then FollowRan(run.value.report) else FollowFailed(run.error);
      var st' := if run.Ok? then run.value.state else st;
      FollowRunFacts(st, ids[i], input, run);
      FollowRunsStep(s, st, st', ids, inputs, rs, res, trace);
      st, rs, trace := st', rs + [res], trace + [st'];
    }
    assert FollowTrace(s, st, ids, inputs, rs, trace);
  }

  /** The engagements the first `i` reports of `rs` say were attempted. */
  function EngagementAttempts(rs: seq<EngagementResult>, i: nat): nat
    requires i <= |rs|
  {
    if i == 0 then 0
    else EngagementAttempts(rs, i - 1) + (if rs[i - 1].EngagementRan? then rs[i - 1].report.executed else 0)
  }

  /** Appending a result leaves the counts over the earlier reports alone. */
  lemma {:induction false} EngagementAttemptsAppend(rs: seq<EngagementResult>, x: EngagementResult, i: nat)
    requires i <= |rs|
    ensures EngagementAttempts(rs + [x], i) == EngagementAttempts(rs, i)
  {
    if i > 0 {
      assert (rs + [x])[i - 1] == rs[i - 1];
      EngagementAttemptsAppend(rs, x, i - 1);
    }
  }

  /** The successful engagements the reports of `rs` credit to campaign `k`, run `i` being a
      run of `ids[i]`. */
  function EngagementCredit(rs: seq<EngagementResult>, ids: seq<string>, k: string): nat
    requires |rs| <= |ids|
  {
    if rs == [] then 0
    else EngagementCredit(rs[..|rs| - 1], ids, k)
         + (if rs[|rs| - 1].EngagementRan? && ids[|rs| - 1] == k then rs[|rs| - 1].report.successful else 0)
  }

  /** A run of campaign `id` from `s` over `input` raises: the campaign is unknown, or it has
      targets to engage with but no engagement types to choose from. */
  ghost predicate EngagementRefused(s: E.EngagementState, id: string, input: EngagementInput)
  {
    id !in s.campaigns || (s.campaigns[id].types == [] && E.Batch(s.campaigns[id], input.candidates, input.now) != [])
  }

  /** Report `rep` of a run of campaign `id` (set up as in `s`) over `input` matches the
      engagements logged in `log` from position `base`: one per target of the batch, in batch
      order, each of the type the run's draw picked, with the message of the template chosen
      then and the draw's id, clock reading and outcome; the successes are the draws the
      executor reported as succeeded. */
  ghost predicate EngagementRunLogged(s: E.EngagementState, log: seq<E.EngagementAction>, base: nat, id: string,
                                      input: EngagementInput, rep: E.RunReport)
  {
    id in s.campaigns &&
    var c := s.campaigns[id];
    var batch := E.Batch(c, input.candidates, input.now);
    && rep.campaignId == id && rep.campaignName == c.name
    && rep.targetsFound == |E.FilterTargets(input.candidates, c.criteria, input.now)|
    && rep.executed == |batch| && rep.successful == E.SucceededDraws(input.draws, rep.executed)
    && rep.successRate == Ratio(rep.successful, rep.executed)
    && base + rep.executed <= |log|
    && (forall j :: 0 <= j < rep.executed ==>
          |c.types| > 0
          && E.AttemptLogged(log, base, s, c, batch, input.draws, j))
  }

  /** What one run of campaign `id` over `input` from `st` did, leaving `st'` and `res`. */
  ghost predicate EngagementRunDelta(st: E.EngagementState, st': E.EngagementState, id: string, input: EngagementInput,
                                     res: EngagementResult)
  {
    && EngagementRunEffect(st, st', id, input, res)
    && (res.EngagementRan? ==> EngagementRunLogged(st, st'.actions, |st.actions|, id, input, res.report))
  }

  /** The failure, counters, timing table and log length one run left. */
  ghost predicate EngagementRunEffect(st: E.EngagementState, st': E.EngagementState, id: string, input: EngagementInput,
                                      res: EngagementResult)
  {
    if res.EngagementFailed? then
      && EngagementRefused(st, id, input) && st' == st
      && res.error == (if id !in st.campaigns then CampaignNotFound(id) else EmptyChoice)
    else
      && !EngagementRefused(st, id, input)
      && st'.campaigns.Keys == st.campaigns.Keys
      && (forall k :: k in st.campaigns && k != id ==> st'.campaigns[k] == st.campaigns[k])
      && st'.campaigns[id]
         == st.campaigns[id].(totalEngagements := st.campaigns[id].totalEngagements + res.report.successful,
                              successfulEngagements := st.campaigns[id].successfulEngagements + res.report.successful)
      && st'.bestHours == st.bestHours
      && st'.templates == E.TemplatesAfter(st.templates, st.campaigns[id], input.draws, res.report.executed)
      && st.actions <= st'.actions && |st'.actions| == |st.actions| + res.report.executed
  }

  /** After the first `|rs|` runs of `ids`, every campaign of `s` is in `st`, credited exactly
      the successes of its runs, and the timing table is untouched. */
  ghost predicate EngagementCredited(s: E.EngagementState, st: E.EngagementState, ids: seq<string>,
                                     rs: seq<EngagementResult>)
    requires |rs| <= |ids|
  {
    && st.campaigns.Keys == s.campaigns.Keys && st.bestHours == s.bestHours
    && (forall k :: k in s.campaigns ==> st.campaigns[k] == Bumped(s.campaigns[k], EngagementCredit(rs, ids, k)))
  }

  /** Campaign `c` after `n` more engagements, all of them successful. */
  function Bumped(c: E.EngagementCampaign, n: nat): (c': E.EngagementCampaign)
    ensures c'.totalEngagements - c'.successfulEngagements == c.totalEngagements - c.successfulEngagements
  {
    c.(totalEngagements := c.totalEngagements + n, successfulEngagements := c.successfulEngagements + n)
  }

  /** The log only grew, by the attempts the reports of `rs` count. */
  ghost predicate EngagementLogGrew(s: E.EngagementState, st: E.EngagementState, rs: seq<EngagementResult>)
  {
    s.actions <= st.actions && |st.actions| == |s.actions| + EngagementAttempts(rs, |rs|)
  }

  /** Of the first `|rs|` runs of `ids`, one failed exactly when it was refused, with
      `CampaignNotFound` for an unknown campaign and `EmptyChoice` otherwise. */
  ghost predicate EngagementFailures(s: E.EngagementState, ids: seq<string>, inputs: nat -> EngagementInput,
                                     rs: seq<EngagementResult>)
    requires |rs| <= |ids|
  {
    && (forall i :: 0 <= i < |rs| ==> (rs[i].EngagementFailed? <==> EngagementRefused(s, ids[i], inputs(i))))
    && (forall i :: 0 <= i < |rs| && rs[i].EngagementFailed? ==>
          rs[i].error == (if ids[i] !in s.campaigns then CampaignNotFound(ids[i]) else EmptyChoice))
  }

  /** `trace` lists the states the first `|rs|` runs of `ids` went through from `s` to `st`:
      run `i`, over `inputs(i)`, took `trace[i]` to `trace[i + 1]` and reported `rs[i]`. */
  ghost predicate EngagementTrace(s: E.EngagementState, st: E.EngagementState, ids: seq<string>,
                                  inputs: nat -> EngagementInput, rs: seq<EngagementResult>,
                                  trace: seq<E.EngagementState>)
  {
    && |rs| <= |ids| && |trace| == |rs| + 1 && trace[0] == s && trace[|rs|] == st
    && (forall i {:trigger inputs(i)} :: 0 <= i < |rs| ==>
          EngagementRunDelta(trace[i], trace[i + 1], ids[i], inputs(i), rs[i]))
  }

  /** The first `|rs|` engagement campaigns of `ids` ran in order from `s`, run `i` over
      `inputs(i)`, through the states `trace`, and left `st` and the results `rs`. */
  ghost predicate EngagementRunsSoFar(s: E.EngagementState, st: E.EngagementState, ids: seq<string>,
                                      inputs: nat -> EngagementInput, rs: seq<EngagementResult>,
                                      trace: seq<E.EngagementState>)
  {
    && EngagementTrace(s, st, ids, inputs, rs, trace)
    && EngagementCredited(s, st, ids, rs)
    && EngagementLogGrew(s, st, rs)
    && EngagementFailures(s, ids, inputs, rs)
  }

  /** Running the engagement campaigns `ids` in order from `s`, run `i` over `inputs(i)`,
      left `st` and the results `rs`: a run failed exactly when it was refused, and then with
      the matching error; each run that did not fail logged one engagement per target of its
      batch, in order, after the log it started from; the log only grew, by the reported
      attempts; every campaign was credited exactly its runs' successes; and the timing table
      is untouched. */
  ghost predicate EngagementRuns(s: E.EngagementState, st: E.EngagementState, ids: seq<string>,
                                 inputs: nat -> EngagementInput, rs: seq<EngagementResult>)
  {
    && |rs| == |ids|
    && EngagementCredited(s, st, ids, rs)
    && EngagementLogGrew(s, st, rs)
    && EngagementFailures(s, ids, inputs, rs)
    && exists trace :: EngagementTrace(s, st, ids, inputs, rs, trace)
  }

  /** What `E.RunCampaign` promises, read as one run's delta. */
  lemma EngagementRunFacts(st: E.EngagementState, id: string, input: EngagementInput, run: Result<E.RunOutcome>)
    requires id !in st.campaigns ==> run == Err(CampaignNotFound(id))
    requires id in st.campaigns ==>
      (run.Err? <==> st.campaigns[id].types == [] && E.Batch(st.campaigns[id], input.candidates, input.now) != [])
    requires run.Err? ==> id !in st.campaigns || run == Err(EmptyChoice)
    requires run.Ok? ==>
      var c := st.campaigns[id];
      var rep := run.value.report;
      && rep.campaignId == id && rep.campaignName == c.name
      && rep.targetsFound == |E.FilterTargets(input.candidates, c.criteria, input.now)|
      && rep.executed == |E.Batch(c, input.candidates, input.now)| && rep.successful == E.SucceededDraws(input.draws, rep.executed)
      && rep.successRate == Ratio(rep.successful, rep.executed)
    requires run.Ok? && st.campaigns[id].types != [] ==>
      var c := st.campaigns[id];
      E.RunProgress(st, c, id, E.Batch(c, input.candidates, input.now), input.draws, run.value.state,
                    run.value.report.executed, run.value.report.successful)
    requires run.Ok? && E.Batch(st.campaigns[id], input.candidates, input.now) == [] ==> run.value.state == st
    ensures EngagementRunDelta(st, if run.Ok? then run.value.state else st, id, input,
                               if run.Ok? then EngagementRan(run.value.report) else EngagementFailed(run.error))
  {
    if run.Err? {
      EngagementRefusedFacts(st, id, input, run.error);
    } else if st.campaigns[id].types != [] {
      EngagementRanFacts(st, id, input, run.value.state, run.value.report);
    } else {
      EngagementIdleFacts(st, id, input, run.value.report);
    }
  }

  /** A refused run, read as one run's delta. */
  lemma EngagementRefusedFacts(st: E.EngagementState, id: string, input: EngagementInput, e: Error)
    requires id !in st.campaigns ==> e == CampaignNotFound(id)
    requires id in st.campaigns ==>
      st.campaigns[id].types == [] && E.Batch(st.campaigns[id], input.candidates, input.now) != [] && e == EmptyChoice
    ensures EngagementRunDelta(st, st, id, input, EngagementFailed(e))
  {
  }

  /** A run of a campaign without types that found nobody to engage, read as one run's delta. */
  lemma EngagementIdleFacts(st: E.EngagementState, id: string, input: EngagementInput, rep: E.RunReport)
    requires id in st.campaigns && st.campaigns[id].types == []
    requires
      var c := st.campaigns[id];
      && E.Batch(c, input.candidates, input.now) == []
      && rep.campaignId == id && rep.campaignName == c.name
      && rep.targetsFound == |E.FilterTargets(input.candidates, c.criteria, input.now)|
      && rep.executed == 0 && rep.successful == 0
      && rep.successRate == Ratio(rep.successful, rep.executed)
    ensures EngagementRunDelta(st, st, id, input, EngagementRan(rep))
  {
  }

  /** A run that had types to choose from, read as one run's delta. */
  lemma EngagementRanFacts(st: E.EngagementState, id: string, input: EngagementInput, st': E.EngagementState,
                           rep: E.RunReport)
    requires id in st.campaigns && st.campaigns[id].types != []
    requires
      var c := st.campaigns[id];
      && rep.campaignId == id && rep.campaignName == c.name
      && rep.targetsFound == |E.FilterTargets(input.candidates, c.criteria, input.now)|
      && rep.executed == |E.Batch(c, input.candidates, input.now)| && rep.successful == E.SucceededDraws(input.draws, rep.executed)
      && rep.successRate == Ratio(rep.successful, rep.executed)
      && E.RunProgress(st, c, id, E.Batch(c, input.candidates, input.now), input.draws, st', rep.executed, rep.successful)
    ensures EngagementRunDelta(st, st', id, input, EngagementRan(rep))
  {
    var c := st.campaigns[id];
    var batch := E.Batch(c, input.candidates, input.now);
    assert st'.actions[..|st.actions|] == st.actions;
    assert forall j :: 0 <= j < rep.executed ==> E.AttemptLogged(st'.actions, |st.actions|, st, c, batch, input.draws, j);
    assert EngagementRunLogged(st, st'.actions, |st.actions|, id, input, rep);
  }

  /** One more result adds its successes to its own campaign's credit only. */
  lemma EngagementCreditAppend(rs: seq<EngagementResult>, ids: seq<string>, x: EngagementResult, k: string)
    requires |rs| < |ids|
    ensures EngagementCredit(rs + [x], ids, k)
            == EngagementCredit(rs, ids, k) + (if x.EngagementRan? && ids[|rs|] == k then x.report.successful else 0)
  {
    assert (rs + [x])[..|rs|] == rs;
  }

  /** How one run moves the campaign table: only its own campaign, and only when it ran, by
      its successes; the timing table stays. */
  ghost predicate EngagementCampaignsMoved(st: E.EngagementState, st': E.EngagementState, id: string,
                                           res: EngagementResult)
  {
    && st'.campaigns.Keys == st.campaigns.Keys && st'.bestHours == st.bestHours
    && (forall k :: k in st.campaigns && (res.EngagementFailed? || k != id) ==> st'.campaigns[k] == st.campaigns[k])
    && (res.EngagementRan? ==> id in st.campaigns && st'.campaigns[id] == Bumped(st.campaigns[id], res.report.successful))
  }

  lemma EngagementEffectMoves(st: E.EngagementState, st': E.EngagementState, id: string, input: EngagementInput,
                              res: EngagementResult)
    requires EngagementRunEffect(st, st', id, input, res)
    ensures EngagementCampaignsMoved(st, st', id, res)
  {
  }

  lemma EngagementCreditedStep(s: E.EngagementState, st: E.EngagementState, st': E.EngagementState, ids: seq<string>,
                               rs: seq<EngagementResult>, res: EngagementResult)
    requires |rs| < |ids| && EngagementCredited(s, st, ids, rs)
    requires EngagementCampaignsMoved(st, st', ids[|rs|], res)
    ensures EngagementCredited(s, st', ids, rs + [res])
  {
    var id := ids[|rs|];
    forall k | k in s.campaigns
      ensures st'.campaigns[k] == Bumped(s.campaigns[k], EngagementCredit(rs + [res], ids, k))
    {
      EngagementCreditAppend(rs, ids, res, k);
      if res.EngagementRan? && k == id {
        assert st'.campaigns[k] == Bumped(st.campaigns[k], res.report.successful);
      } else {
        assert st'.campaigns[k] == st.campaigns[k];
      }
    }
  }

  lemma EngagementLogStep(s: E.EngagementState, st: E.EngagementState, st': E.EngagementState, id: string,
                          rs: seq<EngagementResult>, input: EngagementInput, res: EngagementResult)
    requires EngagementLogGrew(s, st, rs) && EngagementRunEffect(st, st', id, input, res)
    ensures EngagementLogGrew(s, st', rs + [res])
  {
    EngagementAttemptsAppend(rs, res, |rs|);
  }

  lemma EngagementFailuresStep(s: E.EngagementState, st: E.EngagementState, st': E.EngagementState, ids: seq<string>,
                               inputs: nat -> EngagementInput, rs: seq<EngagementResult>, res: EngagementResult)
    requires |rs| < |ids| && EngagementFailures(s, ids, inputs, rs) && EngagementCredited(s, st, ids, rs)
    requires EngagementRunEffect(st, st', ids[|rs|], inputs(|rs|), res)
    ensures EngagementFailures(s, ids, inputs, rs + [res])
  {
    EngagementRefusedKept(s, st, ids, rs, ids[|rs|], inputs(|rs|));
    var rs' := rs + [res];
    forall i | 0 <= i < |rs'|
      ensures (rs'[i].EngagementFailed? <==> EngagementRefused(s, ids[i], inputs(i)))
              && (rs'[i].EngagementFailed? ==>
                    rs'[i].error == (if ids[i] !in s.campaigns then CampaignNotFound(ids[i]) else EmptyChoice))
    {
      if i < |rs| {
        assert rs'[i] == rs[i];
      }
    }
  }

  /** Crediting runs changes no campaign's types, criteria or limit, so no refusal. */
  lemma EngagementRefusedKept(s: E.EngagementState, st: E.EngagementState, ids: seq<string>, rs: seq<EngagementResult>,
                              id: string, input: EngagementInput)
    requires |rs| <= |ids| && EngagementCredited(s, st, ids, rs)
    ensures EngagementRefused(st, id, input) == EngagementRefused(s, id, input)
  {
    if id in s.campaigns {
      assert E.Batch(st.campaigns[id], input.candidates, input.now) == E.Batch(s.campaigns[id], input.candidates, input.now);
    }
  }

  lemma EngagementTraceStep(s: E.EngagementState, st: E.EngagementState, st': E.EngagementState, ids: seq<string>,
                            inputs: nat -> EngagementInput, rs: seq<EngagementResult>, res: EngagementResult,
                            trace: seq<E.EngagementState>)
    requires |rs| < |ids| && EngagementTrace(s, st, ids, inputs, rs, trace)
    requires EngagementRunDelta(st, st', ids[|rs|], inputs(|rs|), res)
    ensures EngagementTrace(s, st', ids, inputs, rs + [res], trace + [st'])
  {
    var rs', trace' := rs + [res], trace + [st'];
    forall i | 0 <= i < |rs'|
      ensures EngagementRunDelta(trace'[i], trace'[i + 1], ids[i], inputs(i), rs'[i])
    {
      if i < |rs| {
        assert trace'[i] == trace[i] && trace'[i + 1] == trace[i + 1] && rs'[i] == rs[i];
      } else {
        assert trace'[i] == st && trace'[i + 1] == st' && rs'[i] == res;
      }
    }
  }

  /** One more run of `ids[|rs|]` keeps `EngagementRunsSoFar`. */
  lemma EngagementRunsStep(s: E.EngagementState, st: E.EngagementState, st': E.EngagementState, ids: seq<string>,
                           inputs: nat -> EngagementInput, rs: seq<EngagementResult>, res: EngagementResult,
                           trace: seq<E.EngagementState>)
    requires |rs| < |ids| && EngagementRunsSoFar(s, st, ids, inputs, rs, trace)
    requires EngagementRunDelta(st, st', ids[|rs|], inputs(|rs|), res)
    ensures EngagementRunsSoFar(s, st', ids, inputs, rs + [res], trace + [st'])
  {
    EngagementTraceStep(s, st, st', ids, inputs, rs, res, trace);
    EngagementEffectMoves(st, st', ids[|rs|], inputs(|rs|), res);
    EngagementCreditedStep(s, st, st', ids, rs, res);
    EngagementLogStep(s, st, st', ids[|rs|], rs, inputs(|rs|), res);
    EngagementFailuresStep(s, st, st', ids, inputs, rs, res);
  }

  /** The engagement loop of `execute_growth_strategy`. */
  method RunEngagementCampaigns(s: E.EngagementState, ids: seq<string>, inputs: nat -> EngagementInput)
    returns (st: E.EngagementState, rs: seq<EngagementResult>)
    ensures EngagementRuns(s, st, ids, inputs, rs)
    ensures E.TotalsAgree(s) && E.RatesInUnit(s.templates) ==> E.TotalsAgree(st) && E.RatesInUnit(st.templates)
  {
    st := s;
    rs := [];
    ghost var trace := [s];
    for i := 0 to |ids|
      invariant |rs| == i && EngagementRunsSoFar(s, st, ids, inputs, rs, trace)
      invariant E.TotalsAgree(s) && E.RatesInUnit(s.templates) ==> E.TotalsAgree(st) && E.RatesInUnit(st.templates)
    {
      var input := inputs(i);
      var run := E.RunCampaign(st, ids[i], input.candidates, input.now, input.draws);
      var res := if run.Ok? then EngagementRan(run.value.report) else EngagementFailed(run.error);
      var st' := if run.Ok? then run.value.state else st;
      EngagementRunFacts(st, ids[i], input, run);
      EngagementRunsStep(s, st, st', ids, inputs, rs, res, trace);
      st, rs, trace := st', rs + [res], trace + [st'];
    }
    assert EngagementTrace(s, st, ids, inputs, rs, trace);
  }

  /** The result of `execute_growth_strategy`, with the builder it leaves behind. */
  datatype Execution = Execution(
    builder: Builder,
    strategyId: string,
    niche: string,
    followResults: seq<FollowResult>,
    engagementResults: seq<EngagementResult>,
    growth: GrowthMetrics,
    health: Table<Health>)

  /** `execute_growth_strategy`: runs every follow campaign of the strategy and then every
      engagement campaign, the i-th run of each kind discovering and drawing from input i; a
      run that raises is recorded as an error and the rest still run. The successes go into
      the builder's totals; then growth metrics, account health and statistics are
      recomputed. Growth metrics read result lists the strategy never stores, so they are
      computed from none. */
  method ExecuteGrowthStrategy(b: Builder, strategyId: string, followInputs: nat -> FollowInput,
                               engagementInputs: nat -> EngagementInput, followBackRate: real)
    returns (r: Result<Execution>)
    requires Wf(b)
    requires 0.1 <= followBackRate <= 0.3
    ensures strategyId !in b.strategies <==> r.Err?
    ensures r.Err? ==> r.error == StrategyNotFound(strategyId)
    ensures r.Ok? ==>
      var st := b.strategies[strategyId];
      var x := r.value;
      && x.strategyId == strategyId && x.niche == st.niche
      && FollowRuns(b.follow, x.builder.follow, st.followCampaigns, followInputs, x.followResults)
      && EngagementRuns(b.engagement, x.builder.engagement, st.engagementCampaigns, engagementInputs, x.engagementResults)
      && (F.CountersConsistent(b.follow) ==> F.CountersConsistent(x.builder.follow))
      && (E.TotalsAgree(b.engagement) && E.RatesInUnit(b.engagement.templates) ==>
            E.TotalsAgree(x.builder.engagement) && E.RatesInUnit(x.builder.engagement.templates))
    ensures r.Ok? ==> Concluded(b, r.value)
  {
    if strategyId !in b.strategies {
      return Err(StrategyNotFound(strategyId));
    }
    var st := b.strategies[strategyId];
    var fs, followResults := RunFollowCampaigns(b.follow, st.followCampaigns, followInputs);
    var es, engagementResults := RunEngagementCampaigns(b.engagement, st.engagementCampaigns, engagementInputs);
    var x := Conclude(b, strategyId, st.niche, fs, es, followResults, engagementResults, followBackRate);
    return Ok(x);
  }

  /** How `execute_growth_strategy` leaves the builder once the campaigns have run: the
      successes go into the totals, the followers gained stay as they were, growth metrics
      are computed from no recorded results, account health is updated (and kept in range)
      and the configuration, strategies and ledger are untouched. */
  ghost predicate Concluded(b: Builder, x: Execution)
  {
    && x.builder.stats.totalFollows == b.stats.totalFollows + FollowSuccesses(x.followResults)
    && x.builder.stats.totalEngagements == b.stats.totalEngagements + EngagementSuccesses(x.engagementResults)
    && x.builder.stats.totalFollowersGained == b.stats.totalFollowersGained
    && x.growth.totalFollows == 0 && x.growth.estimatedFollowersGained == 0 && x.growth.totalEngagements == 0
    && x.health == x.builder.health
    && (Wf(b) ==> x.health == UpdateAccountHealth(b.health, b.config.platforms, b.config.dailyFollowLimit))
    && x.builder.config == b.config && x.builder.strategies == b.strategies && x.builder.ledger == b.ledger
    && Wf(x.builder)
  }

  /** The end of `execute_growth_strategy`, the campaigns having left `fs`, `es` and the
      result lists. */
  function Conclude(b: Builder, strategyId: string, niche: string, fs: F.FollowState, es: E.EngagementState,
                    followResults: seq<FollowResult>, engagementResults: seq<EngagementResult>,
                    followBackRate: real): (x: Execution)
    requires Wf(b)
    requires 0.1 <= followBackRate <= 0.3
    ensures x.builder.follow == fs && x.builder.engagement == es
    ensures x.strategyId == strategyId && x.niche == niche
    ensures x.followResults == followResults && x.engagementResults == engagementResults
    ensures Concluded(b, x)
  {
    var growth := GrowthMetricsOf([], [], followBackRate);
    var health := UpdateAccountHealth(b.health, b.config.platforms, b.config.dailyFollowLimit);
    HealthScoresNeverRise(b.health, b.config.platforms, b.config.dailyFollowLimit);
    var counted := b.stats.(totalFollows := b.stats.totalFollows + FollowSuccesses(followResults),
                            totalEngagements := b.stats.totalEngagements + EngagementSuccesses(engagementResults));
    var stats := UpdateStats(counted, health);
    var nb := b.(follow := fs, engagement := es, stats := stats, health := health);
    assert ScoresInRange(health);
    Execution(nb, strategyId, niche, followResults, engagementResults, growth, health)
  }

  // ---------------------------------------------------------------------------------------
  // Optimisation report

  datatype CampaignKind = FollowKind | EngagementKind

  /** An entry of `optimizations`. */
  datatype Optimization = Optimization(campaignId: string, kind: CampaignKind, issue: string, recommendation: string)

  /** An entry of `recommendations`. */
  datatype Recommendation = PlatformHealth(platform: string) | ModeChange(suggested: Mode)

  datatype Optimizations = Optimizations(
    strategyId: string,
    optimizations: seq<Optimization>,
    recommendations: seq<Recommendation>)

  function FollowIssue(cid: string): Optimization
  {
    Optimization(cid, FollowKind, "Low success rate", "Adjust targeting criteria or reduce daily limits")
  }

  function EngagementIssue(cid: string): Optimization
  {
    Optimization(cid, EngagementKind, "Low engagement success rate", "Update engagement templates or timing")
  }

  /** `stats.get("success_rate", 0)` of a follow campaign: 0 for an unknown one. */
  function FollowRate(fs: F.FollowState, cid: string): (r: real)
    ensures cid !in fs.campaigns ==> r == 0.0
    ensures 0.0 <= r <= 1.0
  {
    match F.GetCampaignStats(fs, cid)
    case None => 0.0
    case Some(st) => st.successRate
  }

  /** `stats.get("overall_success_rate", 0)` of an engagement campaign, or the error reading
      its statistics raises. */
  function EngagementRate(es: E.EngagementState, cid: string): (r: Result<real>)
    ensures r.Err? <==> cid in es.campaigns && es.actions != []
    ensures cid !in es.campaigns ==> r == Ok(0.0)
  {
    match E.GetStats(es, cid)
    case Err(e) => Err(e)
    case Ok(None) => Ok(0.0)
    case Ok(Some(st)) => Ok(st.overallSuccessRate)
  }

  /** The follow part of the report: one entry per campaign below a 0.7 success rate, in
      order. */
  function FlagFollow(fs: F.FollowState, ids: seq<string>): (r: seq<Optimization>)
    ensures forall o :: o in r ==> o.kind == FollowKind && o.campaignId in ids && FollowRate(fs, o.campaignId) < 0.7
    ensures forall i :: 0 <= i < |ids| && FollowRate(fs, ids[i]) < 0.7 ==> FollowIssue(ids[i]) in r
    ensures forall i :: 0 <= i < |r| ==> r[i] == FollowIssue(r[i].campaignId)
  {
    if ids == [] then []
    else
      var rest := FlagFollow(fs, ids[1..]);
      (if FollowRate(fs, ids[0]) < 0.7 then [FollowIssue(ids[0])] else []) + rest
  }

  /** The engagement part of the report: one entry per campaign below a 0.8 overall success
      rate, in order, or the first error reading statistics raises. */
  function FlagEngagement(es: E.EngagementState, ids: seq<string>): (r: Result<seq<Optimization>>)
    ensures r.Err? <==> exists i :: 0 <= i < |ids| && EngagementRate(es, ids[i]).Err?
    ensures r.Err? ==> r.error == MissingCampaignIdField
    ensures r.Ok? ==> forall o :: o in r.value ==>
      o.kind == EngagementKind && o.campaignId in ids && EngagementRate(es, o.campaignId).value < 0.8
    ensures r.Ok? ==> forall i :: 0 <= i < |ids| && EngagementRate(es, ids[i]).value < 0.8 ==> EngagementIssue(ids[i]) in r.value
  {
    if ids == [] then Ok([])
    else
      match EngagementRate(es, ids[0])
      case Err(e) => Err(e)
      case Ok(rate) =>
        var rest := FlagEngagement(es, ids[1..]);
        if rest.Err? then
          assert EngagementRate(es, ids[1..][0]).Err? || exists i :: 0 <= i < |ids[1..]| && EngagementRate(es, ids[1..][i]).Err?;
          rest
        else Ok((if rate < 0.8 then [EngagementIssue(ids[0])] else []) + rest.value)
  }

  /** The platforms, in `account_health` order, whose score is below 80. */
  function WeakPlatforms(order: seq<string>, entries: map<string, Health>): (r: seq<string>)
    ensures forall p :: p in r <==> p in order && p in entries && entries[p].score < 80.0
  {
    if order == [] then []
    else
      var rest := WeakPlatforms(order[1..], entries);
      (if order[0] in entries && entries[order[0]].score < 80.0 then [order[0]] else []) + rest
  }

  function HealthRecommendations(ps: seq<string>): (r: seq<Recommendation>)
    ensures |r| == |ps| && forall i :: 0 <= i < |ps| ==> r[i] == PlatformHealth(ps[i])
  {
    if ps == [] then [] else [PlatformHealth(ps[0])] + HealthRecommendations(ps[1..])
  }

  /** `optimize_strategy`: an advisory report that changes nothing. It raises for an unknown
      strategy, and whenever reading an engagement campaign's statistics raises, which is as
      soon as any engagement action has been logged. */
  function OptimizeStrategy(b: Builder, strategyId: string): (r: Result<Optimizations>)
    ensures strategyId !in b.strategies ==> r == Err(StrategyNotFound(strategyId))
    ensures strategyId in b.strategies ==>
      (r.Err? <==> b.engagement.actions != [] &&
                   exists i :: 0 <= i < |b.strategies[strategyId].engagementCampaigns| &&
                               b.strategies[strategyId].engagementCampaigns[i] in b.engagement.campaigns)
    ensures strategyId in b.strategies && r.Err? ==> r.error == MissingCampaignIdField
    ensures r.Ok? ==>
      && r.value.strategyId == strategyId
      && (forall o :: o in r.value.optimizations && o.kind == FollowKind ==>
            o.campaignId in b.strategies[strategyId].followCampaigns && FollowRate(b.follow, o.campaignId) < 0.7)
      && (forall p :: PlatformHealth(p) in r.value.recommendations <==>
            p in b.health.order && p in b.health.entries && b.health.entries[p].score < 80.0)
      && (ModeChange(Conservative) in r.value.recommendations <==> b.stats.accountHealthScore < 70.0)
  {
    if strategyId !in b.strategies then Err(StrategyNotFound(strategyId))
    else
      var st := b.strategies[strategyId];
      var follow := FlagFollow(b.follow, st.followCampaigns);
      match FlagEngagement(b.engagement, st.engagementCampaigns)
      case Err(e) => Err(e)
      case Ok(engagement) =>
        Ok(Optimizations(strategyId, follow + engagement, Recommendations(b)))
  }

  /** The `recommendations` of `optimize_strategy`: one per platform whose health is below 80,
      in table order, then a switch to conservative mode when the overall health is below 70. */
  function Recommendations(b: Builder): (r: seq<Recommendation>)
    ensures forall p :: PlatformHealth(p) in r <==> p in b.health.order && p in b.health.entries && b.health.entries[p].score < 80.0
    ensures ModeChange(Conservative) in r <==> b.stats.accountHealthScore < 70.0
  {
    var weak := HealthRecommendations(WeakPlatforms(b.health.order, b.health.entries));
    var mode := if b.stats.accountHealthScore < 70.0 then [ModeChange(Conservative)] else [];
    weak + mode
  }
}

=== FILE: common.dfy ===
/** Shared vocabulary of the growth-automation model: optional values, results carrying the
    error a Python operation would raise, and the small string and counting helpers that
    several components use. */
module Common {

  datatype Option<+T> = None | Some(value: T)

  /** The conditions the modelled operations raise. */
  datatype Error =
    | CampaignNotFound(campaignId: string)
    | RateLimitExceeded
    | StrategyNotFound(strategyId: string)
    | TemplateNotFound(name: string)
    | UnknownPlatform(platform: string)
    | EmptyChoice
    | MissingCampaignIdField

  /** The value an operation returns, or the exception it raises without touching state. */
  datatype Result<+T> = Ok(value: T) | Err(error: Error)

  /** Python's `max(a, b)` on integers. */
  function Max(a: int, b: int): int
  {
    if a >= b then a else b
  }

  /** Python's `min(a, b)` on integers. */
  function Min(a: int, b: int): int
  {
    if a <= b then a else b
  }

  /** Python's `part / max(total, 1)`: a success ratio that is 0 when nothing was tried. */
  function Ratio(part: nat, total: nat): (r: real)
    ensures r * (Max(total, 1) as real) == part as real
    ensures r >= 0.0
    ensures part <= total ==> r <= 1.0
  {
    QuotientBounds(part as real, Max(total, 1) as real);
    part as real / (Max(total, 1) as real)
  }

  /** `x` times `max(total, 1)` is `part`: `x` is the success ratio of `part` out of `total`. */
  predicate Scales(x: real, part: nat, total: nat)
  {
    x * (Max(total, 1) as real) == part as real
  }

  lemma RatioScales(part: nat, total: nat)
    ensures Scales(Ratio(part, total), part, total)
  {
  }

  /** With at least one attempt, the plain quotient is the success ratio. */
  lemma QuotientScales(part: nat, total: nat)
    requires total >= 1
    ensures Scales(part as real / total as real, part, total)
  {
    QuotientBounds(part as real, total as real);
  }

  lemma QuotientBounds(a: real, d: real)
    requires a >= 0.0 && d >= 1.0
    ensures (a / d) * d == a
    ensures a / d >= 0.0
    ensures a <= d ==> a / d <= 1.0
  {
  }

  /** A ratio of a part no larger than `total * b` is at most `b`. */
  lemma RatioBounded(part: nat, total: nat, b: nat)
    requires part <= total * b
    requires total == 0 ==> part == 0
    ensures Ratio(part, total) <= b as real
  {
    var r := Ratio(part, total);
    var d := Max(total, 1);
    assert part <= d * b;
    assert (d * b) as real == (d as real) * (b as real);
    assert (r - b as real) * (d as real) == part as real - (d * b) as real;
  }

  /** Python's `xs[:n]` for an integer `n`, including the negative case that drops `-n`
      elements from the end. */
  function SliceTo<T>(xs: seq<T>, n: int): (r: seq<T>)
    ensures n >= 0 ==> |r| == Min(n, |xs|)
    ensures n < 0 ==> |r| == Max(|xs| + n, 0)
    ensures r <= xs
  {
    if n >= 0 then xs[..Min(n, |xs|)] else xs[..Max(|xs| + n, 0)]
  }

  /** `pat` occurs in `s` starting at position `i`. */
  predicate OccursAt(s: string, pat: string, i: nat)
  {
    i + |pat| <= |s| && s[i..i + |pat|] == pat
  }

  /** Python's `pat in s` for strings. */
  predicate Contains(s: string, pat: string)
  {
    exists i: nat :: i <= |s| && OccursAt(s, pat, i)
  }

  lemma ContainsWitness(s: string, pat: string, i: nat)
    requires OccursAt(s, pat, i)
    ensures Contains(s, pat)
  {
  }

  /** A substring of a prefix is a substring of the whole. */
  lemma ContainsPrefix(s: string, t: string, pat: string)
    requires Contains(s, pat)
    ensures Contains(s + t, pat)
  {
    var i: nat :| i <= |s| && OccursAt(s, pat, i);
    assert (s + t)[i..i + |pat|] == s[i..i + |pat|];
    assert OccursAt(s + t, pat, i);
  }

  /** A substring of a suffix is a substring of the whole. */
  lemma ContainsSuffix(s: string, t: string, pat: string)
    requires Contains(t, pat)
    ensures Contains(s + t, pat)
  {
    var i: nat :| i <= |t| && OccursAt(t, pat, i);
    assert (s + t)[|s| + i..|s| + i + |pat|] == t[i..i + |pat|];
    assert OccursAt(s + t, pat, |s| + i);
  }

  /** Python's `str.lower()` restricted to ASCII letters. */
  function LowerChar(c: char): char
  {
    if 'A' <= c <= 'Z' then (c as int + 32) as char else c
  }

  function Lower(s: string): (r: string)
    ensures |r| == |s|
    ensures forall i :: 0 <= i < |s| ==> r[i] == LowerChar(s[i])
  {
    if s == [] then [] else [LowerChar(s[0])] + Lower(s[1..])
  }

  lemma LowerAppend(s: string, t: string)
    ensures Lower(s + t) == Lower(s) + Lower(t)
  {
    assert forall i :: 0 <= i < |s + t| ==> Lower(s + t)[i] == (Lower(s) + Lower(t))[i];
  }

  predicate IsAsciiLetter(c: char)
  {
    'a' <= c <= 'z' || 'A' <= c <= 'Z'
  }

  predicate IsAsciiAlnum(c: char)
  {
    IsAsciiLetter(c) || '0' <= c <= '9'
  }

  /** Python's `str.isspace()`, which is also the set `\s` matches in a `str` pattern and
      the set `str.strip()` removes. */
  predicate IsWhitespace(c: char)
  {
    var n := c as int;
    (9 <= n <= 13) || (28 <= n <= 32) || n == 0x85 || n == 0xA0 || n == 0x1680
    || (0x2000 <= n <= 0x200A) || n == 0x2028 || n == 0x2029 || n == 0x202F
    || n == 0x205F || n == 0x3000
  }

  function UpperChar(c: char): char
  {
    if 'a' <= c <= 'z' then (c as int - 32) as char else c
  }

  /** Python's `str.title()` on ASCII text: a letter is upper-cased when it starts a run of
      letters and lower-cased otherwise; other characters are kept. */
  function Title(s: string): (r: string)
    ensures |r| == |s|
  {
    TitleFrom(s, false)
  }

  function TitleFrom(s: string, afterLetter: bool): (r: string)
    ensures |r| == |s|
    ensures forall i :: 0 <= i < |s| && !IsAsciiLetter(s[i]) ==> r[i] == s[i]
  {
    if s == [] then []
    else
      var c := if !IsAsciiLetter(s[0]) then s[0] else if afterLetter then LowerChar(s[0]) else UpperChar(s[0]);
      [c] + TitleFrom(s[1..], IsAsciiLetter(s[0]))
  }

  function DigitChar(d: int): char
    requires 0 <= d < 10
  {
    ('0' as int + d) as char
  }

  /** Python's `str(n)` for an integer. */
  function Decimal(n: int): (r: string)
    ensures |r| >= 1
  {
    if n < 0 then "-" + NatDecimal(-n) else NatDecimal(n)
  }

  function NatDecimal(n: nat): (r: string)
    ensures |r| >= 1
    ensures forall i :: 0 <= i < |r| ==> '0' <= r[i] <= '9'
  {
    if n < 10 then [DigitChar(n)] else NatDecimal(n / 10) + [DigitChar(n % 10)]
  }

  /** Python's `sep.join(parts)`. */
  function Join(parts: seq<string>, sep: string): string
  {
    if |parts| == 0 then ""
    else if |parts| == 1 then parts[0]
    else parts[0] + sep + Join(parts[1..], sep)
  }

  /** Python's `[prefix + p for p in parts]`. */
  function PrefixAll(parts: seq<string>, prefix: string): (r: seq<string>)
    ensures |r| == |parts|
    ensures forall i :: 0 <= i < |parts| ==> r[i] == prefix + parts[i]
  {
    if parts == [] then [] else [prefix + parts[0]] + PrefixAll(parts[1..], prefix)
  }

  /** `xs` has no repeated element. */
  predicate Distinct<T(==)>(xs: seq<T>)
  {
    forall i, j :: 0 <= i < j < |xs| ==> xs[i] != xs[j]
  }

  /** The elements of a duplicate-free sequence form a set of the same size. */
  lemma {:induction false} DistinctSetSize<T>(xs: seq<T>)
    requires Distinct(xs)
    ensures |set x | x in xs| == |xs|
  {
    if xs != [] {
      DistinctSetSize(xs[1..]);
      assert (set x | x in xs) == {xs[0]} + (set x | x in xs[1..]);
      assert xs[0] !in (set x | x in xs[1..]);
    }
  }

  /** `b` has the keys of `a` and the same value at every key except possibly `k`. */
  ghost predicate SameExcept<K, V>(a: map<K, V>, b: map<K, V>, k: K)
  {
    a.Keys == b.Keys && forall j :: j in a && j != k ==> b[j] == a[j]
  }

  /** A Python dict: its keys in insertion order and the key-to-value mapping. Assigning to
      an existing key keeps its position; a new key goes last. */
  datatype Table<T> = Table(order: seq<string>, entries: map<string, T>)
  {
    /** Every key is listed once, and only keys are listed. */
    ghost predicate Valid()
    {
      Distinct(order) && forall k :: k in entries <==> k in order
    }

    /** `d[k] = v`. */
    function Put(k: string, v: T): (r: Table<T>)
      ensures r.entries == entries[k := v]
      ensures k in entries ==> r.order == order
      ensures k !in entries ==> r.order == order + [k]
      ensures Valid() ==> r.Valid()
    {
      Table(if k in entries then order else order + [k], entries[k := v])
    }

    /** `d.values()`, in insertion order. */
    function Values(): (r: seq<T>)
      ensures Valid() ==> |r| == |order|
      ensures Valid() ==> forall i :: 0 <= i < |order| ==> r[i] == entries[order[i]]
    {
      ValuesOf(order, entries)
    }
  }

  function ValuesOf<T>(keys: seq<string>, m: map<string, T>): (r: seq<T>)
    ensures (forall k :: k in keys ==> k in m) ==> |r| == |keys|
    ensures (forall k :: k in keys ==> k in m) ==>
              forall i :: 0 <= i < |keys| ==> r[i] == m[keys[i]]
  {
    if keys == [] then []
    else (if keys[0] in m then [m[keys[0]]] else []) + ValuesOf(keys[1..], m)
  }

  /** `len(d)` is the number of keys listed in insertion order. */
  lemma TableSize<T>(t: Table<T>)
    requires t.Valid()
    ensures |t.entries| == |t.order|
  {
    DistinctSetSize(t.order);
    assert t.entries.Keys == set x | x in t.order;
  }

  /** The number of elements of `xs` that satisfy `p`. */
  function CountIf<T>(xs: seq<T>, p: T -> bool): (n: nat)
    ensures n <= |xs|
  {
    if xs == [] then 0 else (if p(xs[0]) then 1 else 0) + CountIf(xs[1..], p)
  }

  lemma CountIfAppend<T>(xs: seq<T>, ys: seq<T>, p: T -> bool)
    ensures CountIf(xs + ys, p) == CountIf(xs, p) + CountIf(ys, p)
  {
    if xs != [] {
      assert (xs + ys)[0] == xs[0];
      assert (xs + ys)[1..] == xs[1..] + ys;
      CountIfAppend(xs[1..], ys, p);
    } else {
      assert xs + ys == ys;
    }
  }

  /** The elements of `xs` that satisfy `p`, in order (a Python list comprehension with a guard). */
  function FilterSeq<T>(xs: seq<T>, p: T -> bool): (r: seq<T>)
    ensures |r| == CountIf(xs, p)
    ensures forall i :: 0 <= i < |r| ==> r[i] in xs && p(r[i])
    ensures forall i :: 0 <= i < |xs| && p(xs[i]) ==> xs[i] in r
  {
    if xs == [] then [] else (if p(xs[0]) then [xs[0]] else []) + FilterSeq(xs[1..], p)
  }

  lemma FilterSeqAppend<T>(xs: seq<T>, ys: seq<T>, p: T -> bool)
    ensures FilterSeq(xs + ys, p) == FilterSeq(xs, p) + FilterSeq(ys, p)
  {
    if xs != [] {
      assert (xs + ys)[0] == xs[0];
      assert (xs + ys)[1..] == xs[1..] + ys;
      FilterSeqAppend(xs[1..], ys, p);
    } else {
      assert xs + ys == ys;
    }
  }

  /** Python's `sum(...)` of a list of integers. */
  function SumInts(xs: seq<int>): int
  {
    if xs == [] then 0 else xs[0] + SumInts(xs[1..])
  }

  lemma SumIntsAppend(xs: seq<int>, ys: seq<int>)
    ensures SumInts(xs + ys) == SumInts(xs) + SumInts(ys)
  {
    if xs != [] {
      assert (xs + ys)[0] == xs[0];
      assert (xs + ys)[1..] == xs[1..] + ys;
      SumIntsAppend(xs[1..], ys);
    } else {
      assert xs + ys == ys;
    }
  }

  /** Python's `sum(...)` of a list of floats, modelled exactly. */
  function SumReals(xs: seq<real>): real
  {
    if xs == [] then 0.0 else xs[0] + SumReals(xs[1..])
  }

  /** `m.get(k, 0)` for a counting dictionary. */
  function CountIn<K>(m: map<K, nat>, k: K): nat
  {
    if k in m then m[k] else 0
  }

  /** The number of positions of `xs` that hold `k`. */
  function Occurrences<K(==)>(xs: seq<K>, k: K): (n: nat)
    ensures n <= |xs|
    ensures n > 0 <==> k in xs
  {
    if xs == [] then 0 else (if xs[0] == k then 1 else 0) + Occurrences(xs[1..], k)
  }

  /** How often each element occurs in `xs`, built as Python's
      `d[k] = d.get(k, 0) + 1` loop builds it. */
  function Tally<K(!new)>(xs: seq<K>): (m: map<K, nat>)
    ensures forall k :: k in m <==> k in xs
    ensures forall k :: CountIn(m, k) == Occurrences(xs, k)
  {
    if xs == [] then map[]
    else
      var rest := Tally(xs[1..]);
      rest[xs[0] := CountIn(rest, xs[0]) + 1]
  }

  /** The counts of `m` summed over the keys `ks`. */
  function SumCounts<K>(m: map<K, nat>, ks: seq<K>): nat
  {
    if ks == [] then 0 else CountIn(m, ks[0]) + SumCounts(m, ks[1..])
  }

  lemma {:induction false} SumCountsEmpty<K>(ks: seq<K>)
    ensures SumCounts(map[], ks) == 0
  {
    if ks != [] {
      SumCountsEmpty(ks[1..]);
    }
  }

  /** Adding one to the count of a key listed once adds one to the sum. */
  lemma {:induction false} SumCountsBump<K>(m: map<K, nat>, ks: seq<K>, x: K)
    requires Distinct(ks)
    ensures SumCounts(m[x := CountIn(m, x) + 1], ks)
              == SumCounts(m, ks) + (if x in ks then 1 else 0)
  {
    if ks != [] {
      assert Distinct(ks[1..]) by {
        forall i, j | 0 <= i < j < |ks[1..]| ensures ks[1..][i] != ks[1..][j] {
          assert ks[1..][i] == ks[i + 1] && ks[1..][j] == ks[j + 1];
        }
      }
      SumCountsBump(m, ks[1..], x);
      if ks[0] == x {
        assert x !in ks[1..] by {
          forall i | 0 <= i < |ks[1..]| ensures ks[1..][i] != x {
            assert ks[1..][i] == ks[i + 1];
          }
        }
      } else {
        assert x in ks <==> x in ks[1..];
      }
    }
  }

  /** A tally over keys drawn from a duplicate-free list of all keys accounts for every
      element exactly once. */
  lemma {:induction false} TallyTotal<K(!new)>(xs: seq<K>, ks: seq<K>)
    requires Distinct(ks)
    requires forall i :: 0 <= i < |xs| ==> xs[i] in ks
    ensures SumCounts(Tally(xs), ks) == |xs|
  {
    if xs == [] {
      SumCountsEmpty(ks);
    } else {
      assert forall i :: 0 <= i < |xs[1..]| ==> xs[1..][i] == xs[i + 1];
      TallyTotal(xs[1..], ks);
      SumCountsBump(Tally(xs[1..]), ks, xs[0]);
    }
  }

  /** A sum of reals each between `lo` and `hi` lies between the matching multiples. */
  lemma {:induction false} SumRealsBounds(xs: seq<real>, lo: real, hi: real)
    requires forall i :: 0 <= i < |xs| ==> lo <= xs[i] <= hi
    ensures (|xs| as real) * lo <= SumReals(xs) <= (|xs| as real) * hi
  {
    if xs != [] {
      SumRealsBounds(xs[1..], lo, hi);
    }
  }

  /** The arithmetic mean of a non-empty list. */
  function Mean(xs: seq<real>): (r: real)
    requires xs != []
    ensures r * (|xs| as real) == SumReals(xs)
  {
    SumReals(xs) / (|xs| as real)
  }

  /** The mean of values between `lo` and `hi` lies between them. */
  lemma MeanBetween(xs: seq<real>, lo: real, hi: real)
    requires xs != [] && forall i :: 0 <= i < |xs| ==> lo <= xs[i] <= hi
    ensures lo <= Mean(xs) <= hi
  {
    SumRealsBounds(xs, lo, hi);
    var m := Mean(xs);
    var n := |xs| as real;
    assert (m - lo) * n == SumReals(xs) - n * lo;
    assert (hi - m) * n == n * hi - SumReals(xs);
  }

  /** The distinct elements of `xs` (a Python dict's keys built from them). */
  function Dedup<T(==,!new)>(xs: seq<T>): (r: seq<T>)
    ensures Distinct(r)
    ensures forall x :: x in r <==> x in xs
  {
    if xs == [] then []
    else
      var rest := Dedup(xs[1..]);
      if xs[0] in rest then rest else [xs[0]] + rest
  }
}

=== FILE: content.dfy ===
// The content manager (content_manager.py): template expansion, per-platform rewriting of a
// post, the suitability heuristic, library analytics and the spacing of a campaign's posts.

module ContentManager {
  import opened Common

  datatype Platform = LinkedIn | Twitter | Facebook | Instagram | Reddit | Discord | StockTwits
  datatype ContentKind = TextContent | ImageContent | VideoContent | LinkContent | PollContent
  datatype Category = Promotional | Educational | Entertainment | News | Personal | Interactive
  datatype Status = Draft | Scheduled | Published | Failed | Archived

  const AllPlatforms: seq<Platform> :=
    [LinkedIn, Twitter, Facebook, Instagram, Reddit, Discord, StockTwits]
  const AllCategories: seq<Category> :=
    [Promotional, Educational, Entertainment, News, Personal, Interactive]
  const AllStatuses: seq<Status> := [Draft, Scheduled, Published, Failed, Archived]

  datatype Template = Template(
    name: string,
    category: Category,
    baseText: string,
    hashtags: seq<string>,
    mentions: seq<string>,
    platforms: seq<Platform>)

  /** The `platform_specific` record of a post expanded from a template. */
  datatype Origin = Origin(template: string, category: Category, platforms: seq<Platform>)

  /** A post; an absent hashtag or mention list is the empty list. Times are seconds. */
  datatype Post = Post(
    text: string,
    kind: ContentKind,
    hashtags: seq<string>,
    mentions: seq<string>,
    scheduledTime: Option<real>,
    origin: Option<Origin>)

  datatype Campaign = Campaign(
    name: string,
    description: string,
    start: real,
    end: real,
    posts: seq<Post>,
    platforms: seq<Platform>,
    status: Status)

  /** The manager's two dictionaries, keyed by name in insertion order. */
  datatype Library = Library(templates: Table<Template>, campaigns: Table<Campaign>)
  {
    ghost predicate Valid()
    {
      templates.Valid() && campaigns.Valid()
    }
  }

  // ---------------------------------------------------------------------------------------
  // Placeholder substitution

  /** Python's `s.replace(pat, rep)` for a non-empty pattern: occurrences are taken from
      left to right, and the scan resumes after each replaced one. */
  function ReplaceAll(s: string, pat: string, rep: string): string
    requires pat != []
    decreases |s|
  {
    if |s| < |pat| then s
    else if s[..|pat|] == pat then rep + ReplaceAll(s[|pat|..], pat, rep)
    else [s[0]] + ReplaceAll(s[1..], pat, rep)
  }

  /** An occurrence in the tail is an occurrence one position further on in the whole. */
  lemma OccursShift(s: string, pat: string, i: nat)
    requires |s| > 0
    ensures OccursAt(s[1..], pat, i) <==> OccursAt(s, pat, i + 1)
  {
    if i + 1 + |pat| <= |s| {
      assert s[i + 1..i + 1 + |pat|] == s[1..][i..i + |pat|];
    }
  }

  /** Text without the pattern comes back unchanged. */
  lemma {:induction false} ReplaceAbsent(s: string, pat: string, rep: string)
    requires pat != [] && !Contains(s, pat)
    ensures ReplaceAll(s, pat, rep) == s
    decreases |s|
  {
    if |s| >= |pat| {
      assert !OccursAt(s, pat, 0);
      forall i: nat | i <= |s[1..]|
        ensures !OccursAt(s[1..], pat, i)
      {
        OccursShift(s, pat, i);
      }
      ReplaceAbsent(s[1..], pat, rep);
      assert [s[0]] + s[1..] == s;
    }
  }

  /** `pat` occurs at `k` and nowhere before. */
  predicate FirstOccurrence(s: string, pat: string, k: nat)
  {
    OccursAt(s, pat, k) && forall i: nat :: i < k ==> !OccursAt(s, pat, i)
  }

  /** Without an occurrence at the front, the first character is copied. */
  lemma ReplaceSkip(s: string, pat: string, rep: string)
    requires pat != [] && |s| >= |pat| && !OccursAt(s, pat, 0)
    ensures ReplaceAll(s, pat, rep) == [s[0]] + ReplaceAll(s[1..], pat, rep)
  {
    assert s[..|pat|] == s[0..|pat|];
  }

  /** Moving past a first character that starts no occurrence keeps the first occurrence. */
  lemma FirstOccurrenceShift(s: string, pat: string, k: nat)
    requires k > 0 && FirstOccurrence(s, pat, k)
    ensures FirstOccurrence(s[1..], pat, k - 1)
  {
    OccursShift(s, pat, k - 1);
    forall i: nat | i < k - 1
      ensures !OccursAt(s[1..], pat, i)
    {
      OccursShift(s, pat, i);
    }
  }

  /** An occurrence at the front is replaced. */
  lemma ReplaceFront(s: string, pat: string, rep: string)
    requires pat != [] && OccursAt(s, pat, 0)
    ensures ReplaceAll(s, pat, rep) == rep + ReplaceAll(s[|pat|..], pat, rep)
  {
    assert s[..|pat|] == s[0..|pat|];
  }

  lemma ConsSplice(s: string, k: nat, rep: string, tail: string)
    requires 0 < k <= |s|
    ensures [s[0]] + (s[1..][..k - 1] + rep + tail) == s[..k] + rep + tail
  {
    assert [s[0]] + s[1..][..k - 1] == s[..k];
  }

  /** The first occurrence, at `k`, is replaced and replacement resumes right after it:
      together with `ReplaceAbsent` this determines the result on every input. */
  lemma {:induction false} ReplaceFirst(s: string, pat: string, rep: string, k: nat)
    requires pat != [] && FirstOccurrence(s, pat, k)
    ensures ReplaceAll(s, pat, rep) == s[..k] + rep + ReplaceAll(s[k + |pat|..], pat, rep)
    decreases k
  {
    if k == 0 {
      ReplaceFront(s, pat, rep);
      assert s[..k] == [];
    } else {
      FirstOccurrenceShift(s, pat, k);
      assert !OccursAt(s, pat, 0);
      ReplaceFirstShifted(s, pat, rep, k);
    }
  }

  lemma {:induction false} ReplaceFirstShifted(s: string, pat: string, rep: string, k: nat)
    requires pat != [] && 0 < k && k + |pat| <= |s| && !OccursAt(s, pat, 0)
    requires FirstOccurrence(s[1..], pat, k - 1)
    ensures ReplaceAll(s, pat, rep) == s[..k] + rep + ReplaceAll(s[k + |pat|..], pat, rep)
    decreases k, 0
  {
    var t := s[1..];
    ReplaceSkip(s, pat, rep);
    ReplaceFirst(t, pat, rep, k - 1);
    assert t[k - 1 + |pat|..] == s[k + |pat|..];
    var tail := ReplaceAll(s[k + |pat|..], pat, rep);
    assert ReplaceAll(t, pat, rep) == t[..k - 1] + rep + tail;
    ConsSplice(s, k, rep, tail);
  }

  /** `{name}`, the placeholder a variable replaces. */
  function Placeholder(name: string): (r: string)
    ensures |r| == |name| + 2
  {
    "{" + name + "}"
  }

  /** The substitution loop over the variables in dictionary order. */
  function Substitute(text: string, vars: seq<(string, string)>): string
    decreases |vars|
  {
    if vars == [] then text
    else Substitute(ReplaceAll(text, Placeholder(vars[0].0), vars[0].1), vars[1..])
  }

  /** Variables whose placeholders do not occur leave the text unchanged. */
  lemma {:induction false} SubstituteAbsent(text: string, vars: seq<(string, string)>)
    requires forall i :: 0 <= i < |vars| ==> !Contains(text, Placeholder(vars[i].0))
    ensures Substitute(text, vars) == text
    decreases |vars|
  {
    if vars != [] {
      ReplaceAbsent(text, Placeholder(vars[0].0), vars[0].1);
      assert forall i :: 0 <= i < |vars[1..]| ==> vars[1..][i] == vars[i + 1];
      SubstituteAbsent(text, vars[1..]);
    }
  }

  /** `sep.join` keeps every part as a substring. */
  lemma {:induction false} JoinContains(parts: seq<string>, sep: string, i: nat)
    requires i < |parts|
    ensures Contains(Join(parts, sep), parts[i])
    decreases |parts|
  {
    if |parts| == 1 {
      assert OccursAt(parts[0], parts[0], 0);
    } else if i == 0 {
      assert OccursAt(parts[0], parts[0], 0);
      ContainsPrefix(parts[0], sep + Join(parts[1..], sep), parts[0]);
      assert parts[0] + sep + Join(parts[1..], sep) == parts[0] + (sep + Join(parts[1..], sep));
    } else {
      JoinContains(parts[1..], sep, i - 1);
      ContainsSuffix(parts[0] + sep, Join(parts[1..], sep), parts[i]);
    }
  }

  /** The paragraph listing `items`, each behind `marker`, or nothing when there are none. */
  function Block(marker: string, items: seq<string>): string
  {
    if items == [] then "" else "\n\n" + Join(PrefixAll(items, marker), " ")
  }

  /** Every item shows up behind its marker, after a blank line. */
  lemma BlockContents(marker: string, items: seq<string>, i: nat)
    requires i < |items|
    ensures Block(marker, items)[..2] == "\n\n"
    ensures Contains(Block(marker, items), marker + items[i])
  {
    var parts := PrefixAll(items, marker);
    JoinContains(parts, " ", i);
    ContainsSuffix("\n\n", Join(parts, " "), parts[i]);
  }

  /** `generate_content_from_template`. */
  function GenerateFromTemplate(lib: Library, name: string, vars: seq<(string, string)>)
    : (r: Result<Post>)
    ensures r.Err? <==> name !in lib.templates.entries
    ensures r.Err? ==> r.error == TemplateNotFound(name)
    ensures r.Ok? ==> name in lib.templates.entries
    ensures r.Ok? ==>
      var t := lib.templates.entries[name];
      var body := Substitute(t.baseText, vars);
      && |body| <= |r.value.text|
      && r.value.text[..|body|] == body
      && (t.hashtags == [] && t.mentions == [] <==> r.value.text == body)
      && (t.hashtags != [] ==>
            (|body| + 2 <= |r.value.text| && r.value.text[|body|..|body| + 2] == "\n\n"))
      && r.value.kind == TextContent
      && r.value.hashtags == t.hashtags && r.value.mentions == t.mentions
      && r.value.scheduledTime == None
      && r.value.origin == Some(Origin(name, t.category, t.platforms))
  {
    if name !in lib.templates.entries then Err(TemplateNotFound(name))
    else
      var t := lib.templates.entries[name];
      var body := Substitute(t.baseText, vars);
      var text := body + Block("#", t.hashtags) + Block("@", t.mentions);
      assert text[..|body|] == body;
      Ok(Post(text, TextContent, t.hashtags, t.mentions, None,
              Some(Origin(name, t.category, t.platforms))))
  }

  /** Every hashtag of the template appears in the generated text as `#tag`, and every
      mention as `@mention`. */
  lemma GeneratedTagsPresent(lib: Library, name: string, vars: seq<(string, string)>)
    requires name in lib.templates.entries
    ensures GenerateFromTemplate(lib, name, vars).Ok?
    ensures var t := lib.templates.entries[name];
            var text := GenerateFromTemplate(lib, name, vars).value.text;
            && (forall i :: 0 <= i < |t.hashtags| ==> Contains(text, "#" + t.hashtags[i]))
            && (forall i :: 0 <= i < |t.mentions| ==> Contains(text, "@" + t.mentions[i]))
  {
    var t := lib.templates.entries[name];
    var body := Substitute(t.baseText, vars);
    var tags := Block("#", t.hashtags);
    var ments := Block("@", t.mentions);
    assert GenerateFromTemplate(lib, name, vars).value.text == body + tags + ments;
    forall i | 0 <= i < |t.hashtags|
      ensures Contains(body + tags + ments, "#" + t.hashtags[i])
    {
      BlockContents("#", t.hashtags, i);
      ContainsSuffix(body, tags, "#" + t.hashtags[i]);
      ContainsPrefix(body + tags, ments, "#" + t.hashtags[i]);
    }
    forall i | 0 <= i < |t.mentions|
      ensures Contains(body + tags + ments, "@" + t.mentions[i])
    {
      BlockContents("@", t.mentions, i);
      ContainsSuffix(body + tags, ments, "@" + t.mentions[i]);
    }
  }

  // ---------------------------------------------------------------------------------------
  // Per-platform rewriting

  const TwitterLimit := 280
  const InstagramLimit := 2200
  const InstagramTagCap := 30

  /** Twitter: text over the limit keeps its first 277 characters and gains "...". */
  function TruncateForTwitter(text: string): (r: string)
    ensures |r| <= TwitterLimit
    ensures |text| <= TwitterLimit ==> r == text
    ensures |text| > TwitterLimit ==>
              |r| == TwitterLimit && r[..TwitterLimit - 3] == text[..TwitterLimit - 3]
              && r[TwitterLimit - 3..] == "..."
  {
    if |text| > TwitterLimit then text[..TwitterLimit - 3] + "..." else text
  }

  /** A truncated text is never truncated again. */
  lemma TruncateIdempotent(text: string)
    ensures TruncateForTwitter(TruncateForTwitter(text)) == TruncateForTwitter(text)
  {
  }

  /** Python's `\w` on ASCII text. */
  predicate IsWordChar(c: char)
  {
    IsAsciiLetter(c) || '0' <= c <= '9' || c == '_'
  }

  /** Characters the professional rewrite keeps: `[\w\s@#]`. */
  predicate Kept(c: char)
  {
    IsWordChar(c) || IsWhitespace(c) || c == '@' || c == '#'
  }

  /** `#` followed by a word character starts at `i`: a match of `#\w+`. */
  predicate HashWordAt(t: string, i: nat)
  {
    i + 1 < |t| && t[i] == '#' && IsWordChar(t[i + 1])
  }

  predicate HasHashWord(t: string)
  {
    exists i: nat :: i < |t| && HashWordAt(t, i)
  }

  const ProfessionalTags := "\n\n#professional #networking #business"

  lemma ProfessionalTagsKept()
    ensures forall i :: 0 <= i < |ProfessionalTags| ==> Kept(ProfessionalTags[i])
    ensures HashWordAt(ProfessionalTags, 2)
  {
  }

  /** `make_professional`: strip every character outside `[\w\s@#]`, then add the
      professional hashtags when no `#word` is left. */
  function MakeProfessional(text: string): (r: string)
    ensures var kept := FilterSeq(text, Kept);
            && |kept| <= |r| && r[..|kept|] == kept
            && (HasHashWord(kept) <==> r == kept)
            && (!HasHashWord(kept) ==> r == kept + ProfessionalTags)
    ensures forall i :: 0 <= i < |r| ==> Kept(r[i])
    ensures HasHashWord(r)
  {
    var kept := FilterSeq(text, Kept);
    if HasHashWord(kept) then kept
    else
      ProfessionalTagsKept();
      assert HashWordAt(kept + ProfessionalTags, |kept| + 2);
      kept + ProfessionalTags
  }

  /** Filtering text that is already all kept characters changes nothing. */
  lemma {:induction false} FilterAllKept(s: string)
    requires forall i :: 0 <= i < |s| ==> Kept(s[i])
    ensures FilterSeq(s, Kept) == s
  {
    if s != [] {
      assert forall i :: 0 <= i < |s[1..]| ==> s[1..][i] == s[i + 1];
      FilterAllKept(s[1..]);
      assert [s[0]] + s[1..] == s;
    }
  }

  /** Rewriting professional text again changes nothing. */
  lemma MakeProfessionalIdempotent(text: string)
    ensures MakeProfessional(MakeProfessional(text)) == MakeProfessional(text)
  {
    FilterAllKept(MakeProfessional(text));
  }

  /** The lower-cased text mentions a community, a discussion or thoughts. */
  predicate CommunityMinded(text: string)
  {
    var l := Lower(text);
    Contains(l, "community") || Contains(l, "discussion") || Contains(l, "thoughts")
  }

  const QuestionHead := "\n\nWhat are your "
  const QuestionTail := " on this?"
  const CommunityQuestion := QuestionHead + "thoughts" + QuestionTail

  /** Text without capitals is its own lower-case form. */
  lemma LowerFixed(s: string)
    requires forall i :: 0 <= i < |s| ==> !('A' <= s[i] <= 'Z')
    ensures Lower(s) == s
  {
  }

  lemma ThoughtsLower()
    ensures Lower("thoughts") == "thoughts"
  {
    LowerFixed("thoughts");
  }

  /** Lower-casing keeps a middle piece in place, lower-cased. */
  lemma LowerKeepsMiddle(a: string, w: string, b: string)
    ensures Contains(Lower(a + w + b), Lower(w))
  {
    LowerAppend(a, w);
    LowerAppend(a + w, b);
    var la, lw, lb := Lower(a), Lower(w), Lower(b);
    assert (la + lw + lb)[|la|..|la| + |lw|] == lw;
    ContainsWitness(la + lw + lb, lw, |la|);
  }

  lemma QuestionMentionsThoughts(text: string)
    ensures CommunityMinded(text + CommunityQuestion)
  {
    assert text + CommunityQuestion == (text + QuestionHead) + "thoughts" + QuestionTail;
    LowerKeepsMiddle(text + QuestionHead, "thoughts", QuestionTail);
    ThoughtsLower();
  }


  /** `make_community_focused`: add the closing question unless the text already speaks of
      a community, a discussion or thoughts. */
  function MakeCommunityFocused(text: string): (r: string)
    ensures |text| <= |r| && r[..|text|] == text
    ensures CommunityMinded(text) <==> r == text
    ensures !CommunityMinded(text) ==> r == text + CommunityQuestion
    ensures CommunityMinded(r)
  {
    if CommunityMinded(text) then text
    else
      QuestionMentionsThoughts(text);
      text + CommunityQuestion
  }

  /** Asking for community focus twice is the same as asking once. */
  lemma CommunityFocusIdempotent(text: string)
    ensures MakeCommunityFocused(MakeCommunityFocused(text)) == MakeCommunityFocused(text)
  {
  }

  /** Instagram: the first thirty hashtags, if there are any, as a closing paragraph. */
  function AppendInstagramTags(text: string, hashtags: seq<string>): (r: string)
    ensures |text| <= |r| && r[..|text|] == text
    ensures hashtags == [] <==> r == text
    ensures forall i :: 0 <= i < Min(|hashtags|, InstagramTagCap) ==>
              Contains(r, "#" + hashtags[i])
  {
    var shown := hashtags[..Min(|hashtags|, InstagramTagCap)];
    var block := Block("#", shown);
    assert (text + block)[..|text|] == text;
    assert forall i :: 0 <= i < |shown| ==> Contains(text + block, "#" + hashtags[i]) by {
      forall i | 0 <= i < |shown| ensures Contains(text + block, "#" + hashtags[i]) {
        BlockContents("#", shown, i);
        ContainsSuffix(text, block, "#" + shown[i]);
      }
    }
    assert hashtags != [] ==> |block| > 0 by {
      if hashtags != [] {
        BlockContents("#", shown, 0);
      }
    }
    text + block
  }

  /** `optimize_content_for_platform`: a copy of the post with only its text rewritten. */
  function OptimizeForPlatform(post: Post, platform: Platform): (r: Post)
    ensures r.(text := post.text) == post
    ensures platform == Twitter ==> r.text == TruncateForTwitter(post.text)
    ensures platform == Instagram ==> r.text == AppendInstagramTags(post.text, post.hashtags)
    ensures platform == LinkedIn ==> r.text == MakeProfessional(post.text)
    ensures platform == Reddit ==> r.text == MakeCommunityFocused(post.text)
    ensures platform in {Facebook, Discord, StockTwits} ==> r == post
  {
    match platform
    case Twitter => post.(text := TruncateForTwitter(post.text))
    case Instagram => post.(text := AppendInstagramTags(post.text, post.hashtags))
    case LinkedIn => post.(text := MakeProfessional(post.text))
    case Reddit => post.(text := MakeCommunityFocused(post.text))
    case _ => post
  }

  /** What each platform's rewrite promises of the text. */
  lemma OptimizedText(post: Post, platform: Platform)
    ensures var t := OptimizeForPlatform(post, platform).text;
            && (platform == Twitter ==>
                  (|t| <= TwitterLimit && (|post.text| <= TwitterLimit <==> t == post.text)))
            && (platform == Instagram ==> t[..|post.text|] == post.text)
            && (platform == LinkedIn ==> HasHashWord(t))
            && (platform == Reddit ==> (CommunityMinded(t) && t[..|post.text|] == post.text))
  {
  }

  // ---------------------------------------------------------------------------------------
  // Suitability and analytics

  /** `is_idea_suitable_for_platforms`. */
  function IsIdeaSuitable(idea: string, platforms: seq<Platform>): (r: bool)
    ensures !r <==> (Twitter in platforms && |idea| > TwitterLimit)
                    || (Instagram in platforms && |idea| > InstagramLimit)
  {
    if Twitter in platforms && |idea| > TwitterLimit then false
    else if Instagram in platforms && |idea| > InstagramLimit then false
    else true
  }

  /** Dropping platforms never makes an idea unsuitable, and an idea that fits a tweet fits
      everywhere. */
  lemma SuitabilityMonotone(idea: string, platforms: seq<Platform>, fewer: seq<Platform>)
    requires forall p :: p in fewer ==> p in platforms
    ensures IsIdeaSuitable(idea, platforms) ==> IsIdeaSuitable(idea, fewer)
    ensures |idea| <= TwitterLimit ==> IsIdeaSuitable(idea, platforms)
  {
  }

  datatype Analytics = Analytics(
    totalTemplates: nat,
    totalCampaigns: nat,
    campaignsByStatus: map<Status, nat>,
    templatesByCategory: map<Category, nat>,
    platformDistribution: map<Platform, nat>)

  function StatusesOf(cs: seq<Campaign>): (r: seq<Status>)
    ensures |r| == |cs| && forall i :: 0 <= i < |cs| ==> r[i] == cs[i].status
  {
    if cs == [] then [] else [cs[0].status] + StatusesOf(cs[1..])
  }

  function CategoriesOf(ts: seq<Template>): (r: seq<Category>)
    ensures |r| == |ts| && forall i :: 0 <= i < |ts| ==> r[i] == ts[i].category
  {
    if ts == [] then [] else [ts[0].category] + CategoriesOf(ts[1..])
  }

  /** Every platform listing of every template, template by template. */
  function PlatformListings(ts: seq<Template>): seq<Platform>
  {
    if ts == [] then [] else ts[0].platforms + PlatformListings(ts[1..])
  }

  /** Number of platform listings over all templates. */
  function ListingCount(ts: seq<Template>): nat
  {
    if ts == [] then 0 else |ts[0].platforms| + ListingCount(ts[1..])
  }

  lemma {:induction false} PlatformListingsSize(ts: seq<Template>)
    ensures |PlatformListings(ts)| == ListingCount(ts)
  {
    if ts != [] {
      PlatformListingsSize(ts[1..]);
    }
  }

  /** `get_content_analytics`. */
  function GetContentAnalytics(lib: Library): (r: Analytics)
    ensures r.totalCampaigns == |lib.campaigns.entries| && r.totalTemplates == |lib.templates.entries|
    ensures forall s :: CountIn(r.campaignsByStatus, s) == Occurrences(StatusesOf(lib.campaigns.Values()), s)
    ensures forall c :: CountIn(r.templatesByCategory, c) == Occurrences(CategoriesOf(lib.templates.Values()), c)
    ensures forall p :: CountIn(r.platformDistribution, p) == Occurrences(PlatformListings(lib.templates.Values()), p)
    ensures lib.Valid() ==>
              forall s :: s in r.campaignsByStatus <==>
                exists k :: k in lib.campaigns.entries && lib.campaigns.entries[k].status == s
  {
    var cs := lib.campaigns.Values();
    var ts := lib.templates.Values();
    Analytics(|lib.templates.entries|, |lib.campaigns.entries|,
              Tally(StatusesOf(cs)), Tally(CategoriesOf(ts)), Tally(PlatformListings(ts)))
  }

  lemma StatusesListed(xs: seq<Status>)
    ensures forall i :: 0 <= i < |xs| ==> xs[i] in AllStatuses
  {
    forall i | 0 <= i < |xs| ensures xs[i] in AllStatuses {
      assert xs[i] == AllStatuses[0] || xs[i] == AllStatuses[1] || xs[i] == AllStatuses[2]
          || xs[i] == AllStatuses[3] || xs[i] == AllStatuses[4];
    }
  }

  lemma CategoriesListed(xs: seq<Category>)
    ensures forall i :: 0 <= i < |xs| ==> xs[i] in AllCategories
  {
    forall i | 0 <= i < |xs| ensures xs[i] in AllCategories {
      assert xs[i] == AllCategories[0] || xs[i] == AllCategories[1]
          || xs[i] == AllCategories[2] || xs[i] == AllCategories[3]
          || xs[i] == AllCategories[4] || xs[i] == AllCategories[5];
    }
  }

  lemma PlatformsListed(xs: seq<Platform>)
    ensures forall i :: 0 <= i < |xs| ==> xs[i] in AllPlatforms
  {
    forall i | 0 <= i < |xs| ensures xs[i] in AllPlatforms {
      assert xs[i] == AllPlatforms[0] || xs[i] == AllPlatforms[1] || xs[i] == AllPlatforms[2]
          || xs[i] == AllPlatforms[3] || xs[i] == AllPlatforms[4] || xs[i] == AllPlatforms[5]
          || xs[i] == AllPlatforms[6];
    }
  }

  /** The status counts add up to the number of campaigns. */
  lemma StatusCountsTotal(lib: Library)
    requires lib.Valid()
    ensures SumCounts(GetContentAnalytics(lib).campaignsByStatus, AllStatuses) == |lib.campaigns.entries|
  {
    TableSize(lib.campaigns);
    var statuses := StatusesOf(lib.campaigns.Values());
    StatusesListed(statuses);
    TallyTotal(statuses, AllStatuses);
  }

  /** The category counts add up to the number of templates. */
  lemma CategoryCountsTotal(lib: Library)
    requires lib.Valid()
    ensures SumCounts(GetContentAnalytics(lib).templatesByCategory, AllCategories) == |lib.templates.entries|
  {
    TableSize(lib.templates);
    var categories := CategoriesOf(lib.templates.Values());
    CategoriesListed(categories);
    TallyTotal(categories, AllCategories);
  }

  /** The platform counts add up to the number of platform listings over all templates. */
  lemma PlatformCountsTotal(lib: Library)
    ensures SumCounts(GetContentAnalytics(lib).platformDistribution, AllPlatforms)
              == ListingCount(lib.templates.Values())
  {
    var listings := PlatformListings(lib.templates.Values());
    PlatformsListed(listings);
    TallyTotal(listings, AllPlatforms);
    PlatformListingsSize(lib.templates.Values());
  }

  // ---------------------------------------------------------------------------------------
  // Campaign scheduling

  /** What the automation system answered for one post: its result, or the message of the
      exception it raised. */
  datatype ScheduleOutcome = Accepted(response: string) | Raised(message: string)

  datatype ScheduledPost = ScheduledPost(index: nat, time: real, outcome: ScheduleOutcome)

  datatype ScheduleReport = ScheduleReport(
    campaignName: string,
    totalPosts: nat,
    scheduledPosts: seq<ScheduledPost>)

  datatype Scheduling = Scheduling(library: Library, report: ScheduleReport)

  /** The campaign's duration divided evenly among its posts (0 without posts). */
  function Interval(c: Campaign): real
  {
    if |c.posts| > 0 then (c.end - c.start) / (|c.posts| as real) else 0.0
  }

  /** When post `i` goes out. */
  function SlotTime(c: Campaign, i: nat): real
  {
    c.start + (i as real) * Interval(c)
  }

  lemma IntervalBounds(c: Campaign)
    requires c.start <= c.end && |c.posts| > 0
    ensures 0.0 <= Interval(c)
    ensures Interval(c) * (|c.posts| as real) == c.end - c.start
  {
  }

  /** Slots never go back in time while the campaign does not end before it starts. */
  lemma SlotTimesOrdered(c: Campaign, i: nat, j: nat)
    requires c.start <= c.end && i <= j
    ensures SlotTime(c, i) <= SlotTime(c, j)
  {
    if |c.posts| > 0 {
      IntervalBounds(c);
      var d := ((j - i) as real) * Interval(c);
      assert 0.0 <= d;
      assert (j as real) * Interval(c) == (i as real) * Interval(c) + d;
    }
  }

  /** Every post of the campaign goes out between its start and its end, and before the end
      when the campaign lasts a while. */
  lemma SlotWithin(c: Campaign, i: nat)
    requires c.start <= c.end && i < |c.posts|
    ensures c.start <= SlotTime(c, i) <= c.end
    ensures c.start < c.end ==> SlotTime(c, i) < c.end
  {
    IntervalBounds(c);
    var n := |c.posts| as real;
    var gap := (n - i as real) * Interval(c);
    assert (i as real) * Interval(c) + gap == c.end - c.start;
    assert 0.0 <= (i as real) * Interval(c);
    assert c.start < c.end ==> 0.0 < Interval(c);
    assert c.start < c.end ==> 0.0 < gap;
  }

  /** The campaign's posts, each stamped with its slot. */
  function TimedPosts(c: Campaign): (r: seq<Post>)
    ensures |r| == |c.posts|
    ensures forall i :: 0 <= i < |r| ==>
              r[i] == c.posts[i].(scheduledTime := Some(SlotTime(c, i)))
  {
    seq(|c.posts|, i requires 0 <= i < |c.posts| =>
      c.posts[i].(scheduledTime := Some(SlotTime(c, i))))
  }

  /** `schedule_campaign`; `submit(i, post)` is the automation system's answer for post `i`.
      The campaign file write is not modelled. */
  function ScheduleCampaign(lib: Library, name: string, submit: (nat, Post) -> ScheduleOutcome)
    : (r: Result<Scheduling>)
    ensures r.Err? <==> name !in lib.campaigns.entries
    ensures r.Err? ==> r.error == CampaignNotFound(name)
    ensures r.Ok? ==> name in lib.campaigns.entries && name in r.value.library.campaigns.entries
    ensures r.Ok? ==>
      var c := lib.campaigns.entries[name];
      var c' := r.value.library.campaigns.entries[name];
      var report := r.value.report;
      && r.value.library.templates == lib.templates
      && r.value.library.campaigns.order == lib.campaigns.order
      && SameExcept(lib.campaigns.entries, r.value.library.campaigns.entries, name)
      && c' == c.(posts := c'.posts, status := Scheduled)
      && |c'.posts| == |c.posts|
      && (forall i :: 0 <= i < |c.posts| ==>
            c'.posts[i].scheduledTime == Some(SlotTime(c, i))
            && c'.posts[i].(scheduledTime := c.posts[i].scheduledTime) == c.posts[i])
      && report.campaignName == name
      && report.totalPosts == |c.posts|
      && |report.scheduledPosts| == |c.posts|
      && (forall i :: 0 <= i < |c.posts| ==>
            report.scheduledPosts[i]
              == ScheduledPost(i, SlotTime(c, i), submit(i, c'.posts[i])))
    ensures r.Ok? && lib.Valid() ==> r.value.library.Valid()
  {
    if name !in lib.campaigns.entries then Err(CampaignNotFound(name))
    else
      var c := lib.campaigns.entries[name];
      var posts := TimedPosts(c);
      var results := seq(|posts|, i requires 0 <= i < |posts| =>
        ScheduledPost(i, SlotTime(c, i), submit(i, posts[i])));
      var c' := c.(posts := posts, status := Scheduled);
      Ok(Scheduling(Library(lib.templates, lib.campaigns.Put(name, c')),
                    ScheduleReport(name, |posts|, results)))
  }

  /** The reported times of a scheduled campaign run from its start to its end in order. */
  lemma ScheduledTimesOrdered(lib: Library, name: string,
                              submit: (nat, Post) -> ScheduleOutcome, i: nat, j: nat)
    requires name in lib.campaigns.entries
    requires lib.campaigns.entries[name].start <= lib.campaigns.entries[name].end
    requires i <= j < |lib.campaigns.entries[name].posts|
    ensures ScheduleCampaign(lib, name, submit).Ok?
    ensures var c := lib.campaigns.entries[name];
            var report := ScheduleCampaign(lib, name, submit).value.report;
            && c.start <= report.scheduledPosts[i].time <= report.scheduledPosts[j].time
            && report.scheduledPosts[j].time <= c.end
  {
    var c := lib.campaigns.entries[name];
    SlotTimesOrdered(c, i, j);
    SlotWithin(c, i);
    SlotWithin(c, j);
  }
}

=== FILE: content_generator.dfy ===
// The AI content generator's deterministic part (src/ai/content_generator.py): the engagement
// and viral-potential heuristics, hashtag selection, the early return of content
// optimisation, and the analytics over generated content. Random template, keyword, tone and
// hashtag choices are inputs.

module ContentGenerator {
  import opened Common

  datatype Tone = Motivational | Educational | Funny | Inspirational | Professional | Casual

  /** The tone weights; every tone has one, so the lookup default of 0.5 is never used. */
  function ToneWeight(t: Tone): (w: real)
    ensures 0.5 <= w <= 0.8
  {
    match t
    case Motivational => 0.8
    case Inspirational => 0.7
    case Educational => 0.6
    case Professional => 0.5
    case Casual => 0.6
    case Funny => 0.7
  }

  function RealMin(a: real, b: real): real
  {
    if a <= b then a else b
  }

  // ---------------------------------------------------------------------------------------
  // Engagement score

  /** What the engagement heuristic looks at in a piece of content. */
  datatype EngagementSignals = EngagementSignals(
    length: nat,
    hashtagCount: nat,
    nonAsciiCount: nat,
    asksQuestion: bool,
    callsToAction: bool,
    tone: Tone)

  const CallToActionWords: seq<string> := ["think", "share", "comment", "tag", "save"]

  /** Some word of `words` occurs in `text`. */
  predicate MentionsAny(text: string, words: seq<string>)
  {
    exists i :: 0 <= i < |words| && Contains(text, words[i])
  }

  function NonAsciiCount(text: string): (n: nat)
    ensures n <= |text|
  {
    CountIf(text, (c: char) => c as int > 127)
  }

  function SignalsOf(content: string, hashtags: seq<string>, tone: Tone): EngagementSignals
  {
    EngagementSignals(|content|, |hashtags|, NonAsciiCount(content), Contains(content, "?"),
                      MentionsAny(Lower(content), CallToActionWords), tone)
  }

  /** +0.1 for 50 to 150 characters, +0.05 for longer text, nothing for shorter. */
  function LengthBonus(length: nat): (b: real)
    ensures length < 50 <==> b == 0.0
    ensures 50 <= length <= 150 <==> b == 0.1
    ensures 150 < length <==> b == 0.05
  {
    if 50 <= length <= 150 then 0.1 else if length > 150 then 0.05 else 0.0
  }

  /** +0.15 for 3 to 7 hashtags, +0.1 for more, nothing for fewer. */
  function HashtagBonus(count: nat): (b: real)
    ensures count < 3 <==> b == 0.0
    ensures 3 <= count <= 7 <==> b == 0.15
    ensures 7 < count <==> b == 0.1
  {
    if 3 <= count <= 7 then 0.15 else if count > 7 then 0.1 else 0.0
  }

  /** The uncapped sum: base 0.5, the bonuses and a tenth of the tone weight. */
  function RawEngagement(s: EngagementSignals): real
  {
    0.5 + LengthBonus(s.length) + HashtagBonus(s.hashtagCount)
    + (if 1 <= s.nonAsciiCount <= 3 then 0.1 else 0.0)
    + (if s.asksQuestion then 0.15 else 0.0)
    + (if s.callsToAction then 0.2 else 0.0)
    + ToneWeight(s.tone) * 0.1
  }

  /** `_calculate_engagement_score` on the signals of the content. */
  function EngagementScoreOf(s: EngagementSignals): (r: real)
    ensures 0.55 <= r <= 1.0
    ensures r == 1.0 || r == RawEngagement(s)
  {
    RealMin(RawEngagement(s), 1.0)
  }

  function EngagementScore(content: string, hashtags: seq<string>, tone: Tone): (r: real)
    ensures 0.55 <= r <= 1.0
  {
    EngagementScoreOf(SignalsOf(content, hashtags, tone))
  }

  /** Each bonus only ever raises the score: asking a question or calling to action never
      lowers it, and neither does a higher-weighted tone. */
  lemma EngagementMonotone(s: EngagementSignals, t: Tone)
    requires ToneWeight(s.tone) <= ToneWeight(t)
    ensures EngagementScoreOf(s) <= EngagementScoreOf(s.(asksQuestion := true))
    ensures EngagementScoreOf(s) <= EngagementScoreOf(s.(callsToAction := true))
    ensures EngagementScoreOf(s) <= EngagementScoreOf(s.(tone := t))
  {
  }

  /** The cap is only reached by a raw sum of at least 1; every signal fired at once
      reaches it. */
  lemma EngagementCap(s: EngagementSignals)
    ensures EngagementScoreOf(s) == 1.0 <==> RawEngagement(s) >= 1.0
    ensures s.asksQuestion && s.callsToAction && 3 <= s.hashtagCount <= 7
            ==> EngagementScoreOf(s) == 1.0
  {
  }

  // ---------------------------------------------------------------------------------------
  // Viral potential

  const TrendingWords: seq<string> := ["ai", "fitness", "tech", "business", "fashion", "lifestyle"]
  const EmotionalWords: seq<string> :=
    ["amazing", "incredible", "unbelievable", "shocking", "mind-blowing"]
  const RelatableWords: seq<string> := ["you", "your", "everyone", "we", "us"]

  datatype ViralSignals = ViralSignals(
    trending: bool,
    emotional: bool,
    relatable: bool,
    timely: bool,
    tone: Tone)

  function ViralSignalsOf(content: string, tone: Tone): ViralSignals
  {
    var l := Lower(content);
    ViralSignals(MentionsAny(l, TrendingWords), MentionsAny(l, EmotionalWords),
                 MentionsAny(l, RelatableWords), Contains(content, "2024") || Contains(l, "new"),
                 tone)
  }

  function RawViral(s: ViralSignals): real
  {
    0.5 + (if s.trending then 0.2 else 0.0)
    + (if s.emotional then 0.15 else 0.0)
    + (if s.tone == Educational then 0.1 else 0.0)
    + (if s.tone in {Inspirational, Motivational} then 0.15 else 0.0)
    + (if s.relatable then 0.1 else 0.0)
    + (if s.timely then 0.1 else 0.0)
  }

  /** `_calculate_viral_potential` on the signals of the content. */
  function ViralPotentialOf(s: ViralSignals): (r: real)
    ensures 0.5 <= r <= 1.0
    ensures r == 1.0 || r == RawViral(s)
  {
    RealMin(RawViral(s), 1.0)
  }

  function ViralPotential(content: string, tone: Tone): (r: real)
    ensures 0.5 <= r <= 1.0
  {
    ViralPotentialOf(ViralSignalsOf(content, tone))
  }

  /** Content that hits no keyword scores exactly its tone bonus over the base, and the
      tones without a bonus score the base. */
  lemma ViralBaseline(s: ViralSignals)
    requires !s.trending && !s.emotional && !s.relatable && !s.timely
    ensures s.tone in {Funny, Professional, Casual} ==> ViralPotentialOf(s) == 0.5
    ensures s.tone == Educational ==> ViralPotentialOf(s) == 0.6
    ensures s.tone in {Inspirational, Motivational} ==> ViralPotentialOf(s) == 0.65
  {
  }

  // ---------------------------------------------------------------------------------------
  // Hashtags

  /** The generator's per-niche hashtag database. */
  type HashtagDatabase = map<string, seq<string>>

  /** The database the generator starts with (duplicates included, as listed). */
  function InitialDatabase(): HashtagDatabase
  {
    map[
      "fitness" :=
        ["#fitness", "#workout", "#gym", "#health", "#fitnessmotivation",
         "#fit", "#training", "#exercise", "#healthy", "#lifestyle",
         "#fitnessgoals", "#workoutmotivation", "#gymlife", "#healthylifestyle",
         "#fitnessjourney", "#fitfam", "#training", "#exercise", "#motivation"],
      "technology" :=
        ["#tech", "#technology", "#innovation", "#programming", "#ai",
         "#startup", "#coding", "#software", "#digital", "#future",
         "#technews", "#innovation", "#programming", "#artificialintelligence",
         "#startup", "#coding", "#software", "#digitaltransformation"],
      "fashion" :=
        ["#fashion", "#style", "#outfit", "#fashionista", "#ootd",
         "#fashionblogger", "#streetstyle", "#fashionstyle", "#fashionable",
         "#fashioninspiration", "#style", "#outfit", "#fashionista", "#ootd",
         "#fashionblogger", "#streetstyle", "#fashionstyle", "#fashionable"],
      "business" :=
        ["#business", "#entrepreneur", "#success", "#marketing", "#leadership",
         "#startup", "#entrepreneurship", "#businessowner", "#smallbusiness",
         "#businessgrowth", "#entrepreneur", "#success", "#marketing", "#leadership",
         "#startup", "#entrepreneurship", "#businessowner", "#smallbusiness"]
    ]
  }

  /** `hashtag_database.get(niche, [])`. */
  function Pool(db: HashtagDatabase, niche: string): seq<string>
  {
    if niche in db then db[niche] else []
  }

  function PlatformHashtags(platform: string): seq<string>
  {
    if platform == "instagram" then ["#instagram", "#instagood", "#instalike"]
    else if platform == "twitter" then ["#twitter", "#tweeting", "#twitterverse"]
    else if platform == "tiktok" then ["#tiktok", "#fyp", "#foryou"]
    else if platform == "linkedin" then ["#linkedin", "#networking", "#professional"]
    else []
  }

  function NicheHashtags(niche: string): seq<string>
  {
    ["#" + niche, "#" + niche + "life", "#" + niche + "goals"]
  }

  /** A `random.sample` draw: `count` is the `randint(3, 7)` size and `picks` the distinct
      positions chosen from a pool of `poolSize` entries. */
  predicate SampleDraw(count: int, picks: seq<nat>, poolSize: nat)
  {
    && 3 <= count <= 7
    && |picks| == Min(count, poolSize)
    && (forall i :: 0 <= i < |picks| ==> picks[i] < poolSize)
    && Distinct(picks)
  }

  function Picked(pool: seq<string>, picks: seq<nat>): (r: seq<string>)
    requires forall i :: 0 <= i < |picks| ==> picks[i] < |pool|
    ensures |r| == |picks|
    ensures forall i :: 0 <= i < |picks| ==> r[i] == pool[picks[i]]
  {
    if picks == [] then [] else [pool[picks[0]]] + Picked(pool, picks[1..])
  }

  /** `_generate_hashtags`: no tags when they are switched off; otherwise the sample, the
      three niche tags and the platform's tags, cut to ten. */
  function GenerateHashtags(db: HashtagDatabase, niche: string, platform: string,
                            withHashtags: bool, count: int, picks: seq<nat>): (r: seq<string>)
    requires SampleDraw(count, picks, |Pool(db, niche)|)
    ensures !withHashtags ==> r == []
    ensures |r| <= 10
  {
    if !withHashtags then []
    else
      var all := Picked(Pool(db, niche), picks) + NicheHashtags(niche)
                 + PlatformHashtags(platform);
      all[..Min(|all|, 10)]
  }

  /** With hashtags on, the list is the sample (at most seven tags), then the three niche
      tags, then platform tags. */
  lemma HashtagLayout(db: HashtagDatabase, niche: string, platform: string, count: int,
                      picks: seq<nat>)
    requires SampleDraw(count, picks, |Pool(db, niche)|)
    ensures var r := GenerateHashtags(db, niche, platform, true, count, picks);
            var sample := Picked(Pool(db, niche), picks);
            && |sample| <= 7
            && |sample| + 3 <= |r|
            && r[..|sample|] == sample
            && r[|sample|..|sample| + 3] == NicheHashtags(niche)
            && (forall i :: |sample| + 3 <= i < |r| ==> r[i] in PlatformHashtags(platform))
  {
    var sample := Picked(Pool(db, niche), picks);
    var all := sample + NicheHashtags(niche) + PlatformHashtags(platform);
    var r := GenerateHashtags(db, niche, platform, true, count, picks);
    assert r == all[..Min(|all|, 10)];
    assert |sample| <= 7;
    CutLayout(sample, NicheHashtags(niche), PlatformHashtags(platform), 10);
  }

  /** The first `n` elements of `a + b + c`, when `a` and `b` fit: `a`, then `b`, then the
      front of `c`. */
  lemma CutLayout<T>(a: seq<T>, b: seq<T>, c: seq<T>, n: nat)
    requires |a| + |b| <= n
    ensures var all := a + b + c;
            var r := all[..Min(|all|, n)];
            && |a| + |b| <= |r|
            && r[..|a|] == a
            && r[|a|..|a| + |b|] == b
            && (forall i :: |a| + |b| <= i < |r| ==> r[i] in c)
  {
    var all := a + b + c;
    var r := all[..Min(|all|, n)];
    assert forall i :: 0 <= i < |r| ==> r[i] == all[i];
    assert r[..|a|] == a;
    assert r[|a|..|a| + |b|] == b;
    forall i | |a| + |b| <= i < |r|
      ensures r[i] in c
    {
      assert r[i] == c[i - |a| - |b|];
    }
  }

  /** With hashtags on, the three niche tags are always among the ten returned, and every
      tag comes from the niche's pool, the niche tags or the platform's tags. */
  lemma NicheTagsAlwaysPresent(db: HashtagDatabase, niche: string, platform: string,
                               count: int, picks: seq<nat>)
    requires SampleDraw(count, picks, |Pool(db, niche)|)
    ensures var r := GenerateHashtags(db, niche, platform, true, count, picks);
            && "#" + niche in r && "#" + niche + "life" in r && "#" + niche + "goals" in r
            && forall i :: 0 <= i < |r| ==>
                 r[i] in Pool(db, niche) || r[i] in NicheHashtags(niche)
                 || r[i] in PlatformHashtags(platform)
  {
    HashtagLayout(db, niche, platform, count, picks);
    var r := GenerateHashtags(db, niche, platform, true, count, picks);
    var sample := Picked(Pool(db, niche), picks);
    var k := |picks|;
    assert r[k] == "#" + niche && r[k + 1] == "#" + niche + "life"
        && r[k + 2] == "#" + niche + "goals" by {
      assert r[k..k + 3] == NicheHashtags(niche);
    }
    forall i | 0 <= i < |r|
      ensures r[i] in Pool(db, niche) || r[i] in NicheHashtags(niche)
              || r[i] in PlatformHashtags(platform)
    {
      if i < k {
        assert r[i] == r[..k][i] == sample[i];
      } else if i < k + 3 {
        assert r[i] == r[k..k + 3][i - k];
      }
    }
  }

  // ---------------------------------------------------------------------------------------
  // Generated content, optimisation and analytics

  datatype Generated = Generated(
    id: string,
    content: string,
    hashtags: seq<string>,
    engagementScore: real,
    viralPotential: real,
    niche: string,
    platform: string)

  /** `generate_content`: `text` is the randomly filled template, `now` the clock reading. */
  function GenerateContent(db: HashtagDatabase, niche: string, platform: string, tone: Tone,
                           withHashtags: bool, text: string, count: int, picks: seq<nat>,
                           now: int)
    : (r: Generated)
    requires SampleDraw(count, picks, |Pool(db, niche)|)
    ensures r.id == "content-" + niche + "-" + Decimal(now)
    ensures r.content == text && r.niche == niche && r.platform == platform
    ensures |r.hashtags| <= 10 && (!withHashtags ==> r.hashtags == [])
    ensures r.hashtags == GenerateHashtags(db, niche, platform, withHashtags, count, picks)
    ensures r.engagementScore == EngagementScore(text, r.hashtags, tone)
    ensures r.viralPotential == ViralPotential(text, tone)
    ensures 0.55 <= r.engagementScore <= 1.0
    ensures 0.5 <= r.viralPotential <= 1.0
  {
    var tags := GenerateHashtags(db, niche, platform, withHashtags, count, picks);
    Generated("content-" + niche + "-" + Decimal(now), text, tags,
              EngagementScore(text, tags, tone), ViralPotential(text, tone), niche, platform)
  }

  /** Generated content with hashtags on always carries the niche's three tags, and every tag
      it carries comes from the niche's pool, the niche tags or the platform's tags. */
  lemma GeneratedTags(db: HashtagDatabase, niche: string, platform: string, tone: Tone,
                      text: string, count: int, picks: seq<nat>, now: int)
    requires SampleDraw(count, picks, |Pool(db, niche)|)
    ensures var r := GenerateContent(db, niche, platform, tone, true, text, count, picks, now);
            && "#" + niche in r.hashtags && "#" + niche + "life" in r.hashtags
            && "#" + niche + "goals" in r.hashtags
            && forall i :: 0 <= i < |r.hashtags| ==>
                 r.hashtags[i] in Pool(db, niche) || r.hashtags[i] in NicheHashtags(niche)
                 || r.hashtags[i] in PlatformHashtags(platform)
  {
    NicheTagsAlwaysPresent(db, niche, platform, count, picks);
  }

  /** Scores as the heuristics produce them. */
  predicate ScoresInRange(g: Generated)
  {
    0.55 <= g.engagementScore <= 1.0 && 0.5 <= g.viralPotential <= 1.0
  }

  /** Python's `max(items, key=engagement_score)`: the first item with the highest score. */
  function BestIndex(items: seq<Generated>): (i: nat)
    requires items != []
    ensures i < |items|
    ensures forall j :: 0 <= j < |items| ==> items[j].engagementScore <= items[i].engagementScore
    ensures forall j :: 0 <= j < i ==> items[j].engagementScore < items[i].engagementScore
  {
    if |items| == 1 then 0
    else
      var b := BestIndex(items[..|items| - 1]);
      if items[|items| - 1].engagementScore > items[b].engagementScore then |items| - 1 else b
  }

  /** `optimize_content`: content at or above the target comes back as it is; otherwise the
      best of the five regenerated `variations` is returned. The variations stand for the
      random output of `_generate_variations` for the content's niche and platform. */
  function OptimizeContent(content: Generated, target: real, variations: seq<Generated>)
    : (r: Generated)
    requires |variations| == 5
    ensures content.engagementScore >= target ==> r == content
    ensures content.engagementScore < target ==>
              r in variations
              && forall v :: v in variations ==> v.engagementScore <= r.engagementScore
  {
    if content.engagementScore >= target then content
    else variations[BestIndex(variations)]
  }

  datatype Analytics = Analytics(
    totalContent: nat,
    averageEngagement: real,
    averageViralPotential: real,
    platformDistribution: map<string, nat>,
    nicheDistribution: map<string, nat>,
    top: Generated)

  function EngagementScores(cs: seq<Generated>): (r: seq<real>)
    ensures |r| == |cs| && forall i :: 0 <= i < |cs| ==> r[i] == cs[i].engagementScore
  {
    if cs == [] then [] else [cs[0].engagementScore] + EngagementScores(cs[1..])
  }

  function ViralScores(cs: seq<Generated>): (r: seq<real>)
    ensures |r| == |cs| && forall i :: 0 <= i < |cs| ==> r[i] == cs[i].viralPotential
  {
    if cs == [] then [] else [cs[0].viralPotential] + ViralScores(cs[1..])
  }

  function PlatformsOf(cs: seq<Generated>): (r: seq<string>)
    ensures |r| == |cs| && forall i :: 0 <= i < |cs| ==> r[i] == cs[i].platform
  {
    if cs == [] then [] else [cs[0].platform] + PlatformsOf(cs[1..])
  }

  function NichesOf(cs: seq<Generated>): (r: seq<string>)
    ensures |r| == |cs| && forall i :: 0 <= i < |cs| ==> r[i] == cs[i].niche
  {
    if cs == [] then [] else [cs[0].niche] + NichesOf(cs[1..])
  }

  /** `get_content_analytics`: nothing for no content; otherwise the count, the mean scores,
      the per-platform and per-niche counts and the first best-scoring item. */
  function ContentAnalytics(cs: seq<Generated>): (r: Option<Analytics>)
    ensures r.None? <==> cs == []
    ensures r.Some? ==> r.value.totalContent == |cs|
                        && r.value.averageEngagement == Mean(EngagementScores(cs))
                        && r.value.averageViralPotential == Mean(ViralScores(cs))
  {
    if cs == [] then None
    else
      Some(Analytics(|cs|, Mean(EngagementScores(cs)), Mean(ViralScores(cs)),
                     Tally(PlatformsOf(cs)), Tally(NichesOf(cs)), cs[BestIndex(cs)]))
  }

  /** The top item is a best-scoring one: no item scores higher. */
  lemma AnalyticsTop(cs: seq<Generated>)
    requires cs != []
    ensures var a := ContentAnalytics(cs).value;
            && a.top in cs
            && forall c :: c in cs ==> c.engagementScore <= a.top.engagementScore
  {
    var b := BestIndex(cs);
    forall c | c in cs
      ensures c.engagementScore <= cs[b].engagementScore
    {
      var i :| 0 <= i < |cs| && cs[i] == c;
    }
  }

  /** Each distribution counts every piece of content once, and lists exactly the
      platforms (niches) that occur. */
  lemma DistributionsTotal(cs: seq<Generated>)
    requires cs != []
    ensures var a := ContentAnalytics(cs).value;
            && SumCounts(a.platformDistribution, Dedup(PlatformsOf(cs))) == a.totalContent
            && SumCounts(a.nicheDistribution, Dedup(NichesOf(cs))) == a.totalContent
  {
    TallyTotal(PlatformsOf(cs), Dedup(PlatformsOf(cs)));
    TallyTotal(NichesOf(cs), Dedup(NichesOf(cs)));
  }

  /** The mean engagement of heuristic scores lies between 0.55 and the top score. */
  lemma AverageEngagementInRange(cs: seq<Generated>)
    requires cs != [] && forall i :: 0 <= i < |cs| ==> ScoresInRange(cs[i])
    ensures var a := ContentAnalytics(cs).value;
            0.55 <= a.averageEngagement <= a.top.engagementScore <= 1.0
  {
    var es := EngagementScores(cs);
    var top := cs[BestIndex(cs)];
    assert ScoresInRange(top);
    MeanBetween(es, 0.55, top.engagementScore);
  }

  /** The mean viral potential of heuristic scores lies in [0.5, 1]. */
  lemma AverageViralInRange(cs: seq<Generated>)
    requires cs != [] && forall i :: 0 <= i < |cs| ==> ScoresInRange(cs[i])
    ensures var a := ContentAnalytics(cs).value;
            0.5 <= a.averageViralPotential <= 1.0
  {
    MeanBetween(ViralScores(cs), 0.5, 1.0);
  }
}

=== FILE: engagement.dfy ===
/** Engagement automation (engagement_automation.py): target filtering, message and template
    choice, template usage statistics, campaign runs and the best-hour analysis.

    Time is an integer count of local wall-clock seconds, counted from a local midnight, since
    actions are stamped with the naive local `datetime.now()`; the hour of an action is read
    from that local reading. The clock, the executor's success, the random engagement-type pick
    and the action ids are parameters. */
module EngagementAutomation {
  import opened Common
  import opened Sorting

  datatype EngagementType = Like | Comment | Dm | StoryView | Reply | Retweet | Share

  datatype ContentType = Post | Story | Reel | Video | Carousel

  datatype Template = Template(
    id: string,
    etype: EngagementType,
    platform: string,
    message: string,
    emoji: string,
    useCount: nat,
    successRate: real,
    isActive: bool)

  /** One discovered piece of content to engage with (the source's target dict). */
  datatype Target = Target(
    username: string,
    contentId: string,
    contentType: ContentType,
    engagementScore: real,
    postTime: int,
    hasStory: bool,
    followerCount: int,
    engagementRate: real)

  /** The keys of `target_criteria` that filtering reads; absent keys take the defaults. */
  datatype Criteria = Criteria(
    minFollowers: Option<int>,
    maxFollowers: Option<int>,
    minEngagementRate: Option<real>,
    maxPostAgeHours: Option<real>)

  datatype EngagementAction = EngagementAction(
    id: string,
    targetUsername: string,
    contentId: string,
    etype: EngagementType,
    contentType: ContentType,
    platform: string,
    message: string,
    timestamp: int,
    success: bool)

  datatype EngagementCampaign = EngagementCampaign(
    id: string,
    name: string,
    platform: string,
    types: seq<EngagementType>,
    criteria: Criteria,
    dailyLimit: int,
    isActive: bool,
    totalEngagements: nat,
    successfulEngagements: nat,
    createdAt: int)

  /** Templates keep their insertion order (a Python dict), which decides ties in template
      selection. `bestHours` is the `best_hours` entry of the per-platform timing table. */
  datatype EngagementState = EngagementState(
    campaigns: map<string, EngagementCampaign>,
    templates: seq<Template>,
    actions: seq<EngagementAction>,
    bestHours: map<string, seq<int>>)

  // ---------------------------------------------------------------------------------------
  // Initial state

  const Fire := "\U{1F525}"
  const Smile := "\U{1F60A}"

  function DefaultTemplates(): seq<Template>
  {
    [ Template("like_generic", Like, "instagram", "", "❤️", 0, 0.0, true),
      Template("comment_generic", Comment, "instagram", "Great content! " + Fire, Fire, 0, 0.0, true),
      Template("comment_question", Comment, "instagram", "What do you think about this? \U{1F914}", "\U{1F914}", 0, 0.0, true),
      Template("comment_compliment", Comment, "instagram", "Amazing work! \U{1F44F}", "\U{1F44F}", 0, 0.0, true),
      Template("dm_greeting", Dm, "instagram", "Hey! I love your content. Would love to connect! " + Smile, Smile, 0, 0.0, true),
      Template("dm_collaboration", Dm, "instagram",
               "Hi! I think we could create some amazing content together. Interested? \U{1F91D}", "\U{1F91D}", 0, 0.0, true),
      Template("story_view", StoryView, "instagram", "", "\U{1F440}", 0, 0.0, true) ]
  }

  function Initial(): EngagementState
  {
    EngagementState(
      map[],
      DefaultTemplates(),
      [],
      map["instagram" := [9, 12, 18, 21], "twitter" := [8, 12, 17, 20], "tiktok" := [10, 14, 19, 22]])
  }

  /** The template ids of a table are pairwise distinct. */
  predicate DistinctIds(ts: seq<Template>)
  {
    forall i, j :: 0 <= i < j < |ts| ==> ts[i].id != ts[j].id
  }

  /** Every template's success rate lies in [0, 1]. */
  predicate RatesInUnit(ts: seq<Template>)
  {
    forall i :: 0 <= i < |ts| ==> 0.0 <= ts[i].successRate <= 1.0
  }

  lemma InitialWellFormed()
    ensures DistinctIds(Initial().templates) && RatesInUnit(Initial().templates)
  {
  }

  // ---------------------------------------------------------------------------------------
  // Campaigns and templates

  function CreateCampaign(s: EngagementState, id: string, name: string, platform: string,
                          types: seq<EngagementType>, criteria: Criteria, dailyLimit: int, now: int): (r: EngagementState)
    ensures id in r.campaigns && r.campaigns.Keys == s.campaigns.Keys + {id}
    ensures r.campaigns[id] == EngagementCampaign(id, name, platform, types, criteria, dailyLimit, true, 0, 0, now)
    ensures forall k :: k in s.campaigns && k != id ==> r.campaigns[k] == s.campaigns[k]
    ensures r.templates == s.templates && r.actions == s.actions && r.bestHours == s.bestHours
  {
    s.(campaigns := s.campaigns[id := EngagementCampaign(id, name, platform, types, criteria, dailyLimit, true, 0, 0, now)])
  }

  /** Creating a campaign keeps both counters of every campaign equal and leaves the template
      rates alone. */
  lemma CreateKeepsInvariants(s: EngagementState, id: string, name: string, platform: string,
                              types: seq<EngagementType>, criteria: Criteria, dailyLimit: int, now: int)
    requires TotalsAgree(s)
    ensures var r := CreateCampaign(s, id, name, platform, types, criteria, dailyLimit, now);
      TotalsAgree(r) && (RatesInUnit(s.templates) ==> RatesInUnit(r.templates))
  {
  }

  /** The position of the template with id `id`. */
  function FindTemplate(ts: seq<Template>, id: string): (r: Option<nat>)
    ensures r.Some? ==> r.value < |ts| && ts[r.value].id == id
    ensures r.Some? ==> forall j :: 0 <= j < r.value ==> ts[j].id != id
    ensures r.None? <==> forall j :: 0 <= j < |ts| ==> ts[j].id != id
  {
    if ts == [] then None
    else if ts[0].id == id then Some(0)
    else match FindTemplate(ts[1..], id)
      case None => None
      case Some(k) => Some(k + 1)
  }

  /** A template with id `id` at `k`, preceded by none, is what `FindTemplate` finds. */
  lemma FindTemplateAt(ts: seq<Template>, id: string, k: nat)
    requires k < |ts| && ts[k].id == id
    requires forall j :: 0 <= j < k ==> ts[j].id != id
    ensures FindTemplate(ts, id) == Some(k)
  {
    var r := FindTemplate(ts, id);
    assert r.Some?;
    assert !(r.value < k) && !(k < r.value);
  }

  /** `create_engagement_template`: a dict assignment, which replaces an existing id in place
      and otherwise appends. */
  function PutTemplate(ts: seq<Template>, t: Template): (r: seq<Template>)
    ensures FindTemplate(r, t.id).Some? && r[FindTemplate(r, t.id).value] == t
    ensures FindTemplate(ts, t.id).Some? ==> |r| == |ts| && FindTemplate(r, t.id) == FindTemplate(ts, t.id)
    ensures FindTemplate(ts, t.id).None? ==> r == ts + [t]
    ensures forall j :: 0 <= j < |ts| && ts[j].id != t.id ==> r[j] == ts[j]
    ensures DistinctIds(ts) ==> DistinctIds(r)
  {
    match FindTemplate(ts, t.id)
    case Some(k) =>
      FindTemplateAt(ts[k := t], t.id, k);
      ts[k := t]
    case None =>
      FindTemplateAt(ts + [t], t.id, |ts|);
      ts + [t]
  }

  function CreateTemplate(s: EngagementState, id: string, etype: EngagementType, platform: string,
                          message: string, emoji: string): (r: EngagementState)
    ensures FindTemplate(r.templates, id).Some?
    ensures r.templates[FindTemplate(r.templates, id).value] == Template(id, etype, platform, message, emoji, 0, 0.0, true)
    ensures RatesInUnit(s.templates) ==> RatesInUnit(r.templates)
    ensures r.campaigns == s.campaigns && r.actions == s.actions
  {
    s.(templates := PutTemplate(s.templates, Template(id, etype, platform, message, emoji, 0, 0.0, true)))
  }

  // ---------------------------------------------------------------------------------------
  // Target filtering

  /** `_should_engage_with_target` at time `now`. */
  predicate ShouldEngage(t: Target, c: Criteria, now: int)
  {
    var minF := if c.minFollowers.Some? then c.minFollowers.value else 1000;
    var maxF := if c.maxFollowers.Some? then c.maxFollowers.value else 100000;
    var minRate := if c.minEngagementRate.Some? then c.minEngagementRate.value else 0.01;
    var maxAge := if c.maxPostAgeHours.Some? then c.maxPostAgeHours.value else 48.0;
    && minF <= t.followerCount <= maxF
    && !(t.engagementRate < minRate)
    && !((now - t.postTime) as real / 3600.0 > maxAge)
  }

  const NoCriteria := Criteria(None, None, None, None)

  /** With no criteria, a target is kept iff it has 1000 to 100000 followers, an engagement
      rate of at least 0.01, and was posted at most 48 hours (172800 seconds) ago. */
  lemma DefaultCriteria(t: Target, now: int)
    ensures ShouldEngage(t, NoCriteria, now) <==>
      1000 <= t.followerCount <= 100000 && t.engagementRate >= 0.01 && now - t.postTime <= 172800
  {
    var age := (now - t.postTime) as real;
    assert age / 3600.0 > 48.0 <==> age > 172800.0;
  }

  function ScoreKey(t: Target): real
  {
    t.engagementScore
  }

  /** The kept targets in input order. */
  function Kept(targets: seq<Target>, c: Criteria, now: int): (r: seq<Target>)
    ensures |r| <= |targets|
    ensures forall i :: 0 <= i < |r| ==> r[i] in targets && ShouldEngage(r[i], c, now)
    ensures forall i :: 0 <= i < |targets| && ShouldEngage(targets[i], c, now) ==> targets[i] in r
  {
    if targets == [] then []
    else (if ShouldEngage(targets[0], c, now) then [targets[0]] else []) + Kept(targets[1..], c, now)
  }

  /** `_filter_engagement_targets`: the kept targets, highest score first, ties in input
      order. */
  function FilterTargets(targets: seq<Target>, c: Criteria, now: int): (r: seq<Target>)
    ensures SortedDesc(r, ScoreKey)
    ensures multiset(r) == multiset(Kept(targets, c, now))
    ensures forall k :: WithKey(r, ScoreKey, k) == WithKey(Kept(targets, c, now), ScoreKey, k)
  {
    SortDesc(Kept(targets, c, now), ScoreKey)
  }

  /** The filtered list holds exactly the candidates that pass. */
  lemma FilterTargetsMembers(targets: seq<Target>, c: Criteria, now: int)
    ensures forall x :: x in FilterTargets(targets, c, now) <==> x in targets && ShouldEngage(x, c, now)
  {
    var kept := Kept(targets, c, now);
    var r := FilterTargets(targets, c, now);
    forall x
      ensures x in r <==> x in targets && ShouldEngage(x, c, now)
    {
      assert x in r <==> x in multiset(r);
      assert x in kept <==> x in multiset(kept);
      if x in kept {
        var i :| 0 <= i < |kept| && kept[i] == x;
      }
      if x in targets && ShouldEngage(x, c, now) {
        var i :| 0 <= i < |targets| && targets[i] == x;
      }
    }
  }

  // ---------------------------------------------------------------------------------------
  // Messages and templates

  /** `_get_default_message`. */
  function DefaultMessage(e: EngagementType): string
  {
    match e
    case Comment => "Great content! " + Fire
    case Dm => "Hey! Love your content! " + Smile
    case Reply => "Thanks for sharing! \U{1F64F}"
    case _ => ""
  }

  /** The default message is empty exactly for likes, story views, retweets and shares. */
  lemma DefaultMessageEmpty(e: EngagementType)
    ensures DefaultMessage(e) == "" <==> e in {Like, StoryView, Retweet, Share}
  {
  }

  /** The template a call refers to: `template_id and template_id in self.templates`, so a
      missing or empty id refers to none. */
  function UsedTemplate(ts: seq<Template>, templateId: Option<string>): (r: Option<nat>)
    ensures r.Some? ==> templateId.Some? && templateId.value != "" && r.value < |ts| && ts[r.value].id == templateId.value
    ensures r.None? <==> templateId.None? || templateId.value == "" || forall j :: 0 <= j < |ts| ==> ts[j].id != templateId.value
  {
    if templateId.None? || templateId.value == "" then None else FindTemplate(ts, templateId.value)
  }

  /** The message of an action: the referenced template's, else the type's default. */
  function MessageFor(ts: seq<Template>, templateId: Option<string>, e: EngagementType): string
  {
    match UsedTemplate(ts, templateId)
    case Some(k) => ts[k].message
    case None => DefaultMessage(e)
  }

  /** The running success rate after one more success: `(r * n + 1) / (n + 1)`. */
  function UpdatedRate(rate: real, n: nat): (r: real)
    ensures 0.0 <= rate <= 1.0 ==> rate <= r <= 1.0 && r > 0.0
    ensures n == 0 ==> r == 1.0
    ensures rate == 1.0 ==> r == 1.0
  {
    UpdatedRateBounds(rate, n as real);
    (rate * (n as real) + 1.0) / ((n + 1) as real)
  }

  lemma UpdatedRateBounds(rate: real, n: real)
    requires n >= 0.0
    ensures var r := (rate * n + 1.0) / (n + 1.0);
      && (0.0 <= rate <= 1.0 ==> rate <= r <= 1.0 && r > 0.0)
      && (n == 0.0 ==> r == 1.0)
      && (rate == 1.0 ==> r == 1.0)
  {
    var d := n + 1.0;
    var r := (rate * n + 1.0) / d;
    assert r * d == rate * n + 1.0;
    if 0.0 <= rate <= 1.0 {
      assert rate * n <= n;
      assert (r - rate) * d == 1.0 - rate;
    }
  }

  /** A template after a successful use. */
  function Used(t: Template): (r: Template)
    ensures r.useCount == t.useCount + 1
    ensures r.(useCount := t.useCount, successRate := t.successRate) == t
  {
    t.(useCount := t.useCount + 1, successRate := UpdatedRate(t.successRate, t.useCount))
  }

  /** Templates that `_select_template` considers for a type and platform. */
  predicate Matches(t: Template, e: EngagementType, platform: string)
  {
    t.etype == e && t.platform == platform && t.isActive
  }

  /** The selection score: the success rate plus a freshness bonus `0.1 / max(use_count, 1)`. */
  function TemplateScore(t: Template): real
  {
    t.successRate + 0.1 / (Max(t.useCount, 1) as real)
  }

  /** Template `i` matches, beats the initial best score 0, scores at least as high as every
      matching template, and strictly higher than every earlier one. */
  predicate IsFirstBest(ts: seq<Template>, e: EngagementType, platform: string, i: int)
  {
    && 0 <= i < |ts|
    && Matches(ts[i], e, platform)
    && TemplateScore(ts[i]) > 0.0
    && (forall j :: 0 <= j < |ts| && Matches(ts[j], e, platform) ==> TemplateScore(ts[j]) <= TemplateScore(ts[i]))
    && (forall j :: 0 <= j < i && Matches(ts[j], e, platform) ==> TemplateScore(ts[j]) < TemplateScore(ts[i]))
  }

  lemma ScorePositive(t: Template)
    requires t.successRate >= 0.0
    ensures TemplateScore(t) > 0.0
  {
    var m := Max(t.useCount, 1) as real;
    assert 0.1 / m > 0.0;
  }

  /** The scan of `_select_template` after the first `k` templates: the position of the best
      template so far and its score, starting from none and 0. */
  function Scan(ts: seq<Template>, e: EngagementType, platform: string, k: nat): (r: (Option<nat>, real))
    requires k <= |ts|
    ensures r.0.Some? ==> r.0.value < k
  {
    if k == 0 then (None, 0.0)
    else
      var prev := Scan(ts, e, platform, k - 1);
      if Matches(ts[k - 1], e, platform) && TemplateScore(ts[k - 1]) > prev.1
      then (Some(k - 1), TemplateScore(ts[k - 1]))
      else prev
  }

  /** The template id the full scan settles on. */
  function Choice(ts: seq<Template>, e: EngagementType, platform: string): Option<string>
  {
    var best := Scan(ts, e, platform, |ts|).0;
    if best.Some? then Some(ts[best.value].id) else None
  }

  /** `_select_template`: scans the matching templates in table order, keeping the first one
      whose score strictly exceeds the best so far (initially 0). */
  method SelectTemplate(ts: seq<Template>, e: EngagementType, platform: string) returns (r: Option<string>)
    ensures r.None? <==> forall i :: 0 <= i < |ts| && Matches(ts[i], e, platform) ==> TemplateScore(ts[i]) <= 0.0
    ensures r.Some? ==> exists i :: IsFirstBest(ts, e, platform, i) && ts[i].id == r.value
    ensures RatesInUnit(ts) ==> (r.None? <==> forall i :: 0 <= i < |ts| ==> !Matches(ts[i], e, platform))
    ensures r == Choice(ts, e, platform)
  {
    var best: Option<nat> := None;
    var bestScore := 0.0;
    for k := 0 to |ts|
      invariant (best, bestScore) == Scan(ts, e, platform, k)
    {
      if Matches(ts[k], e, platform) && TemplateScore(ts[k]) > bestScore {
        best := Some(k);
        bestScore := TemplateScore(ts[k]);
      }
    }
    ScanFacts(ts, e, platform, |ts|);
    if best.Some? {
      assert IsFirstBest(ts, e, platform, best.value);
      r := Some(ts[best.value].id);
    } else {
      r := None;
    }
    if RatesInUnit(ts) {
      forall i | 0 <= i < |ts| && Matches(ts[i], e, platform)
        ensures TemplateScore(ts[i]) > 0.0
      {
        ScorePositive(ts[i]);
      }
    }
  }

  /** After `k` templates the scan holds none only while no match scored above 0, and
      otherwise the first template that scores highest among the matches seen. */
  lemma {:induction false} ScanFacts(ts: seq<Template>, e: EngagementType, platform: string, k: nat)
    requires k <= |ts|
    ensures var (best, bestScore) := Scan(ts, e, platform, k);
      && (best.None? ==> bestScore == 0.0)
      && (best.None? ==> forall j :: 0 <= j < k && Matches(ts[j], e, platform) ==> TemplateScore(ts[j]) <= 0.0)
      && (best.Some? ==> Matches(ts[best.value], e, platform))
      && (best.Some? ==> bestScore == TemplateScore(ts[best.value]) > 0.0)
      && (forall j :: 0 <= j < k && Matches(ts[j], e, platform) ==> TemplateScore(ts[j]) <= bestScore)
      && (best.Some? ==> forall j :: 0 <= j < best.value && Matches(ts[j], e, platform) ==> TemplateScore(ts[j]) < bestScore)
  {
    if k > 0 {
      ScanFacts(ts, e, platform, k - 1);
    }
  }

  // ---------------------------------------------------------------------------------------
  // Executing one engagement

  datatype Executed = Executed(state: EngagementState, action: EngagementAction)

  /** The campaign after one action, counted only when it succeeded. */
  function Count(c: EngagementCampaign, succeeded: bool): EngagementCampaign
  {
    if succeeded
    then c.(totalEngagements := c.totalEngagements + 1, successfulEngagements := c.successfulEngagements + 1)
    else c
  }

  /** The template table after an attempt that referred to `templateId`: on success the
      referenced template, if any, records one more use; otherwise nothing changes. */
  function AfterUse(ts: seq<Template>, templateId: Option<string>, succeeded: bool): (r: seq<Template>)
    ensures |r| == |ts|
    ensures forall i :: 0 <= i < |ts| ==>
      r[i] == if succeeded && UsedTemplate(ts, templateId) == Some(i) then Used(ts[i]) else ts[i]
  {
    match UsedTemplate(ts, templateId)
    case Some(k) => if succeeded then ts[k := Used(ts[k])] else ts
    case None => ts
  }

  /** `execute_engagement_action` at time `now` with the executor's verdict `succeeded` (an
      exception inside the executor counts as a failure). An unknown campaign raises and
      records nothing; otherwise exactly one action is appended. On success both campaign
      counters and the referenced template's statistics move. */
  function Execute(s: EngagementState, campaignId: string, target: Target, e: EngagementType,
                   templateId: Option<string>, now: int, actionId: string, succeeded: bool): (r: Result<Executed>)
    ensures campaignId !in s.campaigns <==> r.Err?
    ensures r.Err? ==> r.error == CampaignNotFound(campaignId)
    ensures r.Ok? ==> r.value.state.actions == s.actions + [r.value.action]
    ensures r.Ok? ==> r.value.action == EngagementAction(actionId, target.username, target.contentId, e,
      target.contentType, s.campaigns[campaignId].platform, MessageFor(s.templates, templateId, e), now, succeeded)
    ensures r.Ok? ==> r.value.state.campaigns.Keys == s.campaigns.Keys
    ensures r.Ok? ==> forall k :: k in s.campaigns && k != campaignId ==> r.value.state.campaigns[k] == s.campaigns[k]
    ensures r.Ok? ==> r.value.state.campaigns[campaignId] == Count(s.campaigns[campaignId], succeeded)
    ensures r.Ok? ==> r.value.state.bestHours == s.bestHours
    ensures r.Ok? ==> r.value.state.campaigns[campaignId].totalEngagements
                      == s.campaigns[campaignId].totalEngagements + (if succeeded then 1 else 0)
    ensures r.Ok? ==> r.value.state.campaigns[campaignId].successfulEngagements
                      == s.campaigns[campaignId].successfulEngagements + (if succeeded then 1 else 0)
    ensures r.Ok? ==> |r.value.state.templates| == |s.templates|
    ensures r.Ok? ==> forall i :: 0 <= i < |s.templates| ==>
      r.value.state.templates[i].useCount
        == s.templates[i].useCount + (if succeeded && UsedTemplate(s.templates, templateId) == Some(i) then 1 else 0)
    ensures r.Ok? ==> forall i :: 0 <= i < |s.templates| && r.value.state.templates[i].useCount == s.templates[i].useCount
                        ==> r.value.state.templates[i] == s.templates[i]
    ensures r.Ok? && succeeded && UsedTemplate(s.templates, templateId).Some? ==>
      r.value.state.templates[UsedTemplate(s.templates, templateId).value]
        == Used(s.templates[UsedTemplate(s.templates, templateId).value])
    ensures r.Ok? ==> r.value.state.templates == AfterUse(s.templates, templateId, succeeded)
  {
    if campaignId !in s.campaigns then Err(CampaignNotFound(campaignId))
    else
      var c := s.campaigns[campaignId];
      var used := UsedTemplate(s.templates, templateId);
      var action := EngagementAction(actionId, target.username, target.contentId, e, target.contentType,
                                     c.platform, MessageFor(s.templates, templateId, e), now, succeeded);
      var templates := if succeeded && used.Some? then s.templates[used.value := Used(s.templates[used.value])] else s.templates;
      Ok(Executed(s.(campaigns := s.campaigns[campaignId := Count(c, succeeded)],
                     templates := templates,
                     actions := s.actions + [action]), action))
  }

  /** Every campaign has counted exactly its successes, so the two counters agree. */
  predicate TotalsAgree(s: EngagementState)
  {
    forall k :: k in s.campaigns ==> s.campaigns[k].totalEngagements == s.campaigns[k].successfulEngagements
  }

  /** Execution keeps the two campaign counters equal and every template success rate in
      [0, 1]; a template's rate is 1 after its first successful use from a zero rate, and a
      rate never decreases. */
  lemma ExecuteKeepsInvariants(s: EngagementState, campaignId: string, target: Target, e: EngagementType,
                               templateId: Option<string>, now: int, actionId: string, succeeded: bool)
    requires TotalsAgree(s) && RatesInUnit(s.templates)
    ensures var r := Execute(s, campaignId, target, e, templateId, now, actionId, succeeded);
      r.Ok? ==>
        && TotalsAgree(r.value.state)
        && RatesInUnit(r.value.state.templates)
        && (forall i :: 0 <= i < |s.templates| ==> r.value.state.templates[i].successRate >= s.templates[i].successRate)
        && (forall i :: 0 <= i < |s.templates| && s.templates[i].useCount == 0 && r.value.state.templates[i].useCount == 1
              ==> r.value.state.templates[i].successRate == 1.0)
  {
  }

  /** Engagement counters only count successes, so a campaign's overall success rate is 1
      once it has any engagement and 0 before. */
  lemma OverallRateIsZeroOrOne(c: EngagementCampaign)
    ensures c.totalEngagements == c.successfulEngagements ==>
      Ratio(c.successfulEngagements, c.totalEngagements) == if c.totalEngagements == 0 then 0.0 else 1.0
  {
    var r := Ratio(c.successfulEngagements, c.totalEngagements);
    if c.totalEngagements == c.successfulEngagements > 0 {
      assert r * (c.totalEngagements as real) == c.totalEngagements as real;
    }
  }

  // ---------------------------------------------------------------------------------------
  // Running a campaign

  /** The externally supplied facts of one attempt: the random pick among the campaign's
      engagement types, the clock, the action id, and the executor's verdict. */
  datatype Draw = Draw(pick: nat, time: int, actionId: string, succeeded: bool)

  datatype RunReport = RunReport(
    campaignId: string,
    campaignName: string,
    targetsFound: nat,
    executed: nat,
    successful: nat,
    successRate: real)

  datatype RunOutcome = RunOutcome(state: EngagementState, report: RunReport)

  /** The targets a run engages with: the filtered targets cut at the daily limit (Python
      slice semantics). */
  function Batch(c: EngagementCampaign, candidates: seq<Target>, now: int): (r: seq<Target>)
    ensures c.dailyLimit >= 0 ==> |r| == Min(c.dailyLimit, |FilterTargets(candidates, c.criteria, now)|)
    ensures r <= FilterTargets(candidates, c.criteria, now)
  {
    SliceTo(FilterTargets(candidates, c.criteria, now), c.dailyLimit)
  }

  /** The engagement type attempt `d` picks from the campaign's types (`random.choice`). */
  function TypeOf(c: EngagementCampaign, d: Draw): EngagementType
    requires |c.types| > 0
  {
    c.types[d.pick % |c.types|]
  }

  /** The template table after the first `i` attempts of a run of `c` that started from `ts`:
      each attempt chooses the best template for its picked type, and a success records a use
      of it. */
  function TemplatesAfter(ts: seq<Template>, c: EngagementCampaign, draws: nat -> Draw, i: nat): (r: seq<Template>)
    ensures |r| == |ts|
  {
    if i == 0 || c.types == [] then ts
    else
      var before := TemplatesAfter(ts, c, draws, i - 1);
      var d := draws(i - 1);
      AfterUse(before, Choice(before, TypeOf(c, d), c.platform), d.succeeded)
  }

  /** The use counts of a template table, summed. */
  function TotalUses(ts: seq<Template>): nat
  {
    if ts == [] then 0 else TotalUses(ts[..|ts| - 1]) + ts[|ts| - 1].useCount
  }

  /** Recording one use of template `k` adds one to the total. */
  lemma {:induction false} TotalUsesUsed(ts: seq<Template>, k: nat)
    requires k < |ts|
    ensures TotalUses(ts[k := Used(ts[k])]) == TotalUses(ts) + 1
  {
    var ts' := ts[k := Used(ts[k])];
    if k < |ts| - 1 {
      assert ts'[..|ts'| - 1] == ts[..|ts| - 1][k := Used(ts[k])];
      TotalUsesUsed(ts[..|ts| - 1], k);
    } else {
      assert ts'[..|ts'| - 1] == ts[..|ts| - 1];
    }
  }

  /** `r` is `ts` with only use counts and success rates changed, and no use count lower. */
  predicate OnlyUsesMoved(ts: seq<Template>, r: seq<Template>)
  {
    && |r| == |ts|
    && (forall k :: 0 <= k < |ts| ==>
          r[k].(useCount := ts[k].useCount, successRate := ts[k].successRate) == ts[k] && r[k].useCount >= ts[k].useCount)
  }

  lemma OnlyUsesMovedTrans(a: seq<Template>, b: seq<Template>, c: seq<Template>)
    requires OnlyUsesMoved(a, b) && OnlyUsesMoved(b, c)
    ensures OnlyUsesMoved(a, c)
  {
    forall k | 0 <= k < |a|
      ensures c[k].(useCount := a[k].useCount, successRate := a[k].successRate) == a[k] && c[k].useCount >= a[k].useCount
    {
      assert b[k].(useCount := a[k].useCount, successRate := a[k].successRate) == a[k];
      assert c[k].(useCount := b[k].useCount, successRate := b[k].successRate) == b[k];
    }
  }

  /** One attempt only records at most one use, and keeps the rates in [0, 1]. */
  lemma AfterUseShape(ts: seq<Template>, templateId: Option<string>, succeeded: bool)
    ensures var r := AfterUse(ts, templateId, succeeded);
      && OnlyUsesMoved(ts, r)
      && (RatesInUnit(ts) ==> RatesInUnit(r))
      && TotalUses(r) <= TotalUses(ts) + (if succeeded then 1 else 0)
  {
    var used := UsedTemplate(ts, templateId);
    if succeeded && used.Some? {
      TotalUsesUsed(ts, used.value);
    }
  }

  /** Over a run, every template keeps everything but its use count and success rate, its use
      count never drops, the rates stay in [0, 1], and the table records at most one use per
      successful attempt. */
  lemma {:induction false} TemplatesAfterShape(ts: seq<Template>, c: EngagementCampaign, draws: nat -> Draw, i: nat)
    ensures var r := TemplatesAfter(ts, c, draws, i);
      && OnlyUsesMoved(ts, r)
      && (RatesInUnit(ts) ==> RatesInUnit(r))
      && TotalUses(r) <= TotalUses(ts) + SucceededDraws(draws, i)
  {
    if i > 0 && c.types != [] {
      TemplatesAfterShape(ts, c, draws, i - 1);
      var before := TemplatesAfter(ts, c, draws, i - 1);
      var d := draws(i - 1);
      AfterUseShape(before, Choice(before, TypeOf(c, d), c.platform), d.succeeded);
      OnlyUsesMovedTrans(ts, before, TemplatesAfter(ts, c, draws, i));
    } else {
      assert OnlyUsesMoved(ts, ts);
    }
  }

  /** The message attempt `j` of a run of `c` from template table `ts` sends: that of the
      template chosen then, else the type's default. */
  function MessageAt(ts: seq<Template>, c: EngagementCampaign, draws: nat -> Draw, j: nat): string
    requires |c.types| > 0
  {
    var before := TemplatesAfter(ts, c, draws, j);
    var ty := TypeOf(c, draws(j));
    MessageFor(before, Choice(before, ty, c.platform), ty)
  }

  /** How many of the first `n` attempts the executor reported as succeeded. */
  function SucceededDraws(draws: nat -> Draw, n: nat): (k: nat)
    ensures k <= n
  {
    if n == 0 then 0 else SucceededDraws(draws, n - 1) + (if draws(n - 1).succeeded then 1 else 0)
  }

  /** `a` is the action attempt `d` logs when it engages with `t` on `platform` by type `ty`
      and sends `message`: its id, clock reading and success are the draw's. */
  predicate EngagementOf(a: EngagementAction, platform: string, t: Target, ty: EngagementType, d: Draw, message: string)
  {
    a == EngagementAction(d.actionId, t.username, t.contentId, ty, t.contentType, platform, message, d.time, d.succeeded)
  }

  /** Entry `base + j` of `log` is what attempt `j` of a run of `c` from `s` over `batch`
      logs. */
  predicate AttemptLogged(log: seq<EngagementAction>, base: nat, s: EngagementState, c: EngagementCampaign,
                          batch: seq<Target>, draws: nat -> Draw, j: nat)
    requires |c.types| > 0 && j < |batch| && base + j < |log|
  {
    EngagementOf(log[base + j], c.platform, batch[j], TypeOf(c, draws(j)), draws(j), MessageAt(s.templates, c, draws, j))
  }

  /** What holds after `i` attempts of a run of campaign `c` that started in `s`: the log grew
      by one engagement per attempt, in batch order; the campaign counted the successes and
      nothing else changed in it; the other campaigns and the timing table are untouched. */
  predicate RunProgress(s: EngagementState, c: EngagementCampaign, campaignId: string, batch: seq<Target>,
                        draws: nat -> Draw, st: EngagementState, i: nat, successful: nat)
    requires |c.types| > 0
  {
    && i <= |batch|
    && campaignId in st.campaigns && st.campaigns.Keys == s.campaigns.Keys
    && (forall k :: k in s.campaigns && k != campaignId ==> st.campaigns[k] == s.campaigns[k])
    && st.campaigns[campaignId] == c.(totalEngagements := c.totalEngagements + successful,
                                      successfulEngagements := c.successfulEngagements + successful)
    && st.bestHours == s.bestHours
    && |st.actions| == |s.actions| + i
    && st.actions[..|s.actions|] == s.actions
    && (forall j :: 0 <= j < i ==> AttemptLogged(st.actions, |s.actions|, s, c, batch, draws, j))
    && successful == SucceededDraws(draws, i)
    && st.templates == TemplatesAfter(s.templates, c, draws, i)
  }

  lemma RunStep(s: EngagementState, c: EngagementCampaign, campaignId: string, batch: seq<Target>,
                draws: nat -> Draw, st: EngagementState, i: nat, successful: nat,
                templateId: Option<string>, ex: Executed)
    requires |c.types| > 0
    requires RunProgress(s, c, campaignId, batch, draws, st, i, successful) && i < |batch|
    requires templateId == Choice(st.templates, TypeOf(c, draws(i)), c.platform)
    requires Execute(st, campaignId, batch[i], TypeOf(c, draws(i)), templateId,
                     draws(i).time, draws(i).actionId, draws(i).succeeded) == Ok(ex)
    ensures RunProgress(s, c, campaignId, batch, draws, ex.state, i + 1, successful + (if draws(i).succeeded then 1 else 0))
  {
    var d := draws(i);
    var ty := TypeOf(c, d);
    assert st.campaigns[campaignId].platform == c.platform;
    assert ex.state.templates == TemplatesAfter(s.templates, c, draws, i + 1);
    assert EngagementOf(ex.action, c.platform, batch[i], ty, d, MessageAt(s.templates, c, draws, i));
    LoggedAppend(s, c, batch, draws, st.actions, ex.action, i);
    assert ex.state.actions[..|s.actions|] == st.actions[..|s.actions|];
  }

  /** One attempt keeps the run's progress and, from a sound state, both invariants. */
  lemma RunAdvance(s: EngagementState, c: EngagementCampaign, campaignId: string, batch: seq<Target>,
                   draws: nat -> Draw, st: EngagementState, i: nat, successful: nat,
                   templateId: Option<string>, ex: Executed, sound: bool)
    requires |c.types| > 0
    requires RunProgress(s, c, campaignId, batch, draws, st, i, successful) && i < |batch|
    requires templateId == Choice(st.templates, TypeOf(c, draws(i)), c.platform)
    requires Execute(st, campaignId, batch[i], TypeOf(c, draws(i)), templateId,
                     draws(i).time, draws(i).actionId, draws(i).succeeded) == Ok(ex)
    requires sound ==> TotalsAgree(st) && RatesInUnit(st.templates)
    ensures RunProgress(s, c, campaignId, batch, draws, ex.state, i + 1, successful + (if draws(i).succeeded then 1 else 0))
    ensures sound ==> TotalsAgree(ex.state) && RatesInUnit(ex.state.templates)
  {
    var d := draws(i);
    if sound {
      ExecuteKeepsInvariants(st, campaignId, batch[i], TypeOf(c, d), templateId, d.time, d.actionId, d.succeeded);
    }
    RunStep(s, c, campaignId, batch, draws, st, i, successful, templateId, ex);
  }

  /** Logging attempt `i` after the first `i` keeps the log in step with the batch. */
  lemma LoggedAppend(s: EngagementState, c: EngagementCampaign, batch: seq<Target>, draws: nat -> Draw,
                     log: seq<EngagementAction>, a: EngagementAction, i: nat)
    requires |c.types| > 0 && i < |batch| && |log| == |s.actions| + i
    requires forall j :: 0 <= j < i ==> AttemptLogged(log, |s.actions|, s, c, batch, draws, j)
    requires EngagementOf(a, c.platform, batch[i], TypeOf(c, draws(i)), draws(i), MessageAt(s.templates, c, draws, i))
    ensures forall j :: 0 <= j < i + 1 ==> AttemptLogged(log + [a], |s.actions|, s, c, batch, draws, j)
  {
    forall j | 0 <= j < i + 1
      ensures AttemptLogged(log + [a], |s.actions|, s, c, batch, draws, j)
    {
      if j < i {
        assert AttemptLogged(log, |s.actions|, s, c, batch, draws, j);
        assert (log + [a])[|s.actions| + j] == log[|s.actions| + j];
      }
    }
  }

  /** `run_engagement_campaign`. Each attempt picks an engagement type with `draws(i).pick`,
      selects the best template for it, and executes. `random.choice` on an empty type list
      raises outside the loop's handler, so a campaign without types fails as soon as there is
      a target; otherwise execution never raises here, so every target of the batch is
      engaged. */
  method RunCampaign(s: EngagementState, campaignId: string, candidates: seq<Target>, now: int,
                     draws: nat -> Draw) returns (r: Result<RunOutcome>)
    ensures campaignId !in s.campaigns ==> r == Err(CampaignNotFound(campaignId))
    ensures campaignId in s.campaigns ==>
      (r.Err? <==> s.campaigns[campaignId].types == [] && Batch(s.campaigns[campaignId], candidates, now) != [])
    ensures r.Err? ==> campaignId !in s.campaigns || r == Err(EmptyChoice)
    ensures r.Ok? ==>
      var c := s.campaigns[campaignId];
      var rep := r.value.report;
      && rep.campaignId == campaignId && rep.campaignName == c.name
      && rep.targetsFound == |FilterTargets(candidates, c.criteria, now)|
      && rep.executed == |Batch(c, candidates, now)| && rep.successful == SucceededDraws(draws, rep.executed)
      && rep.successRate == Ratio(rep.successful, rep.executed)
    ensures r.Ok? && s.campaigns[campaignId].types != [] ==>
      var c := s.campaigns[campaignId];
      RunProgress(s, c, campaignId, Batch(c, candidates, now), draws, r.value.state, r.value.report.executed,
                  r.value.report.successful)
    ensures r.Ok? && TotalsAgree(s) && RatesInUnit(s.templates) ==>
      TotalsAgree(r.value.state) && RatesInUnit(r.value.state.templates)
    ensures r.Ok? && Batch(s.campaigns[campaignId], candidates, now) == [] ==> r.value.state == s
  {
    if campaignId !in s.campaigns {
      return Err(CampaignNotFound(campaignId));
    }
    var c := s.campaigns[campaignId];
    var batch := Batch(c, candidates, now);
    var found := |FilterTargets(candidates, c.criteria, now)|;
    if batch == [] {
      return Ok(RunOutcome(s, RunReport(campaignId, c.name, found, 0, 0, Ratio(0, 0))));
    }
    if c.types == [] {
      return Err(EmptyChoice);
    }
    var st, successful := EngageAll(s, c, campaignId, batch, draws);
    return Ok(RunOutcome(st, RunReport(campaignId, c.name, found, |batch|, successful, Ratio(successful, |batch|))));
  }

  /** The loop of `run_engagement_campaign` over the whole batch of campaign `c`, stored in
      `s` under `campaignId`. */
  method EngageAll(s: EngagementState, c: EngagementCampaign, campaignId: string, batch: seq<Target>,
                   draws: nat -> Draw) returns (st: EngagementState, successful: nat)
    requires |c.types| > 0 && campaignId in s.campaigns && s.campaigns[campaignId] == c
    ensures RunProgress(s, c, campaignId, batch, draws, st, |batch|, successful)
    ensures TotalsAgree(s) && RatesInUnit(s.templates) ==> TotalsAgree(st) && RatesInUnit(st.templates)
  {
    ghost var sound := TotalsAgree(s) && RatesInUnit(s.templates);
    RunStart(s, campaignId, batch, draws);
    st := s;
    successful := 0;
    for i := 0 to |batch|
      invariant RunProgress(s, c, campaignId, batch, draws, st, i, successful)
      invariant sound ==> TotalsAgree(st) && RatesInUnit(st.templates)
    {
      var d := draws(i);
      var ty := TypeOf(c, d);
      var templateId := SelectTemplate(st.templates, ty, c.platform);
      var e := Execute(st, campaignId, batch[i], ty, templateId, d.time, d.actionId, d.succeeded);
      RunAdvance(s, c, campaignId, batch, draws, st, i, successful, templateId, e.value, sound);
      st := e.value.state;
      successful := successful + (if d.succeeded then 1 else 0);
    }
  }

  /** A run starts with nothing attempted. */
  lemma RunStart(s: EngagementState, campaignId: string, batch: seq<Target>, draws: nat -> Draw)
    requires campaignId in s.campaigns && |s.campaigns[campaignId].types| > 0
    ensures RunProgress(s, s.campaigns[campaignId], campaignId, batch, draws, s, 0, 0)
  {
  }

  // ---------------------------------------------------------------------------------------
  // Best-hour analysis

  /** `timestamp.hour` of a naive local timestamp, given as local wall-clock seconds. */
  function HourOf(t: int): (h: int)
    ensures 0 <= h < 24
  {
    (t / 3600) % 24
  }

  /** Logged actions of `platform` in hour `h`. */
  function ActionsAt(log: seq<EngagementAction>, platform: string, h: int): (n: nat)
    ensures n <= |log|
  {
    if log == [] then 0
    else ActionsAt(log[..|log| - 1], platform, h)
         + (if log[|log| - 1].platform == platform && HourOf(log[|log| - 1].timestamp) == h then 1 else 0)
  }

  /** Successful logged actions of `platform` in hour `h`. */
  function SuccessesAt(log: seq<EngagementAction>, platform: string, h: int): (n: nat)
    ensures n <= ActionsAt(log, platform, h)
  {
    if log == [] then 0
    else SuccessesAt(log[..|log| - 1], platform, h)
         + (if log[|log| - 1].platform == platform && HourOf(log[|log| - 1].timestamp) == h && log[|log| - 1].success
            then 1 else 0)
  }

  /** An hour with at least five actions whose success ratio exceeds 0.7. */
  predicate GoodHour(log: seq<EngagementAction>, platform: string, h: int)
  {
    ActionsAt(log, platform, h) >= 5
    && (SuccessesAt(log, platform, h) as real) / (ActionsAt(log, platform, h) as real) > 0.7
  }

  lemma AboveSevenTenths(k: real, n: real)
    requires n > 0.0
    ensures k / n > 0.7 <==> 10.0 * k > 7.0 * n
  {
    var q := k / n;
    assert q * n == k;
    if q > 0.7 {
      assert (q - 0.7) * n > 0.0;
    } else {
      assert (0.7 - q) * n >= 0.0;
    }
  }

  /** The ratio threshold in integers: more than seven successes in every ten actions. */
  lemma GoodHourInIntegers(log: seq<EngagementAction>, platform: string, h: int)
    ensures GoodHour(log, platform, h) <==>
      ActionsAt(log, platform, h) >= 5 && 10 * SuccessesAt(log, platform, h) > 7 * ActionsAt(log, platform, h)
  {
    var n := ActionsAt(log, platform, h);
    var k := SuccessesAt(log, platform, h);
    if n >= 5 {
      AboveSevenTenths(k as real, n as real);
    }
  }

  /** The good hours from `h` to 23, in increasing order. */
  function GoodHoursFrom(log: seq<EngagementAction>, platform: string, h: int): (r: seq<int>)
    requires 0 <= h <= 24
    ensures forall i, j :: 0 <= i < j < |r| ==> r[i] < r[j]
    ensures forall i :: 0 <= i < |r| ==> h <= r[i] < 24 && GoodHour(log, platform, r[i])
    ensures forall x :: h <= x < 24 && GoodHour(log, platform, x) ==> x in r
    decreases 24 - h
  {
    if h == 24 then []
    else (if GoodHour(log, platform, h) then [h] else []) + GoodHoursFrom(log, platform, h + 1)
  }

  /** The success ratio of every hour with at least five actions on `platform`. */
  function HourlyRates(log: seq<EngagementAction>, platform: string): (m: map<int, real>)
    ensures forall h :: h in m <==> 0 <= h < 24 && ActionsAt(log, platform, h) >= 5
    ensures forall h :: h in m ==> Scales(m[h], SuccessesAt(log, platform, h), ActionsAt(log, platform, h))
  {
    HourlyRatesScale(log, platform);
    map h | 0 <= h < 24 && ActionsAt(log, platform, h) >= 5
      :: (SuccessesAt(log, platform, h) as real) / (ActionsAt(log, platform, h) as real)
  }

  /** The ratio of an hour with actions is its share of successes. */
  lemma HourlyRatesScale(log: seq<EngagementAction>, platform: string)
    ensures forall h :: ActionsAt(log, platform, h) >= 1 ==>
      Scales((SuccessesAt(log, platform, h) as real) / (ActionsAt(log, platform, h) as real),
             SuccessesAt(log, platform, h), ActionsAt(log, platform, h))
  {
    forall h | ActionsAt(log, platform, h) >= 1
      ensures Scales((SuccessesAt(log, platform, h) as real) / (ActionsAt(log, platform, h) as real),
                     SuccessesAt(log, platform, h), ActionsAt(log, platform, h))
    {
      QuotientScales(SuccessesAt(log, platform, h), ActionsAt(log, platform, h));
    }
  }

  /** Some logged action is on `platform`. */
  predicate HasActions(log: seq<EngagementAction>, platform: string)
  {
    exists i :: 0 <= i < |log| && log[i].platform == platform
  }

  datatype TimingResult =
    | NoData
    | Timing(platform: string, bestHours: seq<int>, hourlyRates: map<int, real>)

  datatype TimingOutcome = TimingOutcome(state: EngagementState, result: TimingResult)

  /** `optimize_engagement_timing`: without actions on the platform, the no-data message.
      Otherwise the sorted good hours, the success ratio of every hour with at least five
      actions, and the good hours stored as the platform's best hours when the platform has a
      timing entry. */
  function OptimizeTiming(s: EngagementState, platform: string): (r: TimingOutcome)
    ensures r.result.NoData? <==> !HasActions(s.actions, platform)
    ensures r.result.Timing? ==>
      && (forall i, j :: 0 <= i < j < |r.result.bestHours| ==> r.result.bestHours[i] < r.result.bestHours[j])
      && (forall h :: h in r.result.bestHours <==> 0 <= h < 24 && GoodHour(s.actions, platform, h))
      && (forall h :: h in r.result.hourlyRates <==> 0 <= h < 24 && ActionsAt(s.actions, platform, h) >= 5)
      && (forall h :: h in r.result.hourlyRates ==>
            Scales(r.result.hourlyRates[h], SuccessesAt(s.actions, platform, h), ActionsAt(s.actions, platform, h)))
    ensures r.result.Timing? && platform in s.bestHours ==>
      r.state == s.(bestHours := s.bestHours[platform := r.result.bestHours])
    ensures r.result.NoData? || platform !in s.bestHours ==> r.state == s
  {
    if !HasActions(s.actions, platform) then TimingOutcome(s, NoData)
    else
      var best := GoodHoursFrom(s.actions, platform, 0);
      var rates := HourlyRates(s.actions, platform);
      var s' := if platform in s.bestHours then s.(bestHours := s.bestHours[platform := best]) else s;
      TimingOutcome(s', Timing(platform, best, rates))
  }

  // ---------------------------------------------------------------------------------------
  // Statistics

  datatype EngagementStats = EngagementStats(
    campaignId: string,
    campaignName: string,
    platform: string,
    isActive: bool,
    totalEngagements: nat,
    successfulEngagements: nat,
    overallSuccessRate: real,
    createdAt: int)

  /** `get_engagement_stats`. Nothing for an unknown campaign. Otherwise the method reads
      `campaign_id` from every logged action, a field engagement actions do not have, so it
      raises as soon as any action is logged; only an empty log yields statistics. */
  function GetStats(s: EngagementState, campaignId: string): (r: Result<Option<EngagementStats>>)
    ensures campaignId !in s.campaigns <==> r == Ok(None)
    ensures r.Err? <==> campaignId in s.campaigns && s.actions != []
    ensures r.Err? ==> r.error == MissingCampaignIdField
    ensures r.Ok? && r.value.Some? ==>
      var c := s.campaigns[campaignId];
      && r.value.value.campaignId == campaignId && r.value.value.campaignName == c.name
      && r.value.value.platform == c.platform && r.value.value.isActive == c.isActive
      && r.value.value.totalEngagements == c.totalEngagements
      && r.value.value.successfulEngagements == c.successfulEngagements
      && r.value.value.createdAt == c.createdAt
    ensures r.Ok? && r.value.Some? && TotalsAgree(s) ==>
      r.value.value.overallSuccessRate == if s.campaigns[campaignId].totalEngagements == 0 then 0.0 else 1.0
  {
    if campaignId !in s.campaigns then Ok(None)
    else if s.actions != [] then Err(MissingCampaignIdField)
    else
      var c := s.campaigns[campaignId];
      OverallRateIsZeroOrOne(c);
      Ok(Some(EngagementStats(campaignId, c.name, c.platform, c.isActive, c.totalEngagements,
                              c.successfulEngagements, Ratio(c.successfulEngagements, c.totalEngagements), c.createdAt)))
  }
}

=== FILE: follow.dfy ===
/** Follow automation (src/core/follow_automation.py): target filtering and scoring, the
    sliding one-hour rate check over the action log, action execution with per-type campaign
    counters, and a campaign run with a daily cut-off.

    Time is an integer count of seconds. The clock, the platform executor's outcome, the action
    ids and the discovered candidates are parameters. */
module FollowAutomation {
  import opened Common
  import opened Sorting

  datatype Platform = Instagram | Twitter | TikTok | LinkedIn | YouTube

  datatype ActionType = Follow | Unfollow | Like | Comment | Dm | StoryView

  datatype TargetingType = Hashtag | CompetitorFollowers | Location | Interests | EngagementBased | Niche

  const Hour: int := 3600
  const Day: int := 86400

  datatype TargetAccount = TargetAccount(
    username: string,
    platform: Platform,
    followerCount: int,
    engagementRate: real,
    niche: string,
    lastActivity: int,
    isVerified: bool,
    isPrivate: bool,
    engagementScore: real)

  /** The keys of a campaign's `target_criteria` that filtering reads; absent keys take the
      source's defaults. */
  datatype Criteria = Criteria(
    minFollowers: Option<int>,
    maxFollowers: Option<int>,
    minEngagementRate: Option<real>,
    maxInactiveDays: Option<int>)

  datatype FollowCampaign = FollowCampaign(
    id: string,
    name: string,
    platform: Platform,
    targetingType: TargetingType,
    criteria: Criteria,
    dailyFollowLimit: int,
    dailyUnfollowLimit: int,
    engagementWindowDays: int,
    isActive: bool,
    totalFollows: nat,
    totalUnfollows: nat,
    totalEngagements: nat,
    createdAt: int)

  datatype FollowAction = FollowAction(
    id: string,
    campaignId: string,
    actionType: ActionType,
    targetUsername: string,
    platform: Platform,
    timestamp: int,
    success: bool,
    errorMessage: string)

  datatype FollowState = FollowState(
    campaigns: map<string, FollowCampaign>,
    targetAccounts: map<string, TargetAccount>,
    actions: seq<FollowAction>)

  /** What the external platform executor did with one action. */
  /** `PlatformType.value`. */
  function PlatformValue(p: Platform): string
  {
    match p
    case Instagram => "instagram"
    case Twitter => "twitter"
    case TikTok => "tiktok"
    case LinkedIn => "linkedin"
    case YouTube => "youtube"
  }

  /** `PlatformType(value)`: the platform with that value, or None where Python raises
      `ValueError`. */
  function ParsePlatform(value: string): (r: Option<Platform>)
    ensures r.Some? ==> PlatformValue(r.value) == value
  {
    if value == "instagram" then Some(Instagram)
    else if value == "twitter" then Some(Twitter)
    else if value == "tiktok" then Some(TikTok)
    else if value == "linkedin" then Some(LinkedIn)
    else if value == "youtube" then Some(YouTube)
    else None
  }

  /** Every platform's value parses back to it. */
  lemma ParsePlatformValue(p: Platform)
    ensures ParsePlatform(PlatformValue(p)) == Some(p)
  {
  }

  datatype PlatformOutcome = Succeeded | Failed | Raised(message: string)

  function Initial(): FollowState
  {
    FollowState(map[], map[], [])
  }

  // ---------------------------------------------------------------------------------------
  // Campaign creation

  /** Stores a fresh campaign with zero counters under `id`, replacing any campaign there. */
  function CreateCampaign(s: FollowState, id: string, name: string, platform: Platform,
                          targeting: TargetingType, criteria: Criteria,
                          dailyFollowLimit: int, dailyUnfollowLimit: int,
                          engagementWindowDays: int, now: int): (r: FollowState)
    ensures id in r.campaigns && r.campaigns.Keys == s.campaigns.Keys + {id}
    ensures r.campaigns[id] == FollowCampaign(id, name, platform, targeting, criteria, dailyFollowLimit,
                                              dailyUnfollowLimit, engagementWindowDays, true, 0, 0, 0, now)
    ensures forall k :: k in s.campaigns && k != id ==> r.campaigns[k] == s.campaigns[k]
    ensures r.actions == s.actions && r.targetAccounts == s.targetAccounts
  {
    var c := FollowCampaign(id, name, platform, targeting, criteria, dailyFollowLimit,
                            dailyUnfollowLimit, engagementWindowDays, true, 0, 0, 0, now);
    s.(campaigns := s.campaigns[id := c])
  }

  // ---------------------------------------------------------------------------------------
  // Target filtering and scoring

  /** Python's `timedelta.days`: whole days, rounded towards negative infinity. */
  function DaysBetween(earlier: int, later: int): int
  {
    (later - earlier) / Day
  }

  /** Whether an account passes a campaign's criteria at time `now`. */
  predicate ShouldTarget(t: TargetAccount, c: Criteria, now: int)
  {
    var minF := if c.minFollowers.Some? then c.minFollowers.value else 1000;
    var maxF := if c.maxFollowers.Some? then c.maxFollowers.value else 100000;
    var minRate := if c.minEngagementRate.Some? then c.minEngagementRate.value else 0.01;
    var maxDays := if c.maxInactiveDays.Some? then c.maxInactiveDays.value else 7;
    && !t.isPrivate
    && minF <= t.followerCount <= maxF
    && !(t.engagementRate < minRate)
    && !(DaysBetween(t.lastActivity, now) > maxDays)
  }

  const NoCriteria := Criteria(None, None, None, None)

  /** With no criteria given, an account passes iff it is public, has 1000 to 100000
      followers, an engagement rate of at least 0.01, and was active less than eight whole
      days (691200 seconds) ago. */
  lemma DefaultCriteria(t: TargetAccount, now: int)
    ensures ShouldTarget(t, NoCriteria, now) <==>
      && !t.isPrivate
      && 1000 <= t.followerCount <= 100000
      && t.engagementRate >= 0.01
      && now - t.lastActivity < 8 * Day
  {
    var d := now - t.lastActivity;
    assert d / Day <= 7 <==> d < 8 * Day by {
      if d < 8 * Day {
        assert d / Day * Day <= d;
        assert d / Day < 8;
      } else {
        assert d / Day * Day + d % Day == d;
        assert d % Day < Day;
        assert d / Day >= 8;
      }
    }
  }

  /** The follow-back potential of an account: `engagement_rate * 100`, times 1.2 when
      verified, 1.1 when active within the last 24 hours, 0.8 above 50000 followers. */
  function EngagementScore(t: TargetAccount, now: int): (r: real)
    ensures t.engagementRate >= 0.0 ==> 80.0 * t.engagementRate <= r <= 132.0 * t.engagementRate
    ensures t.engagementRate >= 0.0 ==> r >= 0.0
    ensures t.engagementRate == 0.0 ==> r == 0.0
  {
    var base := t.engagementRate * 100.0;
    var verified := if t.isVerified then base * 1.2 else base;
    var recent := if now - t.lastActivity < Day then verified * 1.1 else verified;
    if t.followerCount > 50000 then recent * 0.8 else recent
  }

  /** Raising the engagement rate never lowers the score. */
  lemma ScoreMonotone(t: TargetAccount, r1: real, r2: real, now: int)
    requires r1 <= r2
    ensures EngagementScore(t.(engagementRate := r1), now) <= EngagementScore(t.(engagementRate := r2), now)
  {
  }

  /** The account with its score filled in. */
  function Scored(t: TargetAccount, now: int): TargetAccount
  {
    t.(engagementScore := EngagementScore(t, now))
  }

  /** The passing candidates, scored, in input order. */
  function PassingScored(targets: seq<TargetAccount>, c: Criteria, now: int): (r: seq<TargetAccount>)
    ensures |r| <= |targets|
  {
    if targets == [] then []
    else
      (if ShouldTarget(targets[0], c, now) then [Scored(targets[0], now)] else [])
      + PassingScored(targets[1..], c, now)
  }

  lemma {:induction false} PassingScoredMembers(targets: seq<TargetAccount>, c: Criteria, now: int)
    ensures forall x :: x in PassingScored(targets, c, now) <==>
      exists i :: 0 <= i < |targets| && ShouldTarget(targets[i], c, now) && x == Scored(targets[i], now)
  {
    if targets != [] {
      PassingScoredMembers(targets[1..], c, now);
      forall x | x in PassingScored(targets, c, now)
        ensures exists i :: 0 <= i < |targets| && ShouldTarget(targets[i], c, now) && x == Scored(targets[i], now)
      {
        if x in PassingScored(targets[1..], c, now) {
          var j :| 0 <= j < |targets[1..]| && ShouldTarget(targets[1..][j], c, now) && x == Scored(targets[1..][j], now);
          assert targets[j + 1] == targets[1..][j];
        }
      }
      forall i | 0 <= i < |targets| && ShouldTarget(targets[i], c, now)
        ensures Scored(targets[i], now) in PassingScored(targets, c, now)
      {
        if i > 0 {
          assert targets[1..][i - 1] == targets[i];
        }
      }
    }
  }

  function ScoreKey(t: TargetAccount): real
  {
    t.engagementScore
  }

  /** `_filter_and_score_targets`: keeps the passing candidates, scores them, and sorts them
      by score, highest first; equal scores keep their input order. */
  function FilterAndScore(targets: seq<TargetAccount>, c: Criteria, now: int): (r: seq<TargetAccount>)
    ensures SortedDesc(r, ScoreKey)
    ensures multiset(r) == multiset(PassingScored(targets, c, now))
  {
    SortDesc(PassingScored(targets, c, now), ScoreKey)
  }

  /** The sorted targets are exactly the passing candidates, scored, and candidates of equal
      score keep their input order. */
  lemma FilterAndScoreSpec(targets: seq<TargetAccount>, c: Criteria, now: int)
    ensures var r := FilterAndScore(targets, c, now);
      && (forall k :: WithKey(r, ScoreKey, k) == WithKey(PassingScored(targets, c, now), ScoreKey, k))
      && (forall x :: x in r <==>
            exists i :: 0 <= i < |targets| && ShouldTarget(targets[i], c, now) && x == Scored(targets[i], now))
  {
    PassingScoredMembers(targets, c, now);
    var p := PassingScored(targets, c, now);
    var r := FilterAndScore(targets, c, now);
    forall x
      ensures x in r <==> x in p
    {
      assert x in r <==> x in multiset(r);
      assert x in p <==> x in multiset(p);
    }
  }

  // ---------------------------------------------------------------------------------------
  // Rate limiting

  /** The hourly budget per platform and action type (the `<type>s_per_hour` keys); `None`
      where the table has no key, which means unlimited. */
  function HourlyLimit(p: Platform, a: ActionType): Option<nat>
  {
    match p
    case Instagram =>
      (match a
       case Follow => Some(20) case Unfollow => Some(20) case Like => Some(50)
       case Comment => Some(10) case Dm => Some(5) case StoryView => Some(100))
    case Twitter =>
      (match a
       case Follow => Some(30) case Unfollow => Some(30) case Like => Some(100)
       case Comment => Some(20) case Dm => Some(10) case StoryView => None)
    case TikTok =>
      (match a
       case Follow => Some(25) case Unfollow => Some(25) case Like => Some(80)
       case Comment => Some(15) case Dm => Some(8) case StoryView => None)
    case LinkedIn => None
    case YouTube => None
  }

  /** Only Instagram limits story views, and LinkedIn and YouTube have no budget at all. */
  lemma UnlimitedBuckets(p: Platform, a: ActionType)
    ensures HourlyLimit(p, a).None? <==> p == LinkedIn || p == YouTube || (a == StoryView && p != Instagram)
  {
  }

  /** Logged actions of platform `p` and type `a` stamped strictly after `since`. */
  function CountAfter(log: seq<FollowAction>, p: Platform, a: ActionType, since: int): (n: nat)
    ensures n <= |log|
  {
    if log == [] then 0
    else
      var e := log[|log| - 1];
      CountAfter(log[..|log| - 1], p, a, since) + (if e.platform == p && e.actionType == a && e.timestamp > since then 1 else 0)
  }

  /** Logged actions of platform `p` and type `a` in the trailing hour `(t - 1h, t]`. */
  function WindowCount(log: seq<FollowAction>, p: Platform, a: ActionType, t: int): (n: nat)
    ensures n <= |log|
  {
    if log == [] then 0
    else
      var e := log[|log| - 1];
      WindowCount(log[..|log| - 1], p, a, t)
      + (if e.platform == p && e.actionType == a && t - Hour < e.timestamp <= t then 1 else 0)
  }

  /** `_check_rate_limit`: true iff the bucket has no budget, or fewer than the budget's
      actions of that platform and type were logged within the last hour. */
  predicate RateAllows(log: seq<FollowAction>, p: Platform, a: ActionType, now: int)
  {
    match HourlyLimit(p, a)
    case None => true
    case Some(limit) => CountAfter(log, p, a, now - Hour) < limit
  }

  /** No logged action is stamped after `now`. */
  predicate NotAfter(log: seq<FollowAction>, now: int)
  {
    forall i :: 0 <= i < |log| ==> log[i].timestamp <= now
  }

  /** Every trailing one-hour window holds at most the budget of every bucket. */
  ghost predicate QuotaRespected(log: seq<FollowAction>)
  {
    forall p, a, limit, t :: HourlyLimit(p, a) == Some(limit) ==> WindowCount(log, p, a, t) <= limit
  }

  lemma {:induction false} WindowBelowRecent(log: seq<FollowAction>, p: Platform, a: ActionType, t: int, now: int)
    requires NotAfter(log, now)
    requires t >= now
    ensures WindowCount(log, p, a, t) <= CountAfter(log, p, a, now - Hour)
  {
    if log != [] {
      WindowBelowRecent(log[..|log| - 1], p, a, t, now);
    }
  }

  lemma AppendUnseenBefore(log: seq<FollowAction>, e: FollowAction, p: Platform, a: ActionType, t: int)
    requires t < e.timestamp
    ensures WindowCount(log + [e], p, a, t) == WindowCount(log, p, a, t)
  {
    assert (log + [e])[..|log + [e]| - 1] == log;
  }

  /** Appending one action that passed the rate check, stamped no earlier than anything in
      the log, keeps every trailing window within budget. */
  lemma {:induction false} AppendKeepsQuota(log: seq<FollowAction>, e: FollowAction)
    requires QuotaRespected(log)
    requires NotAfter(log, e.timestamp)
    requires RateAllows(log, e.platform, e.actionType, e.timestamp)
    ensures QuotaRespected(log + [e])
  {
    var log' := log + [e];
    assert log'[..|log'| - 1] == log;
    forall p, a, limit, t | HourlyLimit(p, a) == Some(limit)
      ensures WindowCount(log', p, a, t) <= limit
    {
      assert WindowCount(log, p, a, t) <= limit;
      if t >= e.timestamp {
        if e.platform == p && e.actionType == a {
          WindowBelowRecent(log, p, a, t, e.timestamp);
        }
      } else {
        AppendUnseenBefore(log, e, p, a, t);
      }
    }
  }

  // ---------------------------------------------------------------------------------------
  // Executing one action

  datatype Executed = Executed(state: FollowState, action: FollowAction)

  /** The campaign after a successful action of type `a`. */
  function Credit(c: FollowCampaign, a: ActionType): FollowCampaign
  {
    match a
    case Follow => c.(totalFollows := c.totalFollows + 1)
    case Unfollow => c.(totalUnfollows := c.totalUnfollows + 1)
    case Like => c.(totalEngagements := c.totalEngagements + 1)
    case Comment => c.(totalEngagements := c.totalEngagements + 1)
    case Dm => c.(totalEngagements := c.totalEngagements + 1)
    case StoryView => c
  }

  predicate IsEngagement(a: ActionType)
  {
    a == Like || a == Comment || a == Dm
  }

  /** The error message an action records for the executor's `outcome`. */
  function ErrorMessage(outcome: PlatformOutcome): string
  {
    if outcome.Raised? then outcome.message else if outcome == Failed then "Action failed" else ""
  }

  /** `execute_follow_action` at time `now` with the executor's `outcome`. An unknown campaign
      or a refused rate check raises and records nothing; otherwise exactly one action is
      appended whatever the outcome, and a counter moves only on success. */
  function Execute(s: FollowState, campaignId: string, target: string, a: ActionType,
                   now: int, actionId: string, outcome: PlatformOutcome): (r: Result<Executed>)
    ensures campaignId !in s.campaigns <==> r == Err(CampaignNotFound(campaignId))
    ensures campaignId in s.campaigns ==>
      (r == Err(RateLimitExceeded) <==> !RateAllows(s.actions, s.campaigns[campaignId].platform, a, now))
    ensures r.Ok? ==> campaignId in s.campaigns && r.value.state.campaigns.Keys == s.campaigns.Keys
    ensures r.Ok? ==> r.value.state.actions == s.actions + [r.value.action]
    ensures r.Ok? ==> r.value.action == FollowAction(actionId, campaignId, a, target,
      s.campaigns[campaignId].platform, now, outcome == Succeeded, r.value.action.errorMessage)
    ensures r.Ok? ==> r.value.action.errorMessage == ErrorMessage(outcome)
    ensures r.Ok? ==> r.value.state.targetAccounts == s.targetAccounts
    ensures r.Ok? ==> forall k :: k in s.campaigns && k != campaignId ==> r.value.state.campaigns[k] == s.campaigns[k]
    ensures r.Ok? ==> r.value.state.campaigns[campaignId] ==
                      (if outcome == Succeeded then Credit(s.campaigns[campaignId], a) else s.campaigns[campaignId])
  {
    if campaignId !in s.campaigns then Err(CampaignNotFound(campaignId))
    else
      var c := s.campaigns[campaignId];
      if !RateAllows(s.actions, c.platform, a, now) then Err(RateLimitExceeded)
      else
        var success := outcome == Succeeded;
        var message := match outcome
          case Succeeded => ""
          case Failed => "Action failed"
          case Raised(m) => m;
        var action := FollowAction(actionId, campaignId, a, target, c.platform, now, success, message);
        var c' := if success then Credit(c, a) else c;
        Ok(Executed(s.(campaigns := s.campaigns[campaignId := c'], actions := s.actions + [action]), action))
  }

  /** Executing at a time no earlier than every logged action preserves the hourly quota. */
  lemma ExecuteKeepsQuota(s: FollowState, campaignId: string, target: string, a: ActionType,
                          now: int, actionId: string, outcome: PlatformOutcome)
    requires QuotaRespected(s.actions)
    requires NotAfter(s.actions, now)
    ensures var r := Execute(s, campaignId, target, a, now, actionId, outcome);
      r.Ok? ==> QuotaRespected(r.value.state.actions) && NotAfter(r.value.state.actions, now)
  {
    var r := Execute(s, campaignId, target, a, now, actionId, outcome);
    if r.Ok? {
      AppendKeepsQuota(s.actions, r.value.action);
    }
  }

  // ---------------------------------------------------------------------------------------
  // Counter consistency

  /** Successful actions of campaign `cid` whose type satisfies `sel`. */
  function Successes(log: seq<FollowAction>, cid: string, sel: ActionType -> bool): (n: nat)
    ensures n <= |log|
  {
    if log == [] then 0
    else
      var e := log[|log| - 1];
      Successes(log[..|log| - 1], cid, sel) + (if e.campaignId == cid && e.success && sel(e.actionType) then 1 else 0)
  }

  function IsFollow(a: ActionType): bool { a == Follow }
  function IsUnfollow(a: ActionType): bool { a == Unfollow }
  function IsEngagementFn(a: ActionType): bool { IsEngagement(a) }

  /** Every campaign's counters equal the number of its successful logged actions of the
      matching types. */
  ghost predicate CountersConsistent(s: FollowState)
  {
    forall cid :: cid in s.campaigns ==>
      && s.campaigns[cid].totalFollows == Successes(s.actions, cid, IsFollow)
      && s.campaigns[cid].totalUnfollows == Successes(s.actions, cid, IsUnfollow)
      && s.campaigns[cid].totalEngagements == Successes(s.actions, cid, IsEngagementFn)
  }

  lemma SuccessesAppend(log: seq<FollowAction>, e: FollowAction, cid: string, sel: ActionType -> bool)
    ensures Successes(log + [e], cid, sel) ==
      Successes(log, cid, sel) + (if e.campaignId == cid && e.success && sel(e.actionType) then 1 else 0)
  {
    assert (log + [e])[..|log + [e]| - 1] == log;
  }

  lemma ExecuteKeepsCounters(s: FollowState, campaignId: string, target: string, a: ActionType,
                             now: int, actionId: string, outcome: PlatformOutcome)
    requires CountersConsistent(s)
    ensures var r := Execute(s, campaignId, target, a, now, actionId, outcome);
      r.Ok? ==> CountersConsistent(r.value.state)
  {
    var r := Execute(s, campaignId, target, a, now, actionId, outcome);
    if r.Ok? {
      AppendKeepsCounters(s, r.value.state, r.value.action);
    }
  }

  /** Logging `e` and crediting its campaign exactly when it succeeded keeps the counters
      consistent. */
  lemma AppendKeepsCounters(s: FollowState, st: FollowState, e: FollowAction)
    requires CountersConsistent(s)
    requires e.campaignId in s.campaigns && st.campaigns.Keys == s.campaigns.Keys
    requires forall k :: k in s.campaigns && k != e.campaignId ==> st.campaigns[k] == s.campaigns[k]
    requires st.campaigns[e.campaignId] ==
             (if e.success then Credit(s.campaigns[e.campaignId], e.actionType) else s.campaigns[e.campaignId])
    requires st.actions == s.actions + [e]
    ensures CountersConsistent(st)
  {
    forall cid | cid in st.campaigns
      ensures st.campaigns[cid].totalFollows == Successes(st.actions, cid, IsFollow)
      ensures st.campaigns[cid].totalUnfollows == Successes(st.actions, cid, IsUnfollow)
      ensures st.campaigns[cid].totalEngagements == Successes(st.actions, cid, IsEngagementFn)
    {
      SuccessesAppend(s.actions, e, cid, IsFollow);
      SuccessesAppend(s.actions, e, cid, IsUnfollow);
      SuccessesAppend(s.actions, e, cid, IsEngagementFn);
    }
  }

  /** A campaign created under an id no logged action mentions starts consistent. */
  lemma CreateKeepsCounters(s: FollowState, id: string, name: string, platform: Platform,
                            targeting: TargetingType, criteria: Criteria,
                            dailyFollowLimit: int, dailyUnfollowLimit: int, engagementWindowDays: int, now: int)
    requires CountersConsistent(s)
    requires forall i :: 0 <= i < |s.actions| ==> s.actions[i].campaignId != id
    ensures CountersConsistent(CreateCampaign(s, id, name, platform, targeting, criteria,
                                              dailyFollowLimit, dailyUnfollowLimit, engagementWindowDays, now))
  {
    NoSuccessesForUnusedId(s.actions, id, IsFollow);
    NoSuccessesForUnusedId(s.actions, id, IsUnfollow);
    NoSuccessesForUnusedId(s.actions, id, IsEngagementFn);
  }

  lemma {:induction false} NoSuccessesForUnusedId(log: seq<FollowAction>, id: string, sel: ActionType -> bool)
    requires forall i :: 0 <= i < |log| ==> log[i].campaignId != id
    ensures Successes(log, id, sel) == 0
  {
    if log != [] {
      NoSuccessesForUnusedId(log[..|log| - 1], id, sel);
    }
  }

  // ---------------------------------------------------------------------------------------
  // Running a campaign

  /** The externally supplied facts of one attempt: its clock reading, the id the action
      gets, and the executor's outcome. */
  datatype Draw = Draw(time: int, actionId: string, outcome: PlatformOutcome)

  /** `e` is the follow of `t` for campaign `cid` on `platform` that attempt `d` logs: its id,
      its clock reading, and success exactly when the executor succeeded. */
  predicate FollowOf(e: FollowAction, cid: string, platform: Platform, t: TargetAccount, d: Draw)
  {
    e == FollowAction(d.actionId, cid, Follow, t.username, platform, d.time, d.outcome == Succeeded, ErrorMessage(d.outcome))
  }

  /** How many of the first `n` attempts the executor reported as succeeded. */
  function DrawSuccesses(draws: nat -> Draw, n: nat): (k: nat)
    ensures k <= n
  {
    if n == 0 then 0 else DrawSuccesses(draws, n - 1) + (if draws(n - 1).outcome == Succeeded then 1 else 0)
  }

  /** The clock readings of the attempts never go backwards. */
  ghost predicate ClockMonotone(draws: nat -> Draw)
  {
    forall k: nat :: draws(k).time <= draws(k + 1).time
  }

  datatype RunReport = RunReport(
    campaignId: string,
    campaignName: string,
    targetsFound: nat,
    actionsExecuted: nat,
    successfulActions: nat,
    successRate: real)

  datatype RunOutcome = RunOutcome(state: FollowState, report: RunReport)

  /** The targets a run attempts: the scored candidates cut at the daily follow limit with
      Python slice semantics (a negative limit drops that many from the end). */
  function Batch(c: FollowCampaign, candidates: seq<TargetAccount>, now: int): (r: seq<TargetAccount>)
    ensures c.dailyFollowLimit >= 0 ==> |r| <= c.dailyFollowLimit
    ensures r <= FilterAndScore(candidates, c.criteria, now)
  {
    SliceTo(FilterAndScore(candidates, c.criteria, now), c.dailyFollowLimit)
  }

  /** `accounts` after storing each of `ts` under its username, in order. */
  function Stored(accounts: map<string, TargetAccount>, ts: seq<TargetAccount>): map<string, TargetAccount>
  {
    if ts == [] then accounts
    else Stored(accounts, ts[..|ts| - 1])[ts[|ts| - 1].username := ts[|ts| - 1]]
  }

  /** Storing `ts` adds exactly their usernames. */
  lemma {:induction false} StoredKeys(accounts: map<string, TargetAccount>, ts: seq<TargetAccount>)
    ensures forall k :: k in Stored(accounts, ts) <==> k in accounts || exists t :: t in ts && t.username == k
  {
    if ts != [] {
      StoredKeys(accounts, ts[..|ts| - 1]);
      assert forall t :: t in ts <==> t in ts[..|ts| - 1] || t == ts[|ts| - 1];
    }
  }

  /** An entry whose username none of `ts` carries is left alone. */
  lemma {:induction false} StoredKeeps(accounts: map<string, TargetAccount>, ts: seq<TargetAccount>, k: string)
    requires k in accounts && forall t :: t in ts ==> t.username != k
    ensures k in Stored(accounts, ts) && Stored(accounts, ts)[k] == accounts[k]
  {
    if ts != [] {
      assert ts[|ts| - 1] in ts;
      assert forall t :: t in ts[..|ts| - 1] ==> t in ts;
      StoredKeeps(accounts, ts[..|ts| - 1], k);
    }
  }

  /** A username maps to the last account of `ts` stored under it. */
  lemma {:induction false} StoredLast(accounts: map<string, TargetAccount>, ts: seq<TargetAccount>, j: int)
    requires 0 <= j < |ts| && forall l :: j < l < |ts| ==> ts[l].username != ts[j].username
    ensures ts[j].username in Stored(accounts, ts) && Stored(accounts, ts)[ts[j].username] == ts[j]
  {
    if j < |ts| - 1 {
      var init := ts[..|ts| - 1];
      assert init[j] == ts[j];
      assert forall l :: j < l < |init| ==> init[l] == ts[l];
      StoredLast(accounts, init, j);
    }
  }

  /** What holds after `i` executed attempts of a run of campaign `c` that started in `s`: the
      log grew by one follow per attempt, in batch order; the campaign was credited the
      successes and nothing else; the other campaigns are untouched; and the attempted targets
      were stored. */
  predicate RunProgress(s: FollowState, c: FollowCampaign, campaignId: string, batch: seq<TargetAccount>,
                        draws: nat -> Draw, st: FollowState, i: nat, successful: nat)
  {
    && i <= |batch|
    && campaignId in st.campaigns && st.campaigns.Keys == s.campaigns.Keys
    && (forall k :: k in s.campaigns && k != campaignId ==> st.campaigns[k] == s.campaigns[k])
    && |st.actions| == |s.actions| + i
    && st.actions[..|s.actions|] == s.actions
    && (forall j :: 0 <= j < i ==> FollowOf(st.actions[|s.actions| + j], campaignId, c.platform, batch[j], draws(j)))
    && successful == DrawSuccesses(draws, i)
    && st.campaigns[campaignId] == c.(totalFollows := c.totalFollows + successful)
    && st.targetAccounts == Stored(s.targetAccounts, batch[..i])
  }

  /** The state after one executed attempt: the executor's state with the target stored. */
  function StoreTarget(ex: Executed, t: TargetAccount): FollowState
  {
    ex.state.(targetAccounts := ex.state.targetAccounts[t.username := t])
  }

  lemma RunStep(s: FollowState, c: FollowCampaign, campaignId: string, batch: seq<TargetAccount>,
                draws: nat -> Draw, st: FollowState, i: nat, successful: nat, ex: Executed)
    requires RunProgress(s, c, campaignId, batch, draws, st, i, successful) && i < |batch|
    requires Execute(st, campaignId, batch[i].username, Follow, draws(i).time, draws(i).actionId, draws(i).outcome) == Ok(ex)
    ensures RunProgress(s, c, campaignId, batch, draws, StoreTarget(ex, batch[i]), i + 1,
                        successful + (if ex.action.success then 1 else 0))
  {
    var st' := StoreTarget(ex, batch[i]);
    var ok := if ex.action.success then 1 else 0;
    assert ex.state.actions[..|s.actions|] == st.actions[..|s.actions|];
    assert batch[..i + 1][..i] == batch[..i];
    assert st'.targetAccounts == Stored(s.targetAccounts, batch[..i + 1]);
    assert st'.campaigns[campaignId] == c.(totalFollows := c.totalFollows + successful + ok);
  }

  /** A run starts with nothing attempted. */
  lemma RunStart(s: FollowState, campaignId: string, batch: seq<TargetAccount>, draws: nat -> Draw)
    requires campaignId in s.campaigns
    ensures RunProgress(s, s.campaigns[campaignId], campaignId, batch, draws, s, 0, 0)
  {
    assert batch[..0] == [];
  }

  /** A run over an empty batch leaves the state as it was. */
  lemma RunNothing(s: FollowState, campaignId: string, draws: nat -> Draw, st: FollowState, i: nat, successful: nat)
    requires campaignId in s.campaigns
    requires RunProgress(s, s.campaigns[campaignId], campaignId, [], draws, st, i, successful)
    ensures st == s
  {
    var batch: seq<TargetAccount> := [];
    assert st.actions == st.actions[..|s.actions|];
    assert batch[..0] == [];
    assert st.campaigns == s.campaigns;
  }

  /** One executed attempt keeps the run's progress, the hourly quota on a clock that never
      goes backwards, and the counters' consistency. */
  lemma RunAdvance(s: FollowState, c: FollowCampaign, campaignId: string, batch: seq<TargetAccount>,
                   draws: nat -> Draw, st: FollowState, i: nat, successful: nat, ex: Executed,
                   timed: bool, counted: bool)
    requires RunProgress(s, c, campaignId, batch, draws, st, i, successful) && i < |batch|
    requires Execute(st, campaignId, batch[i].username, Follow, draws(i).time, draws(i).actionId, draws(i).outcome) == Ok(ex)
    requires timed ==> ClockMonotone(draws) && QuotaRespected(st.actions) && NotAfter(st.actions, draws(i).time)
    requires counted ==> CountersConsistent(st)
    ensures RunProgress(s, c, campaignId, batch, draws, StoreTarget(ex, batch[i]), i + 1,
                        successful + (if ex.action.success then 1 else 0))
    ensures timed ==> QuotaRespected(ex.state.actions) && NotAfter(ex.state.actions, draws(i + 1).time)
    ensures counted ==> CountersConsistent(StoreTarget(ex, batch[i]))
  {
    var d := draws(i);
    if timed {
      ExecuteKeepsQuota(st, campaignId, batch[i].username, Follow, d.time, d.actionId, d.outcome);
      assert draws(i).time <= draws(i + 1).time;
    }
    if counted {
      ExecuteKeepsCounters(st, campaignId, batch[i].username, Follow, d.time, d.actionId, d.outcome);
    }
    RunStep(s, c, campaignId, batch, draws, st, i, successful, ex);
  }

  /** `run_campaign`: scores the discovered `candidates` at `now`, then follows the best ones,
      at most `daily_follow_limit` of them, in score order; attempt `i` reads its clock, action
      id and executor outcome from `draws(i)`. Every executed follow stores its target; the
      first raised exception (a refused rate check) ends the run. */
  method RunCampaign(s: FollowState, campaignId: string, candidates: seq<TargetAccount>,
                     now: int, draws: nat -> Draw) returns (r: Result<RunOutcome>)
    ensures campaignId !in s.campaigns <==> r.Err?
    ensures r.Err? ==> r.error == CampaignNotFound(campaignId)
    ensures r.Ok? ==>
      var c := s.campaigns[campaignId];
      var batch := Batch(c, candidates, now);
      var rep := r.value.report;
      && rep.campaignId == campaignId && rep.campaignName == c.name
      && rep.targetsFound == |FilterAndScore(candidates, c.criteria, now)|
      && rep.successRate == Ratio(rep.successfulActions, rep.actionsExecuted)
      && RunProgress(s, c, campaignId, batch, draws, r.value.state, rep.actionsExecuted, rep.successfulActions)
      && (rep.actionsExecuted < |batch| ==>
            !RateAllows(r.value.state.actions, c.platform, Follow, draws(rep.actionsExecuted).time))
    ensures r.Ok? && QuotaRespected(s.actions) && ClockMonotone(draws) && NotAfter(s.actions, draws(0).time)
            ==> QuotaRespected(r.value.state.actions)
    ensures r.Ok? && CountersConsistent(s) ==> CountersConsistent(r.value.state)
    ensures r.Ok? && Batch(s.campaigns[campaignId], candidates, now) == [] ==> r.value.state == s
  {
    if campaignId !in s.campaigns {
      return Err(CampaignNotFound(campaignId));
    }
    var c := s.campaigns[campaignId];
    var batch := Batch(c, candidates, now);
    ghost var timed := QuotaRespected(s.actions) && ClockMonotone(draws) && NotAfter(s.actions, draws(0).time);
    ghost var counted := CountersConsistent(s);
    var st := s;
    var i := 0;
    var successful := 0;
    var stopped := false;
    RunStart(s, campaignId, batch, draws);
    while i < |batch| && !stopped
      invariant RunProgress(s, c, campaignId, batch, draws, st, i, successful)
      invariant stopped ==> !RateAllows(st.actions, c.platform, Follow, draws(i).time)
      invariant timed ==> QuotaRespected(st.actions) && NotAfter(st.actions, draws(i).time)
      invariant counted ==> CountersConsistent(st)
      decreases |batch| - i, if stopped then 0 else 1
    {
      var d := draws(i);
      var e := Execute(st, campaignId, batch[i].username, Follow, d.time, d.actionId, d.outcome);
      if e.Err? {
        stopped := true;
      } else {
        RunAdvance(s, c, campaignId, batch, draws, st, i, successful, e.value, timed, counted);
        st := StoreTarget(e.value, batch[i]);
        if e.value.action.success {
          successful := successful + 1;
        }
        i := i + 1;
      }
    }
    if batch == [] {
      RunNothing(s, campaignId, draws, st, i, successful);
    }
    var report := RunReport(campaignId, c.name, |FilterAndScore(candidates, c.criteria, now)|, i, successful,
                            Ratio(successful, i));
    return Ok(RunOutcome(st, report));
  }

  // ---------------------------------------------------------------------------------------
  // Statistics

  datatype CampaignStats = CampaignStats(
    campaignId: string,
    campaignName: string,
    platform: Platform,
    targetingType: TargetingType,
    isActive: bool,
    totalFollows: nat,
    totalUnfollows: nat,
    totalEngagements: nat,
    successRate: real,
    createdAt: int)

  function ActionsOf(log: seq<FollowAction>, cid: string): nat
  {
    if log == [] then 0
    else ActionsOf(log[..|log| - 1], cid) + (if log[|log| - 1].campaignId == cid then 1 else 0)
  }

  function SuccessfulOf(log: seq<FollowAction>, cid: string): (n: nat)
    ensures n <= ActionsOf(log, cid)
  {
    if log == [] then 0
    else SuccessfulOf(log[..|log| - 1], cid) + (if log[|log| - 1].campaignId == cid && log[|log| - 1].success then 1 else 0)
  }

  /** The reported success rate times `max(#actions, 1)` is the number of successful actions. */
  lemma CampaignStatsRate(s: FollowState, cid: string)
    requires cid in s.campaigns
    ensures Scales(GetCampaignStats(s, cid).value.successRate, SuccessfulOf(s.actions, cid), ActionsOf(s.actions, cid))
  {
    RatioScales(SuccessfulOf(s.actions, cid), ActionsOf(s.actions, cid));
  }

  /** `get_campaign_stats`: nothing for an unknown campaign; otherwise its counters and the
      share of its logged actions that succeeded. */
  function GetCampaignStats(s: FollowState, cid: string): (r: Option<CampaignStats>)
    ensures r.None? <==> cid !in s.campaigns
    ensures r.Some? ==> r.value.successRate == Ratio(SuccessfulOf(s.actions, cid), ActionsOf(s.actions, cid))
    ensures r.Some? ==> 0.0 <= r.value.successRate <= 1.0 && r.value.totalFollows == s.campaigns[cid].totalFollows
    ensures r.Some? ==>
      var c := s.campaigns[cid];
      && r.value.campaignId == cid && r.value.campaignName == c.name && r.value.platform == c.platform
      && r.value.targetingType == c.targetingType && r.value.isActive == c.isActive
      && r.value.totalUnfollows == c.totalUnfollows && r.value.totalEngagements == c.totalEngagements
      && r.value.createdAt == c.createdAt
  {
    if cid !in s.campaigns then None
    else
      var c := s.campaigns[cid];
      var rate := Ratio(SuccessfulOf(s.actions, cid), ActionsOf(s.actions, cid));
      Some(CampaignStats(cid, c.name, c.platform, c.targetingType, c.isActive, c.totalFollows,
                         c.totalUnfollows, c.totalEngagements, rate, c.createdAt))
  }
}

=== FILE: growth.dfy ===
/** The gamification ledger of the growth engine (src/growth_engine/growth_engine.py):
    micro-communities, user profiles with XP and badges, content templates, collaborations
    and per-platform leaderboards, each operation a transition from one ledger to the next.
    Python dicts whose iteration order matters are `Table`s; collaboration and leaderboard
    dicts are only read by key and are plain maps. Generated ids (uuid fragments) are
    parameters. */
module GrowthEngine {
  import opened Common
  import opened Sorting

  datatype CommunityType = NicheFinder | ProblemSolver | CollaborationCircle | EngagementCircle

  datatype BadgeType = FirstComment | WeeklyTop | CollabMaster | EngagementKing | ContentCreator

  /** The XP a newly awarded badge is worth. */
  function BadgeXp(b: BadgeType): (xp: nat)
    ensures 5 <= xp <= 50
  {
    match b
    case FirstComment => 5
    case WeeklyTop => 50
    case CollabMaster => 25
    case EngagementKing => 30
    case ContentCreator => 20
  }

  /** A value in a template's free-form data: what JSON can hold, plus `Time` for a Python
      `datetime`, which `json.dump` refuses. */
  datatype Value = Str(s: string) | Int(i: int) | Bool(b: bool) | List(items: seq<Value>) | Time(seconds: int)

  /** `json.dump` accepts the value: it holds no `datetime`. */
  predicate Serializable(v: Value)
  {
    match v
    case Time(_) => false
    case List(items) => forall i :: 0 <= i < |items| ==> Serializable(items[i])
    case _ => true
  }

  /** Every value of the dict is serialisable. */
  predicate SerializableData(d: map<string, Value>)
  {
    forall k :: k in d ==> Serializable(d[k])
  }

  /** A micro-community. Each of its templates is a dict; `engagementScore` starts at 0. */
  datatype Community = Community(id: string, name: string, kind: CommunityType, description: string,
                                 members: seq<string>, templates: seq<map<string, Value>>, engagementScore: real)

  /** A community template: a name and a list of steps. */
  function StepsTemplate(name: string, steps: seq<string>): (t: map<string, Value>)
    ensures t.Keys == {"name", "steps"} && t["name"] == Str(name)
    ensures t["steps"].List? && |t["steps"].items| == |steps|
    ensures forall i :: 0 <= i < |steps| ==> t["steps"].items[i] == Str(steps[i])
  {
    map["name" := Str(name), "steps" := List(seq(|steps|, i requires 0 <= i < |steps| => Str(steps[i])))]
  }

  datatype UserProfile = UserProfile(
    userId: string,
    username: string,
    xp: nat,
    level: int,
    badges: seq<BadgeType>,
    communities: seq<string>,
    weeklyEngagement: int,
    totalPosts: int,
    collaborationCount: int)

  datatype ContentTemplate = ContentTemplate(id: string, name: string, kind: string, data: map<string, Value>, usageCount: nat)

  datatype Collaboration = Collaboration(id: string, user1: string, user2: string, platform: string, contentType: string, status: string)

  datatype LeaderboardEntry = LeaderboardEntry(userId: string, username: string, score: int, xp: nat, weeklyEngagement: int, collaborationCount: int)

  datatype Ledger = Ledger(
    communities: Table<Community>,
    users: Table<UserProfile>,
    templates: Table<ContentTemplate>,
    collaborations: map<string, Collaboration>,
    leaderboards: map<string, seq<LeaderboardEntry>>)
  {
    /** The dicts are well formed and every record is filed under its own id. */
    ghost predicate Valid()
    {
      && communities.Valid() && users.Valid() && templates.Valid()
      && (forall k :: k in communities.entries ==> communities.entries[k].id == k)
      && (forall k :: k in users.entries ==> users.entries[k].userId == k)
      && (forall k :: k in templates.entries ==> templates.entries[k].id == k)
    }
  }

  /** What an operation returns, together with the ledger it leaves behind. */
  datatype Outcome<T> = Outcome(value: T, ledger: Ledger)

  /** The ledger a fresh engine starts with: two communities, three templates, no users. */
  function Initial(): (l: Ledger)
    ensures l.Valid()
    ensures |l.communities.order| == 2 && |l.templates.order| == 3 && l.users.order == []
  {
    Ledger(InitialCommunities(), Table([], map[]), InitialTemplates(), map[], map[])
  }

  function InitialCommunities(): (t: Table<Community>)
    ensures t.Valid() && |t.order| == 2
    ensures forall k :: k in t.entries ==> t.entries[k].id == k
  {
    var niche := NicheFinderCommunity();
    var solver := ProblemSolverCommunity();
    Table([niche.id, solver.id], map[niche.id := niche, solver.id := solver])
  }

  function NicheFinderCommunity(): (c: Community)
    ensures c.id == "niche-finder-001" && c.members == []
  {
    Community("niche-finder-001", "Niche Finder Community", NicheFinder,
      "Find and validate your niche with data-driven insights", [],
      [StepsTemplate("Niche Research Template",
                     ["Identify target audience demographics", "Analyze competitor content",
                      "Find content gaps", "Validate with engagement metrics"])], 0.0)
  }

  function ProblemSolverCommunity(): (c: Community)
    ensures c.id == "problem-solver-001" && c.members == []
  {
    Community("problem-solver-001", "Problem Solver Community", ProblemSolver,
      "Solve real problems with collaborative solutions", [],
      [StepsTemplate("Problem-Solution Template",
                     ["Define the problem clearly", "Research existing solutions",
                      "Propose innovative approach", "Test and validate solution"])], 0.0)
  }

  function InitialTemplates(): (t: Table<ContentTemplate>)
    ensures t.Valid() && |t.order| == 3
    ensures forall k :: k in t.entries ==> t.entries[k].id == k
  {
    var carousel := ContentTemplate("carousel-template-001", "Educational Carousel", "carousel", CarouselData(), 0);
    var thread := ContentTemplate("thread-template-001", "Story Thread", "thread", ThreadData(), 0);
    var short := ContentTemplate("short-template-001", "Quick Tip Short", "short", ShortData(), 0);
    Table([carousel.id, thread.id, short.id], map[carousel.id := carousel, thread.id := thread, short.id := short])
  }

  /** The data of the built-in templates. */
  function CarouselData(): map<string, Value>
  {
    map["slides" := Int(5), "format" := Str("educational"),
        "elements" := List([Str("title"), Str("problem"), Str("solution"), Str("benefits"), Str("cta")])]
  }

  function ThreadData(): map<string, Value>
  {
    map["tweets" := Int(5), "format" := Str("story"),
        "elements" := List([Str("hook"), Str("setup"), Str("conflict"), Str("resolution"), Str("lesson")])]
  }

  function ShortData(): map<string, Value>
  {
    map["duration" := Str("15-30s"), "format" := Str("tip"),
        "elements" := List([Str("hook"), Str("tip"), Str("demonstration"), Str("cta")])]
  }

  // ---------------------------------------------------------------------------------------
  // Profiles, communities and badges
  // ---------------------------------------------------------------------------------------

  /** `create_micro_community` with the generated id: a community without members, holding
      the given templates (an omitted list is the empty one) and an engagement score of 0. */
  function CreateMicroCommunity(l: Ledger, id: string, name: string, kind: CommunityType, description: string,
                                templates: seq<map<string, Value>>): (r: Outcome<string>)
    ensures r.value == id
    ensures r.ledger.communities.entries.Keys == l.communities.entries.Keys + {id}
    ensures r.ledger.communities.entries[id] == Community(id, name, kind, description, [], templates, 0.0)
    ensures forall k :: k in l.communities.entries && k != id ==> r.ledger.communities.entries[k] == l.communities.entries[k]
    ensures r.ledger == l.(communities := r.ledger.communities)
    ensures l.Valid() ==> r.ledger.Valid()
  {
    Outcome(id, l.(communities := l.communities.Put(id, Community(id, name, kind, description, [], templates, 0.0))))
  }

  /** A profile as `create_user_profile` makes it: level 1 and everything else zero or empty. */
  function NewProfile(userId: string, username: string): (p: UserProfile)
    ensures p.userId == userId && p.username == username && p.xp == 0 && p.level == 1
    ensures p.badges == [] && p.communities == [] && p.weeklyEngagement == p.totalPosts == p.collaborationCount == 0
  {
    UserProfile(userId, username, 0, 1, [], [], 0, 0, 0)
  }

  /** `create_user_profile`: files a fresh profile under `userId`, replacing any earlier one. */
  function CreateUserProfile(l: Ledger, userId: string, username: string): (r: Outcome<UserProfile>)
    ensures r.value == NewProfile(userId, username)
    ensures r.value.userId == userId && r.value.xp == 0 && r.value.level == 1 && r.value.badges == []
    ensures r.ledger.users.entries.Keys == l.users.entries.Keys + {userId}
    ensures r.ledger.users.entries[userId] == r.value
    ensures SameExcept(l.users.entries, r.ledger.users.entries, userId) || userId !in l.users.entries
    ensures forall k :: k in l.users.entries && k != userId ==> r.ledger.users.entries[k] == l.users.entries[k]
    ensures r.ledger == l.(users := r.ledger.users)
    ensures l.Valid() ==> r.ledger.Valid()
  {
    var p := NewProfile(userId, username);
    Outcome(p, l.(users := l.users.Put(userId, p)))
  }

  /** `join_community`: adds the user to the community's members once; a user with a profile
      also gains 10 XP and records the community. */
  function JoinCommunity(l: Ledger, userId: string, communityId: string): (r: Outcome<bool>)
    ensures !r.value <==> communityId !in l.communities.entries || userId in l.communities.entries[communityId].members
    ensures !r.value ==> r.ledger == l
    ensures r.value ==> JoinedEffect(l, r.ledger, userId, communityId)
    ensures l.Valid() ==> r.ledger.Valid()
  {
    if communityId !in l.communities.entries then Outcome(false, l)
    else
      var c := l.communities.entries[communityId];
      if userId in c.members then Outcome(false, l)
      else
        var communities := l.communities.Put(communityId, c.(members := c.members + [userId]));
        var users :=
          if userId in l.users.entries then
            var p := l.users.entries[userId];
            l.users.Put(userId, p.(xp := p.xp + 10, communities := p.communities + [communityId]))
          else l.users;
        Outcome(true, l.(communities := communities, users := users))
  }

  /** What a successful join changes: the member list and, when there is a profile, its XP
      and community list; nothing else. */
  ghost predicate JoinedEffect(l: Ledger, l': Ledger, userId: string, communityId: string)
  {
    && communityId in l.communities.entries
    && var c := l.communities.entries[communityId];
    && communityId in l'.communities.entries
    && l'.communities.entries[communityId] == c.(members := c.members + [userId])
    && userId in l'.communities.entries[communityId].members
    && l'.communities.order == l.communities.order
    && SameExcept(l.communities.entries, l'.communities.entries, communityId)
    && l'.users.order == l.users.order
    && SameExcept(l.users.entries, l'.users.entries, userId)
    && (userId in l.users.entries ==>
          var p := l.users.entries[userId];
          l'.users.entries[userId] == p.(xp := p.xp + 10, communities := p.communities + [communityId]))
    && l' == l.(communities := l'.communities, users := l'.users)
  }

  /** `award_badge`: a user with a profile who lacks the badge receives it once, with its XP. */
  function AwardBadge(l: Ledger, userId: string, badge: BadgeType): (r: Outcome<bool>)
    ensures !r.value <==> userId !in l.users.entries || badge in l.users.entries[userId].badges
    ensures !r.value ==> r.ledger == l
    ensures r.value ==> userId in r.ledger.users.entries && r.ledger.users.entries[userId] == Awarded(l.users.entries[userId], badge)
    ensures r.value ==> badge in r.ledger.users.entries[userId].badges
    ensures SameExcept(l.users.entries, r.ledger.users.entries, userId)
    ensures r.ledger == l.(users := r.ledger.users) && r.ledger.users.order == l.users.order
    ensures l.Valid() ==> r.ledger.Valid()
  {
    if userId !in l.users.entries then Outcome(false, l)
    else
      var p := l.users.entries[userId];
      if badge in p.badges then Outcome(false, l)
      else Outcome(true, l.(users := l.users.Put(userId, Awarded(p, badge))))
  }

  /** The profile after receiving `badge`: the badge is appended and its XP added. */
  function Awarded(p: UserProfile, badge: BadgeType): (q: UserProfile)
    ensures q.badges == p.badges + [badge]
    ensures q.xp == p.xp + BadgeXp(badge)
    ensures q == p.(badges := q.badges, xp := q.xp)
  {
    p.(badges := p.badges + [badge], xp := p.xp + BadgeXp(badge))
  }

  /** Awarding the same badge twice changes nothing the second time. */
  lemma AwardBadgeIdempotent(l: Ledger, userId: string, badge: BadgeType)
    ensures var once := AwardBadge(l, userId, badge).ledger;
            var twice := AwardBadge(once, userId, badge);
            !twice.value && twice.ledger == once
  {
    var once := AwardBadge(l, userId, badge);
    if once.value {
      assert badge in once.ledger.users.entries[userId].badges;
    }
  }

  /** Joining the same community twice changes nothing the second time. */
  lemma JoinCommunityIdempotent(l: Ledger, userId: string, communityId: string)
    ensures var once := JoinCommunity(l, userId, communityId).ledger;
            var twice := JoinCommunity(once, userId, communityId);
            !twice.value && twice.ledger == once
  {
    var once := JoinCommunity(l, userId, communityId);
    if once.value {
      assert JoinedEffect(l, once.ledger, userId, communityId);
      assert userId in once.ledger.communities.entries[communityId].members;
    }
  }

  /** `create_collaboration`: records one pending collaboration under the generated id. */
  function CreateCollaboration(l: Ledger, collabId: string, user1: string, user2: string, platform: string, contentType: string): (r: Outcome<string>)
    ensures r.value == collabId
    ensures collabId in r.ledger.collaborations
    ensures r.ledger.collaborations[collabId] == Collaboration(collabId, user1, user2, platform, contentType, "pending")
    ensures r.ledger.collaborations.Keys == l.collaborations.Keys + {collabId}
    ensures collabId !in l.collaborations ==> |r.ledger.collaborations| == |l.collaborations| + 1
    ensures forall k :: k in l.collaborations && k != collabId ==> r.ledger.collaborations[k] == l.collaborations[k]
    ensures r.ledger == l.(collaborations := r.ledger.collaborations)
  {
    Outcome(collabId, l.(collaborations := l.collaborations[collabId := Collaboration(collabId, user1, user2, platform, contentType, "pending")]))
  }

  // ---------------------------------------------------------------------------------------
  // Templates
  // ---------------------------------------------------------------------------------------

  datatype Generated = Generated(templateId: string, templateName: string, contentType: string, content: map<string, Value>, usageCount: nat)

  /** `generate_content_with_template`: an unknown id gives `{}` (None) and changes nothing;
      otherwise the template's use count goes up and the content is its data overridden by the
      custom keys. */
  function GenerateContent(l: Ledger, templateId: string, custom: map<string, Value>): (r: Outcome<Option<Generated>>)
    ensures r.value.None? <==> templateId !in l.templates.entries
    ensures r.value.None? ==> r.ledger == l
    ensures r.value.Some? ==> GeneratedFrom(r.value.value, l.templates.entries[templateId], custom)
    ensures r.ledger.templates.entries.Keys == l.templates.entries.Keys
    ensures r.value.Some? ==>
              var t := l.templates.entries[templateId];
              r.ledger.templates.entries[templateId] == t.(usageCount := t.usageCount + 1)
    ensures SameExcept(l.templates.entries, r.ledger.templates.entries, templateId)
    ensures r.ledger == l.(templates := r.ledger.templates) && r.ledger.templates.order == l.templates.order
    ensures l.Valid() ==> r.ledger.Valid()
  {
    if templateId !in l.templates.entries then Outcome(None, l)
    else
      var t := l.templates.entries[templateId];
      var t' := t.(usageCount := t.usageCount + 1);
      Outcome(Some(Generated(templateId, t.name, t.kind, t.data + custom, t'.usageCount)),
              l.(templates := l.templates.Put(templateId, t')))
  }

  /** The generated content holds every template key and every custom key; a custom value
      wins, and a template value stands where no custom value replaces it. */
  ghost predicate GeneratedFrom(g: Generated, t: ContentTemplate, custom: map<string, Value>)
  {
    && g.templateName == t.name && g.contentType == t.kind
    && g.usageCount == t.usageCount + 1
    && g.content.Keys == t.data.Keys + custom.Keys
    && (forall k :: k in custom ==> g.content[k] == custom[k])
    && (forall k :: k in t.data && k !in custom ==> g.content[k] == t.data[k])
  }

  // ---------------------------------------------------------------------------------------
  // Leaderboard
  // ---------------------------------------------------------------------------------------

  /** The weekly composite score. */
  function Score(p: UserProfile): int
  {
    p.xp + 2 * p.weeklyEngagement + 10 * p.collaborationCount
  }

  function EntryOf(p: UserProfile): (e: LeaderboardEntry)
    ensures e.userId == p.userId && e.score == Score(p)
  {
    LeaderboardEntry(p.userId, p.username, Score(p), p.xp, p.weeklyEngagement, p.collaborationCount)
  }

  function Entries(ps: seq<UserProfile>): (r: seq<LeaderboardEntry>)
    ensures |r| == |ps|
    ensures forall i :: 0 <= i < |ps| ==> r[i] == EntryOf(ps[i])
  {
    if ps == [] then [] else [EntryOf(ps[0])] + Entries(ps[1..])
  }

  function ScoreKey(e: LeaderboardEntry): real
  {
    e.score as real
  }

  /** `update_leaderboard`: every profile scored, stably sorted by score, the first ten kept,
      stored under the platform and returned. */
  function UpdateLeaderboard(l: Ledger, platform: string): (r: Outcome<seq<LeaderboardEntry>>)
    ensures SortedDesc(r.value, ScoreKey)
    ensures |r.value| == Min(10, |l.users.Values()|)
    ensures forall e :: e in r.value ==> e in Entries(l.users.Values())
    ensures r.ledger == l.(leaderboards := l.leaderboards[platform := r.value])
  {
    var all := Entries(l.users.Values());
    var sorted := SortDesc(all, ScoreKey);
    var top := SliceTo(sorted, 10);
    SortedPrefix(sorted, |top|, ScoreKey);
    assert top == sorted[..|top|];
    assert forall e :: e in top ==> e in multiset(sorted);
    Outcome(top, l.(leaderboards := l.leaderboards[platform := top]))
  }

  /** Nobody left off the board outscores anybody on it. */
  lemma LeaderboardTop(l: Ledger, platform: string)
    ensures var top := UpdateLeaderboard(l, platform).value;
            forall p :: p in l.users.Values() && EntryOf(p) !in top ==>
              forall i :: 0 <= i < |top| ==> top[i].score >= Score(p)
  {
    var all := Entries(l.users.Values());
    var sorted := SortDesc(all, ScoreKey);
    var top := UpdateLeaderboard(l, platform).value;
    assert top == sorted[..|top|];
    forall p | p in l.users.Values() && EntryOf(p) !in top
      ensures forall i :: 0 <= i < |top| ==> top[i].score >= Score(p)
    {
      BelowTheCut(l.users.Values(), sorted, |top|, p);
    }
  }

  /** In a sorted arrangement of the profiles' entries, a profile whose entry is outside the
      first `n` scores no more than any of them. */
  lemma BelowTheCut(ps: seq<UserProfile>, sorted: seq<LeaderboardEntry>, n: nat, p: UserProfile)
    requires multiset(sorted) == multiset(Entries(ps)) && SortedDesc(sorted, ScoreKey) && n <= |sorted|
    requires p in ps && EntryOf(p) !in sorted[..n]
    ensures forall i :: 0 <= i < n ==> sorted[i].score >= Score(p)
  {
    var j :| 0 <= j < |ps| && ps[j] == p;
    assert Entries(ps)[j] == EntryOf(p);
    assert EntryOf(p) in multiset(sorted);
    BelowPrefix(sorted, n, ScoreKey, EntryOf(p));
  }

  /** Among equal scores the board keeps the users' insertion order. */
  lemma LeaderboardTies(l: Ledger, platform: string)
    ensures var top := UpdateLeaderboard(l, platform).value;
            forall k :: WithKey(top, ScoreKey, k) <= WithKey(Entries(l.users.Values()), ScoreKey, k)
  {
    var all := Entries(l.users.Values());
    var sorted := SortDesc(all, ScoreKey);
    var top := UpdateLeaderboard(l, platform).value;
    assert top == sorted[..|top|];
    forall k
      ensures WithKey(top, ScoreKey, k) <= WithKey(all, ScoreKey, k)
    {
      WithKeyPrefix(top, sorted, ScoreKey, k);
    }
  }

  /** On a well-formed ledger every board entry belongs to a profile and carries its score. */
  lemma LeaderboardEntriesKnown(l: Ledger, platform: string)
    requires l.Valid()
    ensures var top := UpdateLeaderboard(l, platform).value;
            forall i :: 0 <= i < |top| ==>
              top[i].userId in l.users.entries && top[i].score == Score(l.users.entries[top[i].userId])
  {
    var all := Entries(l.users.Values());
    EntriesKnown(l);
    var top := UpdateLeaderboard(l, platform).value;
    forall i | 0 <= i < |top|
      ensures top[i].userId in l.users.entries && top[i].score == Score(l.users.entries[top[i].userId])
    {
      assert top[i] in all;
    }
  }

  /** Every entry of a well-formed ledger's profiles belongs to a profile and carries its score. */
  lemma EntriesKnown(l: Ledger)
    requires l.Valid()
    ensures forall e :: e in Entries(l.users.Values()) ==>
              e.userId in l.users.entries && e.score == Score(l.users.entries[e.userId])
  {
    var ps := l.users.Values();
    var all := Entries(ps);
    forall e | e in all
      ensures e.userId in l.users.entries && e.score == Score(l.users.entries[e.userId])
    {
      var j :| 0 <= j < |all| && all[j] == e;
      assert ps[j] == l.users.entries[l.users.order[j]];
      assert l.users.order[j] in l.users.entries;
    }
  }

  // ---------------------------------------------------------------------------------------
  // Collaboration suggestions
  // ---------------------------------------------------------------------------------------

  datatype Suggestion = Suggestion(user1: string, user2: string, score: nat)

  function SharedCommunities(a: UserProfile, b: UserProfile): set<string>
  {
    (set c | c in a.communities) * (set c | c in b.communities)
  }

  /** Two distinct users who share at least one community. */
  predicate Pairable(a: UserProfile, b: UserProfile)
  {
    a.userId != b.userId && |SharedCommunities(a, b)| > 0
  }

  function Suggest(a: UserProfile, b: UserProfile): Suggestion
  {
    Suggestion(a.userId, b.userId, |SharedCommunities(a, b)|)
  }

  /** The profiles with positive weekly engagement, in order. */
  function Active(ps: seq<UserProfile>): (r: seq<UserProfile>)
    ensures forall i :: 0 <= i < |r| ==> r[i].weeklyEngagement > 0 && r[i] in ps
    ensures forall p :: p in ps && p.weeklyEngagement > 0 ==> p in r
  {
    if ps == [] then []
    else (if ps[0].weeklyEngagement > 0 then [ps[0]] else []) + Active(ps[1..])
  }

  /** Suggestions pairing `a` with each later user it shares a community with. */
  function PairsWith(a: UserProfile, rest: seq<UserProfile>): (r: seq<Suggestion>)
    ensures forall i :: 0 <= i < |r| ==> r[i].score >= 1
  {
    if rest == [] then []
    else (if Pairable(a, rest[0]) then [Suggest(a, rest[0])] else []) + PairsWith(a, rest[1..])
  }

  /** Suggestions for every pair `i < j` of the list, in `(i, j)` order. */
  function SuggestionsAmong(act: seq<UserProfile>): (r: seq<Suggestion>)
    ensures forall i :: 0 <= i < |r| ==> r[i].score >= 1
  {
    if act == [] then [] else PairsWith(act[0], act[1..]) + SuggestionsAmong(act[1..])
  }

  /** `_generate_collab_suggestions`. */
  function CollabSuggestions(l: Ledger): (r: seq<Suggestion>)
    ensures forall i :: 0 <= i < |r| ==> r[i].score >= 1
  {
    SuggestionsAmong(Active(l.users.Values()))
  }

  /** The suggestions pairing `a` with `rest` are exactly those for the pairable members. */
  lemma PairsWithExact(a: UserProfile, rest: seq<UserProfile>)
    ensures forall j :: 0 <= j < |rest| && Pairable(a, rest[j]) ==> Suggest(a, rest[j]) in PairsWith(a, rest)
    ensures forall s :: s in PairsWith(a, rest) ==> exists j :: 0 <= j < |rest| && Pairable(a, rest[j]) && s == Suggest(a, rest[j])
  {
    PairsWithComplete(a, rest);
    PairsWithSound(a, rest);
  }

  lemma {:induction false} PairsWithComplete(a: UserProfile, rest: seq<UserProfile>)
    ensures forall j :: 0 <= j < |rest| && Pairable(a, rest[j]) ==> Suggest(a, rest[j]) in PairsWith(a, rest)
  {
    if rest != [] {
      PairsWithComplete(a, rest[1..]);
      forall j | 0 <= j < |rest| && Pairable(a, rest[j])
        ensures Suggest(a, rest[j]) in PairsWith(a, rest)
      {
        if j > 0 {
          assert rest[j] == rest[1..][j - 1];
        }
      }
    }
  }

  lemma {:induction false} PairsWithSound(a: UserProfile, rest: seq<UserProfile>)
    ensures forall s :: s in PairsWith(a, rest) ==> exists j :: 0 <= j < |rest| && Pairable(a, rest[j]) && s == Suggest(a, rest[j])
  {
    if rest != [] {
      PairsWithSound(a, rest[1..]);
      forall s | s in PairsWith(a, rest)
        ensures exists j :: 0 <= j < |rest| && Pairable(a, rest[j]) && s == Suggest(a, rest[j])
      {
        if s !in PairsWith(a, rest[1..]) {
          assert Pairable(a, rest[0]) && s == Suggest(a, rest[0]);
        } else {
          var j :| 0 <= j < |rest[1..]| && Pairable(a, rest[1..][j]) && s == Suggest(a, rest[1..][j]);
          assert rest[j + 1] == rest[1..][j];
        }
      }
    }
  }

  /** Every pair of positions `i < j` holding distinct users who share a community gets a
      suggestion. */
  lemma {:induction false} SuggestionsComplete(act: seq<UserProfile>)
    ensures forall i, j :: 0 <= i < j < |act| && Pairable(act[i], act[j]) ==> Suggest(act[i], act[j]) in SuggestionsAmong(act)
  {
    if act != [] {
      PairsWithExact(act[0], act[1..]);
      SuggestionsComplete(act[1..]);
      forall i, j | 0 <= i < j < |act| && Pairable(act[i], act[j])
        ensures Suggest(act[i], act[j]) in SuggestionsAmong(act)
      {
        PairInSuggestions(act, i, j);
      }
    }
  }

  lemma PairInSuggestions(act: seq<UserProfile>, i: nat, j: nat)
    requires 0 <= i < j < |act| && Pairable(act[i], act[j])
    requires forall j :: 0 <= j < |act[1..]| && Pairable(act[0], act[1..][j]) ==> Suggest(act[0], act[1..][j]) in PairsWith(act[0], act[1..])
    requires forall i, j :: 0 <= i < j < |act[1..]| && Pairable(act[1..][i], act[1..][j]) ==> Suggest(act[1..][i], act[1..][j]) in SuggestionsAmong(act[1..])
    ensures Suggest(act[i], act[j]) in SuggestionsAmong(act)
  {
    assert act[j] == act[1..][j - 1];
    if i == 0 {
      assert Suggest(act[i], act[j]) in PairsWith(act[0], act[1..]);
    } else {
      assert act[i] == act[1..][i - 1];
      assert Suggest(act[i], act[j]) in SuggestionsAmong(act[1..]);
    }
  }

  /** Every suggestion comes from a pair of positions `i < j` holding distinct users who share
      a community. */
  lemma {:induction false} SuggestionsSound(act: seq<UserProfile>)
    ensures forall s :: s in SuggestionsAmong(act) ==>
              exists i, j :: 0 <= i < j < |act| && Pairable(act[i], act[j]) && s == Suggest(act[i], act[j])
  {
    if act != [] {
      var head, tail := PairsWith(act[0], act[1..]), SuggestionsAmong(act[1..]);
      PairsWithExact(act[0], act[1..]);
      SuggestionsSound(act[1..]);
      forall s | s in SuggestionsAmong(act)
        ensures exists i, j :: 0 <= i < j < |act| && Pairable(act[i], act[j]) && s == Suggest(act[i], act[j])
      {
        if s in head {
          var j :| 0 <= j < |act[1..]| && Pairable(act[0], act[1..][j]) && s == Suggest(act[0], act[1..][j]);
          assert act[j + 1] == act[1..][j];
          assert Pairable(act[0], act[j + 1]) && s == Suggest(act[0], act[j + 1]);
        } else {
          assert s in tail;
          var i, j :| 0 <= i < j < |act[1..]| && Pairable(act[1..][i], act[1..][j]) && s == Suggest(act[1..][i], act[1..][j]);
          assert act[i + 1] == act[1..][i] && act[j + 1] == act[1..][j];
          assert Pairable(act[i + 1], act[j + 1]) && s == Suggest(act[i + 1], act[j + 1]);
        }
      }
    }
  }

  // ---------------------------------------------------------------------------------------
  // Engagement metrics
  // ---------------------------------------------------------------------------------------

  datatype EngagementMetrics = EngagementMetrics(
    totalUsers: nat,
    totalCommunities: nat,
    totalCollaborations: nat,
    totalTemplates: nat,
    averageXp: real,
    timestamp: string)

  function XpTotal(ps: seq<UserProfile>): nat
  {
    if ps == [] then 0 else ps[0].xp + XpTotal(ps[1..])
  }

  /** The metrics `_log_engagement_metrics` computes (the line it appends to a file is not
      modelled). */
  function Metrics(l: Ledger, timestamp: string): (m: EngagementMetrics)
    ensures m.totalUsers == |l.users.entries| && m.totalCommunities == |l.communities.entries|
    ensures m.totalCollaborations == |l.collaborations| && m.totalTemplates == |l.templates.entries|
    ensures m.averageXp >= 0.0
  {
    var users := |l.users.entries|;
    var avg := Ratio(XpTotal(l.users.Values()), users);
    EngagementMetrics(users, |l.communities.entries|, |l.collaborations|, |l.templates.entries|, avg, timestamp)
  }

  /** The average XP times the number of profiles (at least one) is the total XP. */
  lemma MetricsAverage(l: Ledger, timestamp: string)
    ensures Metrics(l, timestamp).averageXp * (Max(|l.users.entries|, 1) as real)
            == XpTotal(l.users.Values()) as real
  {
  }

  lemma {:induction false} XpTotalBound(ps: seq<UserProfile>, b: nat)
    requires forall i :: 0 <= i < |ps| ==> ps[i].xp <= b
    ensures XpTotal(ps) <= |ps| * b
  {
    if ps != [] {
      XpTotalBound(ps[1..], b);
    }
  }

  /** The average XP never exceeds a bound every profile respects. */
  lemma AverageXpBounded(l: Ledger, timestamp: string, b: nat)
    requires l.users.Valid()
    requires forall i :: 0 <= i < |l.users.Values()| ==> l.users.Values()[i].xp <= b
    ensures Metrics(l, timestamp).averageXp <= b as real
  {
    TotalXpBound(l, b);
    RatioBounded(XpTotal(l.users.Values()), |l.users.entries|, b);
  }

  lemma TotalXpBound(l: Ledger, b: nat)
    requires l.users.Valid()
    requires forall i :: 0 <= i < |l.users.Values()| ==> l.users.Values()[i].xp <= b
    ensures XpTotal(l.users.Values()) <= |l.users.entries| * b
    ensures |l.users.entries| == 0 ==> XpTotal(l.users.Values()) == 0
  {
    XpTotalBound(l.users.Values(), b);
    TableSize(l.users);
  }

  // ---------------------------------------------------------------------------------------
  // XP only grows
  // ---------------------------------------------------------------------------------------

  /** The ledger operations a caller can invoke. */
  datatype Op =
    | Join(userId: string, communityId: string)
    | CreateProfile(userId: string, username: string)
    | Award(userId: string, badge: BadgeType)
    | Collaborate(collabId: string, user1: string, user2: string, platform: string, contentType: string)
    | Generate(templateId: string, custom: map<string, Value>)
    | RefreshLeaderboard(platform: string)

  function Apply(l: Ledger, op: Op): Ledger
  {
    match op
    case Join(u, c) => JoinCommunity(l, u, c).ledger
    case CreateProfile(u, name) => CreateUserProfile(l, u, name).ledger
    case Award(u, b) => AwardBadge(l, u, b).ledger
    case Collaborate(id, u1, u2, p, t) => CreateCollaboration(l, id, u1, u2, p, t).ledger
    case Generate(t, custom) => GenerateContent(l, t, custom).ledger
    case RefreshLeaderboard(p) => UpdateLeaderboard(l, p).ledger
  }

  /** Every profile of `before` is still there with at least its XP. */
  ghost predicate XpNotLower(before: Table<UserProfile>, after: Table<UserProfile>)
  {
    forall u :: u in before.entries ==> u in after.entries && after.entries[u].xp >= before.entries[u].xp
  }

  /** The operation does not recreate an existing profile. */
  predicate KeepsProfiles(l: Ledger, op: Op)
  {
    !(op.CreateProfile? && op.userId in l.users.entries)
  }

  /** A sequence of operations none of which recreates an existing profile. */
  predicate KeepsProfilesAll(l: Ledger, ops: seq<Op>)
    decreases |ops|
  {
    ops == [] || (KeepsProfiles(l, ops[0]) && KeepsProfilesAll(Apply(l, ops[0]), ops[1..]))
  }

  function ApplyAll(l: Ledger, ops: seq<Op>): Ledger
    decreases |ops|
  {
    if ops == [] then l else ApplyAll(Apply(l, ops[0]), ops[1..])
  }

  /** One operation keeps the ledger well formed, and unless it recreates a profile it
      lowers nobody's XP; only joins and awards touch profiles that already exist. */
  lemma ApplyPreserves(l: Ledger, op: Op)
    ensures l.Valid() ==> Apply(l, op).Valid()
    ensures KeepsProfiles(l, op) ==> XpNotLower(l.users, Apply(l, op).users)
    ensures !op.Join? && !op.Award? && !op.CreateProfile? ==> Apply(l, op).users == l.users
  {
    match op
    case Join(u, c) =>
      var r := JoinCommunity(l, u, c);
      if r.value {
        assert JoinedEffect(l, r.ledger, u, c);
      }
    case CreateProfile(u, name) =>
    case Award(u, b) =>
    case Collaborate(id, u1, u2, p, t) =>
    case Generate(t, custom) =>
    case RefreshLeaderboard(p) =>
  }

  /** Over any run of operations that recreates no profile, every user's XP only grows and
      the ledger stays well formed. */
  lemma {:induction false} XpNeverDrops(l: Ledger, ops: seq<Op>)
    requires KeepsProfilesAll(l, ops)
    ensures XpNotLower(l.users, ApplyAll(l, ops).users)
    ensures l.Valid() ==> ApplyAll(l, ops).Valid()
    decreases |ops|
  {
    if ops != [] {
      var l1 := Apply(l, ops[0]);
      ApplyPreserves(l, ops[0]);
      XpNeverDrops(l1, ops[1..]);
    }
  }
}

=== FILE: scheduler.dfy ===
/** The background jobs of the growth-engine scheduler
    (src/growth_engine/growth_engine_scheduler.py; growth_engine_scheduler.py at the top level
    is the same file). Each handler is a transition of the ledger, the in-memory metrics
    history and the per-(type, day) metric files. The `schedule` library loop that would fire
    the handlers is not part of this model: handlers are called directly, as the manual
    dispatch does. */
module GrowthScheduler {
  import opened Common
  import opened Sorting
  import opened GrowthEngine

  /** `datetime.now()` as the handlers see it: seconds, its ISO form and its `%Y%m%d` day. */
  datatype Clock = Clock(seconds: int, iso: string, day: string)

  datatype AwardGiven = AwardGiven(userId: string, badge: BadgeType, reason: string)

  datatype CommunityRow = CommunityRow(
    communityId: string,
    communityName: string,
    totalMembers: nat,
    activeMembers: nat,
    engagementRate: real,
    growthScore: real)

  /** The payload each handler hands to `_save_metrics`. */
  datatype Record =
    | LeaderboardRecord(timestamp: string, leaderboard: seq<LeaderboardEntry>)
    | SuggestionsRecord(timestamp: string, suggestions: seq<Suggestion>, totalGenerated: nat)
    | ContentRecord(timestamp: string, scheduled: seq<Generated>, templatesUsed: seq<string>)
    | AnalysisRecord(timestamp: string, rows: seq<CommunityRow>, top: Option<CommunityRow>)
    | AwardsRecord(timestamp: string, awards: seq<AwardGiven>, totalAwards: nat)

  /** `json.dump` can write the record: only generated content can carry a `datetime`. */
  predicate RecordSerializable(rec: Record)
  {
    rec.ContentRecord? ==> forall i :: 0 <= i < |rec.scheduled| ==> SerializableData(rec.scheduled[i].content)
  }

  /** A metrics file: a JSON list of records, or the truncated remains of a failed dump,
      which no later load can parse. */
  datatype LogFile = Records(records: seq<Record>) | Corrupt

  /** `(metric_type, YYYYMMDD)`, the file name `_save_metrics` writes. */
  type MetricsKey = (string, string)

  datatype SchedulerState = SchedulerState(
    ledger: Ledger,
    history: seq<EngagementMetrics>,
    files: map<MetricsKey, LogFile>)

  // ---------------------------------------------------------------------------------------
  // _save_metrics
  // ---------------------------------------------------------------------------------------

  /** The records already saved under `key`; a missing file reads as an empty list. */
  function Earlier(files: map<MetricsKey, LogFile>, key: MetricsKey): seq<Record>
  {
    if key in files && files[key].Records? then files[key].records else []
  }

  /** `_save_metrics`: load the list, append the record, write it back. A corrupt file makes
      the load raise before anything is written; a record `json.dump` refuses raises after
      the file was opened for writing, which leaves it truncated. */
  function SaveMetrics(files: map<MetricsKey, LogFile>, key: MetricsKey, rec: Record): (r: map<MetricsKey, LogFile>)
    ensures key in files && files[key].Corrupt? ==> r == files
    ensures !(key in files && files[key].Corrupt?) && RecordSerializable(rec) ==>
              key in r && r[key] == Records(Earlier(files, key) + [rec])
    ensures !(key in files && files[key].Corrupt?) && !RecordSerializable(rec) ==>
              key in r && r[key].Corrupt?
    ensures forall k :: k != key ==> (k in r <==> k in files) && (k in files ==> r[k] == files[k])
  {
    if key in files && files[key].Corrupt? then files
    else if RecordSerializable(rec) then files[key := Records(Earlier(files, key) + [rec])]
    else files[key := Corrupt]
  }

  /** A successful save keeps every earlier record of the file in place, followed by the new one. */
  lemma SaveMetricsAppends(files: map<MetricsKey, LogFile>, key: MetricsKey, rec: Record)
    requires !(key in files && files[key].Corrupt?) && RecordSerializable(rec)
    ensures var r := SaveMetrics(files, key, rec)[key].records;
            |r| == |Earlier(files, key)| + 1 && r[|r| - 1] == rec && r[..|r| - 1] == Earlier(files, key)
  {
  }

  // ---------------------------------------------------------------------------------------
  // Weekly leaderboard
  // ---------------------------------------------------------------------------------------

  /** Every profile's `weekly_engagement` set to 0. */
  function ResetWeekly(t: Table<UserProfile>): (r: Table<UserProfile>)
    ensures r.order == t.order && r.entries.Keys == t.entries.Keys
    ensures forall k :: k in t.entries ==> r.entries[k] == t.entries[k].(weeklyEngagement := 0)
    ensures t.Valid() ==> r.Valid()
  {
    Table(t.order, map k | k in t.entries :: t.entries[k].(weeklyEngagement := 0))
  }

  /** `_async_weekly_leaderboard_job`: refresh the "all" board, give WEEKLY_TOP to its first
      user, reset everybody's weekly engagement, save the board. */
  function LeaderboardJob(st: SchedulerState, clock: Clock): (r: SchedulerState)
    ensures var board := UpdateLeaderboard(st.ledger, "all").value;
            && r.ledger.leaderboards == st.ledger.leaderboards["all" := board]
            && r.files == SaveMetrics(st.files, ("leaderboard", clock.day), LeaderboardRecord(clock.iso, board))
    ensures r.ledger.users.order == st.ledger.users.order
    ensures r.ledger.users.entries.Keys == st.ledger.users.entries.Keys
    ensures forall k :: k in r.ledger.users.entries ==> r.ledger.users.entries[k].weeklyEngagement == 0
    ensures r.history == st.history
    ensures r.ledger.communities == st.ledger.communities && r.ledger.templates == st.ledger.templates
    ensures r.ledger.collaborations == st.ledger.collaborations
  {
    var up := UpdateLeaderboard(st.ledger, "all");
    var board := up.value;
    var awarded := if board != [] then AwardBadge(up.ledger, board[0].userId, WeeklyTop).ledger else up.ledger;
    var l := awarded.(users := ResetWeekly(awarded.users));
    SchedulerState(l, st.history, SaveMetrics(st.files, ("leaderboard", clock.day), LeaderboardRecord(clock.iso, board)))
  }

  /** Every profile but the board's first is only reset; the first also gets WEEKLY_TOP
      unless it already holds it. */
  lemma LeaderboardJobUsers(st: SchedulerState, clock: Clock)
    ensures var r := LeaderboardJob(st, clock);
            var board := UpdateLeaderboard(st.ledger, "all").value;
            forall k :: k in st.ledger.users.entries && (board == [] || k != board[0].userId) ==>
              r.ledger.users.entries[k] == st.ledger.users.entries[k].(weeklyEngagement := 0)
    ensures var r := LeaderboardJob(st, clock);
            var board := UpdateLeaderboard(st.ledger, "all").value;
            board != [] && board[0].userId in st.ledger.users.entries ==>
              var p := st.ledger.users.entries[board[0].userId];
              r.ledger.users.entries[board[0].userId] ==
                (if WeeklyTop in p.badges then p else Awarded(p, WeeklyTop)).(weeklyEngagement := 0)
  {
    var up := UpdateLeaderboard(st.ledger, "all");
    assert up.ledger.users == st.ledger.users;
    var board := up.value;
    var awarded := if board != [] then AwardBadge(up.ledger, board[0].userId, WeeklyTop).ledger else up.ledger;
    assert LeaderboardJob(st, clock).ledger.users == ResetWeekly(awarded.users);
  }

  /** The job lowers nobody's XP and keeps the ledger well formed. */
  lemma LeaderboardJobKeeps(st: SchedulerState, clock: Clock)
    ensures XpNotLower(st.ledger.users, LeaderboardJob(st, clock).ledger.users)
    ensures st.ledger.Valid() ==> LeaderboardJob(st, clock).ledger.Valid()
  {
    LeaderboardJobKeepsXp(st, clock);
    if st.ledger.Valid() {
      LeaderboardJobKeepsValid(st, clock);
    }
  }

  lemma LeaderboardJobKeepsXp(st: SchedulerState, clock: Clock)
    ensures XpNotLower(st.ledger.users, LeaderboardJob(st, clock).ledger.users)
  {
    var up := UpdateLeaderboard(st.ledger, "all");
    assert up.ledger.users == st.ledger.users;
    var board := up.value;
    var awarded := if board != [] then AwardBadge(up.ledger, board[0].userId, WeeklyTop).ledger else up.ledger;
    assert XpNotLower(st.ledger.users, awarded.users);
    var r := LeaderboardJob(st, clock);
    assert r.ledger.users == ResetWeekly(awarded.users);
  }

  lemma LeaderboardJobKeepsValid(st: SchedulerState, clock: Clock)
    requires st.ledger.Valid()
    ensures LeaderboardJob(st, clock).ledger.Valid()
  {
    var up := UpdateLeaderboard(st.ledger, "all");
    var board := up.value;
    var awarded := if board != [] then AwardBadge(up.ledger, board[0].userId, WeeklyTop).ledger else up.ledger;
    assert awarded.Valid();
    var r := LeaderboardJob(st, clock);
    assert r.ledger == awarded.(users := ResetWeekly(awarded.users));
  }

  /** On a well-formed ledger the user heading a non-empty board ends the job holding WEEKLY_TOP. */
  lemma LeaderboardJobAwardsTop(st: SchedulerState, clock: Clock)
    requires st.ledger.Valid()
    ensures var board := UpdateLeaderboard(st.ledger, "all").value;
            var r := LeaderboardJob(st, clock);
            board != [] ==> board[0].userId in r.ledger.users.entries && WeeklyTop in r.ledger.users.entries[board[0].userId].badges
  {
    LeaderboardEntriesKnown(st.ledger, "all");
  }

  // ---------------------------------------------------------------------------------------
  // Daily collaboration suggestions
  // ---------------------------------------------------------------------------------------

  /** The suggestions scoring at least 2, in order. */
  function Strong(ss: seq<Suggestion>): (r: seq<Suggestion>)
    ensures forall i :: 0 <= i < |r| ==> r[i].score >= 2 && r[i] in ss
    ensures forall s :: s in ss && s.score >= 2 ==> s in r
  {
    if ss == [] then []
    else (if ss[0].score >= 2 then [ss[0]] else []) + Strong(ss[1..])
  }

  function SuggestionKey(s: Suggestion): real
  {
    s.score as real
  }

  /** The ranking the suggestion job saves: strong suggestions, best first, at most ten. */
  function RankSuggestions(ss: seq<Suggestion>): (r: seq<Suggestion>)
    ensures |r| == Min(10, |Strong(ss)|)
    ensures SortedDesc(r, SuggestionKey)
    ensures multiset(r) <= multiset(Strong(ss))
    ensures forall s :: s in r ==> s in ss && s.score >= 2
  {
    var ranked := SortDesc(Strong(ss), SuggestionKey);
    var top := SliceTo(ranked, 10);
    SortedPrefix(ranked, |top|, SuggestionKey);
    assert top == ranked[..|top|];
    assert ranked == top + ranked[|top|..];
    assert multiset(ranked) == multiset(top) + multiset(ranked[|top|..]);
    assert forall s :: s in top ==> s in multiset(ranked);
    top
  }

  /** Among equally scored suggestions the ranking keeps the earliest, in their order. */
  lemma RankSuggestionsTies(ss: seq<Suggestion>)
    ensures forall k :: WithKey(RankSuggestions(ss), SuggestionKey, k) <= WithKey(Strong(ss), SuggestionKey, k)
  {
    var ranked := SortDesc(Strong(ss), SuggestionKey);
    var top := RankSuggestions(ss);
    assert top == ranked[..|top|];
    forall k
      ensures WithKey(top, SuggestionKey, k) <= WithKey(Strong(ss), SuggestionKey, k)
    {
      WithKeyPrefix(top, ranked, SuggestionKey, k);
    }
  }

  /** A strong suggestion that did not make the ranking scores no higher than any that did. */
  lemma RankSuggestionsBeatsRest(ss: seq<Suggestion>)
    ensures var top := RankSuggestions(ss);
            forall s :: s in ss && s.score >= 2 && s !in top ==>
              forall i :: 0 <= i < |top| ==> top[i].score >= s.score
  {
    var ranked := SortDesc(Strong(ss), SuggestionKey);
    var top := RankSuggestions(ss);
    assert top == ranked[..|top|];
    forall s | s in ss && s.score >= 2 && s !in top
      ensures forall i :: 0 <= i < |top| ==> top[i].score >= s.score
    {
      assert s in multiset(ranked);
      BelowPrefix(ranked, |top|, SuggestionKey, s);
    }
  }

  /** `_async_daily_collab_suggestions_job`: the ledger is only read. */
  function CollabJob(st: SchedulerState, clock: Clock): (r: SchedulerState)
    ensures var all := CollabSuggestions(st.ledger);
            r.files == SaveMetrics(st.files, ("collab_suggestions", clock.day),
                                   SuggestionsRecord(clock.iso, RankSuggestions(all), |all|))
    ensures r.ledger == st.ledger && r.history == st.history
  {
    var all := CollabSuggestions(st.ledger);
    st.(files := SaveMetrics(st.files, ("collab_suggestions", clock.day), SuggestionsRecord(clock.iso, RankSuggestions(all), |all|)))
  }

  // ---------------------------------------------------------------------------------------
  // Hourly metrics
  // ---------------------------------------------------------------------------------------

  /** The history after appending `m` and keeping the newest 24 snapshots. */
  function Window(h: seq<EngagementMetrics>, m: EngagementMetrics): (r: seq<EngagementMetrics>)
    ensures |r| == Min(|h| + 1, 24)
    ensures r[|r| - 1] == m
    ensures forall i :: 0 <= i < |r| ==> r[i] == (h + [m])[|h| + 1 - |r| + i]
  {
    var all := h + [m];
    if |all| > 24 then all[|all| - 24..] else all
  }

  /** `_async_hourly_metrics_job`. */
  function MetricsJob(st: SchedulerState, clock: Clock): (r: SchedulerState)
    ensures r.history == Window(st.history, Metrics(st.ledger, clock.iso))
    ensures |r.history| <= 24 && r.history[|r.history| - 1] == Metrics(st.ledger, clock.iso)
    ensures r.ledger == st.ledger && r.files == st.files
  {
    st.(history := Window(st.history, Metrics(st.ledger, clock.iso)))
  }

  // ---------------------------------------------------------------------------------------
  // Daily content scheduling
  // ---------------------------------------------------------------------------------------

  function UsageKey(t: ContentTemplate): real
  {
    t.usageCount as real
  }

  /** The five most used templates, ties in insertion order. */
  function Popular(l: Ledger): (r: seq<ContentTemplate>)
    ensures |r| == Min(5, |l.templates.Values()|)
    ensures SortedDesc(r, UsageKey)
    ensures multiset(r) <= multiset(l.templates.Values())
    ensures forall t :: t in r ==> t in l.templates.Values()
  {
    var ranked := SortDesc(l.templates.Values(), UsageKey);
    var top := SliceTo(ranked, 5);
    SortedPrefix(ranked, |top|, UsageKey);
    assert top == ranked[..|top|];
    assert ranked == top + ranked[|top|..];
    assert multiset(ranked) == multiset(top) + multiset(ranked[|top|..]);
    assert forall t :: t in top ==> t in multiset(ranked);
    top
  }

  /** A template left out of the popular five is used no more than any that made it. */
  lemma PopularBeatsRest(l: Ledger)
    ensures var top := Popular(l);
            forall t :: t in l.templates.Values() && t !in top ==>
              forall i :: 0 <= i < |top| ==> top[i].usageCount >= t.usageCount
  {
    var ranked := SortDesc(l.templates.Values(), UsageKey);
    var top := Popular(l);
    assert top == ranked[..|top|];
    forall t | t in l.templates.Values() && t !in top
      ensures forall i :: 0 <= i < |top| ==> top[i].usageCount >= t.usageCount
    {
      assert t in multiset(ranked);
      BelowPrefix(ranked, |top|, UsageKey, t);
    }
  }

  /** Among equally used templates the popular five keep the earliest inserted, in order. */
  lemma PopularTies(l: Ledger)
    ensures forall k :: WithKey(Popular(l), UsageKey, k) <= WithKey(l.templates.Values(), UsageKey, k)
  {
    var ranked := SortDesc(l.templates.Values(), UsageKey);
    var top := Popular(l);
    assert top == ranked[..|top|];
    forall k
      ensures WithKey(top, UsageKey, k) <= WithKey(l.templates.Values(), UsageKey, k)
    {
      WithKeyPrefix(top, ranked, UsageKey, k);
    }
  }

  function Ids(ts: seq<ContentTemplate>): (r: seq<string>)
    ensures |r| == |ts| && forall i :: 0 <= i < |ts| ==> r[i] == ts[i].id
  {
    if ts == [] then [] else [ts[0].id] + Ids(ts[1..])
  }

  function Names(ts: seq<ContentTemplate>): (r: seq<string>)
    ensures |r| == |ts| && forall i :: 0 <= i < |ts| ==> r[i] == ts[i].name
  {
    if ts == [] then [] else [ts[0].name] + Names(ts[1..])
  }

  /** The custom data the job passes: a `datetime` two hours ahead, the platform list and the
      auto-schedule flag. */
  function SchedulingData(clock: Clock): map<string, Value>
  {
    map["scheduled_time" := Time(clock.seconds + 7200),
        "platforms" := List([Str("instagram"), Str("twitter"), Str("linkedin")]),
        "auto_schedule" := Bool(true)]
  }

  function Occurrences(ids: seq<string>, k: string): nat
  {
    if ids == [] then 0 else (if ids[0] == k then 1 else 0) + Occurrences(ids[1..], k)
  }

  datatype Batch = Batch(ledger: Ledger, scheduled: seq<Generated>)

  /** Content generated for each id in turn; an unknown id contributes nothing. */
  function GenerateAll(l: Ledger, ids: seq<string>, custom: map<string, Value>): (r: Batch)
    ensures r.ledger == l.(templates := r.ledger.templates)
    ensures r.ledger.templates.order == l.templates.order
    ensures r.ledger.templates.entries.Keys == l.templates.entries.Keys
    ensures forall k :: k in l.templates.entries ==>
              r.ledger.templates.entries[k] == l.templates.entries[k].(usageCount := l.templates.entries[k].usageCount + Occurrences(ids, k))
    ensures l.Valid() ==> r.ledger.Valid()
    decreases |ids|
  {
    if ids == [] then Batch(l, [])
    else
      var g := GenerateContent(l, ids[0], custom);
      var rest := GenerateAll(g.ledger, ids[1..], custom);
      Batch(rest.ledger, (if g.value.Some? then [g.value.value] else []) + rest.scheduled)
  }

  /** Every known id yields one piece of content, and every piece carries the custom values. */
  lemma GenerateAllContent(l: Ledger, ids: seq<string>, custom: map<string, Value>)
    ensures (forall i :: 0 <= i < |ids| ==> ids[i] in l.templates.entries) ==> |GenerateAll(l, ids, custom).scheduled| == |ids|
    ensures var s := GenerateAll(l, ids, custom).scheduled;
            forall i, k :: 0 <= i < |s| && k in custom ==> k in s[i].content && s[i].content[k] == custom[k]
  {
    if forall i :: 0 <= i < |ids| ==> ids[i] in l.templates.entries {
      GenerateAllCount(l, ids, custom);
    }
    GenerateAllCustom(l, ids, custom);
  }

  lemma {:induction false} GenerateAllCount(l: Ledger, ids: seq<string>, custom: map<string, Value>)
    requires forall i :: 0 <= i < |ids| ==> ids[i] in l.templates.entries
    ensures |GenerateAll(l, ids, custom).scheduled| == |ids|
    decreases |ids|
  {
    if ids != [] {
      var g := GenerateContent(l, ids[0], custom);
      assert forall i :: 0 <= i < |ids[1..]| ==> ids[1..][i] == ids[i + 1];
      GenerateAllCount(g.ledger, ids[1..], custom);
    }
  }

  /** Every piece of content holds the custom values. */
  ghost predicate CarriesCustom(s: seq<Generated>, custom: map<string, Value>)
  {
    forall i, k :: 0 <= i < |s| && k in custom ==> k in s[i].content && s[i].content[k] == custom[k]
  }

  lemma CarriesCustomAppend(a: seq<Generated>, b: seq<Generated>, custom: map<string, Value>)
    requires CarriesCustom(a, custom) && CarriesCustom(b, custom)
    ensures CarriesCustom(a + b, custom)
  {
    var s := a + b;
    forall i, k | 0 <= i < |s| && k in custom
      ensures k in s[i].content && s[i].content[k] == custom[k]
    {
      if i < |a| {
        assert s[i] == a[i];
      } else {
        assert s[i] == b[i - |a|];
      }
    }
  }

  /** One step of `GenerateAll`: the content of the first id, then that of the rest. */
  lemma GenerateAllStep(l: Ledger, ids: seq<string>, custom: map<string, Value>)
    requires ids != []
    ensures var g := GenerateContent(l, ids[0], custom);
            GenerateAll(l, ids, custom).scheduled
            == (if g.value.Some? then [g.value.value] else []) + GenerateAll(g.ledger, ids[1..], custom).scheduled
  {
  }

  /** A generated piece holds the custom values. */
  lemma GeneratedCarries(l: Ledger, id: string, custom: map<string, Value>)
    ensures var g := GenerateContent(l, id, custom);
            CarriesCustom(if g.value.Some? then [g.value.value] else [], custom)
  {
    var g := GenerateContent(l, id, custom);
    if g.value.Some? {
      var made := g.value.value;
      assert GeneratedFrom(made, l.templates.entries[id], custom);
      forall i, k | 0 <= i < 1 && k in custom
        ensures k in [made][i].content && [made][i].content[k] == custom[k]
      {
        assert k in made.content.Keys;
      }
    }
  }

  lemma {:induction false} GenerateAllCustom(l: Ledger, ids: seq<string>, custom: map<string, Value>)
    ensures CarriesCustom(GenerateAll(l, ids, custom).scheduled, custom)
    decreases |ids|
  {
    if ids != [] {
      var g := GenerateContent(l, ids[0], custom);
      GenerateAllCustom(g.ledger, ids[1..], custom);
      GenerateAllStep(l, ids, custom);
      GeneratedCarries(l, ids[0], custom);
      CarriesCustomAppend(if g.value.Some? then [g.value.value] else [],
                          GenerateAll(g.ledger, ids[1..], custom).scheduled, custom);
    }
  }

  /** `_async_daily_content_scheduling_job`: generate content from the five most used
      templates, then save it. The content carries a `datetime`, so whenever anything was
      generated the dump raises; the use counts stay raised and the file is left corrupt. */
  function ContentJob(st: SchedulerState, clock: Clock): (r: SchedulerState)
    ensures var popular := Popular(st.ledger);
            var batch := GenerateAll(st.ledger, Ids(popular), SchedulingData(clock));
            && r.ledger == batch.ledger
            && r.files == SaveMetrics(st.files, ("content_scheduling", clock.day),
                                      ContentRecord(clock.iso, batch.scheduled, Names(popular)))
    ensures r.history == st.history
  {
    var popular := Popular(st.ledger);
    var batch := GenerateAll(st.ledger, Ids(popular), SchedulingData(clock));
    SchedulerState(batch.ledger, st.history,
      SaveMetrics(st.files, ("content_scheduling", clock.day), ContentRecord(clock.iso, batch.scheduled, Names(popular))))
  }

  /** On a well-formed ledger every popular template is filed under its id, and there is at
      least one when there are templates. */
  lemma PopularKnown(l: Ledger)
    requires l.Valid()
    ensures forall i :: 0 <= i < |Ids(Popular(l))| ==> Ids(Popular(l))[i] in l.templates.entries
    ensures l.templates.order != [] ==> Popular(l) != []
  {
    var popular := Popular(l);
    forall i | 0 <= i < |popular|
      ensures popular[i].id in l.templates.entries
    {
      assert popular[i] in l.templates.Values();
      var j :| 0 <= j < |l.templates.order| && l.templates.Values()[j] == popular[i];
      assert l.templates.order[j] in l.templates.entries;
    }
  }

  /** Content carrying the scheduling data holds a `datetime`, which `json.dump` refuses. */
  lemma ScheduledUnserializable(scheduled: seq<Generated>, clock: Clock, names: seq<string>)
    requires |scheduled| > 0
    requires forall k :: k in SchedulingData(clock) ==> k in scheduled[0].content && scheduled[0].content[k] == SchedulingData(clock)[k]
    ensures !RecordSerializable(ContentRecord(clock.iso, scheduled, names))
  {
    assert "scheduled_time" in SchedulingData(clock);
    assert !Serializable(scheduled[0].content["scheduled_time"]);
  }

  /** On a well-formed ledger with templates, every popular template is used once more and
      the day's content-scheduling file ends up corrupt: nothing of the run is saved. */
  lemma ContentJobNeverSaves(st: SchedulerState, clock: Clock)
    requires st.ledger.Valid()
    requires st.ledger.templates.order != []
    ensures var r := ContentJob(st, clock);
            ("content_scheduling", clock.day) in r.files && r.files[("content_scheduling", clock.day)].Corrupt?
  {
    var popular := Popular(st.ledger);
    var batch := GenerateAll(st.ledger, Ids(popular), SchedulingData(clock));
    PopularKnown(st.ledger);
    GenerateAllContent(st.ledger, Ids(popular), SchedulingData(clock));
    ScheduledUnserializable(batch.scheduled, clock, Names(popular));
  }

  // ---------------------------------------------------------------------------------------
  // Weekly community analysis
  // ---------------------------------------------------------------------------------------

  /** Members with a profile and positive weekly engagement. */
  function ActiveMembers(members: seq<string>, users: map<string, UserProfile>): (n: nat)
    ensures n <= |members|
  {
    if members == [] then 0
    else (if members[0] in users && users[members[0]].weeklyEngagement > 0 then 1 else 0) + ActiveMembers(members[1..], users)
  }

  /** One community's row: its engagement rate is the share of active members, and its growth
      score, `total * rate`, comes out as exactly the number of active members. */
  function Analyse(c: Community, users: map<string, UserProfile>): (r: CommunityRow)
    ensures r.communityId == c.id && r.totalMembers == |c.members|
    ensures r.activeMembers == ActiveMembers(c.members, users)
    ensures 0.0 <= r.engagementRate <= 1.0
    ensures r.growthScore == r.activeMembers as real
  {
    var total := |c.members|;
    var active := ActiveMembers(c.members, users);
    var rate := Ratio(active, total);
    GrowthIsActive(active, total);
    CommunityRow(c.id, c.name, total, active, rate, total as real * rate)
  }

  /** The engagement rate is the share of active members (of one, for an empty community). */
  lemma AnalyseRate(c: Community, users: map<string, UserProfile>)
    ensures Analyse(c, users).engagementRate * (Max(|c.members|, 1) as real)
            == ActiveMembers(c.members, users) as real
  {
  }

  lemma GrowthIsActive(active: nat, total: nat)
    requires active <= total
    ensures total as real * Ratio(active, total) == active as real
  {
    if total == 0 {
      assert Ratio(active, total) * 1.0 == 0.0;
    }
  }

  function AnalyseAll(cs: seq<Community>, users: map<string, UserProfile>): (r: seq<CommunityRow>)
    ensures |r| == |cs|
    ensures forall i :: 0 <= i < |cs| ==> r[i] == Analyse(cs[i], users)
  {
    if cs == [] then [] else [Analyse(cs[0], users)] + AnalyseAll(cs[1..], users)
  }

  function GrowthKey(row: CommunityRow): real
  {
    row.growthScore
  }

  /** The rows of `_async_weekly_community_analysis_job`, highest growth first. */
  function CommunityAnalysis(l: Ledger): (rows: seq<CommunityRow>)
    ensures SortedDesc(rows, GrowthKey)
    ensures multiset(rows) == multiset(AnalyseAll(l.communities.Values(), l.users.entries))
    ensures forall k :: WithKey(rows, GrowthKey, k) == WithKey(AnalyseAll(l.communities.Values(), l.users.entries), GrowthKey, k)
    ensures |rows| == |l.communities.Values()|
  {
    SortDesc(AnalyseAll(l.communities.Values(), l.users.entries), GrowthKey)
  }

  /** Every row has a rate in [0, 1] and a growth score equal to its active members. */
  lemma CommunityAnalysisRows(l: Ledger)
    ensures var rows := CommunityAnalysis(l);
            forall i :: 0 <= i < |rows| ==>
              0.0 <= rows[i].engagementRate <= 1.0 && rows[i].growthScore == rows[i].activeMembers as real
  {
    var all := AnalyseAll(l.communities.Values(), l.users.entries);
    var rows := CommunityAnalysis(l);
    forall i | 0 <= i < |rows|
      ensures 0.0 <= rows[i].engagementRate <= 1.0 && rows[i].growthScore == rows[i].activeMembers as real
    {
      assert rows[i] in multiset(all);
      var j :| 0 <= j < |all| && all[j] == rows[i];
    }
  }

  /** The first row, reported as the top growing community, has the most active members. */
  lemma CommunityAnalysisTop(l: Ledger)
    ensures var rows := CommunityAnalysis(l);
            forall c :: c in l.communities.Values() && rows != [] ==>
              rows[0].activeMembers >= ActiveMembers(c.members, l.users.entries)
  {
    var all := AnalyseAll(l.communities.Values(), l.users.entries);
    var rows := CommunityAnalysis(l);
    forall c | c in l.communities.Values() && rows != []
      ensures rows[0].activeMembers >= ActiveMembers(c.members, l.users.entries)
    {
      var j :| 0 <= j < |l.communities.Values()| && l.communities.Values()[j] == c;
      assert all[j] == Analyse(c, l.users.entries);
      assert all[j] in multiset(rows);
      var k :| 0 <= k < |rows| && rows[k] == all[j];
      assert rows[0] in multiset(all);
      var z :| 0 <= z < |all| && all[z] == rows[0];
      assert GrowthKey(rows[0]) >= GrowthKey(rows[k]);
    }
  }

  /** `_async_weekly_community_analysis_job`: the ledger is only read. */
  function AnalysisJob(st: SchedulerState, clock: Clock): (r: SchedulerState)
    ensures var rows := CommunityAnalysis(st.ledger);
            r.files == SaveMetrics(st.files, ("community_analysis", clock.day),
                                   AnalysisRecord(clock.iso, rows, if rows == [] then None else Some(rows[0])))
    ensures r.ledger == st.ledger && r.history == st.history
  {
    var rows := CommunityAnalysis(st.ledger);
    st.(files := SaveMetrics(st.files, ("community_analysis", clock.day),
                             AnalysisRecord(clock.iso, rows, if rows == [] then None else Some(rows[0]))))
  }

  // ---------------------------------------------------------------------------------------
  // Daily badge sweep
  // ---------------------------------------------------------------------------------------

  datatype Swept = Swept(profile: UserProfile, awards: seq<AwardGiven>)

  /** Awards `badge` when `due` holds and the profile lacks it. */
  function AwardIf(s: Swept, due: bool, badge: BadgeType, reason: string): (r: Swept)
    ensures badge in r.profile.badges <==> badge in s.profile.badges || due
    ensures forall b :: b != badge ==> (b in r.profile.badges <==> b in s.profile.badges)
  {
    if due && badge !in s.profile.badges then
      Swept(Awarded(s.profile, badge), s.awards + [AwardGiven(s.profile.userId, badge, reason)])
    else s
  }

  /** Whether the sweep owes `p` the badge `b`: the badge's condition holds and `p` lacks it. */
  predicate SweepDue(p: UserProfile, b: BadgeType)
  {
    b !in p.badges && Deserves(p, b)
  }

  /** The condition under which the sweep awards `b`; it never awards the other badges. */
  predicate Deserves(p: UserProfile, b: BadgeType)
  {
    match b
    case FirstComment => p.weeklyEngagement > 0
    case ContentCreator => p.totalPosts >= 5
    case CollabMaster => p.collaborationCount >= 3
    case _ => false
  }

  /** The reason recorded with each sweep award. */
  function SweepReason(b: BadgeType): string
  {
    match b
    case FirstComment => "First engagement of the week"
    case ContentCreator => "Created 5+ content pieces"
    case CollabMaster => "Completed 3+ collaborations"
    case _ => ""
  }

  /** `[b]` when the sweep owes `p` the badge `b`, otherwise nothing. */
  function Owed(p: UserProfile, b: BadgeType): (r: seq<BadgeType>)
    ensures |r| <= 1
  {
    if SweepDue(p, b) then [b] else []
  }

  /** The badges the sweep awards `p`, in the order the handler checks them. */
  function DueBadges(p: UserProfile): seq<BadgeType>
  {
    Owed(p, FirstComment) + Owed(p, ContentCreator) + Owed(p, CollabMaster)
  }

  /** The XP that the badges of `bs` are worth together. */
  function XpSum(bs: seq<BadgeType>): nat
  {
    if bs == [] then 0 else BadgeXp(bs[0]) + XpSum(bs[1..])
  }

  lemma {:induction false} XpSumConcat(a: seq<BadgeType>, b: seq<BadgeType>)
    ensures XpSum(a + b) == XpSum(a) + XpSum(b)
  {
    if a == [] {
      assert a + b == b;
    } else {
      assert (a + b)[1..] == a[1..] + b;
      XpSumConcat(a[1..], b);
    }
  }

  /** One award record per badge of `bs`, all for `userId`. */
  function AwardRecords(userId: string, bs: seq<BadgeType>): (r: seq<AwardGiven>)
    ensures |r| == |bs|
    ensures forall i :: 0 <= i < |bs| ==> r[i] == AwardGiven(userId, bs[i], SweepReason(bs[i]))
  {
    if bs == [] then [] else [AwardGiven(userId, bs[0], SweepReason(bs[0]))] + AwardRecords(userId, bs[1..])
  }

  /** The sweep of one profile: FIRST_COMMENT for weekly engagement, CONTENT_CREATOR for five
      posts, COLLAB_MASTER for three collaborations, each only when not yet held. */
  function SweepProfile(p: UserProfile): (r: Swept)
    ensures FirstComment in r.profile.badges <==> FirstComment in p.badges || p.weeklyEngagement > 0
    ensures ContentCreator in r.profile.badges <==> ContentCreator in p.badges || p.totalPosts >= 5
    ensures CollabMaster in r.profile.badges <==> CollabMaster in p.badges || p.collaborationCount >= 3
    ensures forall b :: b !in {FirstComment, ContentCreator, CollabMaster} ==> (b in r.profile.badges <==> b in p.badges)
    ensures r.profile.xp >= p.xp && |r.awards| <= 3
    ensures r.profile.(badges := p.badges, xp := p.xp) == p
  {
    var s1 := AwardIf(Swept(p, []), p.weeklyEngagement > 0, FirstComment, "First engagement of the week");
    var s2 := AwardIf(s1, s1.profile.totalPosts >= 5, ContentCreator, "Created 5+ content pieces");
    AwardIf(s2, s2.profile.collaborationCount >= 3, CollabMaster, "Completed 3+ collaborations")
  }

  /** The sweep appends exactly the badges it owes, in FIRST_COMMENT, CONTENT_CREATOR,
      COLLAB_MASTER order, adds exactly their XP, and records one award for each. */
  lemma SweepProfileExact(p: UserProfile)
    ensures SweepProfile(p).profile.badges == p.badges + DueBadges(p)
    ensures SweepProfile(p).profile.xp == p.xp + XpSum(DueBadges(p))
    ensures SweepProfile(p).awards == AwardRecords(p.userId, DueBadges(p))
  {
    var s1 := AwardIf(Swept(p, []), p.weeklyEngagement > 0, FirstComment, "First engagement of the week");
    FirstCheck(p);
    var s2 := AwardIf(s1, s1.profile.totalPosts >= 5, ContentCreator, "Created 5+ content pieces");
    SecondCheck(p, s1);
    ThirdCheck(p, s2);
  }

  /** `s` is `p` after the awards of the badges `done`. */
  predicate SweptBy(p: UserProfile, s: Swept, done: seq<BadgeType>)
  {
    s.profile == p.(badges := p.badges + done, xp := p.xp + XpSum(done)) && s.awards == AwardRecords(p.userId, done)
  }

  lemma FirstCheck(p: UserProfile)
    ensures SweptBy(p, AwardIf(Swept(p, []), p.weeklyEngagement > 0, FirstComment, "First engagement of the week"),
                    Owed(p, FirstComment))
  {
    AwardStep(p, Swept(p, []), [], FirstComment, p.weeklyEngagement > 0);
    assert [] + Owed(p, FirstComment) == Owed(p, FirstComment);
  }

  lemma SecondCheck(p: UserProfile, s1: Swept)
    requires SweptBy(p, s1, Owed(p, FirstComment))
    ensures SweptBy(p, AwardIf(s1, s1.profile.totalPosts >= 5, ContentCreator, "Created 5+ content pieces"),
                    Owed(p, FirstComment) + Owed(p, ContentCreator))
  {
    AwardStep(p, s1, Owed(p, FirstComment), ContentCreator, s1.profile.totalPosts >= 5);
  }

  lemma ThirdCheck(p: UserProfile, s2: Swept)
    requires SweptBy(p, s2, Owed(p, FirstComment) + Owed(p, ContentCreator))
    ensures SweptBy(p, AwardIf(s2, s2.profile.collaborationCount >= 3, CollabMaster, "Completed 3+ collaborations"),
                    DueBadges(p))
  {
    AwardStep(p, s2, Owed(p, FirstComment) + Owed(p, ContentCreator), CollabMaster, s2.profile.collaborationCount >= 3);
  }

  /** One check of the sweep awards the badge exactly when it is owed. */
  lemma AwardStep(p: UserProfile, s: Swept, done: seq<BadgeType>, b: BadgeType, due: bool)
    requires SweptBy(p, s, done) && b !in done && due == Deserves(p, b)
    ensures SweptBy(p, AwardIf(s, due, b, SweepReason(b)), done + Owed(p, b))
  {
    XpSumConcat(done, Owed(p, b));
  }

  /** Sweeping a swept profile awards nothing and changes nothing. */
  lemma SweepProfileIdempotent(p: UserProfile)
    ensures SweepProfile(SweepProfile(p).profile) == Swept(SweepProfile(p).profile, [])
  {
  }

  function AwardsOf(ps: seq<UserProfile>): seq<AwardGiven>
  {
    if ps == [] then [] else SweepProfile(ps[0]).awards + AwardsOf(ps[1..])
  }

  function SweptUsers(t: Table<UserProfile>): (r: Table<UserProfile>)
    ensures r.order == t.order && r.entries.Keys == t.entries.Keys
    ensures forall k :: k in t.entries ==> r.entries[k] == SweepProfile(t.entries[k]).profile
  {
    Table(t.order, map k | k in t.entries :: SweepProfile(t.entries[k]).profile)
  }

  /** `_async_daily_badge_awards_job`. The handler reads each profile and awards through
      `award_badge(user.user_id, ...)`; every profile is filed under its own id (`Ledger.Valid`,
      kept by every ledger operation), so the award lands on the profile being read. */
  function BadgeJob(st: SchedulerState, clock: Clock): (r: SchedulerState)
    ensures r.ledger == st.ledger.(users := SweptUsers(st.ledger.users))
    ensures var awards := AwardsOf(st.ledger.users.Values());
            r.files == SaveMetrics(st.files, ("badge_awards", clock.day), AwardsRecord(clock.iso, awards, |awards|))
    ensures r.history == st.history
    ensures XpNotLower(st.ledger.users, r.ledger.users)
    ensures st.ledger.Valid() ==> r.ledger.Valid()
  {
    var awards := AwardsOf(st.ledger.users.Values());
    SchedulerState(st.ledger.(users := SweptUsers(st.ledger.users)), st.history,
      SaveMetrics(st.files, ("badge_awards", clock.day), AwardsRecord(clock.iso, awards, |awards|)))
  }

  lemma {:induction false} AwardsOfSwept(ps: seq<UserProfile>, qs: seq<UserProfile>)
    requires |ps| == |qs|
    requires forall i :: 0 <= i < |ps| ==> qs[i] == SweepProfile(ps[i]).profile
    ensures AwardsOf(qs) == []
  {
    if qs != [] {
      SweepProfileIdempotent(ps[0]);
      AwardsOfSwept(ps[1..], qs[1..]);
    }
  }

  lemma SweptUsersValues(t: Table<UserProfile>)
    requires t.Valid()
    ensures SweptUsers(t).Valid()
    ensures |SweptUsers(t).Values()| == |t.Values()|
    ensures forall i :: 0 <= i < |t.Values()| ==> SweptUsers(t).Values()[i] == SweepProfile(t.Values()[i]).profile
  {
  }

  /** A second sweep straight after the first awards nothing and leaves the profiles as they are. */
  lemma BadgeJobIdempotent(st: SchedulerState, clock: Clock)
    requires st.ledger.users.Valid()
    ensures var once := BadgeJob(st, clock).ledger;
            AwardsOf(once.users.Values()) == [] && SweptUsers(once.users) == once.users
  {
    var t := st.ledger.users;
    SweptUsersValues(t);
    AwardsOfSwept(t.Values(), SweptUsers(t).Values());
    SweptUsersFixed(t);
  }

  lemma SweptAgain(t: Table<UserProfile>, once: Table<UserProfile>, k: string)
    requires once == SweptUsers(t) && k in once.entries
    ensures SweepProfile(once.entries[k]).profile == once.entries[k]
  {
    SweepProfileIdempotent(t.entries[k]);
  }

  lemma SweptUsersFixed(t: Table<UserProfile>)
    ensures SweptUsers(SweptUsers(t)) == SweptUsers(t)
  {
    var once := SweptUsers(t);
    forall k | k in once.entries
      ensures SweptUsers(once).entries[k] == once.entries[k]
    {
      SweptAgain(t, once, k);
    }
    assert SweptUsers(once).entries == once.entries;
  }

  // ---------------------------------------------------------------------------------------
  // Manual dispatch
  // ---------------------------------------------------------------------------------------

  datatype JobReport = JobSucceeded(job: string) | JobFailed(message: string)

  /** The job names `run_manual_job` knows. */
  const JobNames: seq<string> := ["leaderboard", "collab_suggestions", "metrics", "content_scheduling", "community_analysis", "badge_awards"]

  function RunJob(st: SchedulerState, name: string, clock: Clock): SchedulerState
    requires name in JobNames
  {
    if name == "leaderboard" then LeaderboardJob(st, clock)
    else if name == "collab_suggestions" then CollabJob(st, clock)
    else if name == "metrics" then MetricsJob(st, clock)
    else if name == "content_scheduling" then ContentJob(st, clock)
    else if name == "community_analysis" then AnalysisJob(st, clock)
    else BadgeJob(st, clock)
  }

  /** `run_manual_job`: a known name runs its handler and reports success, whatever happens
      inside the handler (each catches its own exceptions); any other name reports an error
      and runs nothing. */
  function RunManualJob(st: SchedulerState, name: string, clock: Clock): (r: (JobReport, SchedulerState))
    ensures r.0.JobSucceeded? <==> name in JobNames
    ensures r.0.JobSucceeded? ==> r.0.job == name && r.1 == RunJob(st, name, clock)
    ensures r.0.JobFailed? ==> r.1 == st && r.0.message == "Unknown job type: " + name
  {
    if name in JobNames then (JobSucceeded(name), RunJob(st, name, clock))
    else (JobFailed("Unknown job type: " + name), st)
  }

  /** Every metrics file other than `key`'s is left as it was. */
  ghost predicate KeepsOtherFiles(st: SchedulerState, r: SchedulerState, key: MetricsKey)
  {
    forall k :: k != key ==> (k in r.files <==> k in st.files) && (k in st.files ==> r.files[k] == st.files[k])
  }

  /** Each handler writes only its own metrics file: every other file is left as it was. */
  lemma JobsWriteOwnFile(st: SchedulerState, name: string, clock: Clock, key: MetricsKey)
    requires name in JobNames && name != "metrics"
    requires key != (name, clock.day)
    ensures var r := RunJob(st, name, clock);
            (key in r.files <==> key in st.files) && (key in st.files ==> r.files[key] == st.files[key])
  {
    JobKeepsOtherFiles(st, name, clock);
  }

  lemma JobKeepsOtherFiles(st: SchedulerState, name: string, clock: Clock)
    requires name in JobNames && name != "metrics"
    ensures KeepsOtherFiles(st, RunJob(st, name, clock), (name, clock.day))
  {
    if name == "leaderboard" {
      LeaderboardKeepsOtherFiles(st, name, clock);
    } else if name == "collab_suggestions" {
      CollabKeepsOtherFiles(st, name, clock);
    } else if name == "content_scheduling" {
      ContentKeepsOtherFiles(st, name, clock);
    } else if name == "community_analysis" {
      AnalysisKeepsOtherFiles(st, name, clock);
    } else {
      BadgeKeepsOtherFiles(st, name, clock);
    }
  }

  lemma LeaderboardKeepsOtherFiles(st: SchedulerState, name: string, clock: Clock)
    requires name == "leaderboard"
    ensures KeepsOtherFiles(st, RunJob(st, name, clock), (name, clock.day))
  {
  }

  lemma CollabKeepsOtherFiles(st: SchedulerState, name: string, clock: Clock)
    requires name == "collab_suggestions"
    ensures KeepsOtherFiles(st, RunJob(st, name, clock), (name, clock.day))
  {
  }

  lemma ContentKeepsOtherFiles(st: SchedulerState, name: string, clock: Clock)
    requires name == "content_scheduling"
    ensures KeepsOtherFiles(st, RunJob(st, name, clock), (name, clock.day))
  {
  }

  lemma AnalysisKeepsOtherFiles(st: SchedulerState, name: string, clock: Clock)
    requires name == "community_analysis"
    ensures KeepsOtherFiles(st, RunJob(st, name, clock), (name, clock.day))
  {
  }

  lemma BadgeKeepsOtherFiles(st: SchedulerState, name: string, clock: Clock)
    requires name == "badge_awards"
    ensures KeepsOtherFiles(st, RunJob(st, name, clock), (name, clock.day))
  {
  }
}

=== FILE: sorting.dfy ===
/** Python's `list.sort(key=..., reverse=True)`: a stable sort into non-increasing key order.
    The result is characterised without reference to the algorithm: it is ordered by key,
    and for every key value it lists exactly the input's elements with that key, in input
    order. Those two facts determine the stable sort uniquely. Integer keys are sorted
    through `as real`. */
module Sorting {

  /** Non-increasing by `key`. */
  predicate SortedDesc<T>(xs: seq<T>, key: T -> real)
  {
    forall i, j :: 0 <= i < j < |xs| ==> key(xs[i]) >= key(xs[j])
  }

  /** The elements of `xs` whose key is `k`, in their order in `xs`. */
  function WithKey<T>(xs: seq<T>, key: T -> real, k: real): (r: seq<T>)
    ensures |r| <= |xs|
  {
    if xs == [] then [] else (if key(xs[0]) == k then [xs[0]] else []) + WithKey(xs[1..], key, k)
  }

  /** `r` is the stable non-increasing sort of `xs`. */
  ghost predicate StableSortOf<T>(r: seq<T>, xs: seq<T>, key: T -> real)
  {
    && SortedDesc(r, key)
    && multiset(r) == multiset(xs)
    && forall k :: WithKey(r, key, k) == WithKey(xs, key, k)
  }

  /** Places `x` before the first element whose key it reaches, so that it precedes the
      elements of equal key (it came earlier in the input). */
  function Insert<T>(x: T, ys: seq<T>, key: T -> real): (r: seq<T>)
    ensures multiset(r) == multiset(ys) + multiset{x}
    ensures |r| == |ys| + 1
  {
    if ys == [] || key(x) >= key(ys[0]) then [x] + ys
    else
      assert ys == [ys[0]] + ys[1..];
      [ys[0]] + Insert(x, ys[1..], key)
  }

  /** Inserting an element no heavier than `b` into a list no heavier than `b` keeps every
      key at most `b`. */
  lemma {:induction false} InsertBounded<T>(x: T, ys: seq<T>, key: T -> real, b: real)
    requires key(x) <= b
    requires forall i :: 0 <= i < |ys| ==> key(ys[i]) <= b
    ensures forall j :: 0 <= j < |Insert(x, ys, key)| ==> key(Insert(x, ys, key)[j]) <= b
  {
    if ys != [] && key(x) < key(ys[0]) {
      InsertBounded(x, ys[1..], key, b);
    }
  }

  lemma {:induction false} InsertSorted<T>(x: T, ys: seq<T>, key: T -> real)
    requires SortedDesc(ys, key)
    ensures SortedDesc(Insert(x, ys, key), key)
  {
    if ys != [] && key(x) < key(ys[0]) {
      var rest := Insert(x, ys[1..], key);
      InsertSorted(x, ys[1..], key);
      InsertBounded(x, ys[1..], key, key(ys[0]));
      assert Insert(x, ys, key) == [ys[0]] + rest;
    }
  }

  lemma WithKeyAppend<T>(xs: seq<T>, ys: seq<T>, key: T -> real, k: real)
    ensures WithKey(xs + ys, key, k) == WithKey(xs, key, k) + WithKey(ys, key, k)
  {
    if xs != [] {
      assert (xs + ys)[0] == xs[0];
      assert (xs + ys)[1..] == xs[1..] + ys;
      WithKeyAppend(xs[1..], ys, key, k);
    } else {
      assert xs + ys == ys;
    }
  }

  lemma WithKeyCons<T>(y: T, ys: seq<T>, key: T -> real, k: real)
    ensures WithKey([y] + ys, key, k) == (if key(y) == k then [y] else []) + WithKey(ys, key, k)
  {
    assert ([y] + ys)[1..] == ys;
  }

  lemma {:induction false} InsertWithKey<T>(x: T, ys: seq<T>, key: T -> real, k: real)
    ensures WithKey(Insert(x, ys, key), key, k) == WithKey([x] + ys, key, k)
  {
    if ys != [] && key(x) < key(ys[0]) {
      var y, rest := ys[0], ys[1..];
      var ins := Insert(x, rest, key);
      assert Insert(x, ys, key) == [y] + ins;
      assert ys == [y] + rest;
      WithKeyCons(y, ins, key, k);
      WithKeyCons(y, rest, key, k);
      InsertWithKey(x, rest, key, k);
      WithKeyCons(x, rest, key, k);
      WithKeyCons(x, ys, key, k);
      if key(x) == k {
        // `y` is heavier than `x`, so it is not kept
        assert WithKey(Insert(x, ys, key), key, k) == WithKey(ins, key, k);
        assert WithKey(ys, key, k) == WithKey(rest, key, k);
      } else {
        assert WithKey([x] + rest, key, k) == WithKey(rest, key, k);
        assert WithKey([x] + ys, key, k) == WithKey(ys, key, k);
      }
    }
  }

  /** Inserting `x` into a list that agrees key by key with `xs` gives a list that agrees key
      by key with `[x] + xs`. */
  lemma InsertKeepsKeyOrder<T>(x: T, rest: seq<T>, xs: seq<T>, key: T -> real)
    requires forall k :: WithKey(rest, key, k) == WithKey(xs, key, k)
    ensures forall k :: WithKey(Insert(x, rest, key), key, k) == WithKey([x] + xs, key, k)
  {
    forall k
      ensures WithKey(Insert(x, rest, key), key, k) == WithKey([x] + xs, key, k)
    {
      InsertWithKey(x, rest, key, k);
      WithKeyAppend([x], rest, key, k);
      WithKeyAppend([x], xs, key, k);
    }
  }

  /** Stable descending insertion sort. */
  function SortDesc<T>(xs: seq<T>, key: T -> real): (r: seq<T>)
    ensures SortedDesc(r, key)
    ensures multiset(r) == multiset(xs)
    ensures |r| == |xs|
    ensures forall k :: WithKey(r, key, k) == WithKey(xs, key, k)
  {
    if xs == [] then []
    else
      var rest := SortDesc(xs[1..], key);
      InsertSorted(xs[0], rest, key);
      InsertKeepsKeyOrder(xs[0], rest, xs[1..], key);
      assert [xs[0]] + xs[1..] == xs;
      Insert(xs[0], rest, key)
  }

  lemma SortDescIsStable<T>(xs: seq<T>, key: T -> real)
    ensures StableSortOf(SortDesc(xs, key), xs, key)
  {
  }

  /** Cutting a list short keeps, for every key, a prefix of the elements with that key. */
  lemma {:induction false} WithKeyPrefix<T>(xs: seq<T>, ys: seq<T>, key: T -> real, k: real)
    requires xs <= ys
    ensures WithKey(xs, key, k) <= WithKey(ys, key, k)
  {
    if xs != [] {
      assert xs[1..] <= ys[1..];
      WithKeyPrefix(xs[1..], ys[1..], key, k);
    }
  }

  /** An element of a sorted list that is not in its first `n` has a key no greater than
      any of them. */
  lemma BelowPrefix<T>(xs: seq<T>, n: nat, key: T -> real, x: T)
    requires SortedDesc(xs, key) && n <= |xs|
    requires x in xs && x !in xs[..n]
    ensures forall i :: 0 <= i < n ==> key(xs[i]) >= key(x)
  {
    var j :| 0 <= j < |xs| && xs[j] == x;
    assert forall i :: 0 <= i < n ==> xs[..n][i] == xs[i];
    assert j >= n;
  }

  /** A prefix of a sorted list is sorted. */
  lemma SortedPrefix<T>(xs: seq<T>, n: nat, key: T -> real)
    requires SortedDesc(xs, key)
    requires n <= |xs|
    ensures SortedDesc(xs[..n], key)
  {
  }
}

=== FILE: text_clean.dfy ===
// `clean_text` of the StockTwits scraper (stocktwits_scraper.py): drop URLs, drop every
// character that is not an ASCII letter, an ASCII digit or whitespace, squash whitespace runs
// into single spaces and strip the ends.

module TextCleaning {
  import opened Common

  // ---------------------------------------------------------------------------------------
  // Step 1: `re.sub(r"http\S+", "", text)`

  /** Length of the run of non-whitespace characters `t` starts with. */
  function NonSpaceRun(t: string): (n: nat)
    ensures n <= |t|
    ensures forall i :: 0 <= i < n ==> !IsWhitespace(t[i])
    ensures n == |t| || IsWhitespace(t[n])
  {
    if t == [] || IsWhitespace(t[0]) then 0 else 1 + NonSpaceRun(t[1..])
  }

  /** A match of `http\S+` starts here. */
  predicate UrlAt(s: string)
  {
    |s| > 4 && s[..4] == "http" && !IsWhitespace(s[4])
  }

  /** The scan of `re.sub`: at each position a match is removed through the end of its
      non-whitespace run, otherwise one character is kept. */
  function StripUrls(s: string): string
    decreases |s|
  {
    if s == [] then []
    else if UrlAt(s) then StripUrls(s[4 + NonSpaceRun(s[4..])..])
    else [s[0]] + StripUrls(s[1..])
  }

  lemma StripUrlsAtUrl(s: string)
    requires UrlAt(s)
    ensures StripUrls(s) == StripUrls(s[4 + NonSpaceRun(s[4..])..])
  {
  }

  lemma StripUrlsAtChar(s: string)
    requires s != [] && !UrlAt(s)
    ensures StripUrls(s) == [s[0]] + StripUrls(s[1..])
  {
  }

  lemma {:induction false} RunOfPrefix(run: string, rest: string)
    requires forall i :: 0 <= i < |run| ==> !IsWhitespace(run[i])
    requires rest == [] || IsWhitespace(rest[0])
    ensures NonSpaceRun(run + rest) == |run|
  {
    if run != [] {
      assert (run + rest)[1..] == run[1..] + rest;
      RunOfPrefix(run[1..], rest);
    } else {
      assert run + rest == rest;
    }
  }

  /** "http" with a non-empty non-whitespace run goes, up to the whitespace or the end that
      closes the run. */
  lemma UrlRemoved(run: string, rest: string)
    requires run != [] && forall i :: 0 <= i < |run| ==> !IsWhitespace(run[i])
    requires rest == [] || IsWhitespace(rest[0])
    ensures StripUrls("http" + run + rest) == StripUrls(rest)
  {
    var s := "http" + (run + rest);
    assert s == "http" + run + rest;
    assert s[..4] == "http" && s[4..] == run + rest;
    assert s[4] == run[0];
    RunOfPrefix(run, rest);
    StripUrlsAtUrl(s);
    assert s[4 + |run|..] == rest;
  }

  /** A bare "http" before whitespace or at the end is kept. */
  lemma BareHttpKept(rest: string)
    requires rest == [] || IsWhitespace(rest[0])
    ensures StripUrls("http" + rest) == "http" + StripUrls(rest)
  {
    var s := "http" + rest;
    assert s[0] == 'h' && s[1] == 't' && s[2] == 't' && s[3] == 'p';
    assert s[1..][0] == 't' && s[2..][0] == 't' && s[3..][0] == 'p';
    assert s[1..][1..] == s[2..] && s[2..][1..] == s[3..] && s[3..][1..] == rest;
    assert |s| == 4 || s[4] == rest[0];
    StripUrlsAtChar(s);
    StripUrlsAtChar(s[1..]);
    StripUrlsAtChar(s[2..]);
    StripUrlsAtChar(s[3..]);
  }

  // ---------------------------------------------------------------------------------------
  // Steps 2 to 4

  /** Survives `re.sub(r"[^a-zA-Z0-9\s]", "", text)`. */
  predicate Cleanable(c: char)
  {
    IsAsciiAlnum(c) || IsWhitespace(c)
  }

  /** Number of whitespace characters `t` starts with. */
  function LeadingSpaces(t: string): (n: nat)
    ensures n <= |t|
    ensures forall i :: 0 <= i < n ==> IsWhitespace(t[i])
    ensures n == |t| || !IsWhitespace(t[n])
  {
    if t == [] || !IsWhitespace(t[0]) then 0 else 1 + LeadingSpaces(t[1..])
  }

  /** Length of `t` without its trailing whitespace. */
  function UntilTrailingSpaces(t: string): (n: nat)
    ensures n <= |t|
    ensures forall i :: n <= i < |t| ==> IsWhitespace(t[i])
    ensures n == 0 || !IsWhitespace(t[n - 1])
  {
    if t == [] || !IsWhitespace(t[|t| - 1]) then |t| else UntilTrailingSpaces(t[..|t| - 1])
  }

  /** The leading whitespace of `t` removed. */
  function DropSpaces(t: string): string
  {
    t[LeadingSpaces(t)..]
  }

  /** The trailing whitespace of `t` removed. */
  function DropSpacesRight(t: string): string
  {
    t[..UntilTrailingSpaces(t)]
  }

  /** `text.strip()`. */
  function Strip(t: string): (r: string)
  {
    DropSpacesRight(DropSpaces(t))
  }

  /** No whitespace other than single spaces. */
  predicate SingleSpaced(t: string)
  {
    && (forall i :: 0 <= i < |t| && IsWhitespace(t[i]) ==> t[i] == ' ')
    && (forall i :: 0 <= i < |t| - 1 ==> !(t[i] == ' ' && t[i + 1] == ' '))
  }

  /** Only ASCII letters, digits and spaces. */
  predicate AlnumOrSpace(t: string)
  {
    forall i :: 0 <= i < |t| ==> IsAsciiAlnum(t[i]) || t[i] == ' '
  }

  /** Only characters that survive the character filter. */
  predicate AllCleanable(t: string)
  {
    forall i :: 0 <= i < |t| ==> Cleanable(t[i])
  }

  /** `re.sub(r"\s+", " ", text)`: each maximal whitespace run becomes one space. */
  function Squash(t: string): (r: string)
    ensures r == [] <==> t == []
    ensures r != [] ==> (r[0] == ' ' <==> IsWhitespace(t[0]))
    decreases |t|
  {
    if t == [] then []
    else if IsWhitespace(t[0]) then [' '] + Squash(DropSpaces(t[1..]))
    else [t[0]] + Squash(t[1..])
  }

  lemma SingleSpacedCons(c: char, t: string)
    requires SingleSpaced(t)
    requires IsWhitespace(c) ==> c == ' '
    requires c == ' ' && t != [] ==> t[0] != ' '
    ensures SingleSpaced([c] + t)
  {
    var u := [c] + t;
    assert forall i :: 1 <= i < |u| ==> u[i] == t[i - 1];
  }

  /** Whitespace runs collapse to single spaces. */
  lemma {:induction false} SquashSingleSpaced(t: string)
    ensures SingleSpaced(Squash(t))
    decreases |t|
  {
    if t != [] {
      if IsWhitespace(t[0]) {
        var d := DropSpaces(t[1..]);
        SquashSingleSpaced(d);
        SingleSpacedCons(' ', Squash(d));
      } else {
        SquashSingleSpaced(t[1..]);
        SingleSpacedCons(t[0], Squash(t[1..]));
      }
    }
  }

  lemma AllCleanableSuffix(t: string, k: nat)
    requires AllCleanable(t) && k <= |t|
    ensures AllCleanable(t[k..])
  {
    assert forall i :: 0 <= i < |t| - k ==> t[k..][i] == t[k + i];
  }

  lemma AlnumOrSpaceCons(c: char, t: string)
    requires IsAsciiAlnum(c) || c == ' '
    requires AlnumOrSpace(t)
    ensures AlnumOrSpace([c] + t)
  {
    var u := [c] + t;
    assert forall i :: 1 <= i < |u| ==> u[i] == t[i - 1];
  }

  /** After the character filter, squashing leaves letters, digits and spaces only. */
  lemma {:induction false} SquashCharset(t: string)
    requires AllCleanable(t)
    ensures AlnumOrSpace(Squash(t))
    decreases |t|
  {
    if t != [] {
      assert Cleanable(t[0]);
      if IsWhitespace(t[0]) {
        var d := DropSpaces(t[1..]);
        AllCleanableSuffix(t, 1);
        AllCleanableSuffix(t[1..], |t[1..]| - |d|);
        SquashCharset(d);
        AlnumOrSpaceCons(' ', Squash(d));
      } else {
        AllCleanableSuffix(t, 1);
        SquashCharset(t[1..]);
        AlnumOrSpaceCons(t[0], Squash(t[1..]));
      }
    }
  }

  /** The character filter leaves only cleanable characters. */
  lemma KeptCleanable(t: string)
    ensures AllCleanable(FilterSeq(t, Cleanable))
  {
  }

  /** `clean_text`. */
  function CleanText(text: string): (r: string)
  {
    Strip(Squash(FilterSeq(StripUrls(text), Cleanable)))
  }

  /** A slice of a single-spaced run of letters, digits and spaces is one too. */
  lemma ShapeSlice(q: string, a: nat, b: nat)
    requires a <= b <= |q|
    requires SingleSpaced(q) && AlnumOrSpace(q)
    ensures SingleSpaced(q[a..b]) && AlnumOrSpace(q[a..b])
  {
    assert forall i :: 0 <= i < b - a ==> q[a..b][i] == q[a + i];
  }

  /** Stripping keeps a single-spaced run of letters, digits and spaces one, and leaves no
      space at either end. */
  lemma StripShape(q: string)
    requires SingleSpaced(q) && AlnumOrSpace(q)
    ensures var r := Strip(q);
            && AlnumOrSpace(r) && SingleSpaced(r)
            && (r == [] || (r[0] != ' ' && r[|r| - 1] != ' '))
  {
    var d := DropSpaces(q);
    ShapeSlice(q, LeadingSpaces(q), |q|);
    assert q[LeadingSpaces(q)..|q|] == d;
    var r := DropSpacesRight(d);
    ShapeSlice(d, 0, |r|);
    assert d[0..|r|] == r;
    assert r == [] || r[0] == d[0];
  }

  /** The result holds only ASCII letters, digits and single spaces, and neither starts nor
      ends with a space. */
  lemma CleanTextShape(text: string)
    ensures var r := CleanText(text);
            && AlnumOrSpace(r) && SingleSpaced(r)
            && (r == [] || (r[0] != ' ' && r[|r| - 1] != ' '))
  {
    var kept := FilterSeq(StripUrls(text), Cleanable);
    KeptCleanable(StripUrls(text));
    SquashSingleSpaced(kept);
    SquashCharset(kept);
    StripShape(Squash(kept));
  }

  // ---------------------------------------------------------------------------------------
  // What survives

  /** The ASCII letters and digits of `t`, in order. */
  function Alnums(t: string): string
  {
    FilterSeq(t, IsAsciiAlnum)
  }

  /** `a` is `b` with some characters deleted. */
  ghost predicate IsSubsequence(a: string, b: string)
    decreases |b|
  {
    if a == [] then true
    else if b == [] then false
    else (a[0] == b[0] && IsSubsequence(a[1..], b[1..])) || IsSubsequence(a, b[1..])
  }

  lemma {:induction false} SubsequenceSkip(a: string, b: string, n: nat)
    requires n <= |b| && IsSubsequence(a, b[n..])
    ensures IsSubsequence(a, b)
    decreases n
  {
    if n > 0 {
      assert b[1..][n - 1..] == b[n..];
      SubsequenceSkip(a, b[1..], n - 1);
      if a != [] {
        assert IsSubsequence(a, b[1..]);
      }
    }
  }

  lemma FilterCons(c: char, t: string, p: char -> bool)
    ensures FilterSeq([c] + t, p) == (if p(c) then [c] else []) + FilterSeq(t, p)
  {
    assert ([c] + t)[1..] == t;
  }

  /** The letters and digits left after URL removal are a subsequence of the input. */
  lemma {:induction false} UrlFreeAlnumsSubsequence(s: string)
    ensures IsSubsequence(Alnums(StripUrls(s)), s)
    decreases |s|
  {
    if s == [] {
    } else if UrlAt(s) {
      var n := 4 + NonSpaceRun(s[4..]);
      UrlFreeAlnumsSubsequence(s[n..]);
      SubsequenceSkip(Alnums(StripUrls(s[n..])), s, n);
    } else {
      var rest := StripUrls(s[1..]);
      UrlFreeAlnumsSubsequence(s[1..]);
      FilterCons(s[0], rest, IsAsciiAlnum);
      var a := Alnums([s[0]] + rest);
      if IsAsciiAlnum(s[0]) {
        assert a == [s[0]] + Alnums(rest);
        assert a[1..] == Alnums(rest);
      } else {
        assert a == Alnums(rest);
        if a != [] {
          assert IsSubsequence(a, s[1..]);
        }
      }
    }
  }

  /** The character filter keeps every letter and digit. */
  lemma {:induction false} AlnumsOfKept(t: string)
    ensures Alnums(FilterSeq(t, Cleanable)) == Alnums(t)
  {
    if t != [] {
      var c, u := t[0], t[1..];
      assert t == [c] + u;
      AlnumsOfKept(u);
      FilterCons(c, u, Cleanable);
      FilterCons(c, u, IsAsciiAlnum);
      var head := if IsAsciiAlnum(c) then [c] else [];
      if Cleanable(c) {
        calc {
          Alnums(FilterSeq(t, Cleanable));
          Alnums([c] + FilterSeq(u, Cleanable));
          { FilterCons(c, FilterSeq(u, Cleanable), IsAsciiAlnum); }
          head + Alnums(FilterSeq(u, Cleanable));
          head + Alnums(u);
          Alnums(t);
        }
      } else {
        assert !IsAsciiAlnum(c) && head == [];
        assert FilterSeq(t, Cleanable) == [] + FilterSeq(u, Cleanable) == FilterSeq(u, Cleanable);
        assert Alnums(t) == [] + Alnums(u);
      }
    }
  }

  /** Removing whitespace keeps the letters and digits. */
  lemma {:induction false} AlnumsOfWhitespaceFree(t: string, n: nat)
    requires n <= |t| && forall i :: 0 <= i < n ==> IsWhitespace(t[i])
    ensures Alnums(t[n..]) == Alnums(t)
    decreases n
  {
    if n > 0 {
      FilterCons(t[0], t[1..], IsAsciiAlnum);
      assert [t[0]] + t[1..] == t;
      assert t[1..][n - 1..] == t[n..];
      AlnumsOfWhitespaceFree(t[1..], n - 1);
    }
  }

  lemma {:induction false} AlnumsOfWhitespaceTail(t: string, n: nat)
    requires n <= |t| && forall i :: n <= i < |t| ==> IsWhitespace(t[i])
    ensures Alnums(t[..n]) == Alnums(t)
  {
    assert t == t[..n] + t[n..];
    FilterSeqAppend(t[..n], t[n..], IsAsciiAlnum);
    AlnumsOfWhitespaceFree(t[n..], |t| - n);
    assert t[n..][|t| - n..] == [];
  }

  lemma {:induction false} AlnumsOfSquash(t: string)
    ensures Alnums(Squash(t)) == Alnums(t)
    decreases |t|
  {
    if t != [] {
      FilterCons(t[0], t[1..], IsAsciiAlnum);
      assert [t[0]] + t[1..] == t;
      if IsWhitespace(t[0]) {
        var d := DropSpaces(t[1..]);
        AlnumsOfSquash(d);
        AlnumsOfWhitespaceFree(t[1..], |t[1..]| - |d|);
        FilterCons(' ', Squash(d), IsAsciiAlnum);
      } else {
        AlnumsOfSquash(t[1..]);
        FilterCons(t[0], Squash(t[1..]), IsAsciiAlnum);
      }
    }
  }

  /** Cleaning keeps exactly the letters and digits that URL removal left, in order; so with
      the spaces taken out the result is a subsequence of the input. */
  lemma CleanTextKeepsAlnums(text: string)
    ensures Alnums(CleanText(text)) == Alnums(StripUrls(text))
    ensures IsSubsequence(Alnums(CleanText(text)), text)
  {
    var kept := FilterSeq(StripUrls(text), Cleanable);
    var q := Squash(kept);
    var d := DropSpaces(q);
    AlnumsOfKept(StripUrls(text));
    AlnumsOfSquash(kept);
    AlnumsOfWhitespaceFree(q, |q| - |d|);
    AlnumsOfWhitespaceTail(d, |DropSpacesRight(d)|);
    UrlFreeAlnumsSubsequence(text);
  }

  /** Input with no ASCII letter or digit outside its URLs cleans to the empty string. */
  lemma CleanTextEmpty(text: string)
    requires Alnums(StripUrls(text)) == []
    ensures CleanText(text) == ""
  {
    CleanTextShape(text);
    CleanTextKeepsAlnums(text);
    var r := CleanText(text);
    assert forall i :: 0 <= i < |r| ==> r[i] == ' ';
  }
}
